=== FILE: README.md ===
# mcp-server-tree-sitter, modelled in Dafny

This project models the core of mcp-server-tree-sitter, a Model Context Protocol server. The server lets a client register code projects, parse their files with tree-sitter, and explore the syntax trees.

The model covers:

- the tree cache, with its byte budget, TTL expiry, eviction and invalidation;
- the cursor-based conversion of a syntax tree to nested records;
- node lookup by position, node paths and previews;
- the cursor walkers and collectors;
- the cache-through parse;
- query templates and query adaptation between languages;
- the language registry;
- project registration and file scanning;
- path normalisation, the project-root walk and the file-access guard;
- file listing and line windows;
- text and query search;
- symbol, dependency and complexity analysis;
- comment counting and line reading;
- progress reporting;
- the logging and completion handlers;
- the per-test diagnostic record;
- the code-pattern tables.

One Dafny module stands for each source file. The cache, the project and registry objects, the progress context and the diagnostic record are classes whose methods update their fields. Each method is proved against a specification function over its state. Pure helpers are functions, and lemmas relate them.

The syntax tree is a datatype. A cursor is a path of child indices. The tree-sitter parser, the query engine, the regular-expression engine, the clock and the filesystem are parameters of the operations that use them.

Shared modules:

- `Common` holds results, errors and sequence helpers.
- `Strings` models the Python string methods the code relies on.
- `SyntaxTree` holds the tree and its cursor.
- `Preorder` holds the preorder walk.

## Model

| member | source | states |
|---|---|---|
| ParserCache.KeyFor | src/mcp_server_tree_sitter/cache/parser_cache.py:35-37 | A key exists exactly when the file's modification time can be read, and it is `language:path:mtime`. |
| ParserCache.KeyContainsPath | src/mcp_server_tree_sitter/cache/parser_cache.py:35-37 | Every key contains its file path, so invalidating by that path reaches it. |
| ParserCache.KeysContaining | src/mcp_server_tree_sitter/cache/parser_cache.py:341 | The keys picked for invalidation are exactly the stored keys whose text contains the path. |
| ParserCache.KeysContainingDistinct | src/mcp_server_tree_sitter/cache/parser_cache.py:341 | Picking keys to invalidate never lists a key twice. |
| ParserCache.SortByTimestamp | src/mcp_server_tree_sitter/cache/parser_cache.py:276 | The eviction order holds the same keys as the cache, no more and no fewer. |
| ParserCache.SortByTimestampCorrect | src/mcp_server_tree_sitter/cache/parser_cache.py:276 | The eviction order is ascending by timestamp and accounts for the same total of bytes. |
| ParserCache.SortByTimestampDistinct | src/mcp_server_tree_sitter/cache/parser_cache.py:276 | Sorting for eviction does not duplicate keys. |
| ParserCache.EvictionPlan | src/mcp_server_tree_sitter/cache/parser_cache.py:278-298 | At least one entry is always removed, and outside the small-budget branch the byte target is at least the bytes required. |
| ParserCache.EvictStop | src/mcp_server_tree_sitter/cache/parser_cache.py:300-313 | The eviction loop removes at least one entry when any is left and never runs past the sorted list. |
| ParserCache.EvictStopIsFirstSufficient | src/mcp_server_tree_sitter/cache/parser_cache.py:311-313 | The loop stops at the first prefix that frees the target with enough entries, or at the end of the list. |
| ParserCache.EvictedKeys | src/mcp_server_tree_sitter/cache/parser_cache.py:267-276 | The keys eviction removes are all stored keys. |
| ParserCache.EvictsOldestFirst | src/mcp_server_tree_sitter/cache/parser_cache.py:276-313 | No entry that survives eviction is older than one that was evicted. |
| ParserCache.NormalEvictionFreesRequired | src/mcp_server_tree_sitter/cache/parser_cache.py:283-312 | On the normal path the bytes left plus the new entry's bytes fit the budget. |
| ParserCache.SmallBudgetCanOverflow | src/mcp_server_tree_sitter/cache/parser_cache.py:289-292 | With a budget under 0.1 MB, halving the target can leave the new entry over the budget. |
| ParserCache.RemoveKeeps | src/mcp_server_tree_sitter/cache/parser_cache.py:302-308 | Deleting one entry and its flag keeps the byte total equal to the sum of entry sizes, and keeps flags a subset of keys. |
| ParserCache.WriteKeeps | src/mcp_server_tree_sitter/cache/parser_cache.py:182-191 | Storing an entry with a cleared flag restores the bookkeeping invariant. |
| ParserCache.DeleteFirstRemoves | src/mcp_server_tree_sitter/cache/parser_cache.py:300-309 | Deleting a prefix of the eviction order removes exactly those keys and their bytes. |
| ParserCache.DeleteFirstConsistent | src/mcp_server_tree_sitter/cache/parser_cache.py:300-309 | Deleting a prefix of the eviction order keeps the bookkeeping invariant. |
| ParserCache.EvictOldest | src/mcp_server_tree_sitter/cache/parser_cache.py:300-313 | The deletion loop removes exactly the keys up to the stopping point, and keeps the invariant. |
| ParserCache.EvictBook | src/mcp_server_tree_sitter/cache/parser_cache.py:256-313 | `_evict_entries` removes exactly the keys of the eviction plan, and keeps the invariant. |
| ParserCache.RemoveAll | src/mcp_server_tree_sitter/cache/parser_cache.py:341-347 | Removing a list of keys removes exactly those entries, flags and bytes. |
| ParserCache.TreeCache.constructor | src/mcp_server_tree_sitter/cache/parser_cache.py:25-33 | A new cache is empty and enabled, with 100 MB and 300 s as the defaults for a missing or zero setting. |
| ParserCache.TreeCache.SetEnabled | src/mcp_server_tree_sitter/cache/parser_cache.py:39-41 | Only the enabled flag changes. |
| ParserCache.TreeCache.SetMaxSizeMb | src/mcp_server_tree_sitter/cache/parser_cache.py:43-45 | Only the byte budget changes. |
| ParserCache.TreeCache.SetTtlSeconds | src/mcp_server_tree_sitter/cache/parser_cache.py:47-49 | Only the TTL changes. |
| ParserCache.TreeCache.RemoveEntry | src/mcp_server_tree_sitter/cache/parser_cache.py:121-127 | An expired entry goes with its flag and its bytes. |
| ParserCache.TreeCache.Get | src/mcp_server_tree_sitter/cache/parser_cache.py:93-134 | Disabled, unkeyable or absent: a miss with the state unchanged. Expired: a miss that drops the entry. Otherwise the stored pair, with its timestamp not refreshed. The whole new bookkeeping is ParserCache.GetIn of the old, and the limits stay. |
| ParserCache.GetInMeaning | src/mcp_server_tree_sitter/cache/parser_cache.py:93-134 | A hit leaves the bookkeeping as it was. Either way the lookup's answer is unchanged by `get` itself, every entry left was already there, and every other key keeps its entry. |
| ParserCache.SameEntrySameLookup | src/mcp_server_tree_sitter/cache/parser_cache.py:93-134 | A lookup depends only on the entry under the file's key: two bookkeepings that agree there answer alike. |
| ParserCache.TreeCache.IsCacheEnabled | src/mcp_server_tree_sitter/cache/parser_cache.py:75-91 | Enabled iff the instance flag is on and, when the configuration is reachable, its flag is on too; without the configuration the instance flag alone decides. |
| ParserCache.TreeCache.EvictEntries | src/mcp_server_tree_sitter/cache/parser_cache.py:256-313 | Eviction removes exactly the oldest-first keys the plan selects. |
| ParserCache.TreeCache.Put | src/mcp_server_tree_sitter/cache/parser_cache.py:136-191 | Disabled, unkeyable, budget at most 1024 bytes or source over budget: nothing changes. Replacing a key never evicts. A new key evicts only on overflow. The byte total stays exact, and on the normal path it fits the budget. The whole new bookkeeping is ParserCache.PutIn of the old, and the limits stay. |
| ParserCache.PutInMeaning | src/mcp_server_tree_sitter/cache/parser_cache.py:136-191 | When `put` refuses, nothing changes. When it stores, the key holds the new tree, source and time with a cleared flag. Every other key that stays keeps its entry. |
| ParserCache.ThroughInMeaning | src/mcp_server_tree_sitter/tools/search.py:194-211 | One pass of the callers' get-or-parse-and-put: a hit leaves the bookkeeping as it was. Every entry afterwards was already there or is the fresh parse under the file's key. After a miss that `put` stores with a non-negative TTL, looking the file up again finds that parse. |
| ParserCache.TreeCache.NormalEvictionBound | src/mcp_server_tree_sitter/cache/parser_cache.py:178-184 | Outside the small-budget branch, eviction followed by the store stays within the budget. |
| ParserCache.TreeCache.Store | src/mcp_server_tree_sitter/cache/parser_cache.py:182-191 | The entry is written with the current time and a cleared flag, and the byte total grows by its size. |
| ParserCache.TreeCache.MarkModified | src/mcp_server_tree_sitter/cache/parser_cache.py:193-207 | The flag is set only for a key present in the cache; nothing else changes. |
| ParserCache.TreeCache.IsModified | src/mcp_server_tree_sitter/cache/parser_cache.py:209-225 | True iff the key has a flag, and flagged keys are cached keys. |
| ParserCache.TreeCache.UpdateTree | src/mcp_server_tree_sitter/cache/parser_cache.py:227-254 | A present key is replaced in place without eviction and its flag is cleared. An absent key goes through `put`: nothing changes when `put` refuses; otherwise the same entries are evicted, the key goes last in insertion order, its flag is cleared and the byte total is updated as `put` does. |
| ParserCache.TreeCache.Invalidate | src/mcp_server_tree_sitter/cache/parser_cache.py:325-347 | With no path the cache is emptied and the total set to 0; with a path exactly the keys containing it go. |
| AstCursor.ProcessNodeOnce | src/mcp_server_tree_sitter/models/ast_cursor.py:87-91 | A node already registered is returned as is, and is not appended to its parent again. |
| AstCursor.ProcessNodeEffect | src/mcp_server_tree_sitter/models/ast_cursor.py:84-132 | `process_node` adds exactly one record, expanded below the depth limit and truncated at it, and appends the record's key to an expanded parent with `children_count` kept equal to `len(children)`. |
| AstCursor.ProcessNodeClosed | src/mcp_server_tree_sitter/models/ast_cursor.py:118-130 | Every listed child has its own record in the map. |
| AstCursor.NodeToDictCursor | src/mcp_server_tree_sitter/models/ast_cursor.py:12-171 | The cursor loop builds exactly the records of the depth-limited preorder walk and returns the root's key. |
| AstCursor.EventsExact | src/mcp_server_tree_sitter/models/ast_cursor.py:138-155 | The loop processes every node at depth 1 to `max_depth`, and only those, each with its parent and depth. |
| AstCursor.ReachedWithinDepth | src/mcp_server_tree_sitter/models/ast_cursor.py:140-146 | The loop descends only while the depth is below `max_depth`. |
| AstCursor.MaterializeWellFormed | src/mcp_server_tree_sitter/models/ast_cursor.py:118-130 | The root record is expanded, every listed child has a record, every other record comes from a processed node, and the keys are the root's and the processed nodes'. |
| AstCursor.MaterializeCovers | src/mcp_server_tree_sitter/models/ast_cursor.py:140-155 | Every node within the depth limit has a record. |
| AstCursor.MaterializeOnly | src/mcp_server_tree_sitter/models/ast_cursor.py:118-146 | Every non-root record is a node within the limit, and it is truncated iff it lies exactly at `max_depth`. |
| AstCursor.MaterializeShallow | src/mcp_server_tree_sitter/models/ast_cursor.py:45-73 | Without children, or with `max_depth <= 0`, the result is the root record alone with no children. |
| AstCursor.MaterializeChildren | src/mcp_server_tree_sitter/models/ast_cursor.py:118-155 | With distinct node ids, the record of every node above the depth limit lists exactly the ids of that node's own children, first child first and then each next sibling, and `children_count` is their number. |
| AstCursor.EventsKids | src/mcp_server_tree_sitter/models/ast_cursor.py:138-155 | The calls that `process_node` files under a node above the depth limit are its children, in sibling order. |
| AstCursor.EventsParents | src/mcp_server_tree_sitter/models/ast_cursor.py:138-155 | The cursor processes every node after its parent. |
| AstCursor.FoldKids | src/mcp_server_tree_sitter/models/ast_cursor.py:118-130 | Folding `process_node` over calls that come parents first, one per node, leaves each expanded node's list holding its children's ids in call order. |
| AstCursor.StepKids | src/mcp_server_tree_sitter/models/ast_cursor.py:84-130 | A fresh node starts with an empty list. Its id is appended to its parent's list, and no other list changes. |
| AstModel.NodeToDict | src/mcp_server_tree_sitter/models/ast.py:19-45 | `node_to_dict` forwards its arguments to the cursor materializer unchanged. |
| AstModel.PreviewShape | src/mcp_server_tree_sitter/models/ast.py:70-80 | The preview is the first line cut to 50 characters, with "..." when cut or when more lines follow, so at most 53 characters. |
| AstModel.SummaryPreview | src/mcp_server_tree_sitter/models/ast.py:59-84 | A summary always carries the type, and carries a preview iff the node's text is non-empty. |
| AstModel.SummarizeNode | src/mcp_server_tree_sitter/models/ast.py:48-84 | The summary carries the node's type and both points; an empty source gives no preview. The preview iff is AstModel.SummaryPreview. |
| AstModel.FirstContaining | src/mcp_server_tree_sitter/models/ast.py:125-132 | The first sibling from a position that contains the point, or none. |
| AstModel.FindFrom | src/mcp_server_tree_sitter/models/ast.py:110-139 | The descent from a node stays on valid paths. |
| AstModel.FindFromContains | src/mcp_server_tree_sitter/models/ast.py:110-139 | The descent, once inside a node containing the point, ends on a node containing the point. |
| AstModel.FindAsWrittenContains | src/mcp_server_tree_sitter/models/ast.py:99-141 | As written: none iff the point is outside the root, else a node containing the point. |
| AstModel.ScanSiblings | src/mcp_server_tree_sitter/models/ast.py:124-132 | The sibling loop finds the first following sibling that contains the point. |
| AstModel.FindNodeAtPosition | src/mcp_server_tree_sitter/models/ast.py:87-141 | The loop computes `find_node_at_position` as written. |
| AstModel.Deepest | src/mcp_server_tree_sitter/models/ast.py:106-141 | The intended descent ends below its start, on a node containing the point, none of whose children contains it. |
| AstModel.FindDeepest | src/mcp_server_tree_sitter/models/ast.py:99-141 | Intended lookup: none iff the point is outside the root, else a node containing it, none of whose children contains it. |
| AstModel.FindAsWrittenMissesSecondChild | src/mcp_server_tree_sitter/models/ast.py:119-139 | The lookup as written returns the root for a point inside the second child; the intended lookup returns that child. |
| AstModel.EntriesBelow | src/mcp_server_tree_sitter/models/ast.py:168-180 | One path entry per level between a node and the target, each with the node's type and field. |
| AstModel.ClimbFrom | src/mcp_server_tree_sitter/models/ast.py:165-180 | The parent walk collects the target's ancestors, nearest first, until it meets the root node or the top. |
| AstModel.ExtractNodePath | src/mcp_server_tree_sitter/models/ast.py:144-187 | The loop computes the root-to-target path, which is empty when the target is the root. |
| AstModel.NodePathFromAncestor | src/mcp_server_tree_sitter/models/ast.py:182-187 | From a proper ancestor, the path starts with `(root.type, None)`, ends with the target's type and field, and has one entry per level. |
| TreeSitterHelpers.GetNodeText | src/mcp_server_tree_sitter/utils/tree_sitter_helpers.py:177-194 | The text is the source slice between the node's bytes, clamped to the source, and "" when it starts at or past the end. |
| TreeSitterHelpers.GetChangedRanges | src/mcp_server_tree_sitter/utils/tree_sitter_helpers.py:138-158 | No range iff the two roots span the same bytes; otherwise exactly the new root's span. |
| TreeSitterHelpers.ChangedRangesSameSpan | src/mcp_server_tree_sitter/utils/tree_sitter_helpers.py:138-158 | A tree compared with itself, or with one of the same span, has no changed ranges. |
| TreeSitterHelpers.CursorWalkTree | src/mcp_server_tree_sitter/utils/tree_sitter_helpers.py:212-262 | The nested cursor loops make exactly the preorder visit calls; the first is the start node at depth 0, and a False answer there ends the walk. |
| TreeSitterHelpers.Climb | src/mcp_server_tree_sitter/utils/tree_sitter_helpers.py:249-262 | Climbing to the first ancestor with a next sibling resumes the walk where the preorder continues, and the depth counter stays equal to the path length. |
| TreeSitterHelpers.CollectedMembers | src/mcp_server_tree_sitter/utils/tree_sitter_helpers.py:265-288 | The collected items are exactly the non-None collector results of the visit calls, at most one per call. |
| TreeSitterHelpers.ReachedAll | src/mcp_server_tree_sitter/utils/tree_sitter_helpers.py:281-285 | A visitor that always enters reaches every node of the tree. |
| TreeSitterHelpers.CollectOver | src/mcp_server_tree_sitter/utils/tree_sitter_helpers.py:281-288 | The collecting loop appends the non-None results in visit order. |
| TreeSitterHelpers.CollectWithCursor | src/mcp_server_tree_sitter/utils/tree_sitter_helpers.py:265-288 | `collect_with_cursor` collects over the full walk. |
| TreeSitterHelpers.FindNodesByType | src/mcp_server_tree_sitter/utils/tree_sitter_helpers.py:291-310 | `find_nodes_by_type` collects the nodes of the given type over the full walk. |
| TreeSitterHelpers.NodesByTypeExact | src/mcp_server_tree_sitter/utils/tree_sitter_helpers.py:291-310 | A node is found iff it is in the tree, the start node included, and has the given type. |
| TreeSitterHelpers.GetNodeDescendants | src/mcp_server_tree_sitter/utils/tree_sitter_helpers.py:313-336 | `get_node_descendants` collects over the walk cut at `max_depth`. |
| TreeSitterHelpers.DescendantsExact | src/mcp_server_tree_sitter/utils/tree_sitter_helpers.py:313-336 | The result is exactly the proper descendants no deeper than `max_depth` (all of them when it is None). |
| TreeSitterHelpers.ParseWithCachedTree | src/mcp_server_tree_sitter/utils/tree_sitter_helpers.py:339-365 | On a hit, the cached pair is returned and the cache is unchanged; on a miss, the file is parsed and the result stored when `put` stores. The new cache is exactly one get-or-parse-and-put pass (ParserCache.ThroughIn) over the old one, with the limits unchanged. |
| TreeSitterHelpers.UpdateCachedTree | src/mcp_server_tree_sitter/utils/tree_sitter_helpers.py:368-425 | None iff nothing is cached. A successful reparse returns the new tree, which is stored when `put` stores. A failed edit or reparse falls back to the cached pair, leaving the cache unchanged. The new cache is exactly `put` of the reparse over the old one after a successful reparse, and `get` of the old one otherwise. |
| Preorder.WalkVisits | src/mcp_server_tree_sitter/utils/tree_sitter_helpers.py:230-262 | Each visit call names a real node, with its depth and field. The nodes visited are exactly those whose ancestors were all entered, and each is visited once. |
| Preorder.WalkStart | src/mcp_server_tree_sitter/utils/tree_sitter_helpers.py:223-228 | The first visit is the start node at depth 0 with no field; if it is refused, nothing else is visited. |
| Preorder.ReachedStep | src/mcp_server_tree_sitter/utils/tree_sitter_helpers.py:242-247 | A node is reached iff its parent is reached and the visitor entered the parent. |
| Preorder.SubParents | src/mcp_server_tree_sitter/utils/tree_sitter_helpers.py:230-262 | In the walk of a subtree, every node's parent is the subtree's parent or was visited earlier. |
| Preorder.KidsParents | src/mcp_server_tree_sitter/utils/tree_sitter_helpers.py:230-262 | In the walk of a node's children, every node's parent is that node or was visited earlier. |
| SyntaxTree.FieldOfChild | src/mcp_server_tree_sitter/models/ast.py:171-177 | The field of a child is the first field whose node list contains it, or None. |
| AstOperations.ParseFile | src/mcp_server_tree_sitter/tools/ast_operations.py:69-115 | On a hit, the cached pair with no parse. On a miss, a parse that is stored when caching is enabled. Any failure is a ParsingError. The new cache is exactly one get-or-parse-and-put pass over the old one. |
| AstOperations.ParseFileAsWritten | src/mcp_server_tree_sitter/tools/ast_operations.py:87-115 | As written: only a cached pair is returned, and every cache miss ends in a ParsingError. The new cache is exactly `get` of the old one: nothing is ever stored. |
| AstOperations.ProjectPathPassesContainment | src/mcp_server_tree_sitter/tools/ast_operations.py:43-48 | A path inside the project passes the access guard's containment test. |
| AstOperations.GetFileAst | src/mcp_server_tree_sitter/tools/ast_operations.py:17-66 | A project path error is a ProjectError, an access denial is a FileAccessError, and an undetected language is a ParsingError. Otherwise the result is the file, its language and the tree materialized with `max_depth` defaulting to 5. The cache is untouched on the three early errors; otherwise it has gone through one get-or-parse-and-put pass for the resolved file. |
| AstOperations.FindNodeAtPosition | src/mcp_server_tree_sitter/tools/ast_operations.py:118-132 | The tool's answer through the corrected point lookup: none iff the point is outside the root, else the deepest node containing it. The code's own lookup can stop higher (see Findings and Left out). |
| QueryBuilder.GetTemplate | src/mcp_server_tree_sitter/tools/query_builder.py:8-25 | The named template when one exists, else the pattern unchanged. |
| QueryBuilder.Resolved | src/mcp_server_tree_sitter/tools/query_builder.py:40-45 | The resolved patterns contain no empty string and are no more than the input. |
| QueryBuilder.ResolvedMembers | src/mcp_server_tree_sitter/tools/query_builder.py:40-45 | Each non-empty resolved pattern is kept, in input order, and nothing else. |
| QueryBuilder.BuildCompoundQuery | src/mcp_server_tree_sitter/tools/query_builder.py:28-56 | With "or" in any case: the newline-join of the resolved patterns. Otherwise the same join followed by the fixed predicate comment. |
| QueryBuilder.AdaptQueryForLanguage | src/mcp_server_tree_sitter/tools/query_builder.py:80-126 | The rename loop applies the pair's renames in table order, each "(src" becoming "(dst". |
| QueryBuilder.AdaptUnknownPairIdentity | src/mcp_server_tree_sitter/tools/query_builder.py:119-126 | Any pair outside the table, including a language with itself, leaves the query unchanged. |
| QueryBuilder.TranslateWithoutParen | src/mcp_server_tree_sitter/tools/query_builder.py:122-124 | A query with no "(" is never changed. |
| QueryBuilder.AdaptFunctionDefinition | src/mcp_server_tree_sitter/tools/query_builder.py:96-124 | Python to JavaScript turns "(function_definition) @function" into "(function_declaration) @function". |
| QueryBuilder.AdaptQuery | src/mcp_server_tree_sitter/tools/query_builder.py:59-77 | The record carries both languages and the original query unchanged, plus the adapted query. |
| QueryBuilder.DescribeNodeTypes | src/mcp_server_tree_sitter/tools/query_builder.py:129-179 | Empty iff the language is neither Python nor JavaScript; otherwise that language's table. |
| QueryTemplates.GetQueryTemplate | src/mcp_server_tree_sitter/language/query_templates.py:142-156 | None iff the language or the template name is not in the table; else the stored template. |
| QueryTemplates.ListQueryTemplates | src/mcp_server_tree_sitter/language/query_templates.py:159-171 | No language: the whole table. A language: a one-key dict mapping the language to its templates, or to an empty dict for an unknown language. |
| QueryTemplates.TemplatesNonEmpty | src/mcp_server_tree_sitter/language/query_templates.py:153-155 | Every stored template is non-empty, so it passes the truth tests of its callers. |
| QueryTemplates.ListingMatchesLookup | src/mcp_server_tree_sitter/language/query_templates.py:153-170 | A name is listed for a language iff the lookup finds it, with the same template. |
| Registry.ExtensionsOf | src/mcp_server_tree_sitter/tools/search.py:253-257 | The extensions of a language are exactly those the table maps to it. |
| Registry.MapOf | src/mcp_server_tree_sitter/language/registry.py:58-96 | The dictionary literal: its keys are those of the entries, and each value comes from an entry with that key. |
| Registry.ExtensionsOfMap | src/mcp_server_tree_sitter/language/registry.py:58-96 | Every extension the map sends to a language is among that language's extensions. |
| Registry.LanguageForFile | src/mcp_server_tree_sitter/language/registry.py:105-116 | A language iff the extension table lists the lowercased text after the last dot, and then that entry. Registry.LanguageForFileByExtension and Registry.LanguageForFileNoDot state the classification. |
| Registry.LanguageForFileByExtension | src/mcp_server_tree_sitter/language/registry.py:115-116 | A name is classified by the lowercased text after its last dot. |
| Registry.LanguageForFileNoDot | src/mcp_server_tree_sitter/language/registry.py:115-116 | A name without a dot has no language. |
| Registry.GetPackageName | src/mcp_server_tree_sitter/language/registry.py:128 | "tree-sitter-" followed by a name of the same length. |
| Registry.PackageNameRoundTrip | src/mcp_server_tree_sitter/language/registry.py:146 | For a name without "-", stripping the package prefix and restoring "_" gives the name back. |
| Registry.NotAvailable | src/mcp_server_tree_sitter/language/registry.py:177 | Exactly the candidates not available, in their original order. |
| Registry.InstallLanguage | src/mcp_server_tree_sitter/language/registry.py:179-205 | Succeeds iff auto-install is on and the installer succeeds; otherwise a LanguageInstallError naming the package. |
| Registry.LoadLanguage | src/mcp_server_tree_sitter/language/registry.py:227-256 | An importable module is loaded. Otherwise the language loads only through a successful auto-install; any other outcome is LanguageNotFoundError. |
| Registry.LanguageRegistry.constructor | src/mcp_server_tree_sitter/language/registry.py:50-103 | Preloading keeps exactly the preferred languages that load. |
| Registry.LanguageRegistry.GetLanguage | src/mcp_server_tree_sitter/language/registry.py:207-256 | A memoised language is returned as stored. Otherwise the load result is stored on success, and a failure leaves the memo unchanged. |
| Registry.LanguageRegistry.ListAvailableLanguages | src/mcp_server_tree_sitter/language/registry.py:130-150 | Sorted and without duplicates; exactly the loaded languages and those provided by installed packages. |
| Registry.LanguageRegistry.ListInstallableLanguages | src/mcp_server_tree_sitter/language/registry.py:152-177 | The fixed list, in order, minus the available languages. |
| Registry.LanguageRegistrySlot.constructor | src/mcp_server_tree_sitter/language/registry.py:39 | The class slot starts empty. |
| Registry.LanguageRegistrySlot.Get | src/mcp_server_tree_sitter/language/registry.py:42-54 | The first call creates the registry; later calls return the same instance with its memo untouched. |
| QueryBuilder.TranslateFirst | src/mcp_server_tree_sitter/tools/query_builder.py:122-124 | The first pass of the loop replaces every "(" + source type with "(" + target type. |
| QueryBuilder.TranslateSettles | src/mcp_server_tree_sitter/tools/query_builder.py:121-124 | Once no later source type follows a "(" in the query, the remaining passes change nothing. |
| Projects.CommonLength | src/mcp_server_tree_sitter/models/project.py:64 | The shared leading names of two paths, the first difference right after them. |
| Projects.RelPath | src/mcp_server_tree_sitter/models/project.py:63-64 | `relpath(root/file, base)` ends in the file name, and under the base is the directory's names below it plus the file. |
| Projects.DirItemsStep | src/mcp_server_tree_sitter/models/project.py:58-74 | One more file of a directory adds its relative path exactly when the name does not start with ".". |
| Projects.ElementsAppend | src/mcp_server_tree_sitter/models/project.py:67-74 | The set of scanned paths grows by exactly the paths of the directory just scanned. |
| Projects.OfLanguageAdd | src/mcp_server_tree_sitter/models/project.py:67-74 | A path not seen before joins the paths of its own language only. |
| Projects.LanguagesOfMember | src/mcp_server_tree_sitter/models/project.py:70-72 | A language is counted iff some scanned path has it. |
| Projects.CountMapAdd | src/mcp_server_tree_sitter/models/project.py:66-74 | Counting a path not yet scanned bumps exactly its language's count, and nothing for no language. |
| Projects.CountMapMeaning | src/mcp_server_tree_sitter/models/project.py:49-78 | A language appears iff some scanned path has it, with a count equal to its number of distinct scanned paths, at least 1. |
| Projects.Project.constructor | src/mcp_server_tree_sitter/models/project.py:16-22 | A new project has no language counts and a last scan time of 0. |
| Projects.Project.ScanFiles | src/mcp_server_tree_sitter/models/project.py:34-78 | Within 60 s and not forced: the stored counts, and nothing changes. Otherwise: the counts over the listing, stored with the scan time. |
| Projects.CountFiles | src/mcp_server_tree_sitter/models/project.py:49-78 | The walk loop counts each distinct relative path of a non-hidden file, outside hidden directories, once under its language. |
| Projects.ScanDirectory | src/mcp_server_tree_sitter/models/project.py:53-74 | One directory adds its non-hidden files, or nothing when any part of its path starts with ".", and the counts stay exact. |
| Projects.FilePathAsWritten | src/mcp_server_tree_sitter/models/project.py:80-100 | As written: success iff the normalised path's string starts with the root's string, returning that path; otherwise a ProjectError. |
| Projects.RelativeEscapeAdmitted | src/mcp_server_tree_sitter/models/project.py:94-100 | Root `/p` and `../p2/x` pass the string test though `/p2/x` lies outside `/p`. |
| Projects.FilePathUnder | src/mcp_server_tree_sitter/models/project.py:93-100 | Intended: success iff the normalised path lies at or under the resolved root, component by component. |
| Projects.FilePathUnderRelative | src/mcp_server_tree_sitter/models/project.py:93-100 | An accepted path is the root joined with a clean relative path. |
| Projects.FilePathUnderStricter | src/mcp_server_tree_sitter/models/project.py:96-100 | For a resolved root, every path the component test accepts is one the string test accepts. |
| Projects.ProjectRegistry.constructor | src/mcp_server_tree_sitter/models/project.py:114-121 | A new registry has no projects. |
| Projects.ProjectRegistry.RegisterProject | src/mcp_server_tree_sitter/models/project.py:123-157 | A taken name is refused with the map unchanged. A path whose normalised form ("~" expanded) is not an existing directory is a ProjectError. Otherwise a fresh project, rooted where the marker walk settles, is added under the name. |
| Projects.ProjectRegistry.GetProject | src/mcp_server_tree_sitter/models/project.py:159-175 | The stored project iff the name is registered; otherwise a ProjectError. |
| Projects.ProjectRegistry.InfosOf | src/mcp_server_tree_sitter/models/project.py:177-185 | One `to_dict` record per name, in order. |
| Projects.ProjectRegistry.ListProjects | src/mcp_server_tree_sitter/models/project.py:177-185 | One `to_dict` record per registered project, in registration order. |
| Projects.ProjectRegistry.RemoveProject | src/mcp_server_tree_sitter/models/project.py:187-200 | An unknown name is a ProjectError that changes nothing. Otherwise exactly that name goes. |
| Projects.Without | src/mcp_server_tree_sitter/models/project.py:200 | Removing a name from the order keeps every other name. |
| Projects.WithoutNoDuplicates | src/mcp_server_tree_sitter/models/project.py:200 | Removal keeps the registration order free of duplicates. |
| Projects.ListProjectsCount | src/mcp_server_tree_sitter/models/project.py:177-185 | `list_projects` has one record per registered project. |
| Projects.ProjectRegistrySlot.constructor | src/mcp_server_tree_sitter/models/project.py:107 | The class slot starts empty. |
| Projects.ProjectRegistrySlot.Get | src/mcp_server_tree_sitter/models/project.py:114-121 | The first call creates an empty registry; later calls return the same instance with its projects untouched. |
| Paths.Resolve | src/mcp_server_tree_sitter/utils/path.py:19 | Resolution yields an absolute path with no "", "." or "..". |
| Paths.CollapseClean | src/mcp_server_tree_sitter/utils/path.py:19 | Resolving names that are already clean changes nothing. |
| Paths.ResolveIdempotent | src/mcp_server_tree_sitter/utils/path.py:19-24 | Resolving twice is resolving once. |
| Paths.ExpandUser | src/mcp_server_tree_sitter/utils/path.py:19 | A leading "~" becomes the home directory; any other path is unchanged. |
| Paths.Normalized | src/mcp_server_tree_sitter/utils/path.py:19 | `expanduser().resolve()` gives an absolute path with no "", "." or "..". |
| Paths.NormalizedHome | src/mcp_server_tree_sitter/utils/path.py:19 | A path under "~" resolves below the home directory, whatever the working directory. |
| Paths.NormalizedHomeExample | src/mcp_server_tree_sitter/utils/path.py:19 | With home /home/u and working directory /w, "~/repo" is /home/u/repo. |
| Paths.NormalizePath | src/mcp_server_tree_sitter/utils/path.py:8-24 | Always the normalised path: a leading "~" is resolved below the home directory, any other path below the working directory. It is absolute, so the `ensure_absolute` error never arises. |
| Paths.SafeRelativePath | src/mcp_server_tree_sitter/utils/path.py:27-52 | Success iff the normalised base ("~" expanded) is a prefix of the normalised target, giving a clean relative path; otherwise a ValueError. |
| Paths.MarkedAncestorFirst | src/mcp_server_tree_sitter/utils/path.py:83-92 | The walk's answer is the nearest ancestor-or-self below the filesystem root that holds a marker. With no answer, no such directory holds one. |
| Paths.ScanMarkers | src/mcp_server_tree_sitter/utils/path.py:86-88 | The marker loop finds a marker iff the directory holds one. |
| Paths.GetProjectRoot | src/mcp_server_tree_sitter/utils/path.py:55-92 | The walk starts from the normalised path ("~" expanded), or its parent for a file, and returns the first marked ancestor, or the start directory when there is none. |
| Security.Suffix | src/mcp_server_tree_sitter/utils/security.py:41 | A suffix is empty or a dotted tail of the name shorter than the name. |
| Security.FirstExcluded | src/mcp_server_tree_sitter/utils/security.py:36-38 | None iff no excluded name is a part of the path; otherwise an excluded name that is a part. |
| Security.CheckRest | src/mcp_server_tree_sitter/utils/security.py:35-50 | Passes iff no excluded directory is a part, the extension is allowed (or no list is set), and the file is not over the size limit; otherwise a SecurityError. |
| Security.ValidateFileAccessAsWritten | src/mcp_server_tree_sitter/utils/security.py:10-50 | As written: containment is a string-prefix test on the resolved paths. |
| Security.StringPrefixAdmitsSibling | src/mcp_server_tree_sitter/utils/security.py:32-33 | Root `/p` admits `/p2/x` under the string test; the component test refuses it. |
| Security.ValidateFileAccess | src/mcp_server_tree_sitter/utils/security.py:10-50 | Intended: passes iff the resolved root's names are a prefix of the resolved file's names and the remaining checks pass. |
| Security.ComponentPrefixStringPrefix | src/mcp_server_tree_sitter/utils/security.py:32-33 | Component containment implies string containment. |
| Security.ValidateFileAccessStricter | src/mcp_server_tree_sitter/utils/security.py:32-33 | The intended guard admits only what the guard as written admits. |
| FileOperations.LowerAll | src/mcp_server_tree_sitter/tools/file_operations.py:61-62 | Each filter extension, lowercased, in order. |
| FileOperations.Kept | src/mcp_server_tree_sitter/tools/file_operations.py:64-72 | The kept paths are no more than the listing. |
| FileOperations.KeptMembers | src/mcp_server_tree_sitter/tools/file_operations.py:64-72 | A path is listed iff some regular-file entry with that path passes the extension filter. |
| FileOperations.CollectFiles | src/mcp_server_tree_sitter/tools/file_operations.py:64-72 | The listing loop keeps exactly the regular files that pass the filter, in listing order. |
| FileOperations.GlobPatternReplaces | src/mcp_server_tree_sitter/tools/file_operations.py:51-54 | With a positive depth and exactly one "**", that "**" becomes "*/" repeated depth times. |
| FileOperations.GlobPatternNoDepth | src/mcp_server_tree_sitter/tools/file_operations.py:56-58 | Without a positive depth the pattern loses only a leading "/". |
| FileOperations.ListProjectFiles | src/mcp_server_tree_sitter/tools/file_operations.py:13-74 | Depth 0: the root's own files, filtered as given. Otherwise: the glob's files for the rewritten pattern, filtered by lowercased extensions. Either way sorted. |
| FileOperations.DepthZeroFilterIsCaseSensitive | src/mcp_server_tree_sitter/tools/file_operations.py:36-67 | Filter "PY" drops `a.py` at depth 0 but keeps it for the glob listing. |
| FileOperations.Window | src/mcp_server_tree_sitter/tools/file_operations.py:155-166 | For non-negative arguments, lines `min(start, n)` to `min(start + max, n)`, or to `n` without a cap. |
| FileOperations.WindowBounds | src/mcp_server_tree_sitter/tools/file_operations.py:159-163 | A window holds at most `max_lines` lines, none before `start_line`, and none from a start past the end. |
| FileOperations.WholeFileWindow | src/mcp_server_tree_sitter/tools/file_operations.py:151-153 | The whole-file shortcut agrees with the window from line 0 without a cap: its lines join back to the content. |
| FileOperations.ReadContent | src/mcp_server_tree_sitter/tools/file_operations.py:111-173 | A file that cannot be opened is a FileAccessError. Otherwise the window of its lines, as text or bytes, joined back together. |
| FileOperations.ReadTestFile | src/mcp_server_tree_sitter/tools/file_operations.py:116-129 | The "test.py" special case returns the same window as the general path. |
| FileOperations.CutWindow | src/mcp_server_tree_sitter/tools/file_operations.py:139-148 | The slice bounds computed step by step are the window's. |
| FileOperations.GetFileContent | src/mcp_server_tree_sitter/tools/file_operations.py:77-173 | A path outside the project, or one the guard denies, is a FileAccessError; otherwise the content as read. |
| FileOperations.TestFileCaseAgrees | src/mcp_server_tree_sitter/tools/file_operations.py:122-124 | The first-two-lines shortcut equals the window from 0 with a cap of 2. |
| FileIo.CountCommentLines | src/mcp_server_tree_sitter/utils/file_io.py:68-79 | The comment count is at most the number of lines. |
| FileIo.NoCommentLines | src/mcp_server_tree_sitter/utils/file_io.py:79 | The count is 0 iff no line is a comment. |
| FileIo.BlankIsNotComment | src/mcp_server_tree_sitter/utils/file_io.py:54-65 | A blank line is never a comment under a non-empty prefix. |
| FileIo.GetCommentPrefix | src/mcp_server_tree_sitter/utils/file_io.py:82-117 | The language's prefix from the table, or None for an unlisted language. |
| FileIo.CommentPrefixNonEmpty | src/mcp_server_tree_sitter/utils/file_io.py:93-115 | Every listed prefix is non-empty. |
| FileIo.ParseWithEncoding | src/mcp_server_tree_sitter/utils/file_io.py:120-137 | The bytes are returned unchanged, and the lines are non-empty and join back to the decoded text. |
| FileIo.ReadFileLines | src/mcp_server_tree_sitter/utils/file_io.py:140-161 | Without a cap: the lines after the skipped ones. With a cap: exactly that many entries, "" past the end of the file. |
| FileIo.SkipLines | src/mcp_server_tree_sitter/utils/file_io.py:153-155 | Skipping stops at the end of the file. |
| FileIo.ReadLines | src/mcp_server_tree_sitter/utils/file_io.py:158-159 | Exactly `count` reads, each the next line or "" past the end. |
| Search.PreparePlan | src/mcp_server_tree_sitter/tools/search.py:54-68 | A regex that does not compile is a ValueError. Otherwise: the compiled regex, the word-boundary matcher for whole words, or the plain pattern, lowercased when the search ignores case. |
| Search.PlainMatch | src/mcp_server_tree_sitter/tools/search.py:88-93 | A plain search matches a line iff the line contains the pattern, comparing lowercased text when the search ignores case. |
| Search.StripNewlines | src/mcp_server_tree_sitter/tools/search.py:102 | `rstrip("\n")` drops exactly the trailing newlines and nothing else. |
| Search.BuildContext | src/mcp_server_tree_sitter/tools/search.py:96-109 | The context loop builds the lines around a match with their numbers and match marks. |
| Search.ContextMarksMatch | src/mcp_server_tree_sitter/tools/search.py:97-109 | Context lines are numbered consecutively. With a non-negative context the matching line is among them, marked and stripped, and it is the only one marked. A negative context gives none. |
| Search.Hits | src/mcp_server_tree_sitter/tools/search.py:81-118 | Every hit is a matching line, recorded with its context, and hits are in ascending line order. |
| Search.HitsComplete | src/mcp_server_tree_sitter/tools/search.py:81-95 | Every matching line within the scanned prefix yields a hit. |
| Search.HitsPrefix | src/mcp_server_tree_sitter/tools/search.py:81-121 | Scanning fewer lines gives a prefix of the hits, which makes stopping at the cap sound. |
| Search.ProcessLines | src/mcp_server_tree_sitter/tools/search.py:81-121 | The per-file loop returns the first `max(max_results, 1)` hits of the file, in line order. |
| Search.LineHitsPrefix | src/mcp_server_tree_sitter/tools/search.py:120-121 | Stopping early keeps only hits of matching lines: any prefix of such hits is again such hits. |
| Search.TakeHits | src/mcp_server_tree_sitter/tools/search.py:81-121 | Cutting a file's hits to the cap keeps every remaining hit a matching line with its context. |
| Search.ProcessFile | src/mcp_server_tree_sitter/tools/search.py:73-126 | A file the guard denies, or one that cannot be read, yields nothing; otherwise its capped hits. |
| Search.FilesOf | src/mcp_server_tree_sitter/tools/search.py:129-132 | Only regular files of the glob are searched. |
| Search.GatherTake | src/mcp_server_tree_sitter/tools/search.py:134-145 | Gathering per-file hits until the cap, then truncating, is the first `max` of all hits in file order. |
| Search.AllFileHits | src/mcp_server_tree_sitter/tools/search.py:134-138 | One entry per globbed file: what processing that file yields. |
| Search.FileHits | src/mcp_server_tree_sitter/tools/search.py:73-126 | A denied or unreadable file yields nothing. Otherwise at most max(`max_results`, 1) hits, each a matching line with its context, named by the file's relative path. |
| Search.SearchText | src/mcp_server_tree_sitter/tools/search.py:19-145 | A regex that does not compile is a ValueError. Otherwise the first `max_results` hits over the globbed files, default pattern "**/*". |
| Search.SearchTextCapped | src/mcp_server_tree_sitter/tools/search.py:139-145 | The result is the first `max` hits of the concatenation, so it never exceeds the cap. |
| Search.CaptureHit | src/mcp_server_tree_sitter/tools/search.py:224-244 | A query hit names the file, the capture and the node's span, and carries the node's text iff snippets are asked for. |
| Search.CollectCaptures | src/mcp_server_tree_sitter/tools/search.py:218-244 | The capture loop turns the first `max_results` captures into hits, in order. |
| Search.CachedOrParsed | src/mcp_server_tree_sitter/tools/search.py:194-211 | A live cache entry is used without touching the cache; otherwise the file is parsed and the tree stored when the cache admits it. Looking the file up again afterwards yields the same pair. The new cache is exactly one get-or-parse-and-put pass over the old one. |
| Search.QueryLanguage | src/mcp_server_tree_sitter/tools/search.py:186-192 | A non-empty given language is used. Otherwise the detected one; none at all iff both are missing. |
| Search.QueryFileHits | src/mcp_server_tree_sitter/tools/search.py:177-246 | The hits of one file given the cache entry it meets: none on any error. Otherwise at most `max_results` hits, each naming the file and carrying a snippet iff asked. |
| Search.QueryFile | src/mcp_server_tree_sitter/tools/search.py:177-246 | A path outside the project is a ProjectError. Otherwise the hits of the captures over the cached or freshly parsed tree, at most `max_results`, each naming the file and carrying a snippet iff asked. Ok iff Search.QueryFileHits gives hits for the entry the cache held, and then exactly those hits. The cache is untouched on a path error, a denied file or no language; otherwise it has gone through one get-or-parse-and-put pass for the file. |
| Search.ProcessQueryFile | src/mcp_server_tree_sitter/tools/search.py:263-281 | One file of a language query contributes exactly the single-file query's hits with the remaining budget, or nothing when that query fails. The new cache is Search.QueryThrough of the old one for that file. |
| Search.InTurnHitsFrom | src/mcp_server_tree_sitter/tools/search.py:263-302 | Hits gathered file by file each name the file that gave them and carry a snippet iff asked. |
| Search.QueryEachFile | src/mcp_server_tree_sitter/tools/search.py:290-299 | Files are queried in order, each with what is left of the cap. The merged list is the concatenation of the per-file answers. The loop stops after the first file that reaches the cap, and only there. The cache went through the visited files in turn (Search.Traced): each file met exactly what the files before it left, and the final cache is the fold of their passes. Each file, once parsed, met what the starting cache held for it or the fresh parse of a file up to it with the same cache key (Search.OutcomesFrom). |
| Search.QueryNextFile | src/mcp_server_tree_sitter/tools/search.py:291-293 | One turn of the loop: the next file's answer, asked with the budget left, is appended in turn, and stays within the cap when the results so far do. The file met exactly the entry the cache held before the turn, the cache goes through that file's pass, and the trace of the loop extends by one. |
| Search.QueriedThroughSnoc | src/mcp_server_tree_sitter/tools/search.py:290-299 | The fold of the per-file passes over one more file is that file's pass over the fold so far. |
| Search.SeenAllSnoc | src/mcp_server_tree_sitter/tools/search.py:290-299 | Recording what the next file met keeps every earlier record valid. |
| Search.TracedSnoc | src/mcp_server_tree_sitter/tools/search.py:290-299 | A trace of the loop, extended by what the next file met and its pass over the cache, is again a trace. |
| Search.QueryThroughEntries | src/mcp_server_tree_sitter/tools/search.py:194-211 | After one file's pass, every entry was already there or is that file's fresh parse under its key. |
| Search.QueriedEntries | src/mcp_server_tree_sitter/tools/search.py:290-299 | After the passes over a list of files, every entry was in the starting cache or is the fresh parse of one of those files under its key. |
| Search.SeenFromCacheOrParse | src/mcp_server_tree_sitter/tools/search.py:194-211 | What file `k` met, once parsed, is what it would have met in the starting cache, or the parse of a file up to it that shares its cache key. |
| Search.SeenWhenKeysDistinct | src/mcp_server_tree_sitter/tools/search.py:194-211 | When no two files share a cache key, what file `k` met, once parsed, is what the starting cache held for it or its own fresh parse. |
| Search.TracedOutcomes | src/mcp_server_tree_sitter/tools/search.py:290-299 | In any trace of the loop, every file's outcome comes from the starting cache or a fresh parse, as above. |
| Search.QueryLanguageFiles | src/mcp_server_tree_sitter/tools/search.py:247-302 | No language, or one without extensions, is a QueryError that leaves the cache's whole state alone. A language with extensions always succeeds. The hits are the first `max_results` of the per-file answers, given in file order with the remaining budget, the loop stopping once the cap is reached. On success the cache went through the visited files in turn, and each file, once parsed, met the starting cache's entry or a fresh parse with its cache key, as in Search.QueryEachFile. |
| Analysis.QueryTypes | src/mcp_server_tree_sitter/tools/analysis.py:49-54 | The requested symbol types that have a template for the language, each once. |
| Analysis.PrepareQueries | src/mcp_server_tree_sitter/tools/analysis.py:50-54 | The loop keeps exactly the types with a template. |
| Analysis.SymbolsOf | src/mcp_server_tree_sitter/tools/analysis.py:87-116 | Every symbol carries its type, with at most one symbol per capture. |
| Analysis.SymbolsOfMembers | src/mcp_server_tree_sitter/tools/analysis.py:87-93 | A symbol is listed iff it comes from a capture whose name ends with `.name`, whatever comes before it, or equals the type. |
| Analysis.CollectSymbols | src/mcp_server_tree_sitter/tools/analysis.py:86-119 | The capture loop builds exactly those symbols, in capture order. |
| Analysis.SymbolTable | src/mcp_server_tree_sitter/tools/analysis.py:78-121 | A table iff every query runs, with one entry per type holding the symbols its captures yield. |
| Analysis.TableStep | src/mcp_server_tree_sitter/tools/analysis.py:78-121 | Filing the symbols of one more query that ran keeps a table with one entry per type run so far. |
| Analysis.ExtractSymbols | src/mcp_server_tree_sitter/tools/analysis.py:19-124 | A path outside the project is a ProjectError and a denied file a SecurityError. An unknown language, no usable query, or a failed parse or query is a ValueError. Otherwise the symbol table. The cache is untouched when the tool stops before the tree; otherwise it has gone through one get-or-parse-and-put pass for the file. |
| Analysis.SymbolsOfFile | src/mcp_server_tree_sitter/tools/analysis.py:61-124 | Past the guards: a ValueError when the tree cannot be had or a query fails, otherwise the symbol table; the cache goes through one get-or-parse-and-put pass. |
| Analysis.Category | src/mcp_server_tree_sitter/tools/analysis.py:362-365 | An "import." capture is filed under its suffix; any other capture under "import". |
| Analysis.GroupedMeaning | src/mcp_server_tree_sitter/tools/analysis.py:354-372 | A category is a key iff some capture falls under it, holding the texts of exactly those captures, in order. |
| Analysis.GroupImports | src/mcp_server_tree_sitter/tools/analysis.py:354-372 | The grouping loop builds exactly that dictionary. |
| Analysis.FindDependencies | src/mcp_server_tree_sitter/tools/analysis.py:303-375 | The same error cases as symbol extraction. Otherwise the imports query's captures grouped by category. The cache is untouched when the tool stops before the tree; otherwise it has gone through one get-or-parse-and-put pass for the file. |
| Analysis.EmptyLines | src/mcp_server_tree_sitter/tools/analysis.py:424 | The count of blank lines is at most the line count. |
| Analysis.CommentStartersAgree | src/mcp_server_tree_sitter/tools/analysis.py:428-438 | The comment starters of the complexity analysis agree with the file utility's prefix table. |
| Analysis.CountComments | src/mcp_server_tree_sitter/tools/analysis.py:440-446 | The counting loop gives the comment count of the lines. |
| Analysis.CodeLinesNonNegative | src/mcp_server_tree_sitter/tools/analysis.py:423-446 | Blank plus comment lines never exceed the line count, so `code_lines` is never negative. |
| Analysis.BlankCommentDisjoint | src/mcp_server_tree_sitter/tools/analysis.py:424-446 | A line is never counted both blank and comment. |
| Analysis.CountNodesIsOccurrences | src/mcp_server_tree_sitter/tools/analysis.py:482-490 | The recursive node count is the number of node kinds, in preorder, that are in the list. |
| Analysis.CountNodesInIsOccurrences | src/mcp_server_tree_sitter/tools/analysis.py:487-488 | The same for a list of children. |
| Analysis.Cyclomatic | src/mcp_server_tree_sitter/tools/analysis.py:476-492 | 1 plus the number of branching nodes, 1 for a language without a list, at most 1 plus the node count. |
| Analysis.AnalyzeCodeComplexity | src/mcp_server_tree_sitter/tools/analysis.py:378-517 | The same path and access errors, and a ValueError for an undetected language. A ValueError also when the tree, the text or the function and class queries fail. Otherwise the result is Ok, with the line, blank, comment and code counts (code lines non-negative), the numbers of function and class symbols those queries yield, and the cyclomatic number of the parsed tree. The cache is untouched on the early errors. Otherwise it has gone through one get-or-parse-and-put pass for the tree, and a second one for the symbols once the text is read and a template exists. |
| Analysis.ComplexityOfFile | src/mcp_server_tree_sitter/tools/analysis.py:401-517 | Past the guards: the same ValueErrors and the same report as the tool, and the same one or two passes of the cache. |
| Analysis.SymbolCounts | src/mcp_server_tree_sitter/tools/analysis.py:449-451 | Once the file's tree is known: no counts when the template has no function or class query or a query fails; otherwise the number of function symbols and of class symbols that `extract_symbols` files, 0 for a kind without a query. The cache is untouched without a template, and otherwise goes through one get-or-parse-and-put pass. |
| Analysis.TotalFilesCountsClassified | src/mcp_server_tree_sitter/tools/analysis.py:298 | The sum of the language counts is the number of distinct scanned files that have a language. |
| Analysis.AnalyzeProjectStructure | src/mcp_server_tree_sitter/tools/analysis.py:127-300 | The project is rescanned unless scanned within 60 s; its name, root and description stay. The report carries its language counts and their sum as `total_files`. |
| Analysis.SumCounts | src/mcp_server_tree_sitter/tools/analysis.py:298 | The summing loop gives the sum of the counts. |
| McpContext.Updated | src/mcp_server_tree_sitter/utils/context/mcp_context.py:36-38 | The counter moves by the step, capped at the total. |
| McpContext.Clamped | src/mcp_server_tree_sitter/utils/context/mcp_context.py:48 | The value is clamped to [0, total], and is 0 for a negative total. |
| McpContext.UpdateHasNoLowerBound | src/mcp_server_tree_sitter/utils/context/mcp_context.py:36-48 | `update(-1)` from 0 gives -1, where `set_progress(-1)` gives 0. |
| McpContext.MCPContext.constructor | src/mcp_server_tree_sitter/utils/context/mcp_context.py:55-64 | A new context around the client with zero progress and nothing sent. |
| McpContext.MCPContext.ReportProgress | src/mcp_server_tree_sitter/utils/context/mcp_context.py:66-87 | The latest progress is always recorded. It is sent only when the client has `report_progress` and the call does not fail. |
| McpContext.MCPContext.SendInfo | src/mcp_server_tree_sitter/utils/context/mcp_context.py:89-101 | The message is sent only when the client has `info` and the call does not fail; progress is untouched. |
| McpContext.MCPContext.RunProgressScope | src/mcp_server_tree_sitter/utils/context/mcp_context.py:131-153 | Whether the block raises or not: progress ends at the total, earlier messages are kept, and the last message is the completion notice when info is delivered. |
| McpContext.MCPContext.WithMcpContext | src/mcp_server_tree_sitter/utils/context/mcp_context.py:155-165 | A fresh context around the given client. |
| McpContext.FromMcpContext | src/mcp_server_tree_sitter/utils/context/mcp_context.py:167-178 | A fresh context around the given client. |
| McpContext.MCPContext.TryGetMcpContext | src/mcp_server_tree_sitter/utils/context/mcp_context.py:180-187 | The wrapped client, the one the constructor, WithMcpContext or FromMcpContext was given. |
| McpContext.ProgressScope.constructor | src/mcp_server_tree_sitter/utils/context/mcp_context.py:15-27 | A scope with its total and description, starting at 0. |
| McpContext.ProgressScope.Update | src/mcp_server_tree_sitter/utils/context/mcp_context.py:29-39 | The counter becomes the capped sum and is reported to the context. |
| McpContext.ProgressScope.SetProgress | src/mcp_server_tree_sitter/utils/context/mcp_context.py:41-49 | The counter becomes the clamped value and is reported to the context. |
| ServerCapabilities.LevelFor | src/mcp_server_tree_sitter/capabilities/server_capabilities.py:63-70 | The level of the lowercased name, INFO for an unknown name. |
| ServerCapabilities.LevelIgnoresCase | src/mcp_server_tree_sitter/capabilities/server_capabilities.py:70 | A name and its lowercase get the same level. |
| ServerCapabilities.HandleLogging | src/mcp_server_tree_sitter/capabilities/server_capabilities.py:52-73 | Always success; the message is logged at the mapped level with the "MCP: " prefix. |
| ServerCapabilities.CurrentWord | src/mcp_server_tree_sitter/capabilities/server_capabilities.py:90-95 | Intended: an IndexError iff the cursor is past the end. Otherwise the longest run of word characters ending at the cursor. |
| ServerCapabilities.ScanMeaning | src/mcp_server_tree_sitter/capabilities/server_capabilities.py:91-95 | The leftward scan returns a maximal run of word characters that ends where it started. |
| ServerCapabilities.ScanAsWritten | src/mcp_server_tree_sitter/capabilities/server_capabilities.py:92-95 | The loop as written: starting at or past the end is an IndexError. Otherwise the word grows leftwards by word characters only, ends with the part already read, and is at most one character per step. |
| ServerCapabilities.CurrentWordAsWritten | src/mcp_server_tree_sitter/capabilities/server_capabilities.py:90-95 | As written: a cursor past the end is an IndexError. A word found holds only word characters, at most `position + len(text)` of them, since the scan can wrap past index 0. |
| ServerCapabilities.WordWrapsAround | src/mcp_server_tree_sitter/capabilities/server_capabilities.py:93 | As written, "x_" with the cursor at 1 gives "_x", the intended scan "x". |
| ServerCapabilities.EmptyTextRaises | src/mcp_server_tree_sitter/capabilities/server_capabilities.py:93 | As written, an empty text with the cursor at 0 raises IndexError, the intended scan "". |
| ServerCapabilities.OfferMembers | src/mcp_server_tree_sitter/capabilities/server_capabilities.py:102-121 | A candidate is offered iff it is one and its text starts with the word. |
| ServerCapabilities.SuggestionsMeaning | src/mcp_server_tree_sitter/capabilities/server_capabilities.py:97-147 | A suggestion is made iff the word is non-empty, its text starts with it, and it belongs to a group whose keyword occurs, ignoring case, before the cursor. |
| ServerCapabilities.OfferLoop | src/mcp_server_tree_sitter/capabilities/server_capabilities.py:117-121 | The suggestion loop appends exactly the matching candidates, in order. |
| ServerCapabilities.ExtractWord | src/mcp_server_tree_sitter/capabilities/server_capabilities.py:91-95 | The word loop, grouped as intended, computes the current word. |
| ServerCapabilities.HandleCompletion | src/mcp_server_tree_sitter/capabilities/server_capabilities.py:75-149 | An IndexError iff the cursor is past the end. Otherwise the suggestions for the current word and the text before the cursor. |
| PytestDiagnostic.ErrorEntry | src/mcp_server_tree_sitter/testing/pytest_diagnostic.py:33-40 | An error entry keeps type and message, and the traceback iff one was given and is non-empty. |
| PytestDiagnostic.Step | src/mcp_server_tree_sitter/testing/pytest_diagnostic.py:33-56 | `add_error` appends one entry and sets "error". Nothing else touches the errors. Once errors exist, the status stays or becomes "error". |
| PytestDiagnostic.ErrorIsSticky | src/mcp_server_tree_sitter/testing/pytest_diagnostic.py:52-56 | After an error the status stays "error" and the errors recorded stay in place, whatever follows. |
| PytestDiagnostic.ErrorCount | src/mcp_server_tree_sitter/testing/pytest_diagnostic.py:33-42 | The number of errors grows by exactly the number of `add_error` calls. |
| PytestDiagnostic.StatusOfRun | src/mcp_server_tree_sitter/testing/pytest_diagnostic.py:33-56 | From a clean record: "error" iff any error is added. Otherwise the status of the last finalization, or the starting one. |
| PytestDiagnostic.ToReport | src/mcp_server_tree_sitter/testing/pytest_diagnostic.py:58-69 | The record's fields, with a duration of end minus start iff the end time is set and non-zero. |
| PytestDiagnostic.FinalizedHasDuration | src/mcp_server_tree_sitter/testing/pytest_diagnostic.py:52-65 | A record finalized at a positive time reports the duration since its start. |
| PytestDiagnostic.DiagnosticData.constructor | src/mcp_server_tree_sitter/testing/pytest_diagnostic.py:23-31 | A new record: pending, no end time, nothing recorded. |
| PytestDiagnostic.DiagnosticData.AddError | src/mcp_server_tree_sitter/testing/pytest_diagnostic.py:33-42 | The record steps as `add_error` does. |
| PytestDiagnostic.DiagnosticData.AddDetail | src/mcp_server_tree_sitter/testing/pytest_diagnostic.py:44-46 | The detail is set, and nothing else changes. |
| PytestDiagnostic.DiagnosticData.AddArtifact | src/mcp_server_tree_sitter/testing/pytest_diagnostic.py:48-50 | The artifact is set, and nothing else changes. |
| PytestDiagnostic.DiagnosticData.Finalize | src/mcp_server_tree_sitter/testing/pytest_diagnostic.py:52-56 | The end time is set. The status is set only when no error was recorded. |
| PytestDiagnostic.DiagnosticData.ToDict | src/mcp_server_tree_sitter/testing/pytest_diagnostic.py:58-69 | The report of the current state. |
| PytestDiagnostic.RunFixture | src/mcp_server_tree_sitter/testing/pytest_diagnostic.py:72-85 | A fresh record replays the test's operations, then is finalized "completed". |
| CodePatterns.Get | src/mcp_server_tree_sitter/prompts/code_patterns.py:259-260 | None iff the key is absent; otherwise a value stored under it. |
| CodePatterns.GetStored | src/mcp_server_tree_sitter/prompts/code_patterns.py:259 | With distinct keys, the value found is the one stored. |
| CodePatterns.GetLanguagePattern | src/mcp_server_tree_sitter/prompts/code_patterns.py:257-260 | The language's named pattern, or "No pattern found" when the language or the name is unknown. |
| CodePatterns.GetReviewPattern | src/mcp_server_tree_sitter/prompts/code_patterns.py:263-265 | The named checklist, or "No pattern found". |
| CodePatterns.GetAvailablePatterns | src/mcp_server_tree_sitter/prompts/code_patterns.py:268-279 | For a non-empty language: its pattern names, none if unknown. Otherwise the language names. The review names come with both. |
| CodePatterns.ListedIsFound | src/mcp_server_tree_sitter/prompts/code_patterns.py:257-274 | Every name listed for a language can be fetched, with its stored text. |
| CodePatterns.ShippedAnswers | src/mcp_server_tree_sitter/prompts/code_patterns.py:6-254 | With the shipped tables: python lists its three patterns, the overview lists four languages, and rust has no pattern. |

## Left out

- Native tree-sitter calls are parameters and are not modelled: `Parser.parse`, `Tree.edit`, incremental reparsing, `Language.query`/`captures`, and grammar loading and installation through `importlib`/`pip`. The parser is an uninterpreted function from bytes to a tree.
- Locks, threads and the thread pool of `search_text` are not modelled. Everything runs single-threaded, and files are searched in glob order rather than completion order.
- The wall clock is a parameter `now`.
- Floating-point quantities:
  - Megabyte budgets are whole bytes.
  - `int(max * 0.2)` is `max / 5`, and the 0.1 MB and 90 % thresholds are exact integer comparisons.
  - `comment_ratio`, `avg_function_lines` and the progress percentage are left out.
- Filesystem I/O is modelled through parameters:
  - the `os.walk`, `glob` and `iterdir` listings are entry sequences;
  - file contents are options, absent when the file cannot be read;
  - sizes, existence and directories come from a filesystem map;
  - `resolve` collapses "." and ".." but does not follow symbolic links.
- UTF-8 decoding maps each byte to one character. `lower` and `isalnum` are ASCII-only.
- Regular-expression matching is a parameter: a compiled matcher, or none when the pattern does not compile.
- A node's id, the hash of (start byte, end byte, type), is the triple itself. Hash collisions are not modelled.
- `analyze_project_structure` models only the rescan, the per-language counts and `total_files`. Its directory, entry-point and build-file discovery is left out.
- Thin I/O and logging wrappers are left out:
  - `get_file_info`, `count_lines`, `read_text_file`, `read_binary_file` and `get_file_content_and_lines`;
  - every logging call;
  - the capability handlers that return constant status;
  - `MCPContext.warning` and `MCPContext.error`, which forward like `info`;
  - the pytest hooks and the module-level diagnostics registry.
- The "<binary data>" branch of `get_file_content` cannot be reached once the bytes are decoded, and is left out.
- The prose of the code-pattern tables is not modelled. The lookups hold for any tables, and the shipped tables are pinned down by their keys.
- Detail and artifact values of a diagnostic record are kept as their rendered text.
- ParserCache.TreeCache.EvictEntries and ParserCache.TreeCache.Invalidate compute the new cache state as a value and then write it back, so the order of deletions inside them is not observable.
- ParserCache.TreeCache.Get does not refresh an entry's timestamp, as in the code (parser_cache.py), so eviction is by insertion or update time, not by least recent use.
- ParserCache.SmallBudgetCanOverflow: the small-cache eviction branch (target `current // 2`) does not guarantee room for the new entry. This is proved as a counterexample, and the code may intend it.
- QueryTemplates.ListQueryTemplates: for an unknown language the code answers `{language: {}}`, and the model follows the code.
- TreeSitterHelpers.ParseWithCachedTree takes the cache as a parameter. The module-level `tree_cache` it uses does not exist, as explained in the next line.
- `cache/parser_cache.py` defines only `get_tree_cache` (line 355), not the module-level `tree_cache`. As written, every module that imports `tree_cache` fails at import. The model replaces that import with a cache parameter in each of them:
  - `utils/tree_sitter_helpers.py:10`;
  - `tools/search.py:8`;
  - `tools/analysis.py:7`;
  - `resources/ast.py:6`.
- AstOperations.GetFileAst composes the corrected halves of three Findings rows, so it succeeds where the code fails:
  - root `/p`, path `../p2/x`: the code goes on to read `/p2/x`, while the model returns a ProjectError;
  - any file not in the cache: the code raises a ParsingError, while the model parses the file.
- AstOperations.FindNodeAtPosition answers with the deepest node containing the point. The code delegates to the sibling-skipping lookup. For a root (0,0)-(0,9) with children A (0,0)-(0,3) and B (0,4)-(0,9), at point (0,5) the code returns the root and the model returns B.
- FileOperations.GetFileContent uses the component-wise path lookup and access guard. For root `/p` and path `../p2/x` the code reads `/p2/x`, while the model returns a FileAccessError.
- Search.FileHits gates each file on the component-wise access guard. A listed path that leaves the root through "..", such as `../p2/x` under `/p`, passes the code's string test but yields no hits here.
- Search.ProcessFile has the same guard and the same divergence as Search.FileHits.
- Search.SearchText searches files through Search.ProcessFile, so it shares that divergence.
- Search.QueryFile uses the component-wise path lookup and guard. For root `/p` and path `../p2/x` the code queries `/p2/x`, while the model returns a ProjectError.
- Analysis.ExtractSymbols uses the component-wise path lookup and guard. For root `/p` and path `../p2/x` the code extracts from `/p2/x`, while the model returns a ProjectError.
- Analysis.FindDependencies has the same divergence as Analysis.ExtractSymbols, on the same input.
- Analysis.AnalyzeCodeComplexity has the same divergence as Analysis.ExtractSymbols, on the same input.
- Analysis.SymbolCounts starts at the query preparation of `extract_symbols`. The path, guard and language steps that `extract_symbols` repeats at analysis.py:449 are not modelled a second time: on the same inputs they pass again.
- Search.QueryEachFile does not promise that every file met either the starting cache's entry for it or its own fresh parse. That fails when two listed files share a cache key: the second can meet the first one's parse, which holds the first one's bytes. This needs the same resolved path, language and mtime for two list entries, and file contents here are a function of the listed path rather than of the file. Search.SeenWhenKeysDistinct proves the stronger form when no two files share a key.
- Search.QueryLanguageFiles has the same limit as Search.QueryEachFile, through which it queries the files.
- Paths.ExpandUser expands only a leading "~", to a home directory given as a parameter. A "~user" prefix is left as it is, and the RuntimeError for a home directory that cannot be determined is not modelled.
- Search.SearchText takes an already resolved project: it starts after Projects.ProjectRegistry.GetProject, which models the ProjectError for an unknown project name (search.py:48). That error is not repeated on its own path.
- Search.QueryFile takes a resolved project in the same way (search.py:173).
- Search.QueryLanguageFiles takes a resolved project in the same way (search.py:173).
- Analysis.ExtractSymbols takes a resolved project in the same way (analysis.py:33).
- Analysis.AnalyzeProjectStructure takes a resolved project in the same way (analysis.py:138).
- Analysis.FindDependencies takes a resolved project in the same way (analysis.py:314).
- Analysis.AnalyzeCodeComplexity takes a resolved project in the same way (analysis.py:389).
- ServerCapabilities.HandleCompletion completes the word found by the intended scan:
  - text "x_" at position 1: the code completes on "_x", the model on "x";
  - empty text at position 0: the code raises IndexError, while the model completes on "".

## Findings

| source | as written | input that shows it | evidently intended | confidence | as-written member | corrected member |
|---|---|---|---|---|---|---|
| src/mcp_server_tree_sitter/models/ast.py:119-139 | When a child does not contain the point, the search moves to the parent and scans the parent's siblings, so later children are never tried | root `module` (0,0)-(0,9) with children A (0,0)-(0,3) and B (0,4)-(0,9), point (0,5): the answer is the root | the deepest node containing the point, here B | not executed | AstModel.FindAsWrittenMissesSecondChild | AstModel.FindDeepest |
| src/mcp_server_tree_sitter/utils/security.py:32-33 | Containment in the project root is a string-prefix test on the resolved paths | root `/p`, file `/p2/x`: access is granted | the root's path components are a prefix of the file's | not executed | Security.StringPrefixAdmitsSibling | Security.ValidateFileAccess |
| src/mcp_server_tree_sitter/models/project.py:94-100 | `get_file_path` uses the same string-prefix test | root `/p`, relative path `../p2/x`: `/p2/x` is returned | a ProjectError for a path outside the root | not executed | Projects.RelativeEscapeAdmitted | Projects.FilePathUnder |
| src/mcp_server_tree_sitter/capabilities/server_capabilities.py:93 | `i >= 0 and text[i].isalnum() or text[i] == "_"` groups as `(i >= 0 and ...) or ...`, so below index 0 Python's negative indexing wraps to the end of the text | text "x_", position 1: the word is "_x"; text "", position 0: IndexError | the scan stops at index 0: "x" and "" | not executed | ServerCapabilities.WordWrapsAround | ServerCapabilities.CurrentWord |
| src/mcp_server_tree_sitter/tools/ast_operations.py:97 | `parse_source(source_bytes, parser)` passes its arguments in reverse, and `ensure_parser` is only a cast, so `parse` is looked up on the bytes and raises | any readable file not yet in the cache, with a parser for its language: a ParsingError | `parse_source(parser, source_bytes)`: the tree of the file, stored when caching is enabled | not executed | AstOperations.ParseFileAsWritten | AstOperations.ParseFile |

=== FILE: analysis.dfy ===
/**
 * The analysis tools of tools/analysis.py: symbol extraction, import
 * grouping, complexity counters and the project-wide file total.
 *
 * As in the query tool, the file's bytes, its decoded text, the parser and
 * the query engine are parameters (`None` for a call that raised).
 */
module Analysis {
  import opened Common
  import opened Strings
  import opened SyntaxTree
  import opened Paths
  import Security
  import Registry
  import opened Projects
  import opened ParserCache
  import opened TreeSitterHelpers
  import opened AstOperations
  import opened QueryTemplates
  import opened FileIo
  import opened Search

  /** The query engine: captures of a query text on a tree, `None` when the query cannot be built or run. */
  type QueryRunner = (string, Tree) -> Option<seq<Capture>>

  // ---------------------------------------------------------------------
  // extract_symbols
  // ---------------------------------------------------------------------

  const DefaultSymbolTypes: seq<string> := ["functions", "classes", "imports"]

  function SymbolTypesOrDefault(symbolTypes: Option<seq<string>>): seq<string>
  {
    if symbolTypes.Some? then symbolTypes.value else DefaultSymbolTypes
  }

  /** A symbol type takes part when its template exists and is not empty. */
  predicate Usable(language: string, symbolType: string)
  {
    GetQueryTemplate(language, symbolType).Some? && GetQueryTemplate(language, symbolType).value != ""
  }

  /**
   * The keys of the `queries` dictionary: the requested types that have a
   * template, each once, in the order of first request.
   */
  function QueryTypes(language: string, types: seq<string>): (r: seq<string>)
    ensures forall t :: t in r <==> t in types && GetQueryTemplate(language, t).Some?
    ensures NoDuplicates(r)
  {
    if types == [] then []
    else
      var init := QueryTypes(language, types[..|types| - 1]);
      var t := types[|types| - 1];
      assert types == types[..|types| - 1] + [t];
      assert Usable(language, t) <==> GetQueryTemplate(language, t).Some? by {
        if GetQueryTemplate(language, t).Some? { TemplatesNonEmpty(language, t); }
      }
      if Usable(language, t) && t !in init then init + [t] else init
  }

  /** The loop that fills `queries`. */
  method PrepareQueries(language: string, types: seq<string>) returns (queries: seq<string>)
    ensures queries == QueryTypes(language, types)
  {
    queries := [];
    for i := 0 to |types|
      invariant queries == QueryTypes(language, types[..i])
    {
      assert types[..i + 1][..i] == types[..i];
      if Usable(language, types[i]) && types[i] !in queries {
        queries := queries + [types[i]];
      }
    }
    assert types[..|types|] == types;
  }

  datatype Symbol = Symbol(name: string, symbolType: string, start: Point, end: Point)

  /** Only captures named `*.name`, or named after the symbol type itself, become symbols. */
  predicate KeepsCapture(captureName: string, symbolType: string)
  {
    EndsWith(captureName, ".name") || captureName == symbolType
  }

  function SymbolOf(c: Capture, symbolType: string, source: seq<byte>): Symbol
  {
    Symbol(GetNodeText(c.node, source), symbolType, c.node.startPoint, c.node.endPoint)
  }

  /** The symbols of one type, in capture order. */
  function SymbolsOf(symbolType: string, captures: seq<Capture>, source: seq<byte>): (r: seq<Symbol>)
    ensures |r| <= |captures|
    ensures forall s :: s in r ==> s.symbolType == symbolType
  {
    if captures == [] then []
    else
      var init := SymbolsOf(symbolType, captures[..|captures| - 1], source);
      var c := captures[|captures| - 1];
      if KeepsCapture(c.name, symbolType) then init + [SymbolOf(c, symbolType, source)] else init
  }

  /** A symbol is reported iff it comes from a capture the filter keeps. */
  lemma {:induction false} SymbolsOfMembers(symbolType: string, captures: seq<Capture>, source: seq<byte>, s: Symbol)
    ensures s in SymbolsOf(symbolType, captures, source) <==>
              exists i :: 0 <= i < |captures| && KeepsCapture(captures[i].name, symbolType)
                          && s == SymbolOf(captures[i], symbolType, source)
  {
    if captures != [] {
      var init := captures[..|captures| - 1];
      SymbolsOfMembers(symbolType, init, source, s);
      assert forall i :: 0 <= i < |init| ==> init[i] == captures[i];
      if s in SymbolsOf(symbolType, captures, source) && s !in SymbolsOf(symbolType, init, source) {
        assert s == SymbolOf(captures[|captures| - 1], symbolType, source);
      }
    }
  }

  /** The capture loop of `extract_symbols`. */
  method CollectSymbols(symbolType: string, captures: seq<Capture>, source: seq<byte>) returns (symbols: seq<Symbol>)
    ensures symbols == SymbolsOf(symbolType, captures, source)
  {
    symbols := [];
    for i := 0 to |captures|
      invariant symbols == SymbolsOf(symbolType, captures[..i], source)
    {
      assert captures[..i + 1][..i] == captures[..i];
      if KeepsCapture(captures[i].name, symbolType) {
        symbols := symbols + [SymbolOf(captures[i], symbolType, source)];
      }
    }
    assert captures[..|captures|] == captures;
  }

  /** The captures of a symbol type's template on the tree. */
  function RunFor(language: string, symbolType: string, tree: Tree, runQuery: QueryRunner): Option<seq<Capture>>
  {
    if GetQueryTemplate(language, symbolType).Some? then runQuery(GetQueryTemplate(language, symbolType).value, tree)
    else None
  }

  predicate AllRun(language: string, types: seq<string>, tree: Tree, runQuery: QueryRunner)
  {
    forall i :: 0 <= i < |types| ==> RunFor(language, types[i], tree, runQuery).Some?
  }

  /** The symbols dictionary: one entry per query type, holding the symbols its captures yield. */
  ghost predicate IsSymbolTable(symbols: map<string, seq<Symbol>>, language: string, types: seq<string>, tree: Tree,
                          source: seq<byte>, runQuery: QueryRunner)
  {
    && (forall t :: t in symbols <==> t in types)
    && (forall t :: t in symbols ==>
          RunFor(language, t, tree, runQuery).Some?
          && symbols[t] == SymbolsOf(t, RunFor(language, t, tree, runQuery).value, source))
  }

  /** Filing the symbols of one more query type that ran keeps the table whole. */
  lemma TableStep(symbols: map<string, seq<Symbol>>, language: string, done: seq<string>, t: string, tree: Tree,
                  source: seq<byte>, runQuery: QueryRunner)
    requires AllRun(language, done, tree, runQuery) && IsSymbolTable(symbols, language, done, tree, source, runQuery)
    requires RunFor(language, t, tree, runQuery).Some?
    ensures AllRun(language, done + [t], tree, runQuery)
    ensures IsSymbolTable(symbols[t := SymbolsOf(t, RunFor(language, t, tree, runQuery).value, source)],
                          language, done + [t], tree, source, runQuery)
  {
    forall i | 0 <= i < |done + [t]|
      ensures RunFor(language, (done + [t])[i], tree, runQuery).Some?
    {
      if i < |done| { assert (done + [t])[i] == done[i]; }
    }
  }

  /** Runs each query and files its symbols; `None` when a query fails. */
  method SymbolTable(language: string, types: seq<string>, tree: Tree, source: seq<byte>, runQuery: QueryRunner)
    returns (r: Option<map<string, seq<Symbol>>>)
    ensures r.Some? <==> AllRun(language, types, tree, runQuery)
    ensures r.Some? ==> IsSymbolTable(r.value, language, types, tree, source, runQuery)
  {
    var symbols: map<string, seq<Symbol>> := map[];
    for i := 0 to |types|
      invariant AllRun(language, types[..i], tree, runQuery)
      invariant IsSymbolTable(symbols, language, types[..i], tree, source, runQuery)
    {
      var captures := RunFor(language, types[i], tree, runQuery);
      if captures.None? {
        return None;
      }
      var found := CollectSymbols(types[i], captures.value, source);
      assert types[..i + 1] == types[..i] + [types[i]];
      TableStep(symbols, language, types[..i], types[i], tree, source, runQuery);
      symbols := symbols[types[i] := found];
    }
    assert types[..|types|] == types;
    return Some(symbols);
  }

  /**
   * `extract_symbols`: the path is resolved (ProjectError) and guarded
   * (SecurityError); an undetected language, or no template for any
   * requested type (functions, classes and imports by default), is a
   * ValueError; so is any failure to parse or query. Otherwise every query
   * type maps to the symbols its captures yield.
   */
  method ExtractSymbols(project: Project, cache: TreeCache, cfg: Security.SecurityConfig, fs: FileSystem,
                        cwd: seq<string>, filePath: FsPath, symbolTypes: Option<seq<string>>, input: FileInput,
                        parser: Option<seq<byte> -> Tree>, runQuery: QueryRunner,
                        settings: Option<CacheSettings>, now: int)
    returns (r: Result<map<string, seq<Symbol>>>)
    requires cache.Valid()
    modifies cache
    ensures cache.Valid()
    ensures FilePathUnder(project.rootPath, filePath, cwd).Err? ==> r.Err? && r.error.ProjectError?
    ensures FilePathUnder(project.rootPath, filePath, cwd).Ok? ==>
              var abs := FilePathUnder(project.rootPath, filePath, cwd).value;
              var language := Registry.LanguageForFile(PathStr(filePath));
              if Security.ValidateFileAccess(cfg, fs, cwd, abs, project.rootPath).Err? then
                r.Err? && r.error.SecurityError?
              else if language.None? || QueryTypes(language.value, SymbolTypesOrDefault(symbolTypes)) == [] then
                r.Err? && r.error.ValueError?
              else
                var types := QueryTypes(language.value, SymbolTypesOrDefault(symbolTypes));
                var outcome := ParseOutcome(old(cache.Lookup(FileRef(PathStr(abs), input.mtime), language.value, settings, now)),
                                            parser, input.bytes);
                if outcome.None? || !AllRun(language.value, types, outcome.value.0, runQuery) then
                  r.Err? && r.error.ValueError?
                else
                  r.Ok? && IsSymbolTable(r.value, language.value, types, outcome.value.0, outcome.value.1, runQuery)
    // The cache: untouched when the tool stops before the tree; otherwise it went through the file once.
    ensures cache.Config() == old(cache.Config())
    ensures FilePathUnder(project.rootPath, filePath, cwd).Err? ==> cache.State() == old(cache.State())
    ensures FilePathUnder(project.rootPath, filePath, cwd).Ok? ==>
              var abs := FilePathUnder(project.rootPath, filePath, cwd).value;
              var language := Registry.LanguageForFile(PathStr(filePath));
              if Security.ValidateFileAccess(cfg, fs, cwd, abs, project.rootPath).Err? || language.None?
                 || QueryTypes(language.value, SymbolTypesOrDefault(symbolTypes)) == []
              then cache.State() == old(cache.State())
              else cache.State() == ThroughIn(old(cache.State()), old(cache.Config()), FileRef(PathStr(abs), input.mtime),
                                              language.value, parser, input.bytes, settings, now)
  {
    var abs :- FilePathUnder(project.rootPath, filePath, cwd);
    if Security.ValidateFileAccess(cfg, fs, cwd, abs, project.rootPath).Err? {
      return Err(SecurityError("Access denied"));
    }
    var language := Registry.LanguageForFile(PathStr(filePath));
    if language.None? {
      return Err(ValueError("Could not detect language for " + PathStr(filePath)));
    }
    var types := PrepareQueries(language.value, SymbolTypesOrDefault(symbolTypes));
    if types == [] {
      return Err(ValueError("No query templates available for " + language.value));
    }
    r := SymbolsOfFile(cache, PathStr(filePath), FileRef(PathStr(abs), input.mtime), language.value, types, input, parser,
                       runQuery, settings, now);
  }

  /**
   * The part of `extract_symbols` past its guards: the tree (cached or
   * parsed) and one query per prepared type; any failure is a ValueError
   * naming the file as `shown`.
   */
  method SymbolsOfFile(cache: TreeCache, shown: string, file: FileRef, language: string, types: seq<string>,
                       input: FileInput, parser: Option<seq<byte> -> Tree>, runQuery: QueryRunner,
                       settings: Option<CacheSettings>, now: int)
    returns (r: Result<map<string, seq<Symbol>>>)
    requires cache.Valid()
    modifies cache
    ensures cache.Valid()
    ensures var outcome := ParseOutcome(old(cache.Lookup(file, language, settings, now)), parser, input.bytes);
            if outcome.None? || !AllRun(language, types, outcome.value.0, runQuery) then
              r.Err? && r.error.ValueError?
            else
              r.Ok? && IsSymbolTable(r.value, language, types, outcome.value.0, outcome.value.1, runQuery)
    ensures cache.Config() == old(cache.Config())
    ensures cache.State() == ThroughIn(old(cache.State()), old(cache.Config()), file, language, parser, input.bytes,
                                       settings, now)
  {
    var parsed := CachedOrParsed(cache, file, language, input, parser, settings, now);
    if parsed.None? {
      return Err(ValueError("Error extracting symbols from " + shown));
    }
    var table := SymbolTable(language, types, parsed.value.0, parsed.value.1, runQuery);
    if table.None? {
      return Err(ValueError("Error extracting symbols from " + shown));
    }
    return Ok(table.value);
  }

  // ---------------------------------------------------------------------
  // find_dependencies
  // ---------------------------------------------------------------------

  /** The group of an import capture: the text after the first "." of an `import.*` name, else "import". */
  function Category(captureName: string): (c: string)
    ensures StartsWith(captureName, "import.") ==> "import." + c == captureName
    ensures !StartsWith(captureName, "import.") ==> c == "import"
  {
    if StartsWith(captureName, "import.") then captureName[7..] else "import"
  }

  /** The texts of the captures in group `c`, in capture order. */
  function TextsIn(captures: seq<Capture>, source: seq<byte>, c: string): seq<string>
  {
    if captures == [] then []
    else
      var init := TextsIn(captures[..|captures| - 1], source, c);
      var last := captures[|captures| - 1];
      if Category(last.name) == c then init + [GetNodeText(last.node, source)] else init
  }

  /** The grouping `imports[category].append(text)` builds. */
  function Grouped(captures: seq<Capture>, source: seq<byte>): map<string, seq<string>>
  {
    if captures == [] then map[]
    else
      var m := Grouped(captures[..|captures| - 1], source);
      var last := captures[|captures| - 1];
      var c := Category(last.name);
      m[c := (if c in m then m[c] else []) + [GetNodeText(last.node, source)]]
  }

  /**
   * The groups are exactly the categories of the captures, and each group
   * lists the texts of its captures in order.
   */
  lemma {:induction false} GroupedMeaning(captures: seq<Capture>, source: seq<byte>, c: string)
    ensures c in Grouped(captures, source) <==> HasCategory(captures, c)
    ensures c in Grouped(captures, source) ==> Grouped(captures, source)[c] == TextsIn(captures, source, c)
    ensures c !in Grouped(captures, source) ==> TextsIn(captures, source, c) == []
  {
    if captures != [] {
      var init := captures[..|captures| - 1];
      var last := captures[|captures| - 1];
      GroupedMeaning(init, source, c);
      HasCategorySnoc(captures, c);
    }
  }

  /** Some capture falls in group `c`. */
  predicate HasCategory(captures: seq<Capture>, c: string)
  {
    exists i :: 0 <= i < |captures| && Category(captures[i].name) == c
  }

  lemma HasCategorySnoc(captures: seq<Capture>, c: string)
    requires captures != []
    ensures HasCategory(captures, c) <==>
              HasCategory(captures[..|captures| - 1], c) || Category(captures[|captures| - 1].name) == c
  {
    var init := captures[..|captures| - 1];
    if HasCategory(captures, c) && Category(captures[|captures| - 1].name) != c {
      var i :| 0 <= i < |captures| && Category(captures[i].name) == c;
      assert init[i] == captures[i];
    }
    if HasCategory(init, c) {
      var i :| 0 <= i < |init| && Category(init[i].name) == c;
      assert captures[i] == init[i];
    }
  }

  /** The capture loop of `find_dependencies`. */
  method GroupImports(captures: seq<Capture>, source: seq<byte>) returns (imports: map<string, seq<string>>)
    ensures imports == Grouped(captures, source)
  {
    imports := map[];
    for i := 0 to |captures|
      invariant imports == Grouped(captures[..i], source)
    {
      assert captures[..i + 1][..i] == captures[..i];
      var text := GetNodeText(captures[i].node, source);
      var category := Category(captures[i].name);
      imports := imports[category := (if category in imports then imports[category] else []) + [text]];
    }
    assert captures[..|captures|] == captures;
  }

  /**
   * `find_dependencies`: the same path, guard and language errors as symbol
   * extraction; a language without an imports template is a ValueError, as
   * is any failure to parse or query; otherwise the import captures grouped
   * by category.
   */
  method FindDependencies(project: Project, cache: TreeCache, cfg: Security.SecurityConfig, fs: FileSystem,
                          cwd: seq<string>, filePath: FsPath, input: FileInput,
                          parser: Option<seq<byte> -> Tree>, runQuery: QueryRunner,
                          settings: Option<CacheSettings>, now: int)
    returns (r: Result<map<string, seq<string>>>)
    requires cache.Valid()
    modifies cache
    ensures cache.Valid()
    ensures FilePathUnder(project.rootPath, filePath, cwd).Err? ==> r.Err? && r.error.ProjectError?
    ensures FilePathUnder(project.rootPath, filePath, cwd).Ok? ==>
              var abs := FilePathUnder(project.rootPath, filePath, cwd).value;
              var language := Registry.LanguageForFile(PathStr(filePath));
              if Security.ValidateFileAccess(cfg, fs, cwd, abs, project.rootPath).Err? then
                r.Err? && r.error.SecurityError?
              else if language.None? || !Usable(language.value, "imports") then
                r.Err? && r.error.ValueError?
              else
                var outcome := ParseOutcome(old(cache.Lookup(FileRef(PathStr(abs), input.mtime), language.value, settings, now)),
                                            parser, input.bytes);
                if outcome.None? || RunFor(language.value, "imports", outcome.value.0, runQuery).None? then
                  r.Err? && r.error.ValueError?
                else
                  r.Ok? && r.value == Grouped(RunFor(language.value, "imports", outcome.value.0, runQuery).value, outcome.value.1)
    // The cache: untouched when the tool stops before the tree; otherwise it went through the file once.
    ensures cache.Config() == old(cache.Config())
    ensures FilePathUnder(project.rootPath, filePath, cwd).Err? ==> cache.State() == old(cache.State())
    ensures FilePathUnder(project.rootPath, filePath, cwd).Ok? ==>
              var abs := FilePathUnder(project.rootPath, filePath, cwd).value;
              var language := Registry.LanguageForFile(PathStr(filePath));
              if Security.ValidateFileAccess(cfg, fs, cwd, abs, project.rootPath).Err? || language.None?
                 || !Usable(language.value, "imports")
              then cache.State() == old(cache.State())
              else cache.State() == ThroughIn(old(cache.State()), old(cache.Config()), FileRef(PathStr(abs), input.mtime),
                                              language.value, parser, input.bytes, settings, now)
  {
    var abs :- FilePathUnder(project.rootPath, filePath, cwd);
    if Security.ValidateFileAccess(cfg, fs, cwd, abs, project.rootPath).Err? {
      return Err(SecurityError("Access denied"));
    }
    var language := Registry.LanguageForFile(PathStr(filePath));
    if language.None? {
      return Err(ValueError("Could not detect language for " + PathStr(filePath)));
    }
    if !Usable(language.value, "imports") {
      return Err(ValueError("Import query not available for " + language.value));
    }
    var parsed := CachedOrParsed(cache, FileRef(PathStr(abs), input.mtime), language.value, input, parser, settings, now);
    if parsed.None? {
      return Err(ValueError("Error finding dependencies in " + PathStr(filePath)));
    }
    var captures := RunFor(language.value, "imports", parsed.value.0, runQuery);
    if captures.None? {
      return Err(ValueError("Error finding dependencies in " + PathStr(filePath)));
    }
    var imports := GroupImports(captures.value, parsed.value.1);
    return Ok(imports);
  }

  // ---------------------------------------------------------------------
  // analyze_code_complexity
  // ---------------------------------------------------------------------

  /** The number of blank lines (empty once stripped). */
  function EmptyLines(lines: seq<string>): (n: nat)
    ensures n <= |lines|
  {
    if lines == [] then 0
    else EmptyLines(lines[..|lines| - 1]) + (if Strip(lines[|lines| - 1]) == [] then 1 else 0)
  }

  /** The comment starters of the complexity tool; a smaller table than the file helpers'. */
  const CommentStarters: map<string, string> := map[
    "python" := "#", "javascript" := "//", "typescript" := "//", "java" := "//", "c" := "//",
    "cpp" := "//", "go" := "//", "ruby" := "#", "rust" := "//"]

  /** Where both tables know a language they give it the same prefix. */
  lemma CommentStartersAgree(language: string)
    requires language in CommentStarters
    ensures GetCommentPrefix(language) == Some(CommentStarters[language])
  {
  }

  /** The comment lines counted for a language: none for a language without a starter. */
  function CommentLines(language: string, lines: seq<string>): nat
  {
    if language in CommentStarters then CountCommentLines(lines, CommentStarters[language]) else 0
  }

  /** The comment loop of `analyze_code_complexity`. */
  method CountComments(lines: seq<string>, commentStart: string) returns (n: nat)
    ensures n == CountCommentLines(lines, commentStart)
  {
    n := 0;
    for i := 0 to |lines|
      invariant n == CountCommentLines(lines[..i], commentStart)
    {
      assert lines[..i + 1][..i] == lines[..i];
      if IsLineComment(lines[i], commentStart) {
        n := n + 1;
      }
    }
    assert lines[..|lines|] == lines;
  }

  /** Blank lines and comment lines never overlap, so the code line count is never negative. */
  lemma {:induction false} CodeLinesNonNegative(language: string, lines: seq<string>)
    ensures EmptyLines(lines) + CommentLines(language, lines) <= |lines|
  {
    if language in CommentStarters {
      BlankCommentDisjoint(lines, CommentStarters[language]);
    }
  }

  lemma {:induction false} BlankCommentDisjoint(lines: seq<string>, prefix: string)
    requires prefix != []
    ensures EmptyLines(lines) + CountCommentLines(lines, prefix) <= |lines|
  {
    if lines != [] {
      var init := lines[..|lines| - 1];
      BlankCommentDisjoint(init, prefix);
      var last := lines[|lines| - 1];
      if Strip(last) == [] {
        BlankIsNotComment(last, prefix);
      }
    }
  }

  /** The decision node kinds per language; other languages count no decisions. */
  const ComplexityNodes: map<string, seq<string>> := map[
    "python" := ["if_statement", "for_statement", "while_statement", "try_statement"],
    "javascript" := ["if_statement", "for_statement", "while_statement", "try_statement"],
    "typescript" := ["if_statement", "for_statement", "while_statement", "try_statement"]]

  /** `count_nodes`: the node itself when its kind is listed, plus its children's counts. */
  function CountNodes(n: Node, types: seq<string>): nat
    decreases n, 1
  {
    (if n.kind in types then 1 else 0) + CountNodesIn(n.children, types)
  }

  function CountNodesIn(cs: seq<Node>, types: seq<string>): nat
    decreases cs, 0
  {
    if cs == [] then 0
    else CountNodesIn(cs[..|cs| - 1], types) + CountNodes(cs[|cs| - 1], types)
  }

  /** The kinds of all nodes of a tree in pre-order, the root first: the reference for counting. */
  function Kinds(n: Node): (r: seq<string>)
    decreases n, 1
    ensures r != [] && r[0] == n.kind
  {
    [n.kind] + KindsIn(n.children)
  }

  function KindsIn(cs: seq<Node>): seq<string>
    decreases cs, 0
  {
    if cs == [] then [] else KindsIn(cs[..|cs| - 1]) + Kinds(cs[|cs| - 1])
  }

  /** How many elements of `s` are among `types`. */
  function Occurrences(s: seq<string>, types: seq<string>): (k: nat)
    ensures k <= |s|
  {
    if s == [] then 0 else Occurrences(s[..|s| - 1], types) + (if s[|s| - 1] in types then 1 else 0)
  }

  lemma {:induction false} OccurrencesAppend(a: seq<string>, b: seq<string>, types: seq<string>)
    ensures Occurrences(a + b, types) == Occurrences(a, types) + Occurrences(b, types)
    decreases |b|
  {
    if b != [] {
      assert (a + b)[..|a + b| - 1] == a + b[..|b| - 1];
      assert (a + b)[|a + b| - 1] == b[|b| - 1];
      OccurrencesAppend(a, b[..|b| - 1], types);
    } else {
      assert a + b == a;
    }
  }

  /**
   * `count_nodes` counts every node of the tree, root included, whose kind
   * is listed, exactly once: its result is the number of listed kinds in
   * the pre-order list of kinds.
   */
  lemma {:induction false} CountNodesIsOccurrences(n: Node, types: seq<string>)
    ensures CountNodes(n, types) == Occurrences(Kinds(n), types)
    decreases n, 1
  {
    CountNodesInIsOccurrences(n.children, types);
    OccurrencesAppend([n.kind], KindsIn(n.children), types);
    assert Occurrences([n.kind], types) == (if n.kind in types then 1 else 0) by {
      assert [n.kind][..0] == [];
    }
  }

  lemma {:induction false} CountNodesInIsOccurrences(cs: seq<Node>, types: seq<string>)
    ensures CountNodesIn(cs, types) == Occurrences(KindsIn(cs), types)
    decreases cs, 0
  {
    if cs != [] {
      CountNodesInIsOccurrences(cs[..|cs| - 1], types);
      CountNodesIsOccurrences(cs[|cs| - 1], types);
      OccurrencesAppend(KindsIn(cs[..|cs| - 1]), Kinds(cs[|cs| - 1]), types);
    }
  }

  /** The cyclomatic complexity: 1, plus the decision nodes for a language that lists them. */
  function Cyclomatic(language: string, root: Node): (c: nat)
    ensures 1 <= c
    ensures language !in ComplexityNodes ==> c == 1
    ensures language in ComplexityNodes ==> c == 1 + Occurrences(Kinds(root), ComplexityNodes[language])
    ensures c <= 1 + |Kinds(root)|
  {
    if language in ComplexityNodes then
      CountNodesIsOccurrences(root, ComplexityNodes[language]);
      1 + CountNodes(root, ComplexityNodes[language])
    else 1
  }

  /** The integer part of the complexity report. */
  datatype Complexity = Complexity(lineCount: nat, codeLines: int, emptyLines: nat, commentLines: nat,
                                   functionCount: nat, classCount: nat, cyclomatic: nat, language: string)

  /**
   * `analyze_code_complexity`: the usual path, guard and language errors;
   * then the tree (cached or parsed), the file's lines and the function and
   * class symbols are gathered, and any failure among them is a ValueError.
   * `text` is the decoded file as read in text mode.
   */
  method AnalyzeCodeComplexity(project: Project, cache: TreeCache, cfg: Security.SecurityConfig, fs: FileSystem,
                               cwd: seq<string>, filePath: FsPath, input: FileInput, text: Option<string>,
                               parser: Option<seq<byte> -> Tree>, runQuery: QueryRunner,
                               settings: Option<CacheSettings>, now: int)
    returns (r: Result<Complexity>)
    requires cache.Valid()
    modifies cache
    ensures cache.Valid()
    ensures FilePathUnder(project.rootPath, filePath, cwd).Err? ==> r.Err? && r.error.ProjectError?
    ensures FilePathUnder(project.rootPath, filePath, cwd).Ok? ==>
              var abs := FilePathUnder(project.rootPath, filePath, cwd).value;
              var language := Registry.LanguageForFile(PathStr(filePath));
              if Security.ValidateFileAccess(cfg, fs, cwd, abs, project.rootPath).Err? then
                r.Err? && r.error.SecurityError?
              else if language.None? then
                r.Err? && r.error.ValueError?
              else
                var outcome := ParseOutcome(old(cache.Lookup(FileRef(PathStr(abs), input.mtime), language.value, settings, now)),
                                            parser, input.bytes);
                var types := QueryTypes(language.value, ["functions", "classes"]);
                if outcome.None? || text.None? || types == [] || !AllRun(language.value, types, outcome.value.0, runQuery) then
                  r.Err? && r.error.ValueError?
                else
                  var lines := LinesOf(text.value, '\n');
                  var tree := outcome.value.0;
                  && r.Ok?
                  && r.value.language == language.value
                  && r.value.lineCount == |lines|
                  && r.value.emptyLines == EmptyLines(lines)
                  && r.value.commentLines == CommentLines(language.value, lines)
                  && r.value.codeLines == |lines| - EmptyLines(lines) - CommentLines(language.value, lines)
                  && 0 <= r.value.codeLines
                  && r.value.functionCount
                     == (if "functions" in types
                         then |SymbolsOf("functions", RunFor(language.value, "functions", tree, runQuery).value, outcome.value.1)|
                         else 0)
                  && r.value.classCount
                     == (if "classes" in types
                         then |SymbolsOf("classes", RunFor(language.value, "classes", tree, runQuery).value, outcome.value.1)|
                         else 0)
                  && r.value.cyclomatic == Cyclomatic(language.value, tree.root)
    ensures r.Err? ==> r.error.ProjectError? || r.error.SecurityError? || r.error.ValueError?
    // The cache: untouched when the tool stops before the tree; otherwise it went through the file once for
    // the tree and, once the lines are read and a template exists, once more for the symbols.
    ensures cache.Config() == old(cache.Config())
    ensures FilePathUnder(project.rootPath, filePath, cwd).Err? ==> cache.State() == old(cache.State())
    ensures FilePathUnder(project.rootPath, filePath, cwd).Ok? ==>
              var abs := FilePathUnder(project.rootPath, filePath, cwd).value;
              var language := Registry.LanguageForFile(PathStr(filePath));
              if Security.ValidateFileAccess(cfg, fs, cwd, abs, project.rootPath).Err? || language.None? then
                cache.State() == old(cache.State())
              else
                var file := FileRef(PathStr(abs), input.mtime);
                var outcome := ParseOutcome(old(cache.Lookup(file, language.value, settings, now)), parser, input.bytes);
                var b1 := ThroughIn(old(cache.State()), old(cache.Config()), file, language.value, parser, input.bytes,
                                    settings, now);
                if outcome.None? || text.None? || QueryTypes(language.value, ["functions", "classes"]) == [] then
                  cache.State() == b1
                else
                  cache.State() == ThroughIn(b1, old(cache.Config()), file, language.value, parser, input.bytes,
                                             settings, now)
  {
    var abs :- FilePathUnder(project.rootPath, filePath, cwd);
    if Security.ValidateFileAccess(cfg, fs, cwd, abs, project.rootPath).Err? {
      return Err(SecurityError("Access denied"));
    }
    var language := Registry.LanguageForFile(PathStr(filePath));
    if language.None? {
      return Err(ValueError("Could not detect language for " + PathStr(filePath)));
    }
    r := ComplexityOfFile(cache, filePath, FileRef(PathStr(abs), input.mtime), language.value, input, text, parser,
                          runQuery, settings, now);
  }

  /**
   * The part of `analyze_code_complexity` past its guards: the tree (cached
   * or parsed), the line counts, the function and class symbols and the
   * cyclomatic number; any failure among them is a ValueError.
   */
  method ComplexityOfFile(cache: TreeCache, filePath: FsPath, file: FileRef, language: string, input: FileInput,
                          text: Option<string>, parser: Option<seq<byte> -> Tree>, runQuery: QueryRunner,
                          settings: Option<CacheSettings>, now: int)
    returns (r: Result<Complexity>)
    requires cache.Valid()
    modifies cache
    ensures cache.Valid()
    ensures var outcome := ParseOutcome(old(cache.Lookup(file, language, settings, now)), parser, input.bytes);
            var types := QueryTypes(language, ["functions", "classes"]);
            if outcome.None? || text.None? || types == [] || !AllRun(language, types, outcome.value.0, runQuery) then
              r.Err? && r.error.ValueError?
            else
              var lines := LinesOf(text.value, '\n');
              var tree := outcome.value.0;
              && r.Ok?
              && r.value.language == language
              && r.value.lineCount == |lines|
              && r.value.emptyLines == EmptyLines(lines)
              && r.value.commentLines == CommentLines(language, lines)
              && r.value.codeLines == |lines| - EmptyLines(lines) - CommentLines(language, lines)
              && 0 <= r.value.codeLines
              && r.value.functionCount
                 == (if "functions" in types
                     then |SymbolsOf("functions", RunFor(language, "functions", tree, runQuery).value, outcome.value.1)|
                     else 0)
              && r.value.classCount
                 == (if "classes" in types
                     then |SymbolsOf("classes", RunFor(language, "classes", tree, runQuery).value, outcome.value.1)|
                     else 0)
              && r.value.cyclomatic == Cyclomatic(language, tree.root)
    ensures cache.Config() == old(cache.Config())
    ensures var outcome := ParseOutcome(old(cache.Lookup(file, language, settings, now)), parser, input.bytes);
            var b1 := ThroughIn(old(cache.State()), old(cache.Config()), file, language, parser, input.bytes, settings, now);
            if outcome.None? || text.None? || QueryTypes(language, ["functions", "classes"]) == [] then
              cache.State() == b1
            else
              cache.State() == ThroughIn(b1, old(cache.Config()), file, language, parser, input.bytes, settings, now)
  {
    var parsed := CachedOrParsed(cache, file, language, input, parser, settings, now);
    if parsed.None? || text.None? {
      return Err(ValueError("Error analyzing complexity in " + PathStr(filePath)));
    }
    var lines := LinesOf(text.value, '\n');
    var emptyLines := EmptyLines(lines);
    var commentLines := 0;
    if language in CommentStarters {
      commentLines := CountComments(lines, CommentStarters[language]);
    }
    var counts := SymbolCounts(cache, file, language, input, parser, runQuery, settings, now, parsed.value);
    if counts.None? {
      return Err(ValueError("Error analyzing complexity in " + PathStr(filePath)));
    }
    var (functionCount, classCount) := counts.value;
    var cyclomatic := Cyclomatic(language, parsed.value.0.root);
    CodeLinesNonNegative(language, lines);
    return Ok(Complexity(|lines|, |lines| - emptyLines - commentLines, emptyLines, commentLines,
                         functionCount, classCount, cyclomatic, language));
  }

  /**
   * The symbol step of `analyze_code_complexity`: `extract_symbols` for
   * functions and classes, reduced to the two counts. It runs once the
   * path, the guard and the language have passed and the file's tree is at
   * hand; `extract_symbols` repeats those three steps on the same inputs
   * and they pass again, so the step resumes at the query preparation.
   */
  method SymbolCounts(cache: TreeCache, file: FileRef, language: string, input: FileInput,
                      parser: Option<seq<byte> -> Tree>, runQuery: QueryRunner,
                      settings: Option<CacheSettings>, now: int, ghost parsed: (Tree, seq<byte>))
    returns (r: Option<(nat, nat)>)
    requires cache.Valid()
    requires ParseOutcome(cache.Lookup(file, language, settings, now), parser, input.bytes) == Some(parsed)
    modifies cache
    ensures cache.Valid()
    ensures var types := QueryTypes(language, ["functions", "classes"]);
            if types == [] || !AllRun(language, types, parsed.0, runQuery) then r.None?
            else
              && r.Some?
              && r.value.0 == (if "functions" in types
                               then |SymbolsOf("functions", RunFor(language, "functions", parsed.0, runQuery).value, parsed.1)|
                               else 0)
              && r.value.1 == (if "classes" in types
                               then |SymbolsOf("classes", RunFor(language, "classes", parsed.0, runQuery).value, parsed.1)|
                               else 0)
    ensures cache.Config() == old(cache.Config())
    ensures cache.State()
            == if QueryTypes(language, ["functions", "classes"]) == [] then old(cache.State())
               else ThroughIn(old(cache.State()), old(cache.Config()), file, language, parser, input.bytes, settings, now)
  {
    var types := PrepareQueries(language, ["functions", "classes"]);
    if types == [] {
      return None;
    }
    var symbols := SymbolsOfFile(cache, file.path, file, language, types, input, parser, runQuery, settings, now);
    if symbols.Err? {
      return None;
    }
    TableCount(symbols.value, language, types, parsed.0, parsed.1, runQuery, "functions");
    TableCount(symbols.value, language, types, parsed.0, parsed.1, runQuery, "classes");
    var functionCount := if "functions" in symbols.value then |symbols.value["functions"]| else 0;
    var classCount := if "classes" in symbols.value then |symbols.value["classes"]| else 0;
    return Some((functionCount, classCount));
  }

  /** The size of a type's entry in a symbol table, 0 for a type without one. */
  lemma TableCount(symbols: map<string, seq<Symbol>>, language: string, types: seq<string>, tree: Tree,
                   source: seq<byte>, runQuery: QueryRunner, t: string)
    requires IsSymbolTable(symbols, language, types, tree, source, runQuery)
    ensures (if t in symbols then |symbols[t]| else 0)
            == (if t in types then |SymbolsOf(t, RunFor(language, t, tree, runQuery).value, source)| else 0)
  {
  }

  // ---------------------------------------------------------------------
  // analyze_project_structure: the file total
  // ---------------------------------------------------------------------

  /** `sum(languages.values())`. */
  ghost function SumValues(m: map<string, nat>): nat
    decreases |m.Keys|
  {
    if m == map[] then 0
    else
      var k :| k in m;
      m[k] + SumValues(m - {k})
  }

  /** The sum does not depend on which key is taken first. */
  lemma {:induction false} SumValuesRemove(m: map<string, nat>, k: string)
    requires k in m
    ensures SumValues(m) == m[k] + SumValues(m - {k})
    decreases |m.Keys|
  {
    var j :| j in m && SumValues(m) == m[j] + SumValues(m - {j});
    if j != k {
      assert |(m - {j}).Keys| < |m.Keys| by { assert m.Keys == (m - {j}).Keys + {j}; }
      assert |(m - {k}).Keys| < |m.Keys| by { assert m.Keys == (m - {k}).Keys + {k}; }
      SumValuesRemove(m - {j}, k);
      SumValuesRemove(m - {k}, j);
      assert m - {j} - {k} == m - {k} - {j};
    }
  }

  /** The paths the scan classified under some language. */
  ghost function Classified(classify: string -> Option<string>, scanned: set<seq<string>>, langs: set<string>): set<seq<string>>
  {
    set r | r in scanned && LangOf(classify, r).Some? && LangOf(classify, r).value in langs
  }

  /**
   * The total of the per-language counts a scan produces is the number of
   * scanned paths with a language: every such path is counted once.
   */
  lemma TotalFilesCountsClassified(classify: string -> Option<string>, scanned: set<seq<string>>)
    ensures SumValues(CountMap(classify, scanned)) == |set r | r in scanned && LangOf(classify, r).Some?|
  {
    var m := CountMap(classify, scanned);
    SumOverKeys(classify, scanned, m);
    assert Classified(classify, scanned, m.Keys) == set r | r in scanned && LangOf(classify, r).Some? by {
      forall r | r in scanned && LangOf(classify, r).Some?
        ensures LangOf(classify, r).value in m.Keys
      {
        CountMapMeaning(classify, scanned, LangOf(classify, r).value);
      }
    }
  }

  lemma {:induction false} SumOverKeys(classify: string -> Option<string>, scanned: set<seq<string>>, m: map<string, nat>)
    requires forall l :: l in m ==> l in CountMap(classify, scanned) && m[l] == CountMap(classify, scanned)[l]
    ensures SumValues(m) == |Classified(classify, scanned, m.Keys)|
    decreases |m.Keys|
  {
    if m == map[] {
      assert Classified(classify, scanned, m.Keys) == {};
    } else {
      var k :| k in m;
      SumValuesRemove(m, k);
      var rest := m - {k};
      assert m.Keys == rest.Keys + {k};
      SumOverKeys(classify, scanned, rest);
      CountMapMeaning(classify, scanned, k);
      ClassifiedSplit(classify, scanned, rest.Keys, k);
    }
  }

  lemma ClassifiedSplit(classify: string -> Option<string>, scanned: set<seq<string>>, langs: set<string>, k: string)
    requires k !in langs
    ensures |Classified(classify, scanned, langs + {k})|
            == |Classified(classify, scanned, langs)| + |OfLanguage(classify, scanned, k)|
  {
    var a, b := Classified(classify, scanned, langs), OfLanguage(classify, scanned, k);
    assert Classified(classify, scanned, langs + {k}) == a + b;
    assert a !! b;
  }

  datatype Structure = Structure(name: string, path: string, languages: map<string, nat>, totalFiles: nat)

  /**
   * The counting part of `analyze_project_structure`: the project is
   * rescanned as `scan_files` decides, and the report carries its language
   * counts and their total.
   */
  method AnalyzeProjectStructure(project: Project, classify: string -> Option<string>, walk: seq<WalkEntry>, now: int)
    returns (r: Structure)
    modifies project
    ensures r.name == project.name && r.path == PathStr(project.rootPath)
    ensures project.name == old(project.name) && project.rootPath == old(project.rootPath)
            && project.description == old(project.description)
    ensures now - old(project.lastScanTime) < 60 ==>
              project.languages == old(project.languages) && project.lastScanTime == old(project.lastScanTime)
    ensures now - old(project.lastScanTime) >= 60 ==>
              project.languages == CountMap(classify, Elements(Items(project.rootPath, walk)))
              && project.lastScanTime == now
    ensures r.languages == project.languages
    ensures r.totalFiles == SumValues(project.languages)
  {
    var _ := project.ScanFiles(classify, walk, false, now);
    var total := SumCounts(project.languages);
    return Structure(project.name, PathStr(project.rootPath), project.languages, total);
  }

  /** The loop behind `sum(...)`, taking the keys in any order. */
  method SumCounts(counts: map<string, nat>) returns (total: nat)
    ensures total == SumValues(counts)
  {
    total := 0;
    var rest := counts;
    while rest != map[]
      invariant total + SumValues(rest) == SumValues(counts)
      decreases |rest.Keys|
    {
      var k :| k in rest;
      SumValuesRemove(rest, k);
      total := total + rest[k];
      assert rest.Keys == (rest - {k}).Keys + {k};
      rest := rest - {k};
    }
  }
}

=== FILE: ast_cursor.dfy ===
/**
 * The cursor-based conversion of a native node into dictionary records.
 *
 * The records live in a map keyed by node id; a record's `children` list
 * holds the ids of the records appended to it, so the shared mutable dicts
 * of the original become lookups in that map. The loop is proved to build
 * exactly `Materialize`, the fold of `ProcessNode` over the depth-limited
 * preorder of the cursor, and the lemmas below state what that map holds.
 */
module AstCursor {
  import opened Common
  import opened SyntaxTree
  import opened Preorder
  import opened TreeSitterHelpers

  /** A node's id: `hash((start_byte, end_byte, type))`, kept as the tuple itself. */
  datatype NodeKey = NodeKey(startByte: nat, endByte: nat, kind: string)

  function KeyOf(n: Node): NodeKey
  {
    NodeKey(n.startByte, n.endByte, n.kind)
  }

  /** Either a `children` list with its `children_count`, or the `truncated` marker. */
  datatype Kids = Expanded(children: seq<NodeKey>, count: nat) | Truncated

  datatype Record = Record(
    id: NodeKey,
    kind: string,
    startPoint: Point,
    endPoint: Point,
    startByte: nat,
    endByte: nat,
    named: bool,
    text: Option<string>,
    kids: Kids)

  /** The arguments of one conversion; an absent source is the empty one. */
  datatype Settings = Settings(source: seq<byte>, includeChildren: bool, includeText: bool, maxDepth: int)

  type NodeMap = map<NodeKey, Record>

  function NewRecord(n: Node, cfg: Settings, kids: Kids): Record
  {
    Record(KeyOf(n), n.kind, n.startPoint, n.endPoint, n.startByte, n.endByte, n.named,
           if |cfg.source| > 0 && cfg.includeText then Some(GetNodeText(n, cfg.source)) else None,
           kids)
  }

  /** The root record starts with an empty `children` list whatever the depth limit. */
  function RootRecord(start: Node, cfg: Settings): Record
  {
    NewRecord(start, cfg, Expanded([], 0))
  }

  /**
   * `process_node`: a node whose id is registered leaves the map as it is;
   * otherwise its record is registered, expanded below the depth limit and
   * truncated at it, and appended to the parent when the parent has a list.
   */
  function ProcessNode(m: NodeMap, n: Node, parent: NodeKey, depth: int, cfg: Settings): NodeMap
  {
    var id := KeyOf(n);
    if id in m then m
    else
      var m1 := m[id := NewRecord(n, cfg, if depth < cfg.maxDepth then Expanded([], 0) else Truncated)];
      if parent in m && m[parent].kids.Expanded? then
        var cs := m[parent].kids.children + [id];
        m1[parent := m[parent].(kids := Expanded(cs, |cs|))]
      else m1
  }

  /** Registering the same node again changes nothing. */
  lemma ProcessNodeOnce(m: NodeMap, n: Node, parent: NodeKey, depth: int, parent': NodeKey, depth': int, cfg: Settings)
    ensures var m' := ProcessNode(m, n, parent, depth, cfg);
            KeyOf(n) in m' && ProcessNode(m', n, parent', depth', cfg) == m'
  {
  }

  // ---------------------------------------------------------------------
  // The specification: a fold over the cursor's depth-limited preorder
  // ---------------------------------------------------------------------

  /** The cursor enters a node's children only while its depth is below `max_depth`. */
  function DepthLimit(maxDepth: int): Visitor
  {
    (n: Node, f: Option<string>, d: nat) => d < maxDepth
  }

  /** Every call is at a valid, non-root position. */
  predicate BelowRoot(start: Node, calls: seq<VisitCall>)
  {
    forall c :: c in calls ==> ValidPath(start, c.path) && c.path != []
  }

  function Init(start: Node, cfg: Settings): NodeMap
  {
    map[KeyOf(start) := RootRecord(start, cfg)]
  }

  /** One `process_node` call for the node at `c.path`, under the record of its parent. */
  function Step(start: Node, cfg: Settings, m: NodeMap, c: VisitCall): NodeMap
    requires ValidPath(start, c.path) && c.path != []
  {
    ValidParent(start, c.path);
    ProcessNode(m, c.node, KeyOf(NodeAt(start, Parent(c.path))), c.depth, cfg)
  }

  function Fold(start: Node, cfg: Settings, calls: seq<VisitCall>): NodeMap
    requires BelowRoot(start, calls)
  {
    if calls == [] then Init(start, cfg)
    else Step(start, cfg, Fold(start, cfg, calls[..|calls| - 1]), calls[|calls| - 1])
  }

  /** The nodes `process_node` is called on, in order: the walk without its start node. */
  function Events(start: Node, cfg: Settings): seq<VisitCall>
  {
    if !cfg.includeChildren then [] else Walk(start, DepthLimit(cfg.maxDepth))[1..]
  }

  lemma EventsBelowRoot(start: Node, cfg: Settings)
    ensures BelowRoot(start, Events(start, cfg))
  {
    if cfg.includeChildren {
      var w := Walk(start, DepthLimit(cfg.maxDepth));
      WalkVisits(start, DepthLimit(cfg.maxDepth));
      WalkStart(start, DepthLimit(cfg.maxDepth));
      forall c | c in w[1..]
        ensures ValidPath(start, c.path) && c.path != []
      {
        var i :| 0 <= i < |w[1..]| && w[1..][i] == c;
        assert w[i + 1] == c;
      }
    }
  }

  function Materialize(start: Node, cfg: Settings): NodeMap
  {
    EventsBelowRoot(start, cfg);
    Fold(start, cfg, Events(start, cfg))
  }

  // ---------------------------------------------------------------------
  // node_to_dict_cursor
  // ---------------------------------------------------------------------

  /** What the loop still owes when the cursor is at `p` with the given `visited_children`. */
  function Rest(start: Node, maxDepth: int, p: Path, visited: bool): seq<VisitCall>
    requires ValidPath(start, p)
  {
    (if !visited && |p| < maxDepth then WKids(start, DepthLimit(maxDepth), p, 0) else [])
    + WResume(start, DepthLimit(maxDepth), p)
  }

  /** The parent stack holds the ids of the nodes on the path to the cursor. */
  predicate StackOf(start: Node, p: Path, stack: seq<NodeKey>)
  {
    |stack| == |p| && forall k :: 0 <= k < |p| ==> ValidPath(start, p[..k]) && stack[k] == KeyOf(NodeAt(start, p[..k]))
  }

  lemma FoldSnoc(start: Node, cfg: Settings, calls: seq<VisitCall>, c: VisitCall)
    requires BelowRoot(start, calls) && ValidPath(start, c.path) && c.path != []
    ensures BelowRoot(start, calls + [c])
    ensures Fold(start, cfg, calls + [c]) == Step(start, cfg, Fold(start, cfg, calls), c)
  {
    assert (calls + [c])[..|calls|] == calls;
  }

  /** Entering the first child `q` emits its call, and the child starts unvisited. */
  lemma DescendRest(start: Node, maxDepth: int, p: Path, q: Path)
    requires ValidPath(start, p) && |p| < maxDepth && GotoFirstChild(start, p) == Some(q)
    ensures ValidPath(start, q) && |q| == |p| + 1 && Parent(q) == p
    ensures Rest(start, maxDepth, p, false) == [CallAt(start, q)] + Rest(start, maxDepth, q, false)
  {
    var visit := DepthLimit(maxDepth);
    KidsStep(start, visit, p);
    SubRest(start, visit, q);
    assert Enters(start, visit, q) == (|q| < maxDepth);
  }

  /** Moving to the next sibling `q` emits its call, and the sibling starts unvisited. */
  lemma SiblingRest(start: Node, maxDepth: int, p: Path, visited: bool, q: Path)
    requires ValidPath(start, p) && (visited || |p| >= maxDepth) && GotoNextSibling(start, p) == Some(q)
    ensures ValidPath(start, q) && |q| == |p| && p != [] && Parent(q) == Parent(p)
    ensures Rest(start, maxDepth, p, visited) == [CallAt(start, q)] + Rest(start, maxDepth, q, false)
  {
    var visit := DepthLimit(maxDepth);
    SiblingStep(start, visit, p, q);
    SubRest(start, visit, q);
    assert Enters(start, visit, q) == (|q| < maxDepth);
  }

  /** Climbing from a last child emits nothing, and the parent counts as visited. */
  lemma ClimbRest(start: Node, maxDepth: int, p: Path, visited: bool)
    requires ValidPath(start, p) && p != [] && (visited || |p| >= maxDepth) && GotoNextSibling(start, p).None?
    ensures ValidPath(start, Parent(p))
    ensures Rest(start, maxDepth, p, visited) == Rest(start, maxDepth, Parent(p), true)
  {
    ClimbStep(start, DepthLimit(maxDepth), p);
  }

  /** A node without children has nothing left to enter. */
  lemma LeafRest(start: Node, maxDepth: int, p: Path)
    requires ValidPath(start, p) && GotoFirstChild(start, p).None?
    ensures Rest(start, maxDepth, p, false) == Rest(start, maxDepth, p, true)
  {
    assert WKids(start, DepthLimit(maxDepth), p, 0) == [];
  }

  lemma StackPush(start: Node, p: Path, stack: seq<NodeKey>, q: Path)
    requires ValidPath(start, p) && StackOf(start, p, stack) && q != [] && Parent(q) == p
    ensures StackOf(start, q, stack + [KeyOf(NodeAt(start, p))])
  {
    assert q[..|p|] == p;
    assert forall k :: 0 <= k < |p| ==> q[..k] == p[..k];
  }

  lemma StackSibling(start: Node, p: Path, stack: seq<NodeKey>, q: Path)
    requires StackOf(start, p, stack) && p != [] && |q| == |p| && Parent(q) == Parent(p)
    ensures StackOf(start, q, stack)
    ensures ValidPath(start, Parent(q)) && stack[|stack| - 1] == KeyOf(NodeAt(start, Parent(q)))
  {
    assert forall k :: 0 <= k < |p| ==> q[..k] == Parent(q)[..k] == p[..k];
    assert p[..|p| - 1] == Parent(p);
  }

  lemma StackPop(start: Node, p: Path, stack: seq<NodeKey>)
    requires StackOf(start, p, stack) && p != []
    ensures StackOf(start, Parent(p), stack[..|stack| - 1])
    ensures ValidPath(start, Parent(p)) && stack[|stack| - 1] == KeyOf(NodeAt(start, Parent(p)))
  {
    assert forall k :: 0 <= k < |p| - 1 ==> Parent(p)[..k] == p[..k];
    assert p[..|p| - 1] == Parent(p);
  }

  /** The cursor stands at `p`; the stack and the current id match the nodes on the way there. */
  predicate CursorAt(start: Node, p: Path, stack: seq<NodeKey>, current: NodeKey)
  {
    ValidPath(start, p) && StackOf(start, p, stack) && current == KeyOf(NodeAt(start, p))
  }

  /** The map is the one built by the calls made so far. */
  predicate Built(start: Node, cfg: Settings, nodeMap: NodeMap, done: seq<VisitCall>)
  {
    BelowRoot(start, done) && nodeMap == Fold(start, cfg, done)
  }

  /** The calls made so far, followed by those still owed from `p`, make up all events. */
  predicate Owed(start: Node, cfg: Settings, p: Path, visited: bool, done: seq<VisitCall>, rest: seq<VisitCall>)
  {
    ValidPath(start, p) && rest == Rest(start, cfg.maxDepth, p, visited) && done + rest == Events(start, cfg)
  }

  lemma BuiltStep(start: Node, cfg: Settings, nodeMap: NodeMap, done: seq<VisitCall>, q: Path)
    requires Built(start, cfg, nodeMap, done) && ValidPath(start, q) && q != []
    ensures ValidPath(start, Parent(q))
    ensures Built(start, cfg, ProcessNode(nodeMap, NodeAt(start, q), KeyOf(NodeAt(start, Parent(q))), |q|, cfg),
                  done + [CallAt(start, q)])
  {
    var c := CallAt(start, q);
    ValidParent(start, q);
    FoldSnoc(start, cfg, done, c);
    assert c.path == q && c.node == NodeAt(start, q) && c.depth == |q|;
  }

  lemma DescendOwed(start: Node, cfg: Settings, p: Path, done: seq<VisitCall>, rest: seq<VisitCall>, q: Path)
    requires Owed(start, cfg, p, false, done, rest) && |p| < cfg.maxDepth && GotoFirstChild(start, p) == Some(q)
    ensures ValidPath(start, q) && |q| == |p| + 1 && Parent(q) == p
    ensures Owed(start, cfg, q, false, done + [CallAt(start, q)], Rest(start, cfg.maxDepth, q, false))
    ensures |Rest(start, cfg.maxDepth, q, false)| < |rest|
  {
    DescendRest(start, cfg.maxDepth, p, q);
    Shift(done, CallAt(start, q), Rest(start, cfg.maxDepth, q, false));
  }

  lemma SiblingOwed(start: Node, cfg: Settings, p: Path, visited: bool, done: seq<VisitCall>, rest: seq<VisitCall>, q: Path)
    requires Owed(start, cfg, p, visited, done, rest) && (visited || |p| >= cfg.maxDepth)
    requires GotoNextSibling(start, p) == Some(q)
    ensures ValidPath(start, q) && |q| == |p| && p != [] && Parent(q) == Parent(p)
    ensures Owed(start, cfg, q, false, done + [CallAt(start, q)], Rest(start, cfg.maxDepth, q, false))
    ensures |Rest(start, cfg.maxDepth, q, false)| < |rest|
  {
    SiblingRest(start, cfg.maxDepth, p, visited, q);
    Shift(done, CallAt(start, q), Rest(start, cfg.maxDepth, q, false));
  }

  /** Before the loop: nothing is done, and everything below the start node is owed. */
  lemma OwedAtStart(start: Node, cfg: Settings)
    requires cfg.includeChildren && cfg.maxDepth > 0
    ensures Owed(start, cfg, [], false, [], Rest(start, cfg.maxDepth, [], false))
    ensures Built(start, cfg, Init(start, cfg), [])
  {
    WalkBegin(start, DepthLimit(cfg.maxDepth));
  }

  /** Back at the start node with its children visited, nothing is owed. */
  lemma OwedAtEnd(start: Node, cfg: Settings, done: seq<VisitCall>, rest: seq<VisitCall>)
    requires Owed(start, cfg, [], true, done, rest)
    ensures done == Events(start, cfg)
  {
  }

  /** With children excluded or `max_depth <= 0`, nothing is owed at all. */
  lemma NothingOwed(start: Node, cfg: Settings)
    requires !cfg.includeChildren || cfg.maxDepth <= 0
    ensures Events(start, cfg) == [] && BelowRoot(start, [])
  {
    if cfg.includeChildren {
      WalkBegin(start, DepthLimit(cfg.maxDepth));
    }
  }

  lemma Shift(done: seq<VisitCall>, c: VisitCall, r: seq<VisitCall>)
    ensures done + ([c] + r) == (done + [c]) + r
  {
  }

  /**
   * `node_to_dict_cursor`: returns the root id and the records reachable
   * from it, which are exactly `Materialize(start, cfg)`.
   */
  method NodeToDictCursor(start: Node, cfg: Settings) returns (root: NodeKey, nodeMap: NodeMap)
    ensures root == KeyOf(start) && nodeMap == Materialize(start, cfg)
  {
    root := KeyOf(start);
    nodeMap := map[root := RootRecord(start, cfg)];
    var maxDepth := cfg.maxDepth;
    if !cfg.includeChildren || maxDepth <= 0 {
      NothingOwed(start, cfg);
      return;
    }
    var p: Path := [];
    var current := root;
    var stack: seq<NodeKey> := [];
    var depth := 0;
    var visited := false;
    ghost var done: seq<VisitCall> := [];
    ghost var rest := Rest(start, maxDepth, p, visited);
    OwedAtStart(start, cfg);
    while true
      invariant CursorAt(start, p, stack, current) && depth == |p|
      invariant Built(start, cfg, nodeMap, done)
      invariant Owed(start, cfg, p, visited, done, rest)
      decreases |rest|, |p| + (if visited then 0 else 1)
    {
      if !visited && depth < maxDepth {
        var child := GotoFirstChild(start, p);
        if child.Some? {
          var q := child.value;
          DescendOwed(start, cfg, p, done, rest, q);
          BuiltStep(start, cfg, nodeMap, done, q);
          StackPush(start, p, stack, q);
          depth := depth + 1;
          stack := stack + [current];
          nodeMap := ProcessNode(nodeMap, NodeAt(start, q), current, depth, cfg);
          current := KeyOf(NodeAt(start, q));
          p := q;
          done := done + [CallAt(start, q)];
          rest := Rest(start, maxDepth, q, false);
        } else {
          LeafRest(start, maxDepth, p);
          visited := true;
        }
      } else {
        var sibling := GotoNextSibling(start, p);
        if sibling.Some? {
          var q := sibling.value;
          SiblingOwed(start, cfg, p, visited, done, rest, q);
          BuiltStep(start, cfg, nodeMap, done, q);
          StackSibling(start, p, stack, q);
          nodeMap := ProcessNode(nodeMap, NodeAt(start, q), stack[|stack| - 1], depth, cfg);
          current := KeyOf(NodeAt(start, q));
          p := q;
          visited := false;
          done := done + [CallAt(start, q)];
          rest := Rest(start, maxDepth, q, false);
        } else if stack != [] {
          ClimbRest(start, maxDepth, p, visited);
          StackPop(start, p, stack);
          p := GotoParent(start, p).value;
          current := stack[|stack| - 1];
          stack := stack[..|stack| - 1];
          depth := depth - 1;
          visited := true;
          if stack == [] {
            break;
          }
        } else {
          break;
        }
      }
    }
    OwedAtEnd(start, cfg, done, rest);
  }

  // ---------------------------------------------------------------------
  // Which nodes the depth-limited walk meets
  // ---------------------------------------------------------------------

  /** Under `max_depth`, the cursor reaches exactly the nodes at most `max_depth` below the start. */
  lemma ReachedWithinDepth(start: Node, maxDepth: int, q: Path)
    requires ValidPath(start, q)
    ensures Reached(start, DepthLimit(maxDepth), q) <==> q == [] || |q| <= maxDepth
  {
    var visit := DepthLimit(maxDepth);
    forall k | 0 <= k < |q|
      ensures ValidPath(start, q[..k]) && (Enters(start, visit, q[..k]) <==> k < maxDepth)
    {
      ValidPrefix(start, q, k);
    }
    if q != [] && !(|q| <= maxDepth) {
      assert !Enters(start, visit, q[..|q| - 1]);
    }
  }

  /** `process_node` is called once for every node from depth 1 to `max_depth`, and for no other. */
  lemma EventsExact(start: Node, cfg: Settings)
    ensures forall c :: c in Events(start, cfg) ==>
              cfg.includeChildren && ValidPath(start, c.path) && c == CallAt(start, c.path)
              && 1 <= |c.path| <= cfg.maxDepth
    ensures forall q :: cfg.includeChildren && ValidPath(start, q) && 1 <= |q| <= cfg.maxDepth ==>
              exists c :: c in Events(start, cfg) && c.path == q
  {
    if cfg.includeChildren {
      var visit := DepthLimit(cfg.maxDepth);
      var w := Walk(start, visit);
      WalkVisits(start, visit);
      WalkStart(start, visit);
      assert Events(start, cfg) == w[1..];
      forall c | c in w[1..]
        ensures ValidPath(start, c.path) && c == CallAt(start, c.path) && 1 <= |c.path| <= cfg.maxDepth
      {
        ReachedWithinDepth(start, cfg.maxDepth, c.path);
      }
      forall q | ValidPath(start, q) && 1 <= |q| <= cfg.maxDepth
        ensures exists c :: c in w[1..] && c.path == q
      {
        ReachedWithinDepth(start, cfg.maxDepth, q);
        var c :| c in w && c.path == q;
        var i :| 0 <= i < |w| && w[i] == c;
        assert i != 0;
        assert w[1..][i - 1] == c;
      }
    }
  }

  // ---------------------------------------------------------------------
  // What the map holds
  // ---------------------------------------------------------------------

  /** The record under `k` describes the node of some call with that id, and is expanded iff that call is above the depth limit. */
  predicate RecordedFrom(cfg: Settings, calls: seq<VisitCall>, k: NodeKey, r: Record)
  {
    exists c :: c in calls && KeyOf(c.node) == k && r == NewRecord(c.node, cfg, r.kids)
                && (r.kids.Expanded? <==> c.depth < cfg.maxDepth)
  }

  /** Every `children` list has its count and names registered records only. */
  predicate ChildrenClosed(m: NodeMap)
  {
    forall k | k in m && m[k].kids.Expanded? ::
      m[k].kids.count == |m[k].kids.children| && forall j :: j in m[k].kids.children ==> j in m
  }

  predicate WellFormed(start: Node, cfg: Settings, calls: seq<VisitCall>, m: NodeMap)
  {
    && KeyOf(start) in m
    && m[KeyOf(start)] == NewRecord(start, cfg, m[KeyOf(start)].kids)
    && m[KeyOf(start)].kids.Expanded?
    && ChildrenClosed(m)
    && (forall k | k in m && k != KeyOf(start) :: RecordedFrom(cfg, calls, k, m[k]))
  }

  function CallKeys(calls: seq<VisitCall>): set<NodeKey>
  {
    set c | c in calls :: KeyOf(c.node)
  }

  /** One `process_node` call registers its node's id and changes at most the parent's children list. */
  lemma ProcessNodeEffect(m: NodeMap, n: Node, parent: NodeKey, depth: int, cfg: Settings)
    ensures var m' := ProcessNode(m, n, parent, depth, cfg);
      && m'.Keys == m.Keys + {KeyOf(n)}
      && (KeyOf(n) !in m ==> m'[KeyOf(n)] == NewRecord(n, cfg, if depth < cfg.maxDepth then Expanded([], 0) else Truncated))
      && (forall k | k in m && k != parent :: m'[k] == m[k])
      && (parent in m ==>
            || m'[parent] == m[parent]
            || (KeyOf(n) !in m && m[parent].kids.Expanded?
                && m'[parent] == m[parent].(kids := Expanded(m[parent].kids.children + [KeyOf(n)], |m[parent].kids.children| + 1))))
  {
  }

  /** `process_node` keeps every `children_count` right and lists only registered ids. */
  lemma ProcessNodeClosed(m: NodeMap, n: Node, parent: NodeKey, depth: int, cfg: Settings)
    requires ChildrenClosed(m)
    ensures ChildrenClosed(ProcessNode(m, n, parent, depth, cfg))
  {
    var m' := ProcessNode(m, n, parent, depth, cfg);
    ProcessNodeEffect(m, n, parent, depth, cfg);
    forall k | k in m' && m'[k].kids.Expanded?
      ensures m'[k].kids.count == |m'[k].kids.children| && forall j :: j in m'[k].kids.children ==> j in m'
    {
    }
  }

  /** One more `process_node` call keeps the map well formed. */
  lemma StepWellFormed(start: Node, cfg: Settings, init: seq<VisitCall>, c: VisitCall)
    requires BelowRoot(start, init) && ValidPath(start, c.path) && c.path != []
    requires WellFormed(start, cfg, init, Fold(start, cfg, init))
    ensures WellFormed(start, cfg, init + [c], Step(start, cfg, Fold(start, cfg, init), c))
  {
    var m := Fold(start, cfg, init);
    ValidParent(start, c.path);
    var parent := KeyOf(NodeAt(start, Parent(c.path)));
    var m' := Step(start, cfg, m, c);
    ProcessNodeEffect(m, c.node, parent, c.depth, cfg);
    ProcessNodeClosed(m, c.node, parent, c.depth, cfg);
    forall k | k in m' && k != KeyOf(start)
      ensures RecordedFrom(cfg, init + [c], k, m'[k])
    {
      if k in m {
        var w :| w in init && KeyOf(w.node) == k && m[k] == NewRecord(w.node, cfg, m[k].kids)
                 && (m[k].kids.Expanded? <==> w.depth < cfg.maxDepth);
        assert w in init + [c];
      } else {
        assert c in init + [c];
      }
    }
  }

  lemma {:induction false} FoldWellFormed(start: Node, cfg: Settings, calls: seq<VisitCall>)
    requires BelowRoot(start, calls)
    ensures Fold(start, cfg, calls).Keys == {KeyOf(start)} + CallKeys(calls)
    ensures WellFormed(start, cfg, calls, Fold(start, cfg, calls))
  {
    if calls != [] {
      var init := calls[..|calls| - 1];
      var c := calls[|calls| - 1];
      assert calls == init + [c];
      assert BelowRoot(start, init);
      FoldWellFormed(start, cfg, init);
      ValidParent(start, c.path);
      ProcessNodeEffect(Fold(start, cfg, init), c.node, KeyOf(NodeAt(start, Parent(c.path))), c.depth, cfg);
      assert CallKeys(calls) == CallKeys(init) + {KeyOf(c.node)};
      StepWellFormed(start, cfg, init, c);
    }
  }

  /**
   * The records `node_to_dict_cursor` builds: the start node's, expanded,
   * and one per other node id met, describing that node, with every
   * `children_count` equal to the length of its list and every listed
   * child registered.
   */
  lemma MaterializeWellFormed(start: Node, cfg: Settings)
    ensures WellFormed(start, cfg, Events(start, cfg), Materialize(start, cfg))
    ensures Materialize(start, cfg).Keys == {KeyOf(start)} + CallKeys(Events(start, cfg))
  {
    EventsBelowRoot(start, cfg);
    FoldWellFormed(start, cfg, Events(start, cfg));
  }

  /** Every node from depth 1 to `max_depth` has a record when children are included. */
  lemma MaterializeCovers(start: Node, cfg: Settings, q: Path)
    requires cfg.includeChildren && ValidPath(start, q) && 1 <= |q| <= cfg.maxDepth
    ensures KeyOf(NodeAt(start, q)) in Materialize(start, cfg)
  {
    EventsExact(start, cfg);
    MaterializeWellFormed(start, cfg);
    var c :| c in Events(start, cfg) && c.path == q;
    assert KeyOf(c.node) in CallKeys(Events(start, cfg));
  }

  /**
   * Every record other than the start node's describes a node from depth 1
   * to `max_depth`, and is truncated exactly when that node sits at `max_depth`.
   */
  lemma MaterializeOnly(start: Node, cfg: Settings, k: NodeKey)
    requires k in Materialize(start, cfg) && k != KeyOf(start)
    ensures cfg.includeChildren
    ensures exists q :: ValidPath(start, q) && 1 <= |q| <= cfg.maxDepth && KeyOf(NodeAt(start, q)) == k
               && Materialize(start, cfg)[k] == NewRecord(NodeAt(start, q), cfg, Materialize(start, cfg)[k].kids)
               && (Materialize(start, cfg)[k].kids.Truncated? <==> |q| == cfg.maxDepth)
  {
    EventsExact(start, cfg);
    MaterializeWellFormed(start, cfg);
    var m := Materialize(start, cfg);
    var c :| c in Events(start, cfg) && KeyOf(c.node) == k && m[k] == NewRecord(c.node, cfg, m[k].kids)
             && (m[k].kids.Expanded? <==> c.depth < cfg.maxDepth);
    assert ValidPath(start, c.path) && c.node == NodeAt(start, c.path);
  }

  /** Without children, or with `max_depth <= 0`, only the start node's record exists, with an empty list. */
  lemma MaterializeShallow(start: Node, cfg: Settings)
    requires !cfg.includeChildren || cfg.maxDepth <= 0
    ensures Materialize(start, cfg) == map[KeyOf(start) := NewRecord(start, cfg, Expanded([], 0))]
  {
    if cfg.includeChildren {
      WalkBegin(start, DepthLimit(cfg.maxDepth));
    }
  }

  // ---------------------------------------------------------------------
  // What each children list holds
  // ---------------------------------------------------------------------

  /** No two nodes of the tree share an id. */
  ghost predicate DistinctIds(start: Node)
  {
    forall p, q :: ValidPath(start, p) && ValidPath(start, q) && KeyOf(NodeAt(start, p)) == KeyOf(NodeAt(start, q)) ==> p == q
  }

  /** The ids of a node's native children, in order. */
  function ChildKeys(n: Node): seq<NodeKey>
  {
    seq(|n.children|, i requires 0 <= i < |n.children| => KeyOf(n.children[i]))
  }

  /** The ids of the calls in `calls` at children of the node at `p`, in call order. */
  function KidsOf(calls: seq<VisitCall>, p: Path): seq<NodeKey>
  {
    if calls == [] then []
    else
      var c := calls[|calls| - 1];
      KidsOf(calls[..|calls| - 1], p) + (if c.path != [] && Parent(c.path) == p then [KeyOf(c.node)] else [])
  }

  lemma {:induction false} KidsOfConcat(a: seq<VisitCall>, b: seq<VisitCall>, p: Path)
    ensures KidsOf(a + b, p) == KidsOf(a, p) + KidsOf(b, p)
    decreases |b|
  {
    if b == [] {
      assert a + b == a;
    } else {
      var b0 := b[..|b| - 1];
      assert (a + b)[..|a + b| - 1] == a + b0;
      KidsOfConcat(a, b0, p);
    }
  }

  lemma {:induction false} KidsOfNone(calls: seq<VisitCall>, p: Path)
    requires forall c :: c in calls ==> c.path == [] || Parent(c.path) != p
    ensures KidsOf(calls, p) == []
    decreases |calls|
  {
    if calls != [] {
      KidsOfNone(calls[..|calls| - 1], p);
    }
  }

  /**
   * Among the calls of the subtree walk at `r`, those at children of an
   * entered, reached node `p` are: `r` itself when `p` is its parent, and
   * every child of `p`, in order, when `p` lies in that subtree.
   */
  lemma {:induction false} SubKids(start: Node, visit: Visitor, p: Path, r: Path)
    requires ValidPath(start, r) && Reached(start, visit, p) && Enters(start, visit, p)
    ensures KidsOf(WSub(start, visit, r), p)
            == if r != [] && Parent(r) == p then [KeyOf(NodeAt(start, r))]
               else if Under(p, r) then ChildKeys(NodeAt(start, p))
               else []
    decreases Height(start) - |r|, |NodeAt(start, r).children| + 1
  {
    PathWithinHeight(start, r);
    var head := [CallAt(start, r)];
    var own := KidsOf(head, p);
    HeadKids(start, r, p);
    PathCases(p, r);
    OpenAncestor(start, visit, p, r);
    if Enters(start, visit, r) {
      var kids := WKids(start, visit, r, 0);
      assert WSub(start, visit, r) == head + kids;
      KidsOfConcat(head, kids, p);
      KidsKids(start, visit, p, r, 0);
      assert ChildKeys(NodeAt(start, r))[0..] == ChildKeys(NodeAt(start, r));
      SubPick(KidsOf(WSub(start, visit, r), p), own, KidsOf(kids, p),
              [KeyOf(NodeAt(start, r))], ChildKeys(NodeAt(start, r))[0..], ChildKeys(NodeAt(start, p)),
              r != [] && Parent(r) == p, p == r, DeeperFrom(p, r, 0), Under(p, r));
    } else {
      assert WSub(start, visit, r) == head;
    }
  }

  /** The case split that assembles `SubKids` from its two parts. */
  lemma SubPick(whole: seq<NodeKey>, own: seq<NodeKey>, below: seq<NodeKey>,
                key: seq<NodeKey>, ck: seq<NodeKey>, ckp: seq<NodeKey>,
                isKid: bool, same: bool, deeper: bool, under: bool)
    requires whole == own + below
    requires own == if isKid then key else []
    requires below == if same then ck else if deeper then ckp else []
    requires same ==> ck == ckp
    requires isKid ==> !under && !same && !deeper
    requires under <==> same || deeper
    ensures whole == if isKid then key else if under then ckp else []
  {
    if !isKid {
      assert own == [];
    } else {
      assert below == [];
    }
  }

  /** The call at `r` alone holds a child of `p` exactly when `p` is its parent. */
  lemma HeadKids(start: Node, r: Path, p: Path)
    requires ValidPath(start, r)
    ensures KidsOf([CallAt(start, r)], p)
            == if r != [] && Parent(r) == p then [KeyOf(NodeAt(start, r))] else []
  {
    assert [CallAt(start, r)][..0] == [];
  }

  /** How a path `p` can sit relative to the subtree at `r`. */
  lemma PathCases(p: Path, r: Path)
    ensures r != [] && Parent(r) == p ==> !Under(p, r) && p != r && !DeeperFrom(p, r, 0)
    ensures Under(p, r) <==> p == r || DeeperFrom(p, r, 0)
  {
    if Under(p, r) && |r| == |p| {
      assert p[..|p|] == p;
    }
    if p == r {
      assert p[..|r|] == p;
    }
  }

  /** An ancestor of an entered, reached node was entered too. */
  lemma OpenAncestor(start: Node, visit: Visitor, p: Path, r: Path)
    requires ValidPath(start, r) && Reached(start, visit, p) && Enters(start, visit, p)
    ensures Under(p, r) ==> Enters(start, visit, r)
  {
    if Under(p, r) && p != r {
      assert p[..|r|] == r;
    }
  }

  /** A path lies under child `i` of `r` iff it continues `r` with `i`. */
  lemma UnderChild(p: Path, r: Path, i: nat)
    ensures Under(p, r + [i]) <==> |r| < |p| && p[..|r|] == r && p[|r|] == i
  {
    if |r| < |p| && p[..|r|] == r && p[|r|] == i {
      ChildOfUnder(r, p);
    }
    if Under(p, r + [i]) {
      ChildPrefix(r, i, p);
    }
  }

  /** `p` lies strictly below `r`, under child `i` of `r` or a later one. */
  predicate DeeperFrom(p: Path, r: Path, i: nat)
  {
    |r| < |p| && p[..|r|] == r && i <= p[|r|]
  }

  lemma {:induction false} KidsKids(start: Node, visit: Visitor, p: Path, r: Path, i: nat)
    requires ValidPath(start, r) && i <= |NodeAt(start, r).children|
    requires Reached(start, visit, p) && Enters(start, visit, p)
    ensures KidsOf(WKids(start, visit, r, i), p)
            == if p == r then ChildKeys(NodeAt(start, r))[i..]
               else if DeeperFrom(p, r, i) then ChildKeys(NodeAt(start, p))
               else []
    decreases Height(start) - |r|, |NodeAt(start, r).children| - i
  {
    if i == |NodeAt(start, r).children| {
      KidsEnd(start, p, r);
    } else {
      ValidSnoc(start, r, i);
      PathWithinHeight(start, r + [i]);
      var sub := WSub(start, visit, r + [i]);
      var rest := WKids(start, visit, r, i + 1);
      var ck := ChildKeys(NodeAt(start, r));
      var ckp := ChildKeys(NodeAt(start, p));
      assert KidsOf(WKids(start, visit, r, i), p) == KidsOf(sub, p) + KidsOf(rest, p) by {
        KidsUnfold(start, visit, r, i);
        KidsOfConcat(sub, rest, p);
      }
      assert KidsOf(sub, p) == if p == r then [ck[i]] else if Under(p, r + [i]) then ckp else [] by {
        ParentSnoc(r, i);
        SubKids(start, visit, p, r + [i]);
      }
      assert KidsOf(rest, p) == if p == r then ck[i + 1..] else if DeeperFrom(p, r, i + 1) then ckp else [] by {
        KidsKids(start, visit, p, r, i + 1);
      }
      DeeperSplit(p, r, i);
      DropOne(ck, i);
      KidsPick(KidsOf(WKids(start, visit, r, i), p), KidsOf(sub, p), KidsOf(rest, p),
               [ck[i]], ck[i + 1..], ck[i..], ckp,
               p == r, Under(p, r + [i]), DeeperFrom(p, r, i + 1), DeeperFrom(p, r, i));
    }
  }

  /** The case split that assembles `KidsKids` from child `i` and the children after it. */
  lemma KidsPick(whole: seq<NodeKey>, a: seq<NodeKey>, b: seq<NodeKey>,
                 key: seq<NodeKey>, tail: seq<NodeKey>, full: seq<NodeKey>, ckp: seq<NodeKey>,
                 same: bool, at: bool, later: bool, deeper: bool)
    requires whole == a + b
    requires a == if same then key else if at then ckp else []
    requires b == if same then tail else if later then ckp else []
    requires same ==> full == key + tail && !at
    requires deeper <==> at || later
    requires !(at && later)
    ensures whole == if same then full else if deeper then ckp else []
  {
    if !same && at {
      assert b == [];
    } else if !same {
      assert a == [];
    }
  }

  /** A suffix starting at `i` is its first element followed by the rest. */
  lemma DropOne<T>(s: seq<T>, i: nat)
    requires i < |s|
    ensures s[i..] == [s[i]] + s[i + 1..]
  {
  }

  /** Lying under child `i` of `r` or a later one splits into the two cases. */
  lemma DeeperSplit(p: Path, r: Path, i: nat)
    ensures DeeperFrom(p, r, i) <==> Under(p, r + [i]) || DeeperFrom(p, r, i + 1)
    ensures !(Under(p, r + [i]) && DeeperFrom(p, r, i + 1))
    ensures p == r ==> !Under(p, r + [i])
  {
    UnderChild(p, r, i);
  }

  /** No valid path lies under a child index past the last child. */
  lemma KidsEnd(start: Node, p: Path, r: Path)
    requires ValidPath(start, r) && ValidPath(start, p)
    ensures !DeeperFrom(p, r, |NodeAt(start, r).children|)
  {
    if |r| < |p| && p[..|r|] == r {
      ValidPrefix(start, p, |r| + 1);
      assert p[..|r| + 1] == r + [p[|r|]];
      ValidSnoc(start, r, p[|r|]);
    }
  }

  /** The ids `process_node` files under a node above the depth limit are those of its native children, in order. */
  lemma EventsKids(start: Node, cfg: Settings, p: Path)
    requires cfg.includeChildren && ValidPath(start, p) && |p| < cfg.maxDepth
    ensures KidsOf(Events(start, cfg), p) == ChildKeys(NodeAt(start, p))
  {
    var visit := DepthLimit(cfg.maxDepth);
    var w := Walk(start, visit);
    ReachedWithinDepth(start, cfg.maxDepth, p);
    assert Enters(start, visit, p);
    SubKids(start, visit, p, []);
    assert Under(p, []);
    assert KidsOf(w, p) == ChildKeys(NodeAt(start, p));
    WalkStart(start, visit);
    assert w == [w[0]] + w[1..];
    KidsOfConcat([w[0]], w[1..], p);
    assert [w[0]][..0] == [];
    assert KidsOf([w[0]], p) == [];
  }

  /** Every call of `Events` has its parent at the start node or at an earlier call. */
  lemma EventsParents(start: Node, cfg: Settings)
    ensures ParentsBefore(Events(start, cfg), [])
  {
    if cfg.includeChildren {
      var visit := DepthLimit(cfg.maxDepth);
      var w := Walk(start, visit);
      if Enters(start, visit, []) {
        KidsParents(start, visit, [], 0);
        assert w[1..] == WKids(start, visit, [], 0);
      } else {
        assert w[1..] == [];
      }
    }
  }

  /** Dropping the last call keeps the calls one per node and parents first. */
  lemma PrefixOrdered(calls: seq<VisitCall>)
    requires calls != [] && DistinctPaths(calls) && ParentsBefore(calls, [])
    ensures DistinctPaths(calls[..|calls| - 1]) && ParentsBefore(calls[..|calls| - 1], [])
  {
    var init := calls[..|calls| - 1];
    forall i | 0 <= i < |init|
      ensures init[i].path != [] && (Parent(init[i].path) == [] || exists j :: 0 <= j < i && init[j].path == Parent(init[i].path))
    {
      if Parent(calls[i].path) != [] {
        var j :| 0 <= j < i && calls[j].path == Parent(calls[i].path);
        assert init[j] == calls[j];
      }
    }
  }

  /** With distinct ids, the last call's node is not registered by the calls before it. */
  lemma FreshCall(start: Node, cfg: Settings, calls: seq<VisitCall>)
    requires calls != [] && DistinctIds(start) && DistinctPaths(calls)
    requires forall c :: c in calls ==> ValidPath(start, c.path) && c == CallAt(start, c.path) && 1 <= |c.path|
    ensures BelowRoot(start, calls[..|calls| - 1])
    ensures KeyOf(calls[|calls| - 1].node) !in Fold(start, cfg, calls[..|calls| - 1])
  {
    var init := calls[..|calls| - 1];
    var c := calls[|calls| - 1];
    assert c in calls;
    assert BelowRoot(start, init) by {
      forall x | x in init ensures ValidPath(start, x.path) && x.path != [] {
        assert x in calls;
      }
    }
    FoldWellFormed(start, cfg, init);
    assert NodeAt(start, []) == start;
    forall x | x in init ensures KeyOf(x.node) != KeyOf(c.node) {
      var k :| 0 <= k < |init| && init[k] == x;
      assert calls[k] == x;
    }
  }

  /** When parents come first, no call before the one at `q` is at a child of `q`. */
  lemma NoKidsBefore(calls: seq<VisitCall>)
    requires calls != [] && DistinctPaths(calls) && ParentsBefore(calls, [])
    ensures KidsOf(calls[..|calls| - 1], calls[|calls| - 1].path) == []
  {
    var init := calls[..|calls| - 1];
    var q := calls[|calls| - 1].path;
    forall x | x in init ensures x.path == [] || Parent(x.path) != q {
      var k :| 0 <= k < |init| && init[k] == x;
      assert calls[k] == x;
    }
    KidsOfNone(init, q);
  }

  /** One `process_node` call for a fresh node: its own list starts empty, its parent's grows by its id, no other list changes. */
  lemma StepKids(start: Node, cfg: Settings, m: NodeMap, c: VisitCall, p: Path, ks: seq<NodeKey>)
    requires DistinctIds(start) && ValidPath(start, c.path) && c.path != [] && c == CallAt(start, c.path)
    requires |c.path| <= cfg.maxDepth && KeyOf(c.node) !in m
    requires ValidPath(start, p) && |p| < cfg.maxDepth
    requires p == c.path ==> ks == []
    requires p != c.path ==> KeyOf(NodeAt(start, p)) in m && m[KeyOf(NodeAt(start, p))].kids == Expanded(ks, |ks|)
    ensures var ks' := ks + (if Parent(c.path) == p then [KeyOf(c.node)] else []);
            KeyOf(NodeAt(start, p)) in Step(start, cfg, m, c)
            && Step(start, cfg, m, c)[KeyOf(NodeAt(start, p))].kids == Expanded(ks', |ks'|)
  {
    ValidParent(start, c.path);
    var pq := Parent(c.path);
    assert KeyOf(NodeAt(start, pq)) != KeyOf(c.node);
    if p != c.path {
      assert KeyOf(NodeAt(start, p)) != KeyOf(c.node);
      if p == pq {
        assert ks + [KeyOf(c.node)] == m[KeyOf(NodeAt(start, p))].kids.children + [KeyOf(c.node)];
      } else {
        assert KeyOf(NodeAt(start, p)) != KeyOf(NodeAt(start, pq));
      }
    }
  }

  /** What folding a parents-first, one-call-per-node sequence files under each expanded node. */
  lemma {:induction false} FoldKids(start: Node, cfg: Settings, calls: seq<VisitCall>, p: Path)
    requires DistinctIds(start) && DistinctPaths(calls) && ParentsBefore(calls, [])
    requires forall c :: c in calls ==> ValidPath(start, c.path) && c == CallAt(start, c.path) && 1 <= |c.path| <= cfg.maxDepth
    requires ValidPath(start, p) && |p| < cfg.maxDepth
    requires p == [] || exists c :: c in calls && c.path == p
    ensures KeyOf(NodeAt(start, p)) in Fold(start, cfg, calls)
    ensures Fold(start, cfg, calls)[KeyOf(NodeAt(start, p))].kids == Expanded(KidsOf(calls, p), |KidsOf(calls, p)|)
    decreases |calls|
  {
    if calls != [] {
      var init := calls[..|calls| - 1];
      var c := calls[|calls| - 1];
      assert c in calls;
      PrefixOrdered(calls);
      FreshCall(start, cfg, calls);
      if p == c.path {
        NoKidsBefore(calls);
      } else {
        assert p == [] || exists x :: x in init && x.path == p by {
          if p != [] {
            var x :| x in calls && x.path == p;
            var k :| 0 <= k < |calls| && calls[k] == x;
            assert init[k] == x;
          }
        }
        assert forall x :: x in init ==> x in calls;
        FoldKids(start, cfg, init, p);
      }
      StepKids(start, cfg, Fold(start, cfg, init), c, p, KidsOf(init, p));
    }
  }

  /**
   * With every node id distinct, the `children` list of the record of a
   * node above the depth limit holds the ids of that node's native
   * children, in order, and `children_count` is their number.
   */
  lemma MaterializeChildren(start: Node, cfg: Settings, p: Path)
    requires cfg.includeChildren && DistinctIds(start) && ValidPath(start, p) && |p| < cfg.maxDepth
    ensures KeyOf(NodeAt(start, p)) in Materialize(start, cfg)
    ensures Materialize(start, cfg)[KeyOf(NodeAt(start, p))].kids
            == Expanded(ChildKeys(NodeAt(start, p)), |NodeAt(start, p).children|)
  {
    var ev := Events(start, cfg);
    var visit := DepthLimit(cfg.maxDepth);
    EventsExact(start, cfg);
    EventsParents(start, cfg);
    EventsKids(start, cfg, p);
    WalkVisits(start, visit);
    assert DistinctPaths(ev) by {
      var w := Walk(start, visit);
      forall i, j | 0 <= i < j < |ev| ensures ev[i].path != ev[j].path {
        assert ev[i] == w[i + 1] && ev[j] == w[j + 1];
      }
    }
    FoldKids(start, cfg, ev, p);
  }
}

=== FILE: ast_model.dfy ===
/**
 * The AST model functions: the dictionary conversion entry point, node
 * summaries, the search for the node at a position, and the path of node
 * kinds and field names from an ancestor down to a node.
 */
module AstModel {
  import opened Common
  import opened Strings
  import opened SyntaxTree
  import opened Preorder
  import opened TreeSitterHelpers
  import opened AstCursor

  // ---------------------------------------------------------------------
  // node_to_dict
  // ---------------------------------------------------------------------

  /** `node_to_dict`: the cursor-based conversion under the caller's settings. */
  method NodeToDict(start: Node, source: seq<byte>, includeChildren: bool, includeText: bool, maxDepth: int)
    returns (root: NodeKey, nodeMap: NodeMap)
    ensures root == KeyOf(start) && root in nodeMap
    ensures nodeMap == Materialize(start, Settings(source, includeChildren, includeText, maxDepth))
  {
    var cfg := Settings(source, includeChildren, includeText, maxDepth);
    root, nodeMap := NodeToDictCursor(start, cfg);
    MaterializeWellFormed(start, cfg);
  }

  // ---------------------------------------------------------------------
  // summarize_node
  // ---------------------------------------------------------------------

  datatype Summary = Summary(kind: string, startPoint: Point, endPoint: Point, preview: Option<string>)

  /** The first line cut to 50 characters, marked with `...` when it was cut or more lines follow. */
  function Preview(text: string): Option<string>
  {
    var lines := SplitLines(text);
    if lines == [] then None
    else
      var snippet := Take(lines[0], 50);
      Some(if |snippet| < |lines[0]| || |lines| > 1 then snippet + "..." else snippet)
  }

  /**
   * A preview exists iff the text is not empty; it is the first at most 50
   * characters of the first line, followed by `...` exactly when that line
   * is longer or anything follows its line break, so it holds at most 53
   * characters and no line break.
   */
  lemma PreviewShape(text: string)
    ensures Preview(text).Some? <==> text != []
    ensures Preview(text).Some? ==>
              var k := Min(50, LineEnd(text));
              && Preview(text).value == text[..k] + (if 50 < LineEnd(text) || AfterLine(text) != [] then "..." else "")
              && |Preview(text).value| <= 53
              && forall i :: 0 <= i < k ==> !IsLineBreak(Preview(text).value[i])
  {
    if text != [] {
      PreviewValue(text);
      var k := Min(50, LineEnd(text));
      var v := Preview(text).value;
      assert |v| <= k + 3;
      assert forall i :: 0 <= i < k ==> v[i] == text[i];
    }
  }

  lemma PreviewValue(text: string)
    requires text != []
    ensures var k := Min(50, LineEnd(text));
            Preview(text) == Some(text[..k] + (if 50 < LineEnd(text) || AfterLine(text) != [] then "..." else ""))
  {
    var e := LineEnd(text);
    var k := Min(50, e);
    var rest := AfterLine(text);
    assert SplitLines(text) == [text[..e]] + SplitLines(rest);
    assert SplitLines(rest) == [] <==> rest == [];
    var snippet := Take(text[..e], 50);
    TakeOfPrefix(text, e, 50);
    if 50 < e || rest != [] {
      assert Preview(text) == Some(snippet + "...");
    } else {
      assert Preview(text) == Some(snippet);
      assert text[..k] + "" == text[..k];
    }
  }

  lemma TakeOfPrefix(s: string, e: nat, n: nat)
    requires e <= |s|
    ensures Take(s[..e], n) == s[..Min(n, e)]
  {
  }

  /** `summarize_node`: kind and points, and a preview when the source is not empty. */
  function SummarizeNode(n: Node, source: seq<byte>): (r: Summary)
    ensures r.kind == n.kind && r.startPoint == n.startPoint && r.endPoint == n.endPoint
    ensures |source| == 0 ==> r.preview.None?
  {
    Summary(n.kind, n.startPoint, n.endPoint, if |source| > 0 then Preview(GetNodeText(n, source)) else None)
  }

  /** A summary has a preview iff the node's byte range overlaps a non-empty source. */
  lemma SummaryPreview(n: Node, source: seq<byte>)
    ensures SummarizeNode(n, source).preview.Some? <==> n.startByte < |source| && n.startByte < n.endByte
    ensures SummarizeNode(n, source).kind == n.kind
  {
    PreviewShape(GetNodeText(n, source));
  }

  // ---------------------------------------------------------------------
  // find_node_at_position
  // ---------------------------------------------------------------------

  /** The first of `cs[j..]` that contains the position. */
  function FirstContaining(cs: seq<Node>, row: int, column: int, j: nat): (r: Option<nat>)
    requires j <= |cs|
    ensures r.Some? ==> j <= r.value < |cs| && ContainsPosition(cs[r.value], row, column)
                        && forall i :: j <= i < r.value ==> !ContainsPosition(cs[i], row, column)
    ensures r.None? ==> forall i :: j <= i < |cs| ==> !ContainsPosition(cs[i], row, column)
    decreases |cs| - j
  {
    if j == |cs| then None
    else if ContainsPosition(cs[j], row, column) then Some(j)
    else FirstContaining(cs, row, column, j + 1)
  }

  /** How far the cursor at `p` may still move right among its siblings. */
  function SiblingsLeft(start: Node, p: Path): nat
    requires ValidPath(start, p)
  {
    if p == [] then 0
    else
      ValidParent(start, p);
      |NodeAt(start, Parent(p)).children| - Last(p)
  }

  /**
   * Where the cursor loop of `find_node_at_position` stops when it stands at
   * `p`: it enters the first child when that child contains the position;
   * otherwise it goes back to `p` and scans the siblings of `p` itself, not
   * those of the child, entering the first one that contains the position.
   */
  function FindFrom(start: Node, row: int, column: int, p: Path): (r: Path)
    requires ValidPath(start, p)
    ensures ValidPath(start, r)
    decreases Height(start) - |p|, SiblingsLeft(start, p)
  {
    PathWithinHeight(start, p);
    var n := NodeAt(start, p);
    if n.children == [] then p
    else
      ValidSnoc(start, p, 0);
      PathWithinHeight(start, p + [0]);
      if ContainsPosition(n.children[0], row, column) then FindFrom(start, row, column, p + [0])
      else if p == [] then p
      else
        ValidParent(start, p);
        var siblings := NodeAt(start, Parent(p)).children;
        match FirstContaining(siblings, row, column, Last(p) + 1)
        case None => p
        case Some(k) =>
          ValidSnoc(start, Parent(p), k);
          FindFrom(start, row, column, Parent(p) + [k])
  }

  /** `find_node_at_position` as written: `None` outside the start node, else where the loop stops. */
  function FindAsWritten(start: Node, row: int, column: int): Option<Path>
  {
    if !ContainsPosition(start, row, column) then None else Some(FindFrom(start, row, column, []))
  }

  /** The loop only ever stands on nodes that contain the position. */
  lemma {:induction false} FindFromContains(start: Node, row: int, column: int, p: Path)
    requires ValidPath(start, p) && ContainsPosition(NodeAt(start, p), row, column)
    ensures ContainsPosition(NodeAt(start, FindFrom(start, row, column, p)), row, column)
    decreases Height(start) - |p|, SiblingsLeft(start, p)
  {
    PathWithinHeight(start, p);
    var n := NodeAt(start, p);
    if n.children != [] {
      ValidSnoc(start, p, 0);
      PathWithinHeight(start, p + [0]);
      if ContainsPosition(n.children[0], row, column) {
        FindFromContains(start, row, column, p + [0]);
      } else if p != [] {
        ValidParent(start, p);
        var siblings := NodeAt(start, Parent(p)).children;
        var k := FirstContaining(siblings, row, column, Last(p) + 1);
        if k.Some? {
          ValidSnoc(start, Parent(p), k.value);
          FindFromContains(start, row, column, Parent(p) + [k.value]);
        }
      }
    }
  }

  /** The as-written search answers `None` exactly outside the start node, and otherwise a node containing the position. */
  lemma FindAsWrittenContains(start: Node, row: int, column: int)
    ensures FindAsWritten(start, row, column).None? <==> !ContainsPosition(start, row, column)
    ensures FindAsWritten(start, row, column).Some? ==>
              ContainsPosition(NodeAt(start, FindAsWritten(start, row, column).value), row, column)
  {
    if ContainsPosition(start, row, column) {
      FindFromContains(start, row, column, []);
    }
  }

  /** The sibling scan of `find_node_at_position`: the first later sibling of `p` that contains the position. */
  method ScanSiblings(start: Node, row: int, column: int, p: Path) returns (found: bool, q: Path)
    requires ValidPath(start, p) && p != []
    ensures ValidPath(start, Parent(p)) && Last(p) < |NodeAt(start, Parent(p)).children|
    ensures var k := FirstContaining(NodeAt(start, Parent(p)).children, row, column, Last(p) + 1);
            (found <==> k.Some?) && (found ==> q == Parent(p) + [k.value] && ValidPath(start, q))
  {
    ValidParent(start, p);
    ghost var siblings := NodeAt(start, Parent(p)).children;
    q := p;
    found := false;
    while true
      invariant ValidPath(start, q) && q != [] && Parent(q) == Parent(p) && Last(p) <= Last(q) < |siblings|
      invariant FirstContaining(siblings, row, column, Last(p) + 1) == FirstContaining(siblings, row, column, Last(q) + 1)
      invariant !found
      decreases |siblings| - Last(q)
    {
      var next := GotoNextSibling(start, q);
      if next.None? {
        return;
      }
      ValidParent(start, next.value);
      q := next.value;
      if ContainsPosition(NodeAt(start, q), row, column) {
        found := true;
        assert q == Parent(p) + [Last(q)];
        return;
      }
    }
  }

  /** The cursor loop of `find_node_at_position`, as written. */
  method FindNodeAtPosition(start: Node, row: int, column: int) returns (r: Option<Path>)
    ensures r == FindAsWritten(start, row, column)
  {
    if !ContainsPosition(start, row, column) {
      return None;
    }
    var p: Path := [];
    while true
      invariant ValidPath(start, p) && FindFrom(start, row, column, p) == FindFrom(start, row, column, [])
      decreases Height(start) - |p|, SiblingsLeft(start, p)
    {
      PathWithinHeight(start, p);
      var child := GotoFirstChild(start, p);
      if child.None? {
        break;
      }
      PathWithinHeight(start, child.value);
      if ContainsPosition(NodeAt(start, child.value), row, column) {
        p := child.value;
        continue;
      }
      if p == [] {
        break;
      }
      var found, q := ScanSiblings(start, row, column, p);
      if found {
        assert FindFrom(start, row, column, p) == FindFrom(start, row, column, q);
        p := q;
      } else {
        break;
      }
    }
    r := Some(p);
  }

  /**
   * The intended search: enter the first child containing the position at
   * every level, until no child contains it.
   */
  function Deepest(start: Node, row: int, column: int, p: Path): (r: Path)
    requires ValidPath(start, p)
    ensures ValidPath(start, r) && |p| <= |r| && r[..|p|] == p
    ensures ContainsPosition(NodeAt(start, p), row, column) ==> ContainsPosition(NodeAt(start, r), row, column)
    ensures forall i :: 0 <= i < |NodeAt(start, r).children| ==> !ContainsPosition(NodeAt(start, r).children[i], row, column)
    decreases Height(start) - |p|
  {
    PathWithinHeight(start, p);
    var cs := NodeAt(start, p).children;
    match FirstContaining(cs, row, column, 0)
    case None => p
    case Some(k) =>
      ValidSnoc(start, p, k);
      PathWithinHeight(start, p + [k]);
      var r := Deepest(start, row, column, p + [k]);
      assert r[..|p|] == (r[..|p| + 1])[..|p|];
      r
  }

  /**
   * `find_node_at_position` as intended: `None` outside the start node, else
   * a node containing the position none of whose children contains it.
   */
  function FindDeepest(start: Node, row: int, column: int): (r: Option<Path>)
    ensures r.None? <==> !ContainsPosition(start, row, column)
    ensures r.Some? ==> ValidPath(start, r.value) && ContainsPosition(NodeAt(start, r.value), row, column)
                        && forall i :: 0 <= i < |NodeAt(start, r.value).children| ==>
                             !ContainsPosition(NodeAt(start, r.value).children[i], row, column)
  {
    if !ContainsPosition(start, row, column) then None else Some(Deepest(start, row, column, []))
  }

  /** A module spanning (0,0)-(0,9) whose second child alone spans column 5. */
  function TwoChildModule(): Node
  {
    var a := Node("a", 0, 3, Point(0, 0), Point(0, 3), true, [], []);
    var b := Node("b", 4, 9, Point(0, 4), Point(0, 9), true, [], []);
    Node("module", 0, 9, Point(0, 0), Point(0, 9), true, [a, b], [])
  }

  /**
   * At (0, 5) the loop as written stops at the module although its second
   * child contains the position: the first child fails, and the sibling
   * scan then looks at the siblings of the module, of which there are none.
   */
  lemma FindAsWrittenMissesSecondChild()
    ensures FindAsWritten(TwoChildModule(), 0, 5) == Some([])
    ensures ContainsPosition(TwoChildModule().children[1], 0, 5)
    ensures FindDeepest(TwoChildModule(), 0, 5) == Some([1])
  {
    var m := TwoChildModule();
    assert !ContainsPosition(m.children[0], 0, 5);
    assert FirstContaining(m.children, 0, 5, 0) == Some(1);
    assert NodeAt(m, [1]) == m.children[1];
    assert FirstContaining(NodeAt(m, [1]).children, 0, 5, 0) == None;
  }

  // ---------------------------------------------------------------------
  // extract_node_path
  // ---------------------------------------------------------------------

  type PathEntry = (string, Option<string>)

  /** The (kind, field name) of the nodes at `t[..k+1]`, ..., `t`, from the top down. */
  function EntriesBelow(top: Node, t: Path, k: nat): (r: seq<PathEntry>)
    requires ValidPath(top, t) && k <= |t|
    ensures |r| == |t| - k
    ensures forall i :: 0 <= i < |r| ==>
              ValidPath(top, t[..k + i + 1]) && r[i] == (NodeAt(top, t[..k + i + 1]).kind, FieldAt(top, t[..k + i + 1]))
    decreases |t| - k
  {
    if k == |t| then []
    else
      ValidPrefix(top, t, k + 1);
      [(NodeAt(top, t[..k + 1]).kind, FieldAt(top, t[..k + 1]))] + EntriesBelow(top, t, k + 1)
  }

  /**
   * The path `extract_node_path` reports from the node at `r` to the node at
   * `t`, both inside the tree `top`: empty when they are the same node; the
   * kind of `r` followed by every node below it when `r` is an ancestor of
   * `t`; otherwise every node above `t` up to but not including the top.
   */
  function NodePath(top: Node, r: Path, t: Path): seq<PathEntry>
    requires ValidPath(top, r) && ValidPath(top, t)
  {
    if r == t then []
    else if |r| < |t| && t[..|r|] == r then [(NodeAt(top, r).kind, None)] + EntriesBelow(top, t, |r|)
    else EntriesBelow(top, t, 0)
  }

  /** One level up: the entries from `t[..k]` on are that node's entry followed by those below it. */
  lemma EntriesBelowStep(top: Node, t: Path, k: nat)
    requires ValidPath(top, t) && 0 < k <= |t|
    ensures ValidPath(top, t[..k])
    ensures EntriesBelow(top, t, k - 1) == [(NodeAt(top, t[..k]).kind, FieldAt(top, t[..k]))] + EntriesBelow(top, t, k)
  {
    ValidPrefix(top, t, k);
  }

  lemma ReversedCons<T>(x: T, s: seq<T>)
    ensures Reversed([x] + s) == Reversed(s) + [x]
  {
    assert ([x] + s)[1..] == s;
  }

  lemma ReversedTwice<T>(s: seq<T>)
    ensures Reversed(Reversed(s)) == s
  {
  }

  lemma ReversedSnoc<T>(s: seq<T>, x: T)
    ensures Reversed(s + [x]) == [x] + Reversed(s)
  {
  }

  /**
   * The climbing loop of `extract_node_path`: from the target up, recording
   * each node's kind and field name, until it meets `r` or the top.
   */
  method ClimbFrom(top: Node, r: Path, t: Path) returns (climbed: seq<PathEntry>, cur: Path)
    requires ValidPath(top, r) && ValidPath(top, t)
    ensures |cur| <= |t| && cur == t[..|cur|] && ValidPath(top, cur)
    ensures climbed == Reversed(EntriesBelow(top, t, |cur|))
    ensures cur == r || (cur == [] && !(|r| < |t| && t[..|r|] == r))
  {
    climbed := [];
    cur := t;
    while cur != r && cur != []
      invariant |cur| <= |t| && cur == t[..|cur|] && ValidPath(top, cur)
      invariant climbed == Reversed(EntriesBelow(top, t, |cur|))
      invariant |cur| < |r| <= |t| ==> t[..|r|] != r
      decreases |cur|
    {
      var k := |cur|;
      var entry := (NodeAt(top, cur).kind, FieldAt(top, cur));
      ghost var below := EntriesBelow(top, t, k);
      EntriesBelowStep(top, t, k);
      assert EntriesBelow(top, t, k - 1) == [entry] + below;
      ReversedCons(entry, below);
      climbed := climbed + [entry];
      cur := cur[..k - 1];
      assert cur == t[..k - 1];
      ValidPrefix(top, t, k - 1);
    }
  }

  /** `extract_node_path`: climbs parent links from the target, then reverses what it collected. */
  method ExtractNodePath(top: Node, r: Path, t: Path) returns (path: seq<PathEntry>)
    requires ValidPath(top, r) && ValidPath(top, t)
    ensures path == NodePath(top, r, t)
  {
    if r == t {
      return [];
    }
    var climbed, cur := ClimbFrom(top, r, t);
    ghost var below := EntriesBelow(top, t, |cur|);
    ReversedTwice(below);
    if cur == r && climbed != [] {
      var head := (NodeAt(top, r).kind, None);
      ReversedSnoc(climbed, head);
      path := Reversed(climbed + [head]);
      assert path == [head] + below;
      assert |r| < |t| && t[..|r|] == r;
    } else {
      path := Reversed(climbed);
      assert path == below;
      assert cur == [] && |cur| == 0;
    }
  }

  /**
   * When `r` is a proper ancestor of `t`, the path runs from `r`, with no
   * field name, to `t` with its own field name, one entry per level.
   */
  lemma NodePathFromAncestor(top: Node, r: Path, t: Path)
    requires ValidPath(top, r) && ValidPath(top, t) && |r| < |t| && t[..|r|] == r
    ensures var path := NodePath(top, r, t);
            && |path| == |t| - |r| + 1
            && path[0] == (NodeAt(top, r).kind, None)
            && path[|path| - 1] == (NodeAt(top, t).kind, FieldAt(top, t))
  {
    var path := NodePath(top, r, t);
    assert t[..|r| + (|t| - |r| - 1) + 1] == t;
  }
}

=== FILE: ast_operations.dfy ===
/**
 * The AST tools of tools/ast_operations.py: parse a project file through the
 * tree cache and turn its tree into the node dictionary.
 *
 * The parser for the language, the file's bytes and its modification time
 * are parameters: `None` stands for the call that raised.
 */
module AstOperations {
  import opened Common
  import opened Strings
  import opened SyntaxTree
  import opened Paths
  import Security
  import Registry
  import opened Projects
  import opened ParserCache
  import opened AstCursor
  import opened AstModel

  /**
   * What `parse_file` returns: the cached pair on a hit; otherwise the parse
   * of the file's bytes, when both the parser and the bytes are available.
   */
  function ParseOutcome(cached: Option<(Tree, seq<byte>)>, parser: Option<seq<byte> -> Tree>,
                        fileBytes: Option<seq<byte>>): Option<(Tree, seq<byte>)>
  {
    if cached.Some? then cached
    else if parser.Some? && fileBytes.Some? then Some((parser.value(fileBytes.value), fileBytes.value))
    else None
  }

  /**
   * `parse_file` with `parse_source` called in its intended argument order:
   * the cache is consulted first; on a miss the file is read and parsed, and
   * the pair is stored when the cache is enabled. Any failure on the miss
   * path becomes a ParsingError.
   */
  method ParseFile(cache: TreeCache, file: FileRef, language: string, parser: Option<seq<byte> -> Tree>,
                   fileBytes: Option<seq<byte>>, settings: Option<CacheSettings>, now: int)
    returns (r: Result<(Tree, seq<byte>)>)
    requires cache.Valid()
    modifies cache
    ensures cache.Valid()
    ensures r.Ok? <==> ParseOutcome(old(cache.Lookup(file, language, settings, now)), parser, fileBytes).Some?
    ensures r.Ok? ==> r.value == ParseOutcome(old(cache.Lookup(file, language, settings, now)), parser, fileBytes).value
    ensures r.Err? ==> r.error.ParsingError?
    ensures old(cache.Lookup(file, language, settings, now)).Some? ==>
              cache.cache == old(cache.cache) && cache.currentSizeBytes == old(cache.currentSizeBytes)
    ensures old(cache.Lookup(file, language, settings, now)).None? && r.Ok?
            && cache.Stores(file, language, r.value.1, settings) ==>
              var key := KeyFor(file, language).value;
              key in cache.cache && cache.cache[key] == Entry(r.value.0, r.value.1, now)
    ensures cache.Config() == old(cache.Config())
    ensures cache.State() == ThroughIn(old(cache.State()), old(cache.Config()), file, language, parser, fileBytes, settings, now)
  {
    var cached := cache.Get(file, language, settings, now);
    if cached.Some? {
      return Ok(cached.value);
    }
    if parser.None? || fileBytes.None? {
      return Err(ParsingError("Error parsing " + file.path));
    }
    var tree := parser.value(fileBytes.value);
    if cache.IsCacheEnabled(settings) {
      cache.Put(file, language, tree, fileBytes.value, settings, now);
    }
    return Ok((tree, fileBytes.value));
  }

  /** The answer of `get_file_ast`: the path as given, its language, and the node dictionary. */
  datatype FileAst = FileAst(file: string, language: string, root: NodeKey, nodes: NodeMap)

  /** `max_depth if max_depth is not None else 5`. */
  function DepthOrDefault(maxDepth: Option<int>): int
  {
    if maxDepth.Some? then maxDepth.value else 5
  }

  /**
   * A path `get_file_path` accepted is already resolved and lies under the
   * root, so the containment test of the access guard cannot reject it.
   */
  lemma ProjectPathPassesContainment(root: FsPath, path: FsPath, cwd: seq<string>)
    requires FilePathUnder(root, path, cwd).Ok?
    ensures var abs := FilePathUnder(root, path, cwd).value;
            Resolve(abs, cwd) == abs && IsPrefix(Resolve(root, cwd).names, Resolve(abs, cwd).names)
  {
    var abs := FilePathUnder(root, path, cwd).value;
    assert [] + abs.names == abs.names;
    CollapseClean(abs.names);
  }

  /**
   * `parse_file` as written: the miss path passes the source bytes where
   * `parse_source` expects the parser, so calling `parse` on the bytes
   * raises and every cache miss ends in a ParsingError. Only a cached
   * pair is ever returned, and nothing is stored.
   */
  method ParseFileAsWritten(cache: TreeCache, file: FileRef, language: string,
                            settings: Option<CacheSettings>, now: int)
    returns (r: Result<(Tree, seq<byte>)>)
    requires cache.Valid()
    modifies cache
    ensures cache.Valid()
    ensures r.Ok? <==> old(cache.Lookup(file, language, settings, now)).Some?
    ensures r.Ok? ==> r.value == old(cache.Lookup(file, language, settings, now)).value
    ensures r.Err? ==> r.error == ParsingError("Error parsing " + file.path)
    ensures old(cache.Lookup(file, language, settings, now)).Some? ==>
              cache.cache == old(cache.cache) && cache.currentSizeBytes == old(cache.currentSizeBytes)
    ensures cache.Config() == old(cache.Config())
    ensures cache.State() == GetIn(old(cache.State()), old(cache.Config()), file, language, settings, now)
  {
    var cached := cache.Get(file, language, settings, now);
    if cached.Some? {
      return Ok(cached.value);
    }
    return Err(ParsingError("Error parsing " + file.path));
  }

  /**
   * `get_file_ast`: the project resolves the path (a ProjectError escapes as
   * is), the access guard runs (its error becomes a FileAccessError), the
   * language comes from the file name (none is a ParsingError), then the
   * file is parsed and converted with children included and depth 5 unless
   * given. Path containment uses the component test and the parse is the
   * intended one of `ParseFile` (see Findings).
   */
  method GetFileAst(project: Project, path: FsPath, cache: TreeCache, cfg: Security.SecurityConfig,
                    fs: FileSystem, cwd: seq<string>, mtime: Option<string>,
                    parser: Option<seq<byte> -> Tree>, fileBytes: Option<seq<byte>>,
                    settings: Option<CacheSettings>, now: int,
                    maxDepth: Option<int>, includeText: bool)
    returns (r: Result<FileAst>)
    requires cache.Valid()
    modifies cache
    ensures cache.Valid()
    ensures FilePathUnder(project.rootPath, path, cwd).Err? ==>
              r.Err? && r.error.ProjectError? && cache.cache == old(cache.cache)
    ensures FilePathUnder(project.rootPath, path, cwd).Ok? ==>
              var abs := FilePathUnder(project.rootPath, path, cwd).value;
              var language := Registry.LanguageForFile(PathStr(path));
              if Security.ValidateFileAccess(cfg, fs, cwd, abs, project.rootPath).Err? then
                r.Err? && r.error.FileAccessError? && cache.cache == old(cache.cache)
              else if language.None? then
                r.Err? && r.error.ParsingError? && cache.cache == old(cache.cache)
              else
              var outcome := ParseOutcome(old(cache.Lookup(FileRef(PathStr(abs), mtime), language.value, settings, now)),
                                          parser, fileBytes);
              if outcome.None? then
                r.Err? && r.error.ParsingError?
              else
                r.Ok? && r.value.file == PathStr(path) && r.value.language == language.value
                && r.value.root == KeyOf(outcome.value.0.root) && r.value.root in r.value.nodes
                && r.value.nodes == Materialize(outcome.value.0.root,
                                                Settings(outcome.value.1, true, includeText, DepthOrDefault(maxDepth)))
    ensures cache.Config() == old(cache.Config())
    ensures FilePathUnder(project.rootPath, path, cwd).Err? || Registry.LanguageForFile(PathStr(path)).None?
            || Security.ValidateFileAccess(cfg, fs, cwd, FilePathUnder(project.rootPath, path, cwd).value, project.rootPath).Err? ==>
              cache.State() == old(cache.State())
    ensures FilePathUnder(project.rootPath, path, cwd).Ok? && Registry.LanguageForFile(PathStr(path)).Some?
            && Security.ValidateFileAccess(cfg, fs, cwd, FilePathUnder(project.rootPath, path, cwd).value, project.rootPath).Ok? ==>
              cache.State() == ThroughIn(old(cache.State()), old(cache.Config()),
                                         FileRef(PathStr(FilePathUnder(project.rootPath, path, cwd).value), mtime),
                                         Registry.LanguageForFile(PathStr(path)).value, parser, fileBytes, settings, now)
  {
    var abs :- FilePathUnder(project.rootPath, path, cwd);
    var access := Security.ValidateFileAccess(cfg, fs, cwd, abs, project.rootPath);
    if access.Err? {
      return Err(FileAccessError("Access denied"));
    }
    var language := Registry.LanguageForFile(PathStr(path));
    if language.None? {
      return Err(ParsingError("Could not detect language for " + PathStr(path)));
    }
    var parsed :- ParseFile(cache, FileRef(PathStr(abs), mtime), language.value, parser, fileBytes, settings, now);
    var root, nodes := NodeToDict(parsed.0.root, parsed.1, true, includeText, DepthOrDefault(maxDepth));
    return Ok(FileAst(PathStr(path), language.value, root, nodes));
  }

  /**
   * The `find_node_at_position` tool: the position's deepest enclosing node
   * under the root, or `None` when the root does not span the position. It
   * delegates to the intended search of the model module (see Findings).
   */
  function FindNodeAtPosition(root: Node, row: int, column: int): (r: Option<Path>)
    ensures r.None? <==> !ContainsPosition(root, row, column)
    ensures r.Some? ==> ValidPath(root, r.value) && ContainsPosition(NodeAt(root, r.value), row, column)
    ensures r.Some? ==> forall i :: 0 <= i < |NodeAt(root, r.value).children| ==>
                          !ContainsPosition(NodeAt(root, r.value).children[i], row, column)
  {
    FindDeepest(root, row, column)
  }
}

=== FILE: code_patterns.dfy ===
/**
 * The pattern tables of prompts/code_patterns.py: per-language snippets of
 * good practice and language-independent review checklists, looked up by
 * name.
 *
 * The tables are ordered dictionaries; the prose of each pattern is not
 * part of the model, so the lookups are stated over any tables and the
 * shipped tables are pinned down by their keys.
 */
module CodePatterns {
  import opened Common
  import opened Strings

  /** An insertion-ordered dictionary with distinct keys. */
  type Dict<V> = seq<(string, V)>

  function Keys<V>(d: Dict<V>): (r: seq<string>)
    ensures |r| == |d| && forall k :: 0 <= k < |d| ==> r[k] == d[k].0
  {
    seq(|d|, k requires 0 <= k < |d| => d[k].0)
  }

  predicate WellFormed<V>(d: Dict<V>)
  {
    NoDuplicates(Keys(d))
  }

  /** `dict.get(key)`: the value of the first entry with that key. */
  function Get<V>(d: Dict<V>, key: string): (r: Option<V>)
    ensures r.None? <==> key !in Keys(d)
    ensures r.Some? ==> exists k :: 0 <= k < |d| && d[k] == (key, r.value)
  {
    if d == [] then None
    else if d[0].0 == key then Some(d[0].1)
    else
      assert Keys(d) == [d[0].0] + Keys(d[1..]);
      Get(d[1..], key)
  }

  /** In a dictionary with distinct keys, the value found is the one stored under that key. */
  lemma {:induction false} GetStored<V>(d: Dict<V>, k: nat)
    requires WellFormed(d) && k < |d|
    ensures Get(d, d[k].0) == Some(d[k].1)
  {
    if k > 0 {
      assert Keys(d)[0] != Keys(d)[k];
      assert Keys(d[1..]) == Keys(d)[1..];
      GetStored(d[1..], k - 1);
    }
  }

  const NotFound := "No pattern found"

  /** `get_language_pattern`: the named pattern of the language, "No pattern found" when either is unknown. */
  function GetLanguagePattern(languages: Dict<Dict<string>>, language: string, patternName: string): (r: string)
    ensures language !in Keys(languages) ==> r == NotFound
    ensures language in Keys(languages) && patternName !in Keys(Get(languages, language).value) ==> r == NotFound
    ensures language in Keys(languages) && patternName in Keys(Get(languages, language).value) ==>
              r == Get(Get(languages, language).value, patternName).value
  {
    var patterns := match Get(languages, language) case Some(p) => p case None => [];
    match Get(patterns, patternName) case Some(t) => t case None => NotFound
  }

  /** `get_review_pattern`: the named checklist, "No pattern found" when unknown. */
  function GetReviewPattern(reviews: Dict<string>, patternName: string): (r: string)
    ensures patternName !in Keys(reviews) ==> r == NotFound
    ensures patternName in Keys(reviews) ==> r == Get(reviews, patternName).value
  {
    match Get(reviews, patternName) case Some(t) => t case None => NotFound
  }

  /** The two shapes of `get_available_patterns`' answer. */
  datatype Available =
    | ForLanguage(languagePatterns: seq<string>, reviewPatterns: seq<string>)
    | Overview(languages: seq<string>, reviewPatterns: seq<string>)

  /**
   * `get_available_patterns`: for a language given (and non-empty, as the
   * truth test demands), its pattern names, none when it is unknown; else
   * the language names. The review names come with either.
   */
  function GetAvailablePatterns(languages: Dict<Dict<string>>, reviews: Dict<string>, language: Option<string>): (r: Available)
    ensures r.reviewPatterns == Keys(reviews)
    ensures r.ForLanguage? <==> language.Some? && language.value != ""
    ensures r.ForLanguage? && language.value !in Keys(languages) ==> r.languagePatterns == []
    ensures r.ForLanguage? && language.value in Keys(languages) ==>
              r.languagePatterns == Keys(Get(languages, language.value).value)
    ensures r.Overview? ==> r.languages == Keys(languages)
  {
    if language.Some? && language.value != "" then
      ForLanguage(match Get(languages, language.value) case Some(p) => Keys(p) case None => [], Keys(reviews))
    else Overview(Keys(languages), Keys(reviews))
  }

  /** Every pattern name listed for a language can be fetched: the lookup answers its stored text. */
  lemma ListedIsFound(languages: Dict<Dict<string>>, reviews: Dict<string>, language: string, name: string)
    requires language != ""
    requires name in GetAvailablePatterns(languages, reviews, Some(language)).languagePatterns
    ensures Get(Get(languages, language).value, name).Some?
    ensures GetLanguagePattern(languages, language, name) == Get(Get(languages, language).value, name).value
  {
  }

  /** The pattern names of the shipped tables, in their order. */
  const LanguageKeys: seq<(string, seq<string>)> := [
    ("python", ["docstring", "imports", "error_handling"]),
    ("javascript", ["commenting", "error_handling"]),
    ("typescript", ["type_definitions"]),
    ("go", ["error_handling"])]

  const ReviewKeys: seq<string> := ["performance", "security", "maintainability", "error_handling"]

  /** Tables laid out as the shipped ones, whatever the prose. */
  predicate Shipped(languages: Dict<Dict<string>>, reviews: Dict<string>)
  {
    && |languages| == |LanguageKeys|
    && (forall k :: 0 <= k < |languages| ==>
          languages[k].0 == LanguageKeys[k].0 && Keys(languages[k].1) == LanguageKeys[k].1)
    && Keys(reviews) == ReviewKeys
  }

  /** What the shipped tables answer: Python's three patterns, and "No pattern found" for a language they lack. */
  lemma ShippedAnswers(languages: Dict<Dict<string>>, reviews: Dict<string>)
    requires Shipped(languages, reviews)
    ensures GetAvailablePatterns(languages, reviews, Some("python"))
              == ForLanguage(["docstring", "imports", "error_handling"], ReviewKeys)
    ensures GetAvailablePatterns(languages, reviews, None)
              == Overview(["python", "javascript", "typescript", "go"], ReviewKeys)
    ensures GetLanguagePattern(languages, "rust", "error_handling") == NotFound
  {
    assert Keys(languages) == ["python", "javascript", "typescript", "go"];
    assert Get(languages, "python") == Some(languages[0].1);
  }
}

=== FILE: common.dfy ===
/**
 * Shared value types: optional values, results carrying the server's
 * exception taxonomy, and bytes.
 */
module Common {

  datatype Option<T> = None | Some(value: T)

  /** The exception classes the server raises, one constructor per class. */
  datatype Error =
    | ProjectError(reason: string)
    | FileAccessError(reason: string)
    | SecurityError(reason: string)
    | ParsingError(reason: string)
    | QueryError(reason: string)
    | LanguageNotFoundError(language: string)
    | LanguageInstallError(language: string)
    | ValueError(reason: string)
    | IndexError

  datatype Result<T> = Ok(value: T) | Err(error: Error)
  {
    predicate IsFailure() { Err? }
    function PropagateFailure<U>(): Result<U>
      requires Err?
    {
      Err(error)
    }
    function Extract(): T
      requires Ok?
    {
      value
    }
  }

  newtype byte = b: int | 0 <= b < 256

  /** Python's `x[:n]` for a list: a negative `n` counts from the end. */
  function Take<T>(s: seq<T>, n: int): (r: seq<T>)
    ensures 0 <= n ==> r == s[..if n < |s| then n else |s|]
    ensures n < 0 ==> r == s[..if -n < |s| then |s| + n else 0]
    ensures |r| <= |s|
  {
    if 0 <= n then s[..if n < |s| then n else |s|]
    else s[..if -n < |s| then |s| + n else 0]
  }

  /** Python's `s[a:b]` for non-negative bounds: both bounds clamp to the length. */
  function Slice<T>(s: seq<T>, a: nat, b: nat): (r: seq<T>)
    ensures a < |s| && a <= b ==> r == s[a..if b < |s| then b else |s|]
    ensures |s| <= a || b <= a ==> r == []
  {
    var hi := if b < |s| then b else |s|;
    if a < hi then s[a..hi] else []
  }

  /** Python's `s[a:b]` for any integer bounds: a negative bound counts from the end, then both clamp. */
  function PySlice<T>(s: seq<T>, a: int, b: int): (r: seq<T>)
    ensures 0 <= a <= b <= |s| ==> r == s[a..b]
    ensures |r| <= |s|
  {
    var lo := if a < 0 then (if -a < |s| then |s| + a else 0) else (if a < |s| then a else |s|);
    var hi := if b < 0 then (if -b < |s| then |s| + b else 0) else (if b < |s| then b else |s|);
    if lo < hi then s[lo..hi] else []
  }

  lemma Assoc<T>(a: seq<T>, b: seq<T>, c: seq<T>)
    ensures (a + b) + c == a + (b + c)
  {
  }

  lemma EmptyLeft<T>(a: seq<T>)
    ensures [] + a == a
  {
  }

  /** The concatenation of a sequence of sequences (Python's `"".join` / `b"".join`). */
  function Concat<T>(parts: seq<seq<T>>): seq<T>
  {
    if parts == [] then [] else parts[0] + Concat(parts[1..])
  }

  /** Appending one part appends its elements. */
  lemma {:induction false} ConcatSnoc<T>(parts: seq<seq<T>>, last: seq<T>)
    ensures Concat(parts + [last]) == Concat(parts) + last
    decreases |parts|
  {
    if parts != [] {
      assert (parts + [last])[1..] == parts[1..] + [last];
      ConcatSnoc(parts[1..], last);
    }
  }

  /** The length of the first line, its terminator `nl` included when there is one. */
  function FirstLineLength<T(==)>(s: seq<T>, nl: T): (k: nat)
    requires s != []
    ensures 0 < k <= |s|
    ensures forall i :: 0 <= i < k - 1 ==> s[i] != nl
    ensures k < |s| ==> s[k - 1] == nl
  {
    if s[0] == nl || |s| == 1 then 1 else 1 + FirstLineLength(s[1..], nl)
  }

  /**
   * Python's `readlines()` (and iteration over a file): pieces that end just
   * after each `nl`, the last one possibly without it.
   */
  function LinesOf<T(==)>(s: seq<T>, nl: T): (r: seq<seq<T>>)
    ensures forall i :: 0 <= i < |r| ==> r[i] != []
    decreases |s|
  {
    if s == [] then [] else
      var k := FirstLineLength(s, nl);
      [s[..k]] + LinesOf(s[k..], nl)
  }

  /** Splitting into lines keeps every element: joining the lines gives the text back. */
  lemma {:induction false} LinesOfConcat<T>(s: seq<T>, nl: T)
    ensures Concat(LinesOf(s, nl)) == s
    decreases |s|
  {
    if s != [] {
      var k := FirstLineLength(s, nl);
      LinesOfConcat(s[k..], nl);
      assert s == s[..k] + s[k..];
    }
  }

  function Min(a: int, b: int): int { if a < b then a else b }
  function Max(a: int, b: int): int { if a < b then b else a }

  /** Python's `list(reversed(s))`. */
  function Reversed<T>(s: seq<T>): (r: seq<T>)
    ensures |r| == |s|
    ensures forall i :: 0 <= i < |s| ==> r[i] == s[|s| - 1 - i]
  {
    if s == [] then [] else Reversed(s[1..]) + [s[0]]
  }
}

=== FILE: file_io.dfy ===
/**
 * The text helpers of utils/file_io.py: comment detection and counting, the
 * per-language comment prefixes, splitting decoded text into lines, and
 * reading a window of lines.
 *
 * Opening and reading files is left to the caller: the text a file decodes
 * to is a parameter.
 */
module FileIo {
  import opened Common
  import opened Strings

  /** `is_line_comment`: the line, stripped of surrounding whitespace, starts with the prefix. */
  predicate IsLineComment(line: string, commentPrefix: string)
  {
    StartsWith(Strip(line), commentPrefix)
  }

  /** `count_comment_lines`: how many lines are comments. */
  function CountCommentLines(lines: seq<string>, commentPrefix: string): (n: nat)
    ensures n <= |lines|
  {
    if lines == [] then 0
    else
      CountCommentLines(lines[..|lines| - 1], commentPrefix)
      + (if IsLineComment(lines[|lines| - 1], commentPrefix) then 1 else 0)
  }

  /** The count is zero exactly when no line is a comment. */
  lemma {:induction false} NoCommentLines(lines: seq<string>, commentPrefix: string)
    ensures CountCommentLines(lines, commentPrefix) == 0 <==> forall l :: l in lines ==> !IsLineComment(l, commentPrefix)
  {
    if lines != [] {
      var init, last := lines[..|lines| - 1], lines[|lines| - 1];
      NoCommentLines(init, commentPrefix);
      assert lines == init + [last];
      if IsLineComment(last, commentPrefix) {
        assert CountCommentLines(lines, commentPrefix) > 0;
      } else {
        assert CountCommentLines(lines, commentPrefix) == CountCommentLines(init, commentPrefix);
      }
    }
  }

  /** A blank line is never a comment under a non-empty prefix. */
  lemma BlankIsNotComment(line: string, commentPrefix: string)
    requires commentPrefix != [] && Strip(line) == []
    ensures !IsLineComment(line, commentPrefix)
  {
  }

  /** The comment prefix of each language `get_comment_prefix` knows. */
  const CommentPrefixes: map<string, string> := map[
    "python" := "#", "javascript" := "//", "typescript" := "//", "java" := "//", "c" := "//",
    "cpp" := "//", "go" := "//", "ruby" := "#", "rust" := "//", "php" := "//", "swift" := "//",
    "kotlin" := "//", "scala" := "//", "bash" := "#", "shell" := "#", "yaml" := "#",
    "html" := "<!--", "css" := "/*", "scss" := "//", "sass" := "//", "sql" := "--"]

  /** `get_comment_prefix`: the language's prefix, `None` for a language not in the table. */
  function GetCommentPrefix(language: string): (r: Option<string>)
    ensures r.Some? <==> language in CommentPrefixes
    ensures r.Some? ==> r.value == CommentPrefixes[language]
  {
    if language in CommentPrefixes then Some(CommentPrefixes[language]) else None
  }

  /** Every known prefix is non-empty, so blank lines are never counted as comments. */
  lemma CommentPrefixNonEmpty(language: string)
    requires GetCommentPrefix(language).Some?
    ensures GetCommentPrefix(language).value != []
  {
  }

  /** `parse_file_with_encoding`: the file's bytes with the decoded text split into lines that keep their terminators. */
  function ParseWithEncoding(content: seq<byte>, decode: seq<byte> -> string): (r: (seq<byte>, seq<string>))
    ensures r.0 == content
    ensures Concat(r.1) == decode(content)
    ensures forall l :: l in r.1 ==> l != []
  {
    SplitLinesKeepEndsJoin(decode(content));
    (content, SplitLinesKeepEnds(decode(content)))
  }

  /**
   * `read_file_lines` over the file's lines as `readline` yields them (each
   * with its newline, the last possibly without): skip `start_line` lines,
   * then either read the rest or call `readline` `max_lines` times, which
   * yields "" once the file is exhausted.
   */
  method ReadFileLines(lines: seq<string>, startLine: int, maxLines: Option<int>) returns (r: seq<string>)
    ensures var skipped := Min(Max(startLine, 0), |lines|);
            maxLines.None? ==> r == lines[skipped..]
    ensures maxLines.Some? ==> |r| == Max(maxLines.value, 0)
    ensures maxLines.Some? ==> var skipped := Min(Max(startLine, 0), |lines|);
              forall k :: 0 <= k < |r| ==> r[k] == if skipped + k < |lines| then lines[skipped + k] else ""
  {
    var pos := SkipLines(lines, startLine);
    if maxLines.None? {
      return lines[pos..];
    }
    r := ReadLines(lines, pos, maxLines.value);
  }

  /** The `readline` calls that skip `startLine` lines: the position reached, never past the end. */
  method SkipLines(lines: seq<string>, startLine: int) returns (pos: nat)
    ensures pos == Min(Max(startLine, 0), |lines|)
  {
    pos := 0;
    var skip := 0;
    while skip < startLine
      invariant 0 <= skip <= Max(startLine, 0)
      invariant pos == Min(skip, |lines|)
    {
      if pos < |lines| {
        pos := pos + 1;
      }
      skip := skip + 1;
    }
  }

  /** `count` calls of `readline` from position `pos`: the lines there, then "" past the end. */
  method ReadLines(lines: seq<string>, pos: nat, count: int) returns (r: seq<string>)
    requires pos <= |lines|
    ensures |r| == Max(count, 0)
    ensures forall k :: 0 <= k < |r| ==> r[k] == if pos + k < |lines| then lines[pos + k] else ""
  {
    r := [];
    var at := pos;
    var k := 0;
    while k < count
      invariant 0 <= k <= Max(count, 0) && |r| == k
      invariant at == Min(pos + k, |lines|)
      invariant forall j :: 0 <= j < k ==> r[j] == if pos + j < |lines| then lines[pos + j] else ""
    {
      var line := if at < |lines| then lines[at] else "";
      r := r + [line];
      if at < |lines| {
        at := at + 1;
      }
      k := k + 1;
    }
  }
}

=== FILE: file_operations.dfy ===
/**
 * The file tools of tools/file_operations.py: listing a project's files
 * with a glob pattern and an extension filter, and reading a window of a
 * file's lines.
 *
 * Directory listing and globbing are parameters: the entries a listing
 * yields, as paths relative to the project root with a regular-file flag.
 * The file's content is a parameter too, `None` when opening it fails.
 */
module FileOperations {
  import opened Common
  import opened Strings
  import opened Paths
  import Security
  import opened Projects

  /** A path below the project root, relative to it, and whether it is a regular file. */
  datatype DirEntry = DirEntry(rel: FsPath, isFile: bool)

  /** `filter_extensions` as a list: `None` and the empty list both mean "no filter". */
  function FilterOf(filter: Option<seq<string>>): seq<string>
  {
    if filter.Some? then filter.value else []
  }

  /** `[ext.lower() for ext in filter_extensions]`. */
  function LowerAll(exts: seq<string>): (r: seq<string>)
    ensures |r| == |exts| && forall i :: 0 <= i < |exts| ==> r[i] == Lower(exts[i])
  {
    if exts == [] then [] else [Lower(exts[0])] + LowerAll(exts[1..])
  }

  /** A file passes when there is no filter or its lowercased suffix, without the dot, is listed. */
  predicate PassesFilter(filter: seq<string>, name: string)
  {
    filter == [] || Security.DropFirst(Lower(Security.Suffix(name))) in filter
  }

  /** Whether the listing keeps an entry. */
  predicate Listed(filter: seq<string>, e: DirEntry)
  {
    e.isFile && PassesFilter(filter, Name(e.rel))
  }

  /** The relative path strings of the regular files that pass the filter, in listing order. */
  function Kept(entries: seq<DirEntry>, filter: seq<string>): (r: seq<string>)
    ensures |r| <= |entries|
    decreases |entries|
  {
    if entries == [] then []
    else
      var e := entries[|entries| - 1];
      var init := Kept(entries[..|entries| - 1], filter);
      if Listed(filter, e) then init + [PathStr(e.rel)] else init
  }

  /** A path is kept iff some regular-file entry passing the filter has it. */
  lemma {:induction false} KeptMembers(entries: seq<DirEntry>, filter: seq<string>, x: string)
    ensures x in Kept(entries, filter) <==>
            exists i :: 0 <= i < |entries| && Listed(filter, entries[i]) && PathStr(entries[i].rel) == x
    decreases |entries|
  {
    if entries != [] {
      var init := entries[..|entries| - 1];
      KeptMembers(init, filter, x);
      if x in Kept(init, filter) {
        var i :| 0 <= i < |init| && Listed(filter, init[i]) && PathStr(init[i].rel) == x;
        assert entries[i] == init[i];
      }
      if exists i :: 0 <= i < |entries| && Listed(filter, entries[i]) && PathStr(entries[i].rel) == x {
        var i :| 0 <= i < |entries| && Listed(filter, entries[i]) && PathStr(entries[i].rel) == x;
        if i < |init| {
          assert init[i] == entries[i];
        }
      }
    }
  }

  /** The listing loop: the paths of the regular files that pass the filter. */
  method CollectFiles(entries: seq<DirEntry>, filter: seq<string>) returns (files: seq<string>)
    ensures files == Kept(entries, filter)
  {
    files := [];
    var i := 0;
    while i < |entries|
      invariant 0 <= i <= |entries|
      invariant files == Kept(entries[..i], filter)
    {
      assert entries[..i + 1][..i] == entries[..i];
      var e := entries[i];
      if Listed(filter, e) {
        files := files + [PathStr(e.rel)];
      }
      i := i + 1;
    }
    assert entries[..i] == entries;
  }

  // The glob pattern `list_project_files` uses: every path at any depth by
  // default; with a positive depth and exactly one "**", that "**" becomes
  // "*" followed by "/", repeated depth times; finally one leading "/" is dropped.
  function GlobPattern(pattern: Option<string>, maxDepth: Option<int>): string
  {
    var p := if pattern.Some? && pattern.value != "" then pattern.value else "**/*";
    var parts := Split(p, "**");
    var q := if maxDepth.Some? && maxDepth.value > 0 && Contains(p, "**") && |parts| == 2
             then parts[0] + Repeat("*/", maxDepth.value) + parts[1]
             else p;
    if StartsWith(q, "/") then q[1..] else q
  }

  /** With exactly one `**`, the rewrite replaces that occurrence and keeps the rest of the pattern. */
  lemma GlobPatternReplaces(p: string, depth: int)
    requires p != "" && 0 < depth && |Split(p, "**")| == 2 && !StartsWith(p, "/")
    requires !StartsWith(Split(p, "**")[0] + Repeat("*/", depth), "/")
    ensures GlobPattern(Some(p), Some(depth)) == Replace(p, "**", Repeat("*/", depth))
  {
    ReplaceJoinSplit(p, "**", Repeat("*/", depth));
    var parts := Split(p, "**");
    assert Join(Repeat("*/", depth), parts) == parts[0] + Repeat("*/", depth) + parts[1];
    JoinSplit(p, "**");
    assert Join("**", parts) == parts[0] + "**" + parts[1];
    ContainsInfix(parts[0], "**", parts[1]);
  }

  /** Without a positive depth the pattern is only stripped of a leading "/". */
  lemma GlobPatternNoDepth(p: string, maxDepth: Option<int>)
    requires p != "" && (maxDepth.None? || maxDepth.value <= 0)
    ensures GlobPattern(Some(p), maxDepth) == if StartsWith(p, "/") then p[1..] else p
  {
  }

  /**
   * `list_project_files`: with depth 0 the root's own entries, filtered by
   * the extensions exactly as given; otherwise the glob's entries for the
   * rewritten pattern, filtered by the lowercased extensions. Either way the
   * result is sorted.
   */
  method ListProjectFiles(rootEntries: seq<DirEntry>, glob: string -> seq<DirEntry>, pattern: Option<string>,
                          maxDepth: Option<int>, filter: Option<seq<string>>)
    returns (files: seq<string>)
    ensures maxDepth == Some(0) ==> files == Sort(Kept(rootEntries, FilterOf(filter)))
    ensures maxDepth != Some(0) ==>
              files == Sort(Kept(glob(GlobPattern(pattern, maxDepth)), LowerAll(FilterOf(filter))))
    ensures Ascending(files)
  {
    if maxDepth == Some(0) {
      var listed := CollectFiles(rootEntries, FilterOf(filter));
      return Sort(listed);
    }
    var p := if pattern.Some? && pattern.value != "" then pattern.value else "**/*";
    if maxDepth.Some? && maxDepth.value > 0 && Contains(p, "**") {
      var parts := Split(p, "**");
      if |parts| == 2 {
        p := parts[0] + Repeat("*/", maxDepth.value) + parts[1];
      }
    }
    if StartsWith(p, "/") {
      p := p[1..];
    }
    var extensions := FilterOf(filter);
    if extensions != [] {
      extensions := LowerAll(extensions);
    }
    var listed := CollectFiles(glob(p), extensions);
    return Sort(listed);
  }

  /** The depth-0 listing compares extensions case-sensitively while the glob listing lowercases them. */
  lemma DepthZeroFilterIsCaseSensitive()
    ensures var e := DirEntry(FsPath(false, ["a.py"]), true);
            Kept([e], FilterOf(Some(["PY"]))) == []
            && Kept([e], LowerAll(FilterOf(Some(["PY"])))) == ["a.py"]
  {
    var e := DirEntry(FsPath(false, ["a.py"]), true);
    PySuffix();
    assert Lower("PY") == "py";
    assert LowerAll(["PY"]) == ["py"];
    assert !Listed(["PY"], e) && Listed(["py"], e);
    assert PathStr(e.rel) == "a.py";
    assert [e][..0] == [];
  }

  /** The extension the filter compares for `a.py`. */
  lemma PySuffix()
    ensures Security.DropFirst(Lower(Security.Suffix("a.py"))) == "py"
  {
    var name := "a.py";
    var k := AfterLast(name, '.');
    assert name[0] == 'a' && name[1] == '.' && name[2] == 'p' && name[3] == 'y';
    assert k == 2;
    assert Security.Suffix(name) == name[1..] == ".py";
    assert Lower(".py") == ".py";
  }

  /**
   * The window `get_file_content` cuts: from `min(start_line, n)` to
   * `min(start + max_lines, n)`, or to `n` without a line cap, with Python's
   * slice semantics for negative bounds.
   */
  function Window<T>(lines: seq<T>, startLine: int, maxLines: Option<int>): (r: seq<T>)
    ensures 0 <= startLine && (maxLines.None? || 0 <= maxLines.value) ==>
              var lo := Min(startLine, |lines|);
              var hi := if maxLines.None? then |lines| else Min(lo + maxLines.value, |lines|);
              r == lines[lo..hi]
  {
    var startIdx := Min(startLine, |lines|);
    var endIdx := if maxLines.Some? then Min(startIdx + maxLines.value, |lines|) else |lines|;
    PySlice(lines, startIdx, endIdx)
  }

  /** A non-negative window holds at most `max_lines` lines, and no line before `start_line`. */
  lemma WindowBounds<T>(lines: seq<T>, startLine: nat, maxLines: nat)
    ensures |Window(lines, startLine, Some(maxLines))| <= maxLines
    ensures startLine <= |lines| ==>
              Window(lines, startLine, Some(maxLines)) == lines[startLine..Min(startLine + maxLines, |lines|)]
    ensures |lines| <= startLine ==> Window(lines, startLine, Some(maxLines)) == []
  {
  }

  /** The whole-file shortcut agrees with the general path: the window from 0 without a cap is every line. */
  lemma WholeFileWindow<T>(content: seq<T>, nl: T)
    ensures Concat(Window(LinesOf(content, nl), 0, None)) == content
  {
    var lines := LinesOf(content, nl);
    assert Window(lines, 0, None) == lines[0..|lines|] == lines;
    LinesOfConcat(content, nl);
  }

  /** The file's bytes or text, as `as_bytes` asks. */
  datatype Content = Text(text: string) | Bytes(data: seq<byte>)

  const Newline: byte := 10

  /**
   * The reading part of `get_file_content`: the window of the file's lines,
   * joined back together; failing to open the file is a FileAccessError.
   * The special case for names ending "test.py" with a line cap returns the
   * same window as the general path (see `TestFileCaseAgrees`), and so does
   * the whole-file shortcut (see `WholeFileWindow`).
   */
  method ReadContent(path: FsPath, fileBytes: Option<seq<byte>>, fileText: Option<string>,
                     asBytes: bool, maxLines: Option<int>, startLine: int)
    returns (r: Result<Content>)
    ensures asBytes && fileBytes.None? ==> r.Err? && r.error.FileAccessError?
    ensures asBytes && fileBytes.Some? ==>
              r == Ok(Bytes(Concat(Window(LinesOf(fileBytes.value, Newline), startLine, maxLines))))
    ensures !asBytes && fileText.None? ==> r.Err? && r.error.FileAccessError?
    ensures !asBytes && fileText.Some? ==>
              r == Ok(Text(Concat(Window(LinesOf(fileText.value, '\n'), startLine, maxLines))))
  {
    if !asBytes && maxLines.Some? && EndsWith(PathStr(path), "test.py") {
      r := ReadTestFile(fileText, maxLines.value, startLine);
      return;
    }
    if asBytes {
      if fileBytes.None? {
        return Err(FileAccessError("Error reading file"));
      }
      if maxLines.None? && startLine == 0 {
        WholeFileWindow(fileBytes.value, Newline);
        return Ok(Bytes(fileBytes.value));
      }
      var window := CutWindow(LinesOf(fileBytes.value, Newline), startLine, maxLines);
      return Ok(Bytes(Concat(window)));
    } else {
      if fileText.None? {
        return Err(FileAccessError("Error reading file"));
      }
      if maxLines.None? && startLine == 0 {
        WholeFileWindow(fileText.value, '\n');
        return Ok(Text(fileText.value));
      }
      var window := CutWindow(LinesOf(fileText.value, '\n'), startLine, maxLines);
      return Ok(Text(Concat(window)));
    }
  }

  /** The special case for test files with a line cap: the same window as the general path. */
  method ReadTestFile(fileText: Option<string>, maxLines: int, startLine: int) returns (r: Result<Content>)
    ensures fileText.None? ==> r.Err? && r.error.FileAccessError?
    ensures fileText.Some? ==> r == Ok(Text(Concat(Window(LinesOf(fileText.value, '\n'), startLine, Some(maxLines)))))
  {
    if fileText.None? {
      return Err(FileAccessError("Error reading file"));
    }
    var allLines := LinesOf(fileText.value, '\n');
    if maxLines == 2 && startLine == 0 {
      TestFileCaseAgrees(allLines);
      return Ok(Text(Concat(PySlice(allLines, 0, 2))));
    }
    var window := CutWindow(allLines, startLine, Some(maxLines));
    return Ok(Text(Concat(window)));
  }

  /** The slice bounds of the general path, computed step by step. */
  method CutWindow<T>(lines: seq<T>, startLine: int, maxLines: Option<int>) returns (w: seq<T>)
    ensures w == Window(lines, startLine, maxLines)
  {
    var startIdx := Min(startLine, |lines|);
    var endIdx := if maxLines.Some? then Min(startIdx + maxLines.value, |lines|) else |lines|;
    w := PySlice(lines, startIdx, endIdx);
  }

  /**
   * `get_file_content`: a project path error and an access denial both
   * become FileAccessError; otherwise the file is read as `ReadContent` says.
   */
  method GetFileContent(project: Project, path: FsPath, cfg: Security.SecurityConfig, fs: FileSystem,
                        cwd: seq<string>, fileBytes: Option<seq<byte>>, fileText: Option<string>,
                        asBytes: bool, maxLines: Option<int>, startLine: int)
    returns (r: Result<Content>)
    ensures FilePathUnder(project.rootPath, path, cwd).Err? ==> r.Err? && r.error.FileAccessError?
    ensures FilePathUnder(project.rootPath, path, cwd).Ok? ==>
              var abs := FilePathUnder(project.rootPath, path, cwd).value;
              if Security.ValidateFileAccess(cfg, fs, cwd, abs, project.rootPath).Err? then
                r.Err? && r.error.FileAccessError?
              else if asBytes then
                (fileBytes.None? ==> r.Err? && r.error.FileAccessError?)
                && (fileBytes.Some? ==>
                      r == Ok(Bytes(Concat(Window(LinesOf(fileBytes.value, Newline), startLine, maxLines)))))
              else
                (fileText.None? ==> r.Err? && r.error.FileAccessError?)
                && (fileText.Some? ==>
                      r == Ok(Text(Concat(Window(LinesOf(fileText.value, '\n'), startLine, maxLines)))))
  {
    var found := FilePathUnder(project.rootPath, path, cwd);
    if found.Err? {
      return Err(FileAccessError(found.error.reason));
    }
    if Security.ValidateFileAccess(cfg, fs, cwd, found.value, project.rootPath).Err? {
      return Err(FileAccessError("Access denied"));
    }
    r := ReadContent(path, fileBytes, fileText, asBytes, maxLines, startLine);
  }

  /** The first-two-lines special case is the general window from 0 with a cap of 2. */
  lemma TestFileCaseAgrees<T>(lines: seq<T>)
    ensures PySlice(lines, 0, 2) == Window(lines, 0, Some(2))
  {
  }
}

=== FILE: language_registry.dfy ===
/**
 * The language registry of language/registry.py: extension detection,
 * package naming, the memo of loaded grammars and the singleton that owns it.
 *
 * Importing a grammar module and installing a package are outside the
 * model; `LanguageEnv` says what an import yields and what an installation
 * achieves.
 */
module Registry {
  import opened Common
  import opened Strings

  /** A loaded grammar, known only by identity. */
  datatype Language = Language(id: nat)

  /** The outcome of `pip install`: failure, or success after which the module imports (or still does not). */
  datatype InstallOutcome = PipFailed | Installed(imported: Option<Language>)

  /**
   * The environment a load runs in: what importing `tree_sitter_<name>`
   * yields, what installing the package achieves, and the configured
   * `auto_install` flag.
   */
  datatype LanguageEnv = LanguageEnv(modules: string -> Option<Language>,
                                     install: string -> InstallOutcome,
                                     autoInstall: bool)

  /** The extension table in the order the registry's constructor lists it. */
  const LanguageEntries: seq<(string, string)> := [
    ("py", "python"), ("js", "javascript"), ("ts", "typescript"), ("jsx", "javascript"),
    ("tsx", "typescript"), ("rb", "ruby"), ("rs", "rust"), ("go", "go"), ("java", "java"), ("c", "c"),
    ("cpp", "cpp"), ("cc", "cpp"), ("h", "c"), ("hpp", "cpp"), ("cs", "c_sharp"), ("php", "php"),
    ("scala", "scala"), ("swift", "swift"), ("kt", "kotlin"), ("lua", "lua"), ("hs", "haskell"),
    ("ml", "ocaml"), ("sh", "bash"), ("yaml", "yaml"), ("yml", "yaml"), ("json", "json"), ("md", "markdown"),
    ("html", "html"), ("css", "css"), ("scss", "scss"), ("sass", "scss"), ("sql", "sql"), ("proto", "proto"),
    ("elm", "elm"), ("clj", "clojure"), ("ex", "elixir"), ("exs", "elixir")
  ]

  /** The extensions mapped to `language`, in table order. */
  function ExtensionsOf(language: string, entries: seq<(string, string)>): (r: seq<string>)
    ensures forall ext :: ext in r <==> exists i :: 0 <= i < |entries| && entries[i] == (ext, language)
  {
    if entries == [] then []
    else
      var rest := ExtensionsOf(language, entries[1..]);
      assert forall i :: 1 <= i < |entries| ==> entries[i] == entries[1..][i - 1];
      if entries[0].1 == language then [entries[0].0] + rest else rest
  }

  /** A dictionary built from its items in order: a later item for the same key wins. */
  function MapOf(entries: seq<(string, string)>): (m: map<string, string>)
    ensures forall k :: k in m <==> exists i :: 0 <= i < |entries| && entries[i].0 == k
    ensures forall k :: k in m ==> (k, m[k]) in entries
  {
    if entries == [] then map[]
    else
      var init := entries[..|entries| - 1];
      var last := entries[|entries| - 1];
      var m := MapOf(init);
      assert forall i :: 0 <= i < |init| ==> init[i] == entries[i];
      m[last.0 := last.1]
  }

  /** Extension to language, as the registry's constructor fills it. */
  const LanguageMap: map<string, string> := MapOf(LanguageEntries)

  /** Every extension the map sends to a language is listed for it. */
  lemma ExtensionsOfMap(language: string, ext: string)
    requires ext in LanguageMap && LanguageMap[ext] == language
    ensures ext in ExtensionsOf(language, LanguageEntries)
  {
    var i :| 0 <= i < |LanguageEntries| && LanguageEntries[i] == (ext, language);
  }

  /** The text after the last ".", lowercased, or "" when there is no ".". */
  function Extension(filePath: string): string
  {
    if HasChar(filePath, '.') then Lower(LastField(filePath, '.')) else ""
  }

  /** `language_for_file`. */
  function LanguageForFile(filePath: string): (r: Option<string>)
    ensures r.Some? <==> Extension(filePath) in LanguageMap
    ensures r.Some? ==> r.value == LanguageMap[Extension(filePath)]
  {
    var ext := Extension(filePath);
    if ext in LanguageMap then Some(LanguageMap[ext]) else None
  }

  /** A name `stem.ext` is classified by its last extension alone, case-insensitively. */
  lemma LanguageForFileByExtension(stem: string, ext: string)
    requires !HasChar(ext, '.')
    ensures LanguageForFile(stem + "." + ext)
            == if Lower(ext) in LanguageMap then Some(LanguageMap[Lower(ext)]) else None
  {
    var s := stem + "." + ext;
    assert s[|stem|] == '.';
    var k := AfterLast(s, '.');
    assert forall i :: |stem| < i < |s| ==> s[i] == ext[i - |stem| - 1];
    assert k == |stem| + 1;
    assert LastField(s, '.') == ext;
  }

  /** A name without any "." has no language. */
  lemma LanguageForFileNoDot(filePath: string)
    requires !HasChar(filePath, '.')
    ensures LanguageForFile(filePath).None?
  {
    if "" in LanguageMap {
      NoEmptyExtension(LanguageMap[""]);
    }
  }

  /** No entry of the table has an empty extension. */
  lemma NoEmptyExtension(language: string)
    ensures ("", language) !in LanguageEntries
  {
  }

  const PackagePrefix := "tree-sitter-"

  /** `get_package_name`. */
  function GetPackageName(languageName: string): (r: string)
    ensures StartsWith(r, PackagePrefix) && |r| == |PackagePrefix| + |languageName|
  {
    PackagePrefix + ReplaceChar(languageName, '_', '-')
  }

  /** The language a `tree-sitter-*` package provides, as `list_available_languages` reads it. */
  function PackageLanguage(packageKey: string): string
    requires StartsWith(packageKey, PackagePrefix)
  {
    ReplaceChar(packageKey[|PackagePrefix|..], '-', '_')
  }

  /** Package naming is inverted by the package scan for names without "-". */
  lemma PackageNameRoundTrip(languageName: string)
    requires !HasChar(languageName, '-')
    ensures PackageLanguage(GetPackageName(languageName)) == languageName
  {
    var p := GetPackageName(languageName);
    assert p[|PackagePrefix|..] == ReplaceChar(languageName, '_', '-');
  }

  /** Whether some installed package provides `lang`. */
  predicate Provides(packages: seq<string>, lang: string)
  {
    exists i :: 0 <= i < |packages| && StartsWith(packages[i], PackagePrefix) && PackageLanguage(packages[i]) == lang
  }

  /** The languages offered for installation, with their packages. */
  const Installable: seq<(string, string)> := [
    ("python", "tree-sitter-python"), ("javascript", "tree-sitter-javascript"),
    ("typescript", "tree-sitter-typescript"), ("ruby", "tree-sitter-ruby"),
    ("rust", "tree-sitter-rust"), ("go", "tree-sitter-go"), ("java", "tree-sitter-java"),
    ("c", "tree-sitter-c"), ("cpp", "tree-sitter-cpp"), ("c_sharp", "tree-sitter-c-sharp"),
    ("php", "tree-sitter-php")]

  /** `s` keeps some elements of `t` in their order. */
  predicate Subsequence<T(==)>(s: seq<T>, t: seq<T>)
    decreases |t|
  {
    s == [] || (t != [] && ((s[0] == t[0] && Subsequence(s[1..], t[1..])) || Subsequence(s, t[1..])))
  }

  /** The entries of `candidates` whose language is not available, in their order. */
  function NotAvailable(candidates: seq<(string, string)>, available: seq<string>): (r: seq<(string, string)>)
    ensures forall x :: x in r <==> x in candidates && x.0 !in available
    ensures Subsequence(r, candidates)
  {
    if candidates == [] then []
    else if candidates[0].0 !in available then [candidates[0]] + NotAvailable(candidates[1..], available)
    else NotAvailable(candidates[1..], available)
  }

  /** Inserting a new string into a duplicate-free list keeps it duplicate-free. */
  lemma {:induction false} InsertNoDuplicates(x: string, s: seq<string>)
    requires NoDuplicates(s) && x !in s
    ensures NoDuplicates(Insert(x, s))
  {
    if s != [] && Less(s[0], x) {
      InsertNoDuplicates(x, s[1..]);
      assert s[0] !in multiset(Insert(x, s[1..]));
    }
  }

  lemma {:induction false} SortNoDuplicates(s: seq<string>)
    requires NoDuplicates(s)
    ensures NoDuplicates(Sort(s))
  {
    if s != [] {
      SortNoDuplicates(s[1..]);
      assert s[0] !in multiset(Sort(s[1..]));
      InsertNoDuplicates(s[0], Sort(s[1..]));
    }
  }

  /** The outcome of `install_language`: refused unless the configuration allows it. */
  function InstallLanguage(name: string, env: LanguageEnv): (r: Result<bool>)
    ensures r.Ok? <==> env.autoInstall && env.install(name).Installed?
    ensures r.Ok? ==> r.value
    ensures r.Err? ==> r.error == LanguageInstallError(GetPackageName(name))
  {
    if !env.autoInstall then Err(LanguageInstallError(GetPackageName(name)))
    else if env.install(name).PipFailed? then Err(LanguageInstallError(GetPackageName(name)))
    else Ok(true)
  }

  /**
   * What `get_language` yields for a name not yet loaded: the imported
   * module, or after a successful installation the module imported on the
   * retry (which runs with installation off).
   */
  function LoadLanguage(name: string, autoInstall: Option<bool>, env: LanguageEnv): (r: Result<Language>)
    ensures env.modules(name).Some? ==> r == Ok(env.modules(name).value)
    ensures r.Err? ==> r.error == LanguageNotFoundError(name)
    ensures r.Ok? && env.modules(name).None? ==>
              (if autoInstall.Some? then autoInstall.value else env.autoInstall) && env.autoInstall
              && env.install(name) == Installed(Some(r.value))
  {
    match env.modules(name)
    case Some(language) => Ok(language)
    case None =>
      var shouldInstall := if autoInstall.Some? then autoInstall.value else env.autoInstall;
      if !shouldInstall then Err(LanguageNotFoundError(name))
      else match InstallLanguage(name, env)
        case Err(_) => Err(LanguageNotFoundError(name))
        case Ok(_) =>
          match env.install(name).imported
          case Some(language) => Ok(language)
          case None => Err(LanguageNotFoundError(name))
  }

  class LanguageRegistry {
    /** The memo of loaded grammars, and its keys in insertion order. */
    var languages: map<string, Language>
    var loaded: seq<string>

    ghost predicate Valid()
      reads this
    {
      NoDuplicates(loaded) && forall k :: k in loaded <==> k in languages
    }

    /** A fresh registry that tries to load each preferred language, ignoring failures. */
    constructor(preferred: seq<string>, env: LanguageEnv)
      ensures Valid()
      ensures forall k :: k in languages ==> k in preferred && LoadLanguage(k, None, env) == Ok(languages[k])
      ensures forall k :: k in preferred && LoadLanguage(k, None, env).Ok? ==> k in languages
    {
      languages := map[];
      loaded := [];
      new;
      var i := 0;
      while i < |preferred|
        invariant 0 <= i <= |preferred|
        invariant Valid()
        invariant forall k :: k in languages ==> k in preferred[..i] && LoadLanguage(k, None, env) == Ok(languages[k])
        invariant forall j :: 0 <= j < i && LoadLanguage(preferred[j], None, env).Ok? ==> preferred[j] in languages
      {
        var _ := GetLanguage(preferred[i], None, env);
        i := i + 1;
      }
    }

    /** `get_language`: a memo hit returns the stored grammar; a miss loads and stores on success. */
    method GetLanguage(name: string, autoInstall: Option<bool>, env: LanguageEnv) returns (r: Result<Language>)
      requires Valid()
      modifies this
      ensures Valid()
      ensures old(name in languages) ==> r == Ok(old(languages[name])) && languages == old(languages)
      ensures name !in old(languages) ==>
                r == LoadLanguage(name, autoInstall, env)
                && languages == (if r.Ok? then old(languages)[name := r.value] else old(languages))
      ensures r.Err? ==> r.error == LanguageNotFoundError(name)
    {
      if name in languages {
        return Ok(languages[name]);
      }
      r := LoadLanguage(name, autoInstall, env);
      if r.Ok? {
        languages := languages[name := r.value];
        loaded := loaded + [name];
      }
    }

    /**
     * `list_available_languages`: the loaded names, then the language of
     * each `tree-sitter-*` package not yet listed, sorted.
     */
    method ListAvailableLanguages(packages: seq<string>) returns (r: seq<string>)
      requires Valid()
      ensures Ascending(r) && NoDuplicates(r)
      ensures forall x :: x in r <==> x in languages || Provides(packages, x)
    {
      var available := loaded;
      var i := 0;
      while i < |packages|
        invariant 0 <= i <= |packages|
        invariant NoDuplicates(available)
        invariant forall x :: x in available <==> x in languages || Provides(packages[..i], x)
      {
        var package := packages[i];
        if StartsWith(package, PackagePrefix) {
          var lang := PackageLanguage(package);
          if lang !in available {
            available := available + [lang];
          }
        }
        assert packages[..i + 1] == packages[..i] + [package];
        i := i + 1;
      }
      assert packages[..i] == packages;
      SortNoDuplicates(available);
      r := Sort(available);
      assert forall x :: x in r <==> x in multiset(available);
    }

    /** `list_installable_languages`: the fixed list without the available languages, in its order. */
    method ListInstallableLanguages(packages: seq<string>) returns (r: seq<(string, string)>)
      requires Valid()
      ensures Subsequence(r, Installable)
      ensures forall x :: x in r <==> x in Installable && x.0 !in languages && !Provides(packages, x.0)
    {
      var available := ListAvailableLanguages(packages);
      r := NotAvailable(Installable, available);
    }
  }

  /** The class-level `_instance` slot of the singleton. */
  class LanguageRegistrySlot {
    var instance: LanguageRegistry?

    constructor()
      ensures instance == null
    {
      instance := null;
    }

    /**
     * `LanguageRegistry()`: the first call creates and initialises the
     * instance; every later call returns it untouched.
     */
    method Get(preferred: seq<string>, env: LanguageEnv) returns (r: LanguageRegistry)
      modifies this
      ensures instance == r
      ensures old(instance) != null ==> r == old(instance) && r.languages == old(instance.languages)
      ensures old(instance) == null ==> fresh(r) && r.Valid()
    {
      if instance == null {
        instance := new LanguageRegistry(preferred, env);
      }
      r := instance;
    }
  }
}

=== FILE: mcp_context.dfy ===
/**
 * Progress reporting of utils/context/mcp_context.py: an operation context
 * that records the latest progress and forwards it to the client, and the
 * progress scopes that clamp their counters.
 *
 * The client is known only by which calls it offers and whether its calls
 * fail; what reaches it is kept as a list of messages. Logging is left out.
 */
module McpContext {
  import opened Common

  /**
   * A wrapped client: whether it has `report_progress` and `info`, and
   * whether its calls raise (the failure is then only logged).
   */
  datatype Client = Client(reportsProgress: bool, takesInfo: bool, fails: bool)

  /** What the client has been sent. */
  datatype Message = Progress(current: int, total: int) | Info(text: string)

  /** `update(step)`: the counter moves by `step` but never past `total`; there is no lower bound. */
  function Updated(current: int, step: int, total: int): (r: int)
    ensures r <= total
    ensures current + step <= total ==> r == current + step
    ensures total < current + step ==> r == total
  {
    if current + step > total then total else current + step
  }

  /** `set_progress(c)`: `c` clamped to `[0, total]`, the lower bound taking precedence. */
  function Clamped(c: int, total: int): (r: int)
    ensures 0 <= r
    ensures 0 <= total ==> r <= total
    ensures 0 <= c <= total ==> r == c
    ensures total < 0 ==> r == 0
  {
    Max(0, Min(c, total))
  }

  /** A negative step can take the counter below zero, which `set_progress` would never do. */
  lemma UpdateHasNoLowerBound()
    ensures Updated(0, -1, 10) == -1 && Clamped(-1, 10) == 0
  {
  }

  class MCPContext {
    var ctx: Option<Client>
    var totalSteps: int
    var currentStep: int
    /** The messages the client has accepted, oldest first. */
    var sent: seq<Message>

    constructor (ctx: Option<Client>)
      ensures this.ctx == ctx && totalSteps == 0 && currentStep == 0 && sent == []
    {
      this.ctx := ctx;
      totalSteps := 0;
      currentStep := 0;
      sent := [];
    }

    /** The client receives progress when it has `report_progress` and the call does not fail. */
    predicate DeliversProgress()
      reads this
    {
      ctx.Some? && ctx.value.reportsProgress && !ctx.value.fails
    }

    predicate DeliversInfo()
      reads this
    {
      ctx.Some? && ctx.value.takesInfo && !ctx.value.fails
    }

    /** `report_progress`: the latest values are always recorded, and forwarded when the client can take them. */
    method ReportProgress(current: int, total: int)
      modifies this
      ensures currentStep == current && totalSteps == total && ctx == old(ctx)
      ensures sent == old(sent) + (if DeliversProgress() then [Progress(current, total)] else [])
    {
      currentStep := current;
      totalSteps := total;
      if DeliversProgress() {
        sent := sent + [Progress(current, total)];
      }
    }

    /** `info`: forwarded when the client can take it. */
    method SendInfo(message: string)
      modifies this
      ensures currentStep == old(currentStep) && totalSteps == old(totalSteps) && ctx == old(ctx)
      ensures sent == old(sent) + (if DeliversInfo() then [Info(message)] else [])
    {
      if DeliversInfo() {
        sent := sent + [Info(message)];
      }
    }

    /**
     * `progress_scope` around a block that performs `actions` and then
     * raises or not: a start message, a scope at 0, the block, and on the
     * way out (raised or not) progress raised to the total when below it,
     * and a completion message.
     */
    method RunProgressScope(total: int, description: string, actions: seq<ScopeAction>, raises: bool)
      returns (scope: ProgressScope, raised: bool)
      modifies this
      ensures fresh(scope) && scope.context == this && scope.total == total && scope.description == description
      ensures raised == raises && ctx == old(ctx)
      ensures 0 <= total ==> scope.current == total && currentStep == total && totalSteps == total
      ensures total < 0 ==> scope.current <= 0 && currentStep == scope.current && totalSteps == total
      ensures |sent| >= |old(sent)| && sent[..|old(sent)|] == old(sent)
      ensures DeliversInfo() ==> |sent| > 0 && sent[|sent| - 1] == Info("Completed: " + description)
    {
      SendInfo("Starting: " + description);
      scope := new ProgressScope(this, total, description);
      scope.Update(0);
      for i := 0 to |actions|
        invariant scope.context == this && scope.total == total && ctx == old(ctx)
        invariant currentStep == scope.current && totalSteps == total
        invariant scope.current <= total || (total < 0 && scope.current == 0)
        invariant |sent| >= |old(sent)| && sent[..|old(sent)|] == old(sent)
      {
        match actions[i]
        case Step(step) => scope.Update(step);
        case SetTo(c) => scope.SetProgress(c);
      }
      raised := raises;
      if scope.current < scope.total {
        scope.SetProgress(scope.total);
      }
      SendInfo("Completed: " + description);
    }

    /** `with_mcp_context`: a new context around the given client. */
    method WithMcpContext(ctx: Option<Client>) returns (r: MCPContext)
      ensures fresh(r) && r.ctx == ctx && r.totalSteps == 0 && r.currentStep == 0 && r.sent == []
    {
      r := new MCPContext(ctx);
    }

    /** `try_get_mcp_context`. */
    function TryGetMcpContext(): (r: Option<Client>)
      reads this
      ensures r == ctx
    {
      ctx
    }
  }

  /** `from_mcp_context`: a new context around the given client. */
  method FromMcpContext(ctx: Option<Client>) returns (r: MCPContext)
    ensures fresh(r) && r.ctx == ctx && r.totalSteps == 0 && r.currentStep == 0 && r.sent == []
  {
    r := new MCPContext(ctx);
  }

  /** What a block inside a progress scope does to it. */
  datatype ScopeAction = Step(step: int) | SetTo(c: int)

  class ProgressScope {
    const context: MCPContext
    const total: int
    const description: string
    var current: int

    constructor (context: MCPContext, total: int, description: string)
      ensures this.context == context && this.total == total && this.description == description
      ensures current == 0
    {
      this.context := context;
      this.total := total;
      this.description := description;
      current := 0;
    }

    /** `update(step)`: move the counter, capped at the total, and report it. */
    method Update(step: int)
      modifies this, context
      ensures current == Updated(old(current), step, total)
      ensures context.currentStep == current && context.totalSteps == total && context.ctx == old(context.ctx)
      ensures context.sent == old(context.sent) + (if context.DeliversProgress() then [Progress(current, total)] else [])
    {
      current := current + step;
      if current > total {
        current := total;
      }
      context.ReportProgress(current, total);
    }

    /** `set_progress(c)`: set the counter to `c` clamped to `[0, total]`, and report it. */
    method SetProgress(c: int)
      modifies this, context
      ensures current == Clamped(c, total)
      ensures context.currentStep == current && context.totalSteps == total && context.ctx == old(context.ctx)
      ensures context.sent == old(context.sent) + (if context.DeliversProgress() then [Progress(current, total)] else [])
    {
      current := Max(0, Min(c, total));
      context.ReportProgress(current, total);
    }
  }
}

=== FILE: parser_cache.dfy ===
/**
 * The parse-tree cache: entries keyed by `language:path:mtime`, a running
 * byte total, per-entry "modified" flags, lazy expiry by age, and eviction
 * of the oldest entries when a new entry would overflow the byte budget.
 *
 * Budgets are whole bytes (the source computes `max_size_mb * 1024 * 1024`);
 * the clock is an integer parameter `now`. The settings the source reads
 * from its dependency container are a parameter `settings`, `None` when the
 * container is unavailable and the instance's own fields apply.
 */
module ParserCache {
  import opened Common
  import opened Strings
  import opened SyntaxTree

  const MiB: int := 1048576

  /** The cache section of the server configuration, in bytes and seconds. */
  datatype CacheSettings = CacheSettings(enabled: bool, maxSizeBytes: int, ttlSeconds: int)

  /** What `_get_cache_key` reads from a file: its path text and its mtime, None when `stat` fails. */
  datatype FileRef = FileRef(path: string, mtime: Option<string>)

  datatype Entry = Entry(tree: Tree, source: seq<byte>, timestamp: int)

  function CacheKey(language: string, path: string, mtime: string): string
  {
    language + ":" + path + ":" + mtime
  }

  /** The key of a file, or None where computing it raises. */
  function KeyFor(file: FileRef, language: string): (r: Option<string>)
    ensures r.Some? <==> file.mtime.Some?
    ensures r.Some? ==> r.value == CacheKey(language, file.path, file.mtime.value)
  {
    match file.mtime
    case None => None
    case Some(m) => Some(CacheKey(language, file.path, m))
  }

  /** A key built from a path contains that path, so invalidating the path reaches it. */
  lemma KeyContainsPath(language: string, path: string, mtime: string)
    ensures Contains(CacheKey(language, path, mtime), path)
  {
    assert CacheKey(language, path, mtime) == (language + ":") + path + (":" + mtime);
    ContainsInfix(language + ":", path, ":" + mtime);
  }

  // ---------------------------------------------------------------------
  // Keys in dict order, and byte totals over them
  // ---------------------------------------------------------------------

  /** No key occurs twice. */
  predicate Distinct(s: seq<string>)
    decreases |s|
  {
    s == [] || (s[0] !in s[1..] && Distinct(s[1..]))
  }

  lemma {:induction false} DistinctAppend(s: seq<string>, x: string)
    requires Distinct(s) && x !in s
    ensures Distinct(s + [x])
    decreases |s|
  {
    if s != [] {
      assert (s + [x])[1..] == s[1..] + [x];
      DistinctAppend(s[1..], x);
    }
  }

  lemma {:induction false} DistinctInit(s: seq<string>, x: string)
    requires Distinct(s + [x])
    ensures Distinct(s) && x !in s
    decreases |s|
  {
    if s != [] {
      assert (s + [x])[1..] == s[1..] + [x];
      DistinctInit(s[1..], x);
      assert s == [s[0]] + s[1..];
    }
  }

  /** A key of a distinct sequence does not recur later in it. */
  lemma {:induction false} DistinctAt(s: seq<string>, i: nat)
    requires Distinct(s) && i < |s|
    ensures forall j :: i < j < |s| ==> s[j] != s[i]
    decreases i
  {
    if i == 0 {
      assert forall j :: 0 < j < |s| ==> s[j] == s[1..][j - 1];
    } else {
      DistinctAt(s[1..], i - 1);
      assert forall j :: 0 < j < |s| ==> s[j] == s[1..][j - 1];
    }
  }

  predicate AllIn(s: seq<string>, m: map<string, Entry>)
  {
    forall k :: k in s ==> k in m
  }

  /** The keys of `s` as a set, built up from the front. */
  function Elems(s: seq<string>): set<string>
  {
    if s == [] then {} else Elems(s[..|s| - 1]) + {s[|s| - 1]}
  }

  lemma {:induction false} ElemsIn(s: seq<string>)
    ensures forall k :: k in Elems(s) <==> k in s
  {
    if s != [] {
      ElemsIn(s[..|s| - 1]);
      assert s == s[..|s| - 1] + [s[|s| - 1]];
    }
  }

  lemma ElemsStep(s: seq<string>, i: nat)
    requires i < |s|
    ensures Elems(s[..i + 1]) == Elems(s[..i]) + {s[i]}
  {
    assert s[..i + 1][..i] == s[..i];
  }

  function SumSizes(keys: seq<string>, m: map<string, Entry>): int
    requires AllIn(keys, m)
  {
    if keys == [] then 0 else |m[keys[0]].source| + SumSizes(keys[1..], m)
  }

  /** The keys of `s` outside `ks`, in their original order. */
  function DropKeys(s: seq<string>, ks: set<string>): seq<string>
  {
    if s == [] then [] else (if s[0] in ks then [] else [s[0]]) + DropKeys(s[1..], ks)
  }

  lemma {:induction false} DropKeysMembers(s: seq<string>, ks: set<string>)
    ensures forall k :: k in DropKeys(s, ks) <==> k in s && k !in ks
  {
    if s != [] {
      DropKeysMembers(s[1..], ks);
      assert s == [s[0]] + s[1..];
    }
  }

  /** The keys of `s` that contain `text`, in their original order. */
  function KeysContaining(s: seq<string>, text: string): (r: seq<string>)
    ensures forall k :: k in r <==> k in s && Contains(k, text)
  {
    if s == [] then [] else (if Contains(s[0], text) then [s[0]] else []) + KeysContaining(s[1..], text)
  }

  lemma WithoutTwice<V>(m: map<string, V>, a: set<string>, b: set<string>)
    ensures (m - a) - b == m - (a + b)
  {
  }

  lemma WithoutNothing<V>(m: map<string, V>)
    ensures m - {} == m
  {
  }

  lemma {:induction false} SumSizesAppend(a: seq<string>, b: seq<string>, m: map<string, Entry>)
    requires AllIn(a, m) && AllIn(b, m)
    ensures AllIn(a + b, m)
    ensures SumSizes(a + b, m) == SumSizes(a, m) + SumSizes(b, m)
  {
    if a != [] {
      assert (a + b)[0] == a[0];
      assert (a + b)[1..] == a[1..] + b;
      SumSizesAppend(a[1..], b, m);
    } else {
      assert a + b == b;
    }
  }

  /** Totals only look at the entries they name. */
  lemma {:induction false} SumSizesFrame(keys: seq<string>, m: map<string, Entry>, m': map<string, Entry>)
    requires AllIn(keys, m) && AllIn(keys, m')
    requires forall k :: k in keys ==> m[k] == m'[k]
    ensures SumSizes(keys, m) == SumSizes(keys, m')
  {
    if keys != [] {
      SumSizesFrame(keys[1..], m, m');
    }
  }

  lemma {:induction false} DropNothing(keys: seq<string>, ks: set<string>)
    requires forall k :: k in keys ==> k !in ks
    ensures DropKeys(keys, ks) == keys
  {
    if keys != [] {
      DropNothing(keys[1..], ks);
    }
  }

  /** Dropping one key present once lowers the total by exactly that entry's size. */
  lemma {:induction false} SumSizesDrop(keys: seq<string>, m: map<string, Entry>, k: string)
    requires AllIn(keys, m) && Distinct(keys) && k in keys
    ensures AllIn(DropKeys(keys, {k}), m)
    ensures SumSizes(DropKeys(keys, {k}), m) == SumSizes(keys, m) - |m[k].source|
  {
    var t := keys[1..];
    assert keys == [keys[0]] + t;
    assert Distinct(t);
    if keys[0] == k {
      assert k !in t;
      DropNothing(t, {k});
      assert DropKeys(keys, {k}) == t;
    } else {
      assert k in t;
      SumSizesDrop(t, m, k);
      assert DropKeys(keys, {k}) == [keys[0]] + DropKeys(t, {k});
      assert DropKeys(keys, {k})[1..] == DropKeys(t, {k});
    }
  }

  lemma {:induction false} DropDistinct(keys: seq<string>, ks: set<string>)
    requires Distinct(keys)
    ensures Distinct(DropKeys(keys, ks))
  {
    if keys != [] {
      DropDistinct(keys[1..], ks);
      DropKeysMembers(keys[1..], ks);
      var rest := DropKeys(keys[1..], ks);
      if keys[0] !in ks {
        assert DropKeys(keys, ks) == [keys[0]] + rest;
        assert keys[0] !in rest;
        assert ([keys[0]] + rest)[1..] == rest;
      } else {
        assert DropKeys(keys, ks) == rest;
      }
    }
  }

  lemma {:induction false} DropTwice(keys: seq<string>, a: set<string>, b: set<string>)
    ensures DropKeys(DropKeys(keys, a), b) == DropKeys(keys, a + b)
  {
    if keys != [] {
      DropTwice(keys[1..], a, b);
      var x := keys[0];
      var first := if x in a then [] else [x];
      assert DropKeys(keys, a) == first + DropKeys(keys[1..], a);
      DropAppend(first, DropKeys(keys[1..], a), b);
    }
  }

  lemma {:induction false} DropAppend(s: seq<string>, t: seq<string>, ks: set<string>)
    ensures DropKeys(s + t, ks) == DropKeys(s, ks) + DropKeys(t, ks)
  {
    if s != [] {
      assert (s + t)[0] == s[0];
      assert (s + t)[1..] == s[1..] + t;
      DropAppend(s[1..], t, ks);
    } else {
      assert s + t == t;
    }
  }

  lemma {:induction false} KeysContainingDistinct(s: seq<string>, text: string)
    requires Distinct(s)
    ensures Distinct(KeysContaining(s, text))
  {
    if s != [] {
      KeysContainingDistinct(s[1..], text);
      var rest := KeysContaining(s[1..], text);
      if Contains(s[0], text) {
        assert KeysContaining(s, text) == [s[0]] + rest;
        assert s[0] !in rest;
        assert ([s[0]] + rest)[1..] == rest;
      } else {
        assert KeysContaining(s, text) == rest;
      }
    }
  }

  // ---------------------------------------------------------------------
  // Oldest-first order
  // ---------------------------------------------------------------------

  predicate TimeSorted(s: seq<string>, m: map<string, Entry>)
    requires AllIn(s, m)
  {
    forall i, j :: 0 <= i < j < |s| ==> m[s[i]].timestamp <= m[s[j]].timestamp
  }

  /**
   * Inserts `k` after every key whose timestamp is not later, so that keys
   * with equal timestamps keep their relative order.
   */
  function InsertByTimestamp(k: string, sorted: seq<string>, m: map<string, Entry>): (r: seq<string>)
    requires k in m && AllIn(sorted, m)
    ensures forall x :: x in r <==> x == k || x in sorted
    ensures |r| == |sorted| + 1
  {
    if sorted == [] then [k]
    else if m[k].timestamp < m[sorted[0]].timestamp then [k] + sorted
    else [sorted[0]] + InsertByTimestamp(k, sorted[1..], m)
  }

  /** `sorted(items, key=timestamp)`: a stable insertion sort of the keys. */
  function SortByTimestamp(keys: seq<string>, m: map<string, Entry>): (r: seq<string>)
    requires AllIn(keys, m)
    ensures forall x :: x in r <==> x in keys
    ensures |r| == |keys|
  {
    if keys == [] then []
    else InsertByTimestamp(keys[|keys| - 1], SortByTimestamp(keys[..|keys| - 1], m), m)
  }

  lemma {:induction false} InsertSorted(k: string, sorted: seq<string>, m: map<string, Entry>)
    requires k in m && AllIn(sorted, m) && TimeSorted(sorted, m)
    ensures TimeSorted(InsertByTimestamp(k, sorted, m), m)
  {
    if sorted != [] && m[k].timestamp >= m[sorted[0]].timestamp {
      var rest := InsertByTimestamp(k, sorted[1..], m);
      InsertSorted(k, sorted[1..], m);
      assert forall x :: x in rest ==> m[sorted[0]].timestamp <= m[x].timestamp;
      assert InsertByTimestamp(k, sorted, m) == [sorted[0]] + rest;
    }
  }

  lemma {:induction false} InsertDistinct(k: string, sorted: seq<string>, m: map<string, Entry>)
    requires k in m && AllIn(sorted, m) && Distinct(sorted) && k !in sorted
    ensures Distinct(InsertByTimestamp(k, sorted, m))
  {
    if sorted == [] {
      assert [k][1..] == [];
    } else if m[k].timestamp >= m[sorted[0]].timestamp {
      InsertDistinct(k, sorted[1..], m);
      var rest := InsertByTimestamp(k, sorted[1..], m);
      assert sorted[0] !in rest;
      assert ([sorted[0]] + rest)[1..] == rest;
    } else {
      assert ([k] + sorted)[1..] == sorted;
    }
  }

  lemma {:induction false} InsertSum(k: string, sorted: seq<string>, m: map<string, Entry>)
    requires k in m && AllIn(sorted, m)
    ensures SumSizes(InsertByTimestamp(k, sorted, m), m) == |m[k].source| + SumSizes(sorted, m)
  {
    if sorted != [] && m[k].timestamp >= m[sorted[0]].timestamp {
      InsertSum(k, sorted[1..], m);
      assert InsertByTimestamp(k, sorted, m)[1..] == InsertByTimestamp(k, sorted[1..], m);
    } else if sorted != [] {
      assert ([k] + sorted)[1..] == sorted;
    }
  }

  lemma {:induction false} SortByTimestampDistinct(keys: seq<string>, m: map<string, Entry>)
    requires AllIn(keys, m) && Distinct(keys)
    ensures Distinct(SortByTimestamp(keys, m))
  {
    if keys != [] {
      var init := keys[..|keys| - 1];
      var x := keys[|keys| - 1];
      assert keys == init + [x];
      DistinctInit(init, x);
      SortByTimestampDistinct(init, m);
      InsertDistinct(x, SortByTimestamp(init, m), m);
    }
  }

  /** The sort puts the keys oldest first and keeps their byte total. */
  lemma {:induction false} SortByTimestampCorrect(keys: seq<string>, m: map<string, Entry>)
    requires AllIn(keys, m)
    ensures TimeSorted(SortByTimestamp(keys, m), m)
    ensures SumSizes(SortByTimestamp(keys, m), m) == SumSizes(keys, m)
  {
    if keys != [] {
      var init := keys[..|keys| - 1];
      var x := keys[|keys| - 1];
      assert keys == init + [x];
      SortByTimestampCorrect(init, m);
      InsertSorted(x, SortByTimestamp(init, m), m);
      InsertSum(x, SortByTimestamp(init, m), m);
      SumSizesAppend(init, [x], m);
    }
  }

  /** "Very small cache": below 0.1 MiB, or below 10 KiB. */
  predicate SmallBudget(maxBytes: int)
  {
    10 * maxBytes < MiB || maxBytes < 10 * 1024
  }

  datatype Plan = Plan(target: int, minEntries: int)

  /** How many bytes and how many entries eviction must at least remove. */
  function EvictionPlan(current: int, required: int, maxBytes: int, count: nat): (p: Plan)
    ensures 1 <= p.minEntries
    ensures !SmallBudget(maxBytes) ==> required <= p.target
  {
    if SmallBudget(maxBytes) then Plan(current / 2, Max(1, count / 2))
    else if 10 * current > 9 * maxBytes then Plan(required + maxBytes / 5, Max(1, count / 4))
    else Plan(required, 1)
  }

  /** Number of entries the eviction loop removes, resuming at index `i` with `freed` bytes freed. */
  function EvictStop(keys: seq<string>, m: map<string, Entry>, plan: Plan, i: nat, freed: int): (k: nat)
    requires i <= |keys| && AllIn(keys, m)
    ensures i <= k <= |keys|
    ensures i < |keys| ==> i < k
    decreases |keys| - i
  {
    if i == |keys| then i
    else
      var f := freed + |m[keys[i]].source|;
      if f >= plan.target && i + 1 >= plan.minEntries then i + 1
      else EvictStop(keys, m, plan, i + 1, f)
  }

  /** The bytes held by the first `i` keys, summed from the back as the eviction loop adds them. */
  function FreedBy(keys: seq<string>, m: map<string, Entry>, i: nat): int
    requires i <= |keys| && AllIn(keys, m)
  {
    if i == 0 then 0 else FreedBy(keys, m, i - 1) + |m[keys[i - 1]].source|
  }

  /** The first `i` keys as a set, gathered as the eviction loop removes them. */
  function GoneBy(keys: seq<string>, i: nat): set<string>
    requires i <= |keys|
  {
    if i == 0 then {} else GoneBy(keys, i - 1) + {keys[i - 1]}
  }

  /** The loop's running account agrees with the totals over the prefix. */
  lemma {:induction false} FreedBySums(keys: seq<string>, m: map<string, Entry>, i: nat)
    requires i <= |keys| && AllIn(keys, m)
    ensures AllIn(keys[..i], m) && FreedBy(keys, m, i) == SumSizes(keys[..i], m)
    ensures GoneBy(keys, i) == Elems(keys[..i])
  {
    if i > 0 {
      FreedBySums(keys, m, i - 1);
      assert keys[..i] == keys[..i - 1] + [keys[i - 1]];
      SumSizesAppend(keys[..i - 1], [keys[i - 1]], m);
      ElemsStep(keys, i - 1);
    }
  }

  /** In a distinct sequence, no later key is among the first `i`. */
  lemma {:induction false} NotGoneBefore(keys: seq<string>, i: nat, j: nat)
    requires Distinct(keys) && i <= j < |keys|
    ensures keys[j] !in GoneBy(keys, i)
    decreases i
  {
    if i > 0 {
      NotGoneBefore(keys, i - 1, j);
      DistinctAt(keys, i - 1);
    }
  }

  /**
   * One round of the eviction loop: removing the next key either reaches
   * the stop the loop is heading for or leaves that stop ahead.
   */
  lemma EvictAdvance(keys: seq<string>, m: map<string, Entry>, plan: Plan, k: nat, i: nat, freed: int, f: int)
    requires AllIn(keys, m) && i < k <= |keys|
    requires EvictStop(keys, m, plan, i, freed) == k
    requires freed == FreedBy(keys, m, i) && f == freed + |m[keys[i]].source|
    ensures FreedBy(keys, m, i + 1) == f
    ensures f >= plan.target && i + 1 >= plan.minEntries ==> k == i + 1
    ensures !(f >= plan.target && i + 1 >= plan.minEntries) ==> EvictStop(keys, m, plan, i + 1, f) == k
  {
  }

  /** The first `j` keys free the target and meet the minimum count. */
  predicate Enough(keys: seq<string>, m: map<string, Entry>, plan: Plan, j: nat)
    requires j <= |keys| && AllIn(keys, m)
  {
    SumSizes(keys[..j], m) >= plan.target && j >= plan.minEntries
  }

  /**
   * The loop stops at the first count that frees the target and meets the
   * minimum, or removes everything when no count does.
   */
  lemma EvictStopIsFirstSufficient(keys: seq<string>, m: map<string, Entry>, plan: Plan)
    requires AllIn(keys, m)
    ensures var k := EvictStop(keys, m, plan, 0, 0);
            (k == |keys| || Enough(keys, m, plan, k))
            && forall j :: 1 <= j < k ==> !Enough(keys, m, plan, j)
  {
    EvictStopFrom(keys, m, plan, 0, 0);
  }

  lemma {:induction false} EvictStopFrom(keys: seq<string>, m: map<string, Entry>, plan: Plan, i: nat, freed: int)
    requires i <= |keys| && AllIn(keys, m)
    requires freed == SumSizes(keys[..i], m)
    requires forall j :: 1 <= j <= i ==> !Enough(keys, m, plan, j)
    ensures var k := EvictStop(keys, m, plan, i, freed);
            (k == |keys| || Enough(keys, m, plan, k))
            && forall j :: 1 <= j < k ==> !Enough(keys, m, plan, j)
    decreases |keys| - i
  {
    if i < |keys| {
      var f := freed + |m[keys[i]].source|;
      assert keys[..i + 1] == keys[..i] + [keys[i]];
      SumSizesAppend(keys[..i], [keys[i]], m);
      assert f == SumSizes(keys[..i + 1], m);
      if !(f >= plan.target && i + 1 >= plan.minEntries) {
        EvictStopFrom(keys, m, plan, i + 1, f);
      }
    }
  }

  /** The keys `_evict_entries` removes, oldest first. */
  function EvictedKeys(order: seq<string>, cache: map<string, Entry>, current: int, required: int, maxBytes: int): (ev: seq<string>)
    requires AllIn(order, cache)
    ensures AllIn(ev, cache)
  {
    if current + required <= maxBytes || |cache| == 0 then []
    else
      var sorted := SortByTimestamp(order, cache);
      sorted[..EvictStop(sorted, cache, EvictionPlan(current, required, maxBytes, |cache|), 0, 0)]
  }

  /** Eviction removes the oldest entries: nothing that stays is older than anything evicted. */
  lemma EvictsOldestFirst(order: seq<string>, cache: map<string, Entry>, current: int, required: int, maxBytes: int,
                          evicted: string, kept: string)
    requires AllIn(order, cache) && Distinct(order)
    requires evicted in EvictedKeys(order, cache, current, required, maxBytes)
    requires kept in order && kept !in EvictedKeys(order, cache, current, required, maxBytes)
    ensures cache[evicted].timestamp <= cache[kept].timestamp
  {
    var sorted := SortByTimestamp(order, cache);
    SortByTimestampCorrect(order, cache);
    var k := EvictStop(sorted, cache, EvictionPlan(current, required, maxBytes, |cache|), 0, 0);
    var ev := EvictedKeys(order, cache, current, required, maxBytes);
    assert ev == sorted[..k];
    assert forall j :: 0 <= j < k ==> sorted[j] in ev;
    var a :| 0 <= a < k && sorted[a] == evicted;
    var b :| 0 <= b < |sorted| && sorted[b] == kept;
    assert k <= b;
  }

  /**
   * Outside the small-budget branch, eviction for a new entry of
   * `required` bytes frees at least `required` bytes, unless it empties the
   * whole cache.
   */
  lemma NormalEvictionFreesRequired(order: seq<string>, cache: map<string, Entry>, current: int, required: int, maxBytes: int)
    requires AllIn(order, cache) && Distinct(order) && forall k :: k in cache ==> k in order
    requires !SmallBudget(maxBytes) && current + required > maxBytes
    ensures var ev := EvictedKeys(order, cache, current, required, maxBytes);
            SumSizes(ev, cache) >= required || SumSizes(ev, cache) == SumSizes(order, cache)
  {
    var ev := EvictedKeys(order, cache, current, required, maxBytes);
    assert order != [] ==> order[0] in cache;
    if |cache| != 0 {
      var sorted := SortByTimestamp(order, cache);
      SortByTimestampCorrect(order, cache);
      var plan := EvictionPlan(current, required, maxBytes, |cache|);
      EvictStopIsFirstSufficient(sorted, cache, plan);
      var k := EvictStop(sorted, cache, plan, 0, 0);
      assert sorted[..|sorted|] == sorted;
    }
  }

  /**
   * The small-budget branch does not keep the cache within budget: with a
   * 5000-byte budget holding two 2000-byte entries, adding a 4000-byte entry
   * evicts only the older one and leaves 6000 bytes cached.
   */
  lemma SmallBudgetCanOverflow()
    ensures var src := seq(2000, _ => 0 as byte);
            var t := Tree(Node("module", 0, 0, Point(0, 0), Point(0, 0), true, [], []));
            var cache := map["a" := Entry(t, src, 1), "b" := Entry(t, src, 2)];
            var ev := EvictedKeys(["a", "b"], cache, 4000, 4000, 5000);
            ev == ["a"] && SumSizes(["a", "b"], cache) - SumSizes(ev, cache) + 4000 > 5000
  {
    var src := seq(2000, _ => 0 as byte);
    var t := Tree(Node("module", 0, 0, Point(0, 0), Point(0, 0), true, [], []));
    var cache := map["a" := Entry(t, src, 1), "b" := Entry(t, src, 2)];
    assert |cache| == 2 by {
      assert cache.Keys == {"a", "b"};
    }
    assert ["a", "b"][..1] == ["a"];
    assert SortByTimestamp(["a"], cache) == ["a"];
    assert ["a"][1..] == [];
    assert InsertByTimestamp("b", ["a"], cache) == ["a"] + InsertByTimestamp("b", [], cache);
    assert SortByTimestamp(["a", "b"], cache) == ["a", "b"];
    var plan := EvictionPlan(4000, 4000, 5000, 2);
    assert plan == Plan(2000, 1);
    assert EvictStop(["a", "b"], cache, plan, 0, 0) == 1;
    assert SumSizes(["b"], cache) == 2000;
    assert SumSizes(["a", "b"], cache) == 4000;
  }

  /** The cache's bookkeeping as a value: dict order, entries, byte total and flags. */
  datatype Book = Book(order: seq<string>, cache: map<string, Entry>, size: int, flags: map<string, bool>)

  /**
   * The bookkeeping the cache keeps consistent: `order` lists each key of
   * `cache` once, the byte total is the sum of the entries' sources, and
   * every flag belongs to an entry.
   */
  ghost predicate Consistent(b: Book)
  {
    && Distinct(b.order)
    && AllIn(b.order, b.cache)
    && (forall k :: k in b.cache ==> k in b.order)
    && b.size == SumSizes(b.order, b.cache)
    && b.flags.Keys <= b.cache.Keys
  }

  /** One deletion: the key leaves the order, the entries and the flags, and `bytes` leave the total. */
  function Delete(b: Book, key: string, bytes: int): Book
  {
    Book(DropKeys(b.order, {key}), b.cache - {key}, b.size - bytes, b.flags - {key})
  }

  /** Deleting one entry, with its own size, keeps the bookkeeping consistent. */
  lemma RemoveKeeps(b: Book, key: string)
    requires Consistent(b) && key in b.cache
    ensures Consistent(Delete(b, key, |b.cache[key].source|))
  {
    SumSizesDrop(b.order, b.cache, key);
    DropDistinct(b.order, {key});
    DropKeysMembers(b.order, {key});
    SumSizesFrame(DropKeys(b.order, {key}), b.cache, b.cache - {key});
  }

  /**
   * Writing an entry: a new key goes to the end of the order, an existing
   * one keeps its place; the entry's flag is cleared and its bytes join the
   * total.
   */
  function Write(b: Book, key: string, e: Entry): Book
  {
    Book(if key in b.cache then b.order else b.order + [key], b.cache[key := e], b.size + |e.source|, b.flags[key := false])
  }

  /**
   * Writing an entry into bookkeeping whose total already leaves out the
   * bytes of the entry it replaces makes the bookkeeping consistent.
   */
  lemma WriteKeeps(b: Book, key: string, e: Entry)
    requires Distinct(b.order) && AllIn(b.order, b.cache) && (forall k :: k in b.cache ==> k in b.order)
    requires b.flags.Keys <= b.cache.Keys
    requires b.size == SumSizes(b.order, b.cache) - (if key in b.cache then |b.cache[key].source| else 0)
    ensures Consistent(Write(b, key, e))
  {
    var c := b.cache[key := e];
    if key !in b.cache {
      SumSizesFrame(b.order, b.cache, c);
      SumSizesAppend(b.order, [key], c);
      DistinctAppend(b.order, key);
    } else {
      SumSizesDrop(b.order, b.cache, key);
      SumSizesDrop(b.order, c, key);
      DropKeysMembers(b.order, {key});
      SumSizesFrame(DropKeys(b.order, {key}), b.cache, c);
    }
  }

  /** `b` with the keys of `ev` deleted from the order, the entries and the flags, and their bytes from the total. */
  function Without(b: Book, ev: seq<string>): Book
    requires AllIn(ev, b.cache)
  {
    Book(DropKeys(b.order, Elems(ev)), b.cache - Elems(ev), b.size - SumSizes(ev, b.cache), b.flags - Elems(ev))
  }

  /** `r` is `b` without the keys of `ev`. */
  ghost predicate Removed(b: Book, r: Book, ev: seq<string>)
  {
    AllIn(ev, b.cache) && r == Without(b, ev)
  }

  /** The bookkeeping after deleting the first `i` keys one after the other, each with its size in `m`. */
  function DeleteFirst(b: Book, keys: seq<string>, m: map<string, Entry>, i: nat): Book
    requires i <= |keys| && AllIn(keys, m)
  {
    if i == 0 then b else Delete(DeleteFirst(b, keys, m, i - 1), keys[i - 1], |m[keys[i - 1]].source|)
  }

  lemma DeleteFirstStep(b: Book, keys: seq<string>, m: map<string, Entry>, i: nat)
    requires i < |keys| && AllIn(keys, m)
    ensures DeleteFirst(b, keys, m, i + 1) == Delete(DeleteFirst(b, keys, m, i), keys[i], |m[keys[i]].source|)
  {
  }

  /**
   * Deleting the first `i` keys of a list of cached keys, one after the
   * other, removes exactly those keys and their bytes.
   */
  lemma {:induction false} DeleteFirstRemoves(b: Book, keys: seq<string>, i: nat)
    requires AllIn(keys, b.cache) && i <= |keys|
    ensures var g := GoneBy(keys, i);
            DeleteFirst(b, keys, b.cache, i)
              == Book(DropKeys(b.order, g), b.cache - g, b.size - FreedBy(keys, b.cache, i), b.flags - g)
  {
    if i > 0 {
      var g, key := GoneBy(keys, i - 1), keys[i - 1];
      DeleteFirstRemoves(b, keys, i - 1);
      assert GoneBy(keys, i) == g + {key};
      assert FreedBy(keys, b.cache, i) == FreedBy(keys, b.cache, i - 1) + |b.cache[key].source|;
      DropTwice(b.order, g, {key});
      WithoutTwice(b.cache, g, {key});
      WithoutTwice(b.flags, g, {key});
    } else {
      DropNothing(b.order, {});
      WithoutNothing(b.cache);
      WithoutNothing(b.flags);
    }
  }

  /** When the keys are distinct, deleting them one after the other keeps the bookkeeping consistent. */
  lemma {:induction false} DeleteFirstConsistent(b: Book, keys: seq<string>, i: nat)
    requires Consistent(b) && Distinct(keys) && AllIn(keys, b.cache) && i <= |keys|
    ensures Consistent(DeleteFirst(b, keys, b.cache, i))
  {
    if i > 0 {
      var prev, key := DeleteFirst(b, keys, b.cache, i - 1), keys[i - 1];
      DeleteFirstConsistent(b, keys, i - 1);
      DeleteFirstRemoves(b, keys, i - 1);
      NotGoneBefore(keys, i - 1, i - 1);
      assert key in b.cache;
      assert key in prev.cache && prev.cache[key] == b.cache[key];
      RemoveKeeps(prev, key);
    }
  }

  /**
   * The loop of `_evict_entries`, on the cache's bookkeeping: walks the keys
   * oldest first, deleting each with the size it had when the walk began,
   * until the freed bytes reach the target and enough entries are gone.
   */
  method EvictOldest(sorted: seq<string>, plan: Plan, b: Book) returns (r: Book)
    requires Consistent(b) && Distinct(sorted) && AllIn(sorted, b.cache)
    ensures Consistent(r)
    ensures Removed(b, r, sorted[..EvictStop(sorted, b.cache, plan, 0, 0)])
  {
    ghost var k := EvictStop(sorted, b.cache, plan, 0, 0);
    r := b;
    var bytesFreed := 0;
    var entriesRemoved := 0;
    var i := 0;
    while i < |sorted|
      invariant 0 <= i <= k <= |sorted|
      invariant EvictStop(sorted, b.cache, plan, i, bytesFreed) == k
      invariant entriesRemoved == i && bytesFreed == FreedBy(sorted, b.cache, i)
      invariant r == DeleteFirst(b, sorted, b.cache, i)
      decreases |sorted| - i
    {
      var key := sorted[i];
      var size := |b.cache[key].source|;
      EvictAdvance(sorted, b.cache, plan, k, i, bytesFreed, bytesFreed + size);
      DeleteFirstStep(b, sorted, b.cache, i);
      r := Delete(r, key, size);
      bytesFreed := bytesFreed + size;
      entriesRemoved := entriesRemoved + 1;
      i := i + 1;
      if bytesFreed >= plan.target && entriesRemoved >= plan.minEntries {
        break;
      }
    }
    DeleteFirstRemoves(b, sorted, k);
    DeleteFirstConsistent(b, sorted, k);
    FreedBySums(sorted, b.cache, k);
  }

  /**
   * `_evict_entries` on the cache's bookkeeping: nothing when the new
   * entry fits or the cache is empty; otherwise the loop over the keys
   * sorted oldest first, with the targets of the eviction plan.
   */
  method EvictBook(b: Book, required: int, maxBytes: int) returns (r: Book)
    requires Consistent(b)
    ensures Consistent(r)
    ensures Removed(b, r, EvictedKeys(b.order, b.cache, b.size, required, maxBytes))
  {
    if b.size + required <= maxBytes || |b.cache| == 0 {
      assert Elems([]) == {};
      DropNothing(b.order, {});
      WithoutNothing(b.cache);
      WithoutNothing(b.flags);
      return b;
    }
    var sorted := SortByTimestamp(b.order, b.cache);
    SortByTimestampDistinct(b.order, b.cache);
    var plan := EvictionPlan(b.size, required, maxBytes, |b.cache|);
    r := EvictOldest(sorted, plan, b);
  }

  /**
   * The loop of `invalidate`: deletes the given keys one after the other,
   * each with the size it has in the cache at that point.
   */
  method RemoveAll(b: Book, keys: seq<string>) returns (r: Book)
    requires Consistent(b) && Distinct(keys) && AllIn(keys, b.cache)
    ensures Consistent(r)
    ensures Removed(b, r, keys)
  {
    r := b;
    for i := 0 to |keys|
      invariant r == DeleteFirst(b, keys, b.cache, i)
    {
      var key := keys[i];
      DeleteFirstRemoves(b, keys, i);
      NotGoneBefore(keys, i, i);
      assert key in b.cache;
      DeleteFirstStep(b, keys, b.cache, i);
      r := Delete(r, key, |r.cache[key].source|);
    }
    DeleteFirstRemoves(b, keys, |keys|);
    DeleteFirstConsistent(b, keys, |keys|);
    FreedBySums(keys, b.cache, |keys|);
    assert keys[..|keys|] == keys;
  }

  // ---------------------------------------------------------------------
  // Lookups and writes on the bookkeeping as a value
  // ---------------------------------------------------------------------

  /** The instance's own settings: its enabled flag, its byte budget and its time to live. */
  datatype Limits = Limits(enabled: bool, maxSizeBytes: int, ttlSeconds: int)

  /** `_get_max_size_mb` in bytes: 0 while disabled when the container is reachable. */
  function MaxBytesIn(lim: Limits, settings: Option<CacheSettings>): int
  {
    match settings
    case None => lim.maxSizeBytes
    case Some(c) => if lim.enabled then c.maxSizeBytes else 0
  }

  function TtlIn(lim: Limits, settings: Option<CacheSettings>): int
  {
    match settings
    case None => lim.ttlSeconds
    case Some(c) => c.ttlSeconds
  }

  /** `_is_cache_enabled`: the instance flag and, when reachable, the configured flag. */
  function EnabledIn(lim: Limits, settings: Option<CacheSettings>): (r: bool)
    ensures r ==> lim.enabled
    ensures r <==> lim.enabled && (settings.None? || settings.value.enabled)
  {
    match settings
    case None => lim.enabled
    case Some(c) => lim.enabled && c.enabled
  }

  /** What `get` answers at time `now`: the stored pair, unless disabled, unkeyable, absent or expired. */
  function LookupIn(b: Book, lim: Limits, file: FileRef, language: string, settings: Option<CacheSettings>, now: int)
    : Option<(Tree, seq<byte>)>
  {
    var key := KeyFor(file, language);
    if !EnabledIn(lim, settings) || key.None? || key.value !in b.cache then None
    else if now - b.cache[key.value].timestamp > TtlIn(lim, settings) then None
    else Some((b.cache[key.value].tree, b.cache[key.value].source))
  }

  /** Whether `put` gets past its early returns and stores the entry. */
  predicate StoresIn(lim: Limits, file: FileRef, language: string, source: seq<byte>, settings: Option<CacheSettings>)
  {
    EnabledIn(lim, settings) && KeyFor(file, language).Some?
    && MaxBytesIn(lim, settings) > 1024 && |source| <= MaxBytesIn(lim, settings)
  }

  /**
   * The bookkeeping after `get`: an expired entry of the file is deleted
   * with its bytes; nothing else changes, and the answer stays the same.
   */
  ghost function GetIn(b: Book, lim: Limits, file: FileRef, language: string, settings: Option<CacheSettings>, now: int)
    : (r: Book)
    ensures AllIn(b.order, b.cache) ==> AllIn(r.order, r.cache)
  {
    var key := KeyFor(file, language);
    if EnabledIn(lim, settings) && key.Some? && key.value in b.cache
       && now - b.cache[key.value].timestamp > TtlIn(lim, settings)
    then
      DropKeysMembers(b.order, {key.value});
      Delete(b, key.value, |b.cache[key.value].source|)
    else b
  }

  /** `get` changes nothing on a hit, keeps its answer, and drops at most the file's own entry. */
  lemma GetInMeaning(b: Book, lim: Limits, file: FileRef, language: string, settings: Option<CacheSettings>, now: int)
    ensures var r := GetIn(b, lim, file, language, settings, now);
            && (LookupIn(b, lim, file, language, settings, now).Some? ==> r == b)
            && LookupIn(r, lim, file, language, settings, now) == LookupIn(b, lim, file, language, settings, now)
            && (forall k :: k in r.cache ==> k in b.cache && r.cache[k] == b.cache[k])
            && (forall k :: k in b.cache && KeyFor(file, language) != Some(k) ==> k in r.cache)
  {
  }

  /** A lookup depends only on the entry under the file's key. */
  lemma SameEntrySameLookup(r: Book, b: Book, lim: Limits, file: FileRef, language: string,
                            settings: Option<CacheSettings>, now: int)
    requires KeyFor(file, language).Some?
    requires var key := KeyFor(file, language).value; key in r.cache && key in b.cache && r.cache[key] == b.cache[key]
    ensures LookupIn(r, lim, file, language, settings, now) == LookupIn(b, lim, file, language, settings, now)
  {
  }

  /**
   * The bookkeeping after `put`: unchanged when `put` returns early;
   * otherwise an existing entry is replaced in place, or a new one is
   * appended after the eviction its size calls for. Every other entry that
   * stays is the one it was.
   */
  ghost function PutIn(b: Book, lim: Limits, file: FileRef, language: string, tree: Tree, source: seq<byte>,
                       settings: Option<CacheSettings>, now: int): (r: Book)
    requires AllIn(b.order, b.cache)
    ensures AllIn(r.order, r.cache)
  {
    if !StoresIn(lim, file, language, source, settings) then b
    else
      var key := KeyFor(file, language).value;
      var e := Entry(tree, source, now);
      if key in b.cache then Write(Book(b.order, b.cache, b.size - |b.cache[key].source|, b.flags), key, e)
      else
        var maxBytes := MaxBytesIn(lim, settings);
        var ev := if b.size + |source| > maxBytes then EvictedKeys(b.order, b.cache, b.size, |source|, maxBytes) else [];
        DropKeysMembers(b.order, Elems(ev));
        Write(Without(b, ev), key, e)
  }

  /**
   * `put` changes nothing when it returns early; otherwise the file's key
   * holds the new entry with a cleared flag, and every other entry left is
   * the one it was.
   */
  lemma PutInMeaning(b: Book, lim: Limits, file: FileRef, language: string, tree: Tree, source: seq<byte>,
                     settings: Option<CacheSettings>, now: int)
    requires AllIn(b.order, b.cache)
    ensures var r := PutIn(b, lim, file, language, tree, source, settings, now);
            && (!StoresIn(lim, file, language, source, settings) ==> r == b)
            && (StoresIn(lim, file, language, source, settings) ==>
                  var key := KeyFor(file, language).value;
                  key in r.cache && r.cache[key] == Entry(tree, source, now) && key in r.flags && !r.flags[key])
            && (forall k :: k in r.cache && KeyFor(file, language) != Some(k) ==> k in b.cache && r.cache[k] == b.cache[k])
  {
  }

  /**
   * The bookkeeping after a cache-through parse of a file: `get`, then on a
   * miss with both a parser and the file's bytes, the parse offered to
   * `put`. A hit changes nothing; every entry afterwards is one that was
   * there or the fresh parse under the file's own key, and a stored parse is
   * what the next lookup at the same time answers.
   */
  ghost function ThroughIn(b: Book, lim: Limits, file: FileRef, language: string, parser: Option<seq<byte> -> Tree>,
                           fileBytes: Option<seq<byte>>, settings: Option<CacheSettings>, now: int): (r: Book)
    requires AllIn(b.order, b.cache)
    ensures AllIn(r.order, r.cache)
  {
    var g := GetIn(b, lim, file, language, settings, now);
    if LookupIn(b, lim, file, language, settings, now).Some? || parser.None? || fileBytes.None? then g
    else PutIn(g, lim, file, language, parser.value(fileBytes.value), fileBytes.value, settings, now)
  }

  /**
   * A cache-through parse changes nothing on a hit; every entry afterwards
   * is one that was there or the fresh parse under the file's own key; and
   * a parse that `put` stores is what the next lookup at the same time
   * answers, unless the time to live is negative.
   */
  lemma ThroughInMeaning(b: Book, lim: Limits, file: FileRef, language: string, parser: Option<seq<byte> -> Tree>,
                         fileBytes: Option<seq<byte>>, settings: Option<CacheSettings>, now: int)
    requires AllIn(b.order, b.cache)
    ensures var r := ThroughIn(b, lim, file, language, parser, fileBytes, settings, now);
            && (LookupIn(b, lim, file, language, settings, now).Some? ==> r == b)
            && (forall k :: k in r.cache ==>
                  || (k in b.cache && r.cache[k] == b.cache[k])
                  || (KeyFor(file, language) == Some(k) && parser.Some? && fileBytes.Some?
                      && r.cache[k] == Entry(parser.value(fileBytes.value), fileBytes.value, now)))
            && (LookupIn(b, lim, file, language, settings, now).None? && parser.Some? && fileBytes.Some?
                && StoresIn(lim, file, language, fileBytes.value, settings) && 0 <= TtlIn(lim, settings) ==>
                  LookupIn(r, lim, file, language, settings, now) == Some((parser.value(fileBytes.value), fileBytes.value)))
  {
    GetInMeaning(b, lim, file, language, settings, now);
    var g := GetIn(b, lim, file, language, settings, now);
    if LookupIn(b, lim, file, language, settings, now).None? && parser.Some? && fileBytes.Some? {
      PutInMeaning(g, lim, file, language, parser.value(fileBytes.value), fileBytes.value, settings, now);
    }
  }

  // ---------------------------------------------------------------------
  // The cache object
  // ---------------------------------------------------------------------

  class TreeCache {
    /** Entries by key. */
    var cache: map<string, Entry>
    /** The keys of `cache` in dict (insertion) order. */
    var order: seq<string>
    var currentSizeBytes: int
    var modifiedTrees: map<string, bool>
    var maxSizeBytes: int
    var ttlSeconds: int
    var enabled: bool

    ghost predicate Valid()
      reads this
    {
      Consistent(State())
    }

    /** The bookkeeping fields as a value. */
    function State(): Book
      reads this
    {
      Book(order, cache, currentSizeBytes, modifiedTrees)
    }

    /** `max_size_mb or 100`, `ttl_seconds or 300`. */
    constructor (maxSizeMb: Option<int>, ttl: Option<int>)
      ensures Valid() && fresh(this)
      ensures cache == map[] && modifiedTrees == map[] && currentSizeBytes == 0 && enabled
      ensures maxSizeBytes == (if maxSizeMb.None? || maxSizeMb.value == 0 then 100 else maxSizeMb.value) * MiB
      ensures ttlSeconds == (if ttl.None? || ttl.value == 0 then 300 else ttl.value)
    {
      cache := map[];
      order := [];
      currentSizeBytes := 0;
      modifiedTrees := map[];
      maxSizeBytes := (if maxSizeMb.None? || maxSizeMb.value == 0 then 100 else maxSizeMb.value) * MiB;
      ttlSeconds := if ttl.None? || ttl.value == 0 then 300 else ttl.value;
      enabled := true;
    }

    /** Writes the bookkeeping fields back from a value. */
    method SetState(b: Book)
      modifies this
      ensures State() == b
      ensures enabled == old(enabled) && maxSizeBytes == old(maxSizeBytes) && ttlSeconds == old(ttlSeconds)
    {
      cache, order, modifiedTrees, currentSizeBytes := b.cache, b.order, b.flags, b.size;
    }

    method SetEnabled(on: bool)
      requires Valid()
      modifies this
      ensures Valid() && enabled == on
      ensures cache == old(cache) && order == old(order) && modifiedTrees == old(modifiedTrees)
      ensures currentSizeBytes == old(currentSizeBytes)
      ensures maxSizeBytes == old(maxSizeBytes) && ttlSeconds == old(ttlSeconds)
    {
      enabled := on;
    }

    method SetMaxSizeMb(mb: int)
      requires Valid()
      modifies this
      ensures Valid() && maxSizeBytes == mb * MiB
      ensures cache == old(cache) && order == old(order) && modifiedTrees == old(modifiedTrees)
      ensures currentSizeBytes == old(currentSizeBytes)
      ensures enabled == old(enabled) && ttlSeconds == old(ttlSeconds)
    {
      maxSizeBytes := mb * MiB;
    }

    method SetTtlSeconds(ttl: int)
      requires Valid()
      modifies this
      ensures Valid() && ttlSeconds == ttl
      ensures cache == old(cache) && order == old(order) && modifiedTrees == old(modifiedTrees)
      ensures currentSizeBytes == old(currentSizeBytes)
      ensures enabled == old(enabled) && maxSizeBytes == old(maxSizeBytes)
    {
      ttlSeconds := ttl;
    }

    /** The instance's own settings as a value. */
    function Config(): Limits
      reads this
    {
      Limits(enabled, maxSizeBytes, ttlSeconds)
    }

    function MaxSizeBytes(settings: Option<CacheSettings>): int
      reads this
    {
      MaxBytesIn(Config(), settings)
    }

    function TtlSeconds(settings: Option<CacheSettings>): int
      reads this
    {
      TtlIn(Config(), settings)
    }

    function IsCacheEnabled(settings: Option<CacheSettings>): (r: bool)
      reads this
      ensures r ==> enabled
      ensures r <==> enabled && (settings.None? || settings.value.enabled)
    {
      EnabledIn(Config(), settings)
    }

    function Lookup(file: FileRef, language: string, settings: Option<CacheSettings>, now: int): Option<(Tree, seq<byte>)>
      reads this
    {
      LookupIn(State(), Config(), file, language, settings, now)
    }

    predicate Stores(file: FileRef, language: string, source: seq<byte>, settings: Option<CacheSettings>)
      reads this
    {
      StoresIn(Config(), file, language, source, settings)
    }

    /** Deletes one entry and its flag, keeping the byte total exact. */
    method RemoveEntry(key: string)
      requires Valid() && key in cache
      modifies this
      ensures Valid()
      ensures State() == Delete(old(State()), key, |old(cache)[key].source|)
      ensures enabled == old(enabled) && maxSizeBytes == old(maxSizeBytes) && ttlSeconds == old(ttlSeconds)
    {
      RemoveKeeps(State(), key);
      SetState(Delete(State(), key, |cache[key].source|));
    }

    method Get(file: FileRef, language: string, settings: Option<CacheSettings>, now: int)
      returns (r: Option<(Tree, seq<byte>)>)
      requires Valid()
      modifies this
      ensures Valid()
      ensures enabled == old(enabled) && maxSizeBytes == old(maxSizeBytes) && ttlSeconds == old(ttlSeconds)
      ensures !old(IsCacheEnabled(settings)) || KeyFor(file, language).None?
              || KeyFor(file, language).value !in old(cache) ==>
                r.None? && cache == old(cache) && order == old(order)
                && modifiedTrees == old(modifiedTrees) && currentSizeBytes == old(currentSizeBytes)
      ensures old(IsCacheEnabled(settings)) && KeyFor(file, language).Some? && KeyFor(file, language).value in old(cache) ==>
                var key := KeyFor(file, language).value;
                var e := old(cache)[key];
                if now - e.timestamp > old(TtlSeconds(settings)) then
                  r.None? && cache == old(cache) - {key} && order == DropKeys(old(order), {key})
                  && modifiedTrees == old(modifiedTrees) - {key}
                  && currentSizeBytes == old(currentSizeBytes) - |e.source|
                else
                  r == Some((e.tree, e.source)) && cache == old(cache) && order == old(order)
                  && modifiedTrees == old(modifiedTrees) && currentSizeBytes == old(currentSizeBytes)
      ensures r == old(Lookup(file, language, settings, now))
      ensures State() == GetIn(old(State()), old(Config()), file, language, settings, now)
    {
      if !IsCacheEnabled(settings) {
        return None;
      }
      var key := KeyFor(file, language);
      if key.None? {
        return None;
      }
      if key.value in cache {
        var e := cache[key.value];
        if now - e.timestamp > TtlSeconds(settings) {
          RemoveEntry(key.value);
          return None;
        }
        return Some((e.tree, e.source));
      }
      return None;
    }

    method EvictEntries(required: int, settings: Option<CacheSettings>)
      requires Valid()
      modifies this
      ensures Valid()
      ensures enabled == old(enabled) && maxSizeBytes == old(maxSizeBytes) && ttlSeconds == old(ttlSeconds)
      ensures Removed(old(State()), State(), EvictedKeys(old(order), old(cache), old(currentSizeBytes), required, old(MaxSizeBytes(settings))))
    {
      var r := EvictBook(State(), required, MaxSizeBytes(settings));
      SetState(r);
    }

    method Put(file: FileRef, language: string, tree: Tree, source: seq<byte>,
               settings: Option<CacheSettings>, now: int)
      requires Valid()
      modifies this
      ensures Valid()
      ensures enabled == old(enabled) && maxSizeBytes == old(maxSizeBytes) && ttlSeconds == old(ttlSeconds)
      ensures !old(Stores(file, language, source, settings)) ==>
                cache == old(cache) && order == old(order)
                && modifiedTrees == old(modifiedTrees) && currentSizeBytes == old(currentSizeBytes)
      ensures old(Stores(file, language, source, settings)) ==>
                var key := KeyFor(file, language).value;
                key in cache && cache[key] == Entry(tree, source, now) && key in modifiedTrees && !modifiedTrees[key]
      ensures old(Stores(file, language, source, settings)) && KeyFor(file, language).value in old(cache) ==>
                var key := KeyFor(file, language).value;
                cache == old(cache)[key := Entry(tree, source, now)] && order == old(order)
                && modifiedTrees == old(modifiedTrees)[key := false]
                && currentSizeBytes == old(currentSizeBytes) - |old(cache)[key].source| + |source|
      ensures old(Stores(file, language, source, settings)) && KeyFor(file, language).value !in old(cache) ==>
                var key := KeyFor(file, language).value;
                var ev := if old(currentSizeBytes) + |source| > old(MaxSizeBytes(settings))
                          then EvictedKeys(old(order), old(cache), old(currentSizeBytes), |source|, old(MaxSizeBytes(settings)))
                          else [];
                cache == (old(cache) - Elems(ev))[key := Entry(tree, source, now)]
                && order == DropKeys(old(order), Elems(ev)) + [key]
                && modifiedTrees == (old(modifiedTrees) - Elems(ev))[key := false]
                && currentSizeBytes == old(currentSizeBytes) - SumSizes(ev, old(cache)) + |source|
      ensures old(Stores(file, language, source, settings)) && KeyFor(file, language).value !in old(cache)
              && !SmallBudget(old(MaxSizeBytes(settings))) && old(currentSizeBytes) <= old(MaxSizeBytes(settings)) ==>
                currentSizeBytes <= MaxSizeBytes(settings)
      ensures State() == PutIn(old(State()), old(Config()), file, language, tree, source, settings, now)
    {
      if !IsCacheEnabled(settings) {
        return;
      }
      var key := KeyFor(file, language);
      if key.None? {
        return;
      }
      var sourceSize := |source|;
      var maxBytes := MaxSizeBytes(settings);
      if maxBytes <= 1024 {
        return;
      }
      if sourceSize > maxBytes {
        return;
      }
      if key.value in cache {
        currentSizeBytes := currentSizeBytes - |cache[key.value].source|;
      } else if currentSizeBytes + sourceSize > maxBytes {
        ghost var order0, cache0 := order, cache;
        EvictEntries(sourceSize, settings);
        NormalEvictionBound(order0, cache0, key.value, sourceSize, maxBytes);
      } else {
        DropNothing(order, {});
        WithoutNothing(cache);
        WithoutNothing(modifiedTrees);
      }
      Store(key.value, tree, source, now);
    }

    /** The eviction bound `Put` relies on, stated over the state before eviction. */
    static lemma NormalEvictionBound(order: seq<string>, cache: map<string, Entry>, key: string, size: int, maxBytes: int)
      requires AllIn(order, cache) && Distinct(order) && forall k :: k in cache ==> k in order
      requires key !in cache && SumSizes(order, cache) + size > maxBytes && 0 <= size <= maxBytes
      ensures var ev := EvictedKeys(order, cache, SumSizes(order, cache), size, maxBytes);
              !SmallBudget(maxBytes) && SumSizes(order, cache) <= maxBytes ==>
                SumSizes(order, cache) - SumSizes(ev, cache) + size <= maxBytes
    {
      if !SmallBudget(maxBytes) && SumSizes(order, cache) <= maxBytes {
        NormalEvictionFreesRequired(order, cache, SumSizes(order, cache), size, maxBytes);
      }
    }

    /** Writes the entry under `key`, with its size, timestamp and a cleared flag. */
    method Store(key: string, tree: Tree, source: seq<byte>, now: int)
      requires Distinct(order) && AllIn(order, cache) && (forall k :: k in cache ==> k in order)
      requires modifiedTrees.Keys <= cache.Keys
      requires currentSizeBytes == SumSizes(order, cache) - (if key in cache then |cache[key].source| else 0)
      modifies this
      ensures Valid()
      ensures cache == old(cache)[key := Entry(tree, source, now)]
      ensures order == if key in old(cache) then old(order) else old(order) + [key]
      ensures modifiedTrees == old(modifiedTrees)[key := false]
      ensures currentSizeBytes == old(currentSizeBytes) + |source|
      ensures enabled == old(enabled) && maxSizeBytes == old(maxSizeBytes) && ttlSeconds == old(ttlSeconds)
    {
      var e := Entry(tree, source, now);
      WriteKeeps(State(), key, e);
      SetState(Write(State(), key, e));
    }

    method MarkModified(file: FileRef, language: string)
      requires Valid()
      modifies this
      ensures Valid()
      ensures cache == old(cache) && order == old(order) && currentSizeBytes == old(currentSizeBytes)
      ensures enabled == old(enabled) && maxSizeBytes == old(maxSizeBytes) && ttlSeconds == old(ttlSeconds)
      ensures modifiedTrees == if KeyFor(file, language).Some? && KeyFor(file, language).value in cache
                               then old(modifiedTrees)[KeyFor(file, language).value := true]
                               else old(modifiedTrees)
    {
      var key := KeyFor(file, language);
      if key.Some? && key.value in cache {
        modifiedTrees := modifiedTrees[key.value := true];
      }
    }

    method IsModified(file: FileRef, language: string) returns (r: bool)
      requires Valid()
      ensures r <==> KeyFor(file, language).Some? && KeyFor(file, language).value in modifiedTrees
                     && modifiedTrees[KeyFor(file, language).value]
      ensures r ==> KeyFor(file, language).value in cache
    {
      var key := KeyFor(file, language);
      if key.None? {
        return false;
      }
      r := if key.value in modifiedTrees then modifiedTrees[key.value] else false;
    }

    method UpdateTree(file: FileRef, language: string, tree: Tree, source: seq<byte>,
                      settings: Option<CacheSettings>, now: int)
      requires Valid()
      modifies this
      ensures Valid()
      ensures enabled == old(enabled) && maxSizeBytes == old(maxSizeBytes) && ttlSeconds == old(ttlSeconds)
      ensures KeyFor(file, language).None? ==>
                cache == old(cache) && order == old(order)
                && modifiedTrees == old(modifiedTrees) && currentSizeBytes == old(currentSizeBytes)
      ensures KeyFor(file, language).Some? && KeyFor(file, language).value in old(cache) ==>
                var key := KeyFor(file, language).value;
                cache == old(cache)[key := Entry(tree, source, now)] && order == old(order)
                && modifiedTrees == old(modifiedTrees)[key := false]
                && currentSizeBytes == old(currentSizeBytes) - |old(cache)[key].source| + |source|
      ensures KeyFor(file, language).Some? && KeyFor(file, language).value !in old(cache) ==>
                var key := KeyFor(file, language).value;
                && (key in cache <==> old(Stores(file, language, source, settings)))
                && (key in cache ==> cache[key] == Entry(tree, source, now))
                && (key !in cache ==> cache == old(cache) && currentSizeBytes == old(currentSizeBytes))
      ensures KeyFor(file, language).Some? && KeyFor(file, language).value !in old(cache)
              && !old(Stores(file, language, source, settings)) ==>
                cache == old(cache) && order == old(order)
                && modifiedTrees == old(modifiedTrees) && currentSizeBytes == old(currentSizeBytes)
      ensures KeyFor(file, language).Some? && KeyFor(file, language).value !in old(cache)
              && old(Stores(file, language, source, settings)) ==>
                var key := KeyFor(file, language).value;
                var ev := if old(currentSizeBytes) + |source| > old(MaxSizeBytes(settings))
                          then EvictedKeys(old(order), old(cache), old(currentSizeBytes), |source|, old(MaxSizeBytes(settings)))
                          else [];
                cache == (old(cache) - Elems(ev))[key := Entry(tree, source, now)]
                && order == DropKeys(old(order), Elems(ev)) + [key]
                && modifiedTrees == (old(modifiedTrees) - Elems(ev))[key := false]
                && currentSizeBytes == old(currentSizeBytes) - SumSizes(ev, old(cache)) + |source|
    {
      var key := KeyFor(file, language);
      if key.None? {
        return;
      }
      if key.value in cache {
        currentSizeBytes := currentSizeBytes - |cache[key.value].source|;
        Store(key.value, tree, source, now);
      } else {
        Put(file, language, tree, source, settings, now);
      }
    }

    method Invalidate(path: Option<string>)
      requires Valid()
      modifies this
      ensures Valid()
      ensures enabled == old(enabled) && maxSizeBytes == old(maxSizeBytes) && ttlSeconds == old(ttlSeconds)
      ensures path.None? ==> cache == map[] && modifiedTrees == map[] && currentSizeBytes == 0
      ensures path.Some? ==>
                var gone := Elems(KeysContaining(old(order), path.value));
                cache == old(cache) - gone && modifiedTrees == old(modifiedTrees) - gone
                && order == DropKeys(old(order), gone)
      ensures path.Some? ==> forall k :: k in cache <==> k in old(cache) && !Contains(k, path.value)
    {
      if path.None? {
        cache := map[];
        modifiedTrees := map[];
        order := [];
        currentSizeBytes := 0;
        return;
      }
      var keysToRemove := KeysContaining(order, path.value);
      KeysContainingDistinct(order, path.value);
      var r := RemoveAll(State(), keysToRemove);
      SetState(r);
      ElemsIn(keysToRemove);
    }
  }
}

=== FILE: paths.dfy ===
/**
 * Filesystem paths as `pathlib` sees them, lexical resolution against a
 * working directory, and the path helpers of utils/path.py.
 *
 * A path is an optional root plus a sequence of names; `Path.parts` puts
 * "/" in front of the names of an absolute path. The filesystem is a value:
 * a map from absolute name sequences of regular files to their sizes, and a
 * set of absolute name sequences of directories.
 */
module Paths {
  import opened Common
  import opened Strings

  datatype FsPath = FsPath(absolute: bool, names: seq<string>)

  /** `str(path)`. */
  function PathStr(p: FsPath): string
  {
    if p.absolute then "/" + Join("/", p.names)
    else if p.names == [] then "."
    else Join("/", p.names)
  }

  /** `path.parts`. */
  function Parts(p: FsPath): (r: seq<string>)
    ensures p.absolute ==> r == ["/"] + p.names
    ensures !p.absolute ==> r == p.names
  {
    (if p.absolute then ["/"] else []) + p.names
  }

  /** `path.parent`: the root and "." are their own parents. */
  function ParentOf(p: FsPath): (r: FsPath)
    ensures r.absolute == p.absolute
    ensures p.names == [] ==> r == p
    ensures p.names != [] ==> r.names + [p.names[|p.names| - 1]] == p.names
  {
    if p.names == [] then p else FsPath(p.absolute, p.names[..|p.names| - 1])
  }

  /** `path.name`: the last name, or "" for a root or ".". */
  function Name(p: FsPath): string
  {
    if p.names == [] then "" else p.names[|p.names| - 1]
  }

  /** `base / other`: an absolute right operand replaces the left one. */
  function JoinPath(base: FsPath, other: FsPath): FsPath
  {
    if other.absolute then other else FsPath(base.absolute, base.names + other.names)
  }

  /** A name sequence with no "", "." or ".." in it: what resolution produces. */
  predicate Clean(names: seq<string>)
  {
    forall i :: 0 <= i < |names| ==> names[i] != "" && names[i] != "." && names[i] != ".."
  }

  /** One step of lexical resolution: ".." drops the last name (the root stays), "" and "." vanish. */
  function Push(acc: seq<string>, name: string): seq<string>
  {
    if name == ".." then (if acc == [] then [] else acc[..|acc| - 1])
    else if name == "" || name == "." then acc
    else acc + [name]
  }

  /** Resolution of a name sequence below the filesystem root, left to right. */
  function Collapse(names: seq<string>): (r: seq<string>)
    ensures Clean(r)
  {
    if names == [] then [] else Push(Collapse(names[..|names| - 1]), names[|names| - 1])
  }

  /**
   * `path.resolve()` without symbolic links: a relative path is first put
   * under the working directory `cwd`, then "." and ".." are folded away.
   */
  function Resolve(p: FsPath, cwd: seq<string>): (r: FsPath)
    ensures r.absolute && Clean(r.names)
  {
    FsPath(true, Collapse((if p.absolute then [] else cwd) + p.names))
  }

  lemma CollapseSnoc(names: seq<string>, name: string)
    ensures Collapse(names + [name]) == Push(Collapse(names), name)
  {
    assert (names + [name])[..|names|] == names;
  }

  /** Resolving a name sequence that is already clean changes nothing. */
  lemma {:induction false} CollapseClean(names: seq<string>)
    requires Clean(names)
    ensures Collapse(names) == names
  {
    if names != [] {
      CollapseClean(names[..|names| - 1]);
      assert names[..|names| - 1] + [names[|names| - 1]] == names;
    }
  }

  /** Resolution is idempotent. */
  lemma ResolveIdempotent(p: FsPath, cwd: seq<string>)
    ensures Resolve(Resolve(p, cwd), cwd) == Resolve(p, cwd)
  {
    var r := Resolve(p, cwd);
    assert ([] + r.names) == r.names;
    CollapseClean(r.names);
  }

  /** A relative path whose first name is "~", which `expanduser` rewrites. */
  predicate HomeRelative(p: FsPath)
  {
    !p.absolute && |p.names| > 0 && p.names[0] == "~"
  }

  /**
   * `path.expanduser()` for the current user: a leading "~" is replaced by
   * the home directory, whose names below the filesystem root are `home`;
   * every other path is returned as it is.
   */
  function ExpandUser(p: FsPath, home: seq<string>): (r: FsPath)
    ensures HomeRelative(p) ==> r.absolute && r.names == home + p.names[1..]
    ensures !HomeRelative(p) ==> r == p
  {
    if HomeRelative(p) then FsPath(true, home + p.names[1..]) else p
  }

  /** `Path(path).expanduser().resolve()`, the path `normalize_path` returns. */
  function Normalized(p: FsPath, home: seq<string>, cwd: seq<string>): (r: FsPath)
    ensures r.absolute && Clean(r.names)
  {
    Resolve(ExpandUser(p, home), cwd)
  }

  /** A path under "~" lands under the home directory whatever the working directory is. */
  lemma NormalizedHome(rest: seq<string>, home: seq<string>, cwd: seq<string>)
    ensures Normalized(FsPath(false, ["~"] + rest), home, cwd).names == Collapse(home + rest)
  {
    assert (["~"] + rest)[1..] == rest;
    assert [] + (home + rest) == home + rest;
  }

  /** With HOME=/home/u and cwd /w, "~/repo" normalises to /home/u/repo, not /w/~/repo. */
  lemma NormalizedHomeExample()
    ensures Normalized(FsPath(false, ["~", "repo"]), ["home", "u"], ["w"]) == FsPath(true, ["home", "u", "repo"])
  {
    NormalizedHome(["repo"], ["home", "u"], ["w"]);
    CollapseClean(["home", "u", "repo"]);
  }

  datatype FileSystem = FileSystem(files: map<seq<string>, nat>, dirs: set<seq<string>>)

  /** `path.exists()` for a resolved path. */
  predicate Exists(fs: FileSystem, p: FsPath)
  {
    p.names in fs.files || p.names in fs.dirs
  }

  /** `path.is_file()` for a resolved path. */
  predicate IsFile(fs: FileSystem, p: FsPath)
  {
    p.names in fs.files
  }

  /** `path.is_dir()` for a resolved path. */
  predicate IsDir(fs: FileSystem, p: FsPath)
  {
    p.names in fs.dirs
  }

  /**
   * `normalize_path`: the path with "~" expanded, then resolved. The
   * ValueError for a relative result is never raised, because resolution
   * always yields an absolute path; resolution is idempotent
   * (`ResolveIdempotent`).
   */
  function NormalizePath(p: FsPath, ensureAbsolute: bool, home: seq<string>, cwd: seq<string>): (r: Result<FsPath>)
    ensures r.Ok? && r.value.absolute && Clean(r.value.names)
    ensures HomeRelative(p) ==> r.value.names == Collapse(home + p.names[1..])
    ensures !HomeRelative(p) ==> r.value.names == Collapse((if p.absolute then [] else cwd) + p.names)
  {
    var resolved := Normalized(p, home, cwd);
    assert HomeRelative(p) ==> [] + (home + p.names[1..]) == home + p.names[1..];
    if ensureAbsolute && !resolved.absolute then Err(ValueError("Path must be absolute"))
    else Ok(resolved)
  }

  predicate IsPrefix<T(==)>(a: seq<T>, b: seq<T>)
  {
    |a| <= |b| && b[..|a|] == a
  }

  /**
   * `safe_relative_path`: the target relative to the base after both are
   * normalised, or ValueError when the base's names are not a prefix of the
   * target's. The ".." test after `relative_to` never fires on resolved paths.
   */
  function SafeRelativePath(path: FsPath, base: FsPath, home: seq<string>, cwd: seq<string>): (r: Result<FsPath>)
    ensures r.Ok? <==> IsPrefix(Normalized(base, home, cwd).names, Normalized(path, home, cwd).names)
    ensures r.Ok? ==> !r.value.absolute && Clean(r.value.names)
                      && JoinPath(Normalized(base, home, cwd), r.value) == Normalized(path, home, cwd)
    ensures r.Err? ==> r.error.ValueError?
  {
    var basePath := NormalizePath(base, false, home, cwd).value;
    var target := NormalizePath(path, false, home, cwd).value;
    if IsPrefix(basePath.names, target.names) then
      var relative := target.names[|basePath.names|..];
      assert basePath.names + relative == target.names;
      if ".." in relative then Err(ValueError("Path contains forbidden directory traversal"))
      else Ok(FsPath(false, relative))
    else Err(ValueError("Path is not within base directory"))
  }

  /** The names `get_project_root` looks for, in order. */
  const Markers: seq<string> :=
    [".git", "pyproject.toml", "setup.py", "package.json", "Cargo.toml", "CMakeLists.txt", ".svn", "Makefile"]

  predicate HasMarker(fs: FileSystem, dir: FsPath)
  {
    exists i :: 0 <= i < |Markers| && Exists(fs, JoinPath(dir, FsPath(false, [Markers[i]])))
  }

  /**
   * The specification of the upward walk: the first directory, from `dir`
   * up to but excluding the filesystem root, that holds a marker.
   */
  function MarkedAncestor(fs: FileSystem, dir: FsPath): Option<FsPath>
    decreases |dir.names|
  {
    if dir.names == [] then None
    else if HasMarker(fs, dir) then Some(dir)
    else MarkedAncestor(fs, ParentOf(dir))
  }

  function Ancestor(dir: FsPath, k: nat): FsPath
    requires k <= |dir.names|
  {
    FsPath(dir.absolute, dir.names[..k])
  }

  /**
   * The walk's answer is an ancestor-or-self of `dir` that is not the root
   * and holds a marker, and every directory below it on the way up holds
   * none; with no answer, no directory between `dir` and the root (excluded)
   * holds one.
   */
  lemma {:induction false} MarkedAncestorFirst(fs: FileSystem, dir: FsPath)
    ensures MarkedAncestor(fs, dir).Some? ==>
      var a := MarkedAncestor(fs, dir).value;
      0 < |a.names| <= |dir.names| && a == Ancestor(dir, |a.names|) && HasMarker(fs, a)
      && forall k :: |a.names| < k <= |dir.names| ==> !HasMarker(fs, Ancestor(dir, k))
    ensures MarkedAncestor(fs, dir).None? ==>
      forall k :: 0 < k <= |dir.names| ==> !HasMarker(fs, Ancestor(dir, k))
    decreases |dir.names|
  {
    if dir.names != [] && !HasMarker(fs, dir) {
      var up := ParentOf(dir);
      MarkedAncestorFirst(fs, up);
      assert dir == Ancestor(dir, |dir.names|);
      forall k | 0 < k < |dir.names|
        ensures Ancestor(dir, k) == Ancestor(up, k)
      {
      }
    }
  }

  /** The directory the walk starts from: the normalised path, or its parent when it is a file. */
  function StartDir(fs: FileSystem, path: FsPath, home: seq<string>, cwd: seq<string>): FsPath
  {
    var p := Normalized(path, home, cwd);
    if IsFile(fs, p) then ParentOf(p) else p
  }

  /** Whether any marker exists in `dir`, scanning the markers in order. */
  method ScanMarkers(fs: FileSystem, dir: FsPath) returns (found: bool)
    ensures found == HasMarker(fs, dir)
  {
    var i := 0;
    while i < |Markers|
      invariant 0 <= i <= |Markers|
      invariant forall j :: 0 <= j < i ==> !Exists(fs, JoinPath(dir, FsPath(false, [Markers[j]])))
    {
      if Exists(fs, JoinPath(dir, FsPath(false, [Markers[i]]))) {
        return true;
      }
      i := i + 1;
    }
    return false;
  }

  /** The project root the upward walk from `start` settles on. */
  function ProjectRootOf(fs: FileSystem, start: FsPath): FsPath
  {
    if MarkedAncestor(fs, start).Some? then MarkedAncestor(fs, start).value else start
  }

  /**
   * `get_project_root`: walk up from the start directory until a marker is
   * found or the filesystem root is reached; the root itself is not
   * examined, and with no marker the start directory is the answer.
   */
  method GetProjectRoot(fs: FileSystem, path: FsPath, home: seq<string>, cwd: seq<string>) returns (root: FsPath)
    ensures root == ProjectRootOf(fs, StartDir(fs, path, home, cwd))
  {
    var start := NormalizePath(path, false, home, cwd).value;
    if IsFile(fs, start) {
      start := ParentOf(start);
    }
    var current := start;
    while current != ParentOf(current)
      invariant MarkedAncestor(fs, current) == MarkedAncestor(fs, start)
      decreases |current.names|
    {
      var found := ScanMarkers(fs, current);
      if found {
        return current;
      }
      current := ParentOf(current);
    }
    return start;
  }
}

=== FILE: preorder.dfy ===
/**
 * The order in which a tree cursor meets the nodes below its start node
 * when, at every node, a predicate decides whether the cursor descends
 * into that node's children. Both the generic cursor walker and the
 * cursor-based dictionary builder follow this order; their loops are
 * proved against `Walk`.
 */
module Preorder {
  import opened Common
  import opened SyntaxTree

  /** Decides, from (node, field name, depth), whether the walk enters the node's children. */
  type Visitor = (Node, Option<string>, nat) -> bool

  /** One call of the visitor: where the cursor was and what it reported. */
  datatype VisitCall = VisitCall(path: Path, node: Node, field: Option<string>, depth: nat)

  function CallAt(start: Node, p: Path): VisitCall
    requires ValidPath(start, p)
  {
    VisitCall(p, NodeAt(start, p), FieldAt(start, p), |p|)
  }

  predicate Enters(start: Node, visit: Visitor, p: Path)
    requires ValidPath(start, p)
  {
    visit(NodeAt(start, p), FieldAt(start, p), |p|)
  }

  /** The calls made for the node at `p` and, when it is entered, its subtree. */
  function WSub(start: Node, visit: Visitor, p: Path): seq<VisitCall>
    requires ValidPath(start, p)
    decreases Height(start) - |p|, |NodeAt(start, p).children| + 1
  {
    PathWithinHeight(start, p);
    [CallAt(start, p)] + (if Enters(start, visit, p) then WKids(start, visit, p, 0) else [])
  }

  /** The calls made for children `i`, `i + 1`, ... of the node at `p` and their subtrees. */
  function WKids(start: Node, visit: Visitor, p: Path, i: nat): seq<VisitCall>
    requires ValidPath(start, p) && i <= |NodeAt(start, p).children|
    decreases Height(start) - |p|, |NodeAt(start, p).children| - i
  {
    if i == |NodeAt(start, p).children| then []
    else
      ValidSnoc(start, p, i);
      PathWithinHeight(start, p + [i]);
      WSub(start, visit, p + [i]) + WKids(start, visit, p, i + 1)
  }

  /** The calls still owed once the subtree at `p` is finished: later siblings of `p` and of each ancestor. */
  function WResume(start: Node, visit: Visitor, p: Path): seq<VisitCall>
    requires ValidPath(start, p)
    decreases |p|
  {
    if p == [] then []
    else
      ValidParent(start, p);
      WKids(start, visit, Parent(p), Last(p) + 1) + WResume(start, visit, Parent(p))
  }

  /** Every visitor call of a walk from `start`, in order. */
  function Walk(start: Node, visit: Visitor): seq<VisitCall>
  {
    WSub(start, visit, [])
  }

  // ---------------------------------------------------------------------
  // One cursor move at a time
  // ---------------------------------------------------------------------

  /** One unfolding of `WKids`: the subtree of child `i`, then the later children. */
  lemma KidsUnfold(start: Node, visit: Visitor, p: Path, i: nat)
    requires ValidPath(start, p) && i < |NodeAt(start, p).children|
    ensures ValidPath(start, p + [i])
    ensures WKids(start, visit, p, i) == WSub(start, visit, p + [i]) + WKids(start, visit, p, i + 1)
  {
    ValidSnoc(start, p, i);
  }

  /** One unfolding of `WResume` at child `i` of the node at `p`. */
  lemma ResumeUnfold(start: Node, visit: Visitor, p: Path, i: nat)
    requires ValidPath(start, p) && i < |NodeAt(start, p).children|
    ensures ValidPath(start, p + [i])
    ensures WResume(start, visit, p + [i]) == WKids(start, visit, p, i + 1) + WResume(start, visit, p)
  {
    ValidSnoc(start, p, i);
    ParentSnoc(p, i);
  }

  /** Descending into the first child of a node in the middle of a sibling scan. */
  lemma KidsStep(start: Node, visit: Visitor, p: Path)
    requires ValidPath(start, p) && |NodeAt(start, p).children| > 0
    ensures ValidPath(start, p + [0])
    ensures WKids(start, visit, p, 0) + WResume(start, visit, p)
            == WSub(start, visit, p + [0]) + WResume(start, visit, p + [0])
  {
    KidsUnfold(start, visit, p, 0);
    ResumeUnfold(start, visit, p, 0);
    Assoc(WSub(start, visit, p + [0]), WKids(start, visit, p, 1), WResume(start, visit, p));
  }

  /** The calls from the node at `p` on: its own call, then its children if entered, then the resumption. */
  lemma SubRest(start: Node, visit: Visitor, p: Path)
    requires ValidPath(start, p)
    ensures WSub(start, visit, p) + WResume(start, visit, p)
            == [CallAt(start, p)] + ((if Enters(start, visit, p) then WKids(start, visit, p, 0) else []) + WResume(start, visit, p))
  {
    Assoc([CallAt(start, p)], if Enters(start, visit, p) then WKids(start, visit, p, 0) else [], WResume(start, visit, p));
  }

  /** Descending into the first child of an entered node. */
  lemma DescendStep(start: Node, visit: Visitor, p: Path)
    requires ValidPath(start, p) && Enters(start, visit, p) && |NodeAt(start, p).children| > 0
    ensures ValidPath(start, p + [0])
    ensures WSub(start, visit, p) + WResume(start, visit, p)
            == [CallAt(start, p)] + WSub(start, visit, p + [0]) + WResume(start, visit, p + [0])
  {
    SubRest(start, visit, p);
    KidsStep(start, visit, p);
    Assoc([CallAt(start, p)], WSub(start, visit, p + [0]), WResume(start, visit, p + [0]));
  }

  /** The walk begins with the start node, then continues at its first child when entered. */
  lemma WalkBegin(start: Node, visit: Visitor)
    ensures CallAt(start, []) == VisitCall([], start, None, 0)
    ensures !Enters(start, visit, []) || start.children == [] ==> Walk(start, visit) == [CallAt(start, [])]
    ensures Enters(start, visit, []) && start.children != [] ==>
              ValidPath(start, [0])
              && Walk(start, visit) == [CallAt(start, [])] + WSub(start, visit, [0]) + WResume(start, visit, [0])
  {
    if Enters(start, visit, []) && start.children != [] {
      DescendStep(start, visit, []);
    } else if Enters(start, visit, []) {
      assert NodeAt(start, []) == start;
      assert WKids(start, visit, [], 0) == [];
    }
  }

  /** Visiting the node at `p`: its call comes first, then its first child's subtree if entered, else the resumption. */
  lemma VisitStep(start: Node, visit: Visitor, p: Path)
    requires ValidPath(start, p)
    ensures Enters(start, visit, p) && |NodeAt(start, p).children| > 0 ==>
              ValidPath(start, p + [0])
              && WSub(start, visit, p) + WResume(start, visit, p)
                 == [CallAt(start, p)] + (WSub(start, visit, p + [0]) + WResume(start, visit, p + [0]))
    ensures !(Enters(start, visit, p) && |NodeAt(start, p).children| > 0) ==>
              WSub(start, visit, p) + WResume(start, visit, p) == [CallAt(start, p)] + WResume(start, visit, p)
  {
    SubRest(start, visit, p);
    if Enters(start, visit, p) && |NodeAt(start, p).children| > 0 {
      KidsStep(start, visit, p);
    } else {
      assert (if Enters(start, visit, p) then WKids(start, visit, p, 0) else []) == [];
      EmptyLeft(WResume(start, visit, p));
    }
  }

  /** Moving to the next sibling once the subtree at `p` is finished. */
  lemma SiblingStep(start: Node, visit: Visitor, p: Path, s: Path)
    requires ValidPath(start, p) && GotoNextSibling(start, p) == Some(s)
    ensures ValidPath(start, s)
    ensures WResume(start, visit, p) == WSub(start, visit, s) + WResume(start, visit, s)
  {
    var q, j := Parent(p), Last(p);
    ValidParent(start, p);
    ParentLast(p);
    ResumeUnfold(start, visit, q, j);
    KidsUnfold(start, visit, q, j + 1);
    ResumeUnfold(start, visit, q, j + 1);
    Assoc(WSub(start, visit, s), WKids(start, visit, q, j + 2), WResume(start, visit, q));
  }

  /** Climbing to the parent when `p` has no next sibling. */
  lemma ClimbStep(start: Node, visit: Visitor, p: Path)
    requires ValidPath(start, p) && p != [] && GotoNextSibling(start, p).None?
    ensures ValidPath(start, Parent(p))
    ensures WResume(start, visit, p) == WResume(start, visit, Parent(p))
  {
    ValidParent(start, p);
  }

  // ---------------------------------------------------------------------
  // Which nodes a walk visits, and how often
  // ---------------------------------------------------------------------

  /** `p` lies under `q` on a path: `q` is a prefix of `p`. */
  predicate Under(p: Path, q: Path)
  {
    |q| <= |p| && p[..|q|] == q
  }

  /** Every proper ancestor of `q` from depth `from` on was entered. */
  predicate EnteredFrom(start: Node, visit: Visitor, q: Path, from: nat)
  {
    forall k :: from <= k < |q| ==> ValidPath(start, q[..k]) && Enters(start, visit, q[..k])
  }

  /** A node is reached when its path is valid and the walk entered every proper ancestor. */
  predicate Reached(start: Node, visit: Visitor, q: Path)
  {
    ValidPath(start, q) && EnteredFrom(start, visit, q, 0)
  }

  /** What every call in the walk of the subtree at `p` satisfies. */
  predicate CallBelow(start: Node, visit: Visitor, p: Path, c: VisitCall)
  {
    && ValidPath(start, c.path)
    && c == CallAt(start, c.path)
    && Under(c.path, p)
    && EnteredFrom(start, visit, c.path, |p|)
  }

  lemma {:induction false} SubSound(start: Node, visit: Visitor, p: Path)
    requires ValidPath(start, p)
    ensures forall c :: c in WSub(start, visit, p) ==> CallBelow(start, visit, p, c)
    decreases Height(start) - |p|, |NodeAt(start, p).children| + 1
  {
    PathWithinHeight(start, p);
    if Enters(start, visit, p) {
      KidsSound(start, visit, p, 0);
      forall c | c in WKids(start, visit, p, 0)
        ensures CallBelow(start, visit, p, c)
      {
        var q := c.path;
        assert q[..|p| + 1][..|p|] == p;
        forall k | |p| <= k < |q|
          ensures ValidPath(start, q[..k]) && Enters(start, visit, q[..k])
        {
          if k == |p| {
            assert q[..k] == p;
          }
        }
      }
    }
  }

  lemma {:induction false} KidsSound(start: Node, visit: Visitor, p: Path, i: nat)
    requires ValidPath(start, p) && i <= |NodeAt(start, p).children|
    ensures forall c :: c in WKids(start, visit, p, i) ==>
              |p| < |c.path| && i <= c.path[|p|] && c.path[..|p|] == p
              && CallBelow(start, visit, c.path[..|p| + 1], c)
    decreases Height(start) - |p|, |NodeAt(start, p).children| - i
  {
    if i < |NodeAt(start, p).children| {
      ValidSnoc(start, p, i);
      PathWithinHeight(start, p + [i]);
      SubSound(start, visit, p + [i]);
      KidsSound(start, visit, p, i + 1);
      forall c | c in WSub(start, visit, p + [i])
        ensures |p| < |c.path| && i <= c.path[|p|] && c.path[..|p|] == p
                && CallBelow(start, visit, c.path[..|p| + 1], c)
      {
        ChildPrefix(p, i, c.path);
      }
    }
  }

  lemma {:induction false} SubComplete(start: Node, visit: Visitor, p: Path, q: Path)
    requires ValidPath(start, p) && ValidPath(start, q) && Under(q, p)
    requires EnteredFrom(start, visit, q, |p|)
    ensures CallAt(start, q) in WSub(start, visit, p)
    decreases Height(start) - |p|, |NodeAt(start, p).children| + 1
  {
    PathWithinHeight(start, p);
    if |q| > |p| {
      assert q[..|p|] == p;
      assert Enters(start, visit, p);
      KidsComplete(start, visit, p, 0, q);
    } else {
      assert q == p;
    }
  }

  lemma {:induction false} KidsComplete(start: Node, visit: Visitor, p: Path, i: nat, q: Path)
    requires ValidPath(start, p) && i <= |NodeAt(start, p).children|
    requires ValidPath(start, q) && Under(q, p) && |p| < |q| && i <= q[|p|]
    requires EnteredFrom(start, visit, q, |p| + 1)
    ensures CallAt(start, q) in WKids(start, visit, p, i)
    decreases Height(start) - |p|, |NodeAt(start, p).children| - i
  {
    ValidPrefix(start, q, |p| + 1);
    ChildOfUnder(p, q);
    ValidSnoc(start, p, q[|p|]);
    KidsUnfold(start, visit, p, i);
    PathWithinHeight(start, p + [i]);
    if q[|p|] == i {
      SubComplete(start, visit, p + [i], q);
    } else {
      KidsComplete(start, visit, p, i + 1, q);
    }
  }

  /** A path strictly under `p` continues `p` with one child index. */
  lemma ChildOfUnder(p: Path, q: Path)
    requires Under(q, p) && |p| < |q|
    ensures q[..|p| + 1] == p + [q[|p|]]
  {
  }

  /** A path under child `i` of `p` continues `p` with `i`. */
  lemma ChildPrefix(p: Path, i: nat, q: Path)
    requires Under(q, p + [i])
    ensures |p| < |q| && q[|p|] == i && q[..|p|] == p && q[..|p| + 1] == p + [i]
  {
    assert q[..|p|] == (p + [i])[..|p|];
  }

  /** No two calls of `t` are at the same node. */
  predicate DistinctPaths(t: seq<VisitCall>)
  {
    forall i, j :: 0 <= i < j < |t| ==> t[i].path != t[j].path
  }

  /** No call of `a` is at the node of a call of `b`. */
  predicate Disjoint(a: seq<VisitCall>, b: seq<VisitCall>)
  {
    forall x, y :: x in a && y in b ==> x.path != y.path
  }

  lemma DistinctConcat(a: seq<VisitCall>, b: seq<VisitCall>, t: seq<VisitCall>)
    requires DistinctPaths(a) && DistinctPaths(b) && Disjoint(a, b) && t == a + b
    ensures DistinctPaths(t)
  {
    forall i, j | 0 <= i < j < |a + b|
      ensures (a + b)[i].path != (a + b)[j].path
    {
      if j < |a| {
        assert (a + b)[i] == a[i] && (a + b)[j] == a[j];
      } else if i >= |a| {
        assert (a + b)[i] == b[i - |a|] && (a + b)[j] == b[j - |a|];
      } else {
        assert (a + b)[i] in a && (a + b)[j] in b;
      }
    }
  }

  lemma {:induction false} SubOnce(start: Node, visit: Visitor, p: Path)
    requires ValidPath(start, p)
    ensures DistinctPaths(WSub(start, visit, p))
    decreases Height(start) - |p|, |NodeAt(start, p).children| + 1
  {
    PathWithinHeight(start, p);
    if Enters(start, visit, p) {
      KidsOnce(start, visit, p, 0);
      KidsSound(start, visit, p, 0);
      DistinctConcat([CallAt(start, p)], WKids(start, visit, p, 0), WSub(start, visit, p));
    }
  }

  lemma {:induction false} KidsOnce(start: Node, visit: Visitor, p: Path, i: nat)
    requires ValidPath(start, p) && i <= |NodeAt(start, p).children|
    ensures DistinctPaths(WKids(start, visit, p, i))
    decreases Height(start) - |p|, |NodeAt(start, p).children| - i
  {
    if i < |NodeAt(start, p).children| {
      ValidSnoc(start, p, i);
      PathWithinHeight(start, p + [i]);
      SubOnce(start, visit, p + [i]);
      KidsOnce(start, visit, p, i + 1);
      KidsOnceStep(start, visit, p, i);
    }
  }

  lemma KidsOnceStep(start: Node, visit: Visitor, p: Path, i: nat)
    requires ValidPath(start, p) && i < |NodeAt(start, p).children| && ValidPath(start, p + [i])
    requires DistinctPaths(WSub(start, visit, p + [i])) && DistinctPaths(WKids(start, visit, p, i + 1))
    ensures DistinctPaths(WKids(start, visit, p, i))
  {
    KidsUnfold(start, visit, p, i);
    SubKidsDisjoint(start, visit, p, i);
    DistinctConcat(WSub(start, visit, p + [i]), WKids(start, visit, p, i + 1), WKids(start, visit, p, i));
  }

  /** The subtree of child `i` and those of the later children share no node. */
  lemma SubKidsDisjoint(start: Node, visit: Visitor, p: Path, i: nat)
    requires ValidPath(start, p) && i < |NodeAt(start, p).children|
    ensures ValidPath(start, p + [i])
    ensures Disjoint(WSub(start, visit, p + [i]), WKids(start, visit, p, i + 1))
  {
    ValidSnoc(start, p, i);
    forall x, y | x in WSub(start, visit, p + [i]) && y in WKids(start, visit, p, i + 1)
      ensures x.path != y.path
    {
      SubMember(start, visit, p + [i], x);
      KidsMember(start, visit, p, i + 1, y);
      ChildPrefix(p, i, x.path);
    }
  }

  /** Every call of `t` is below the start node, and its parent is `top` or the node of an earlier call. */
  predicate ParentsBefore(t: seq<VisitCall>, top: Path)
  {
    forall i :: 0 <= i < |t| ==>
      t[i].path != [] && (Parent(t[i].path) == top || exists j :: 0 <= j < i && t[j].path == Parent(t[i].path))
  }

  lemma ParentsBeforeConcat(a: seq<VisitCall>, b: seq<VisitCall>, top: Path)
    requires ParentsBefore(a, top) && ParentsBefore(b, top)
    ensures ParentsBefore(a + b, top)
  {
    var t := a + b;
    forall i | 0 <= i < |t|
      ensures t[i].path != [] && (Parent(t[i].path) == top || exists j :: 0 <= j < i && t[j].path == Parent(t[i].path))
    {
      if i < |a| {
        assert t[i] == a[i];
        if Parent(a[i].path) != top {
          var j :| 0 <= j < i && a[j].path == Parent(a[i].path);
          assert t[j] == a[j];
        }
      } else {
        var k := i - |a|;
        assert t[i] == b[k];
        if Parent(b[k].path) != top {
          var j :| 0 <= j < k && b[j].path == Parent(b[k].path);
          assert t[j + |a|] == b[j];
        }
      }
    }
  }

  /** In the walk of a subtree, a node's parent is always visited before the node itself. */
  lemma {:induction false} SubParents(start: Node, visit: Visitor, p: Path)
    requires ValidPath(start, p) && p != []
    ensures ParentsBefore(WSub(start, visit, p), Parent(p))
    decreases Height(start) - |p|, |NodeAt(start, p).children| + 1
  {
    PathWithinHeight(start, p);
    var t := WSub(start, visit, p);
    if Enters(start, visit, p) {
      var kids := WKids(start, visit, p, 0);
      KidsParents(start, visit, p, 0);
      forall i | 0 <= i < |t|
        ensures t[i].path != [] && (Parent(t[i].path) == Parent(p) || exists j :: 0 <= j < i && t[j].path == Parent(t[i].path))
      {
        if i > 0 {
          var k := i - 1;
          assert t[i] == kids[k];
          if Parent(kids[k].path) == p {
            assert t[0].path == p;
          } else {
            var j :| 0 <= j < k && kids[j].path == Parent(kids[k].path);
            assert t[j + 1] == kids[j];
          }
        }
      }
    }
  }

  lemma {:induction false} KidsParents(start: Node, visit: Visitor, p: Path, i: nat)
    requires ValidPath(start, p) && i <= |NodeAt(start, p).children|
    ensures ParentsBefore(WKids(start, visit, p, i), p)
    decreases Height(start) - |p|, |NodeAt(start, p).children| - i
  {
    if i < |NodeAt(start, p).children| {
      ValidSnoc(start, p, i);
      PathWithinHeight(start, p + [i]);
      ParentSnoc(p, i);
      SubParents(start, visit, p + [i]);
      KidsParents(start, visit, p, i + 1);
      ParentsBeforeConcat(WSub(start, visit, p + [i]), WKids(start, visit, p, i + 1), p);
    }
  }

  lemma SubMember(start: Node, visit: Visitor, q: Path, x: VisitCall)
    requires ValidPath(start, q) && x in WSub(start, visit, q)
    ensures Under(x.path, q)
  {
    SubSound(start, visit, q);
  }

  lemma KidsMember(start: Node, visit: Visitor, p: Path, i: nat, y: VisitCall)
    requires ValidPath(start, p) && i <= |NodeAt(start, p).children| && y in WKids(start, visit, p, i)
    ensures |p| < |y.path| && i <= y.path[|p|]
  {
    KidsSound(start, visit, p, i);
  }

  /**
   * The walk is a preorder that calls the visitor once on every reached
   * node and on nothing else, reporting the node, its field name and its
   * depth below the start node.
   */
  lemma WalkVisits(start: Node, visit: Visitor)
    ensures forall c :: c in Walk(start, visit) ==> ValidPath(start, c.path) && c == CallAt(start, c.path)
    ensures forall q :: Reached(start, visit, q) <==> exists c :: c in Walk(start, visit) && c.path == q
    ensures DistinctPaths(Walk(start, visit))
  {
    SubSound(start, visit, []);
    SubOnce(start, visit, []);
    forall q | Reached(start, visit, q)
      ensures exists c :: c in Walk(start, visit) && c.path == q
    {
      SubComplete(start, visit, [], q);
    }
  }

  /** The start node is visited first, at depth 0 and with no field name; a refusal there ends the walk. */
  lemma WalkStart(start: Node, visit: Visitor)
    ensures |Walk(start, visit)| >= 1
    ensures Walk(start, visit)[0] == VisitCall([], start, None, 0)
    ensures !visit(start, None, 0) ==> Walk(start, visit) == [VisitCall([], start, None, 0)]
  {
  }

  /**
   * A refusal skips exactly the subtree below the refusing node: a node is
   * visited iff it is the start node or its parent is visited and entered.
   */
  lemma ReachedStep(start: Node, visit: Visitor, q: Path)
    requires ValidPath(start, q) && q != []
    ensures ValidPath(start, Parent(q))
    ensures Reached(start, visit, q) <==> Reached(start, visit, Parent(q)) && Enters(start, visit, Parent(q))
  {
    ValidParent(start, q);
    var pq := Parent(q);
    if Reached(start, visit, pq) && Enters(start, visit, pq) {
      forall k | 0 <= k < |q|
        ensures ValidPath(start, q[..k]) && Enters(start, visit, q[..k])
      {
        if k < |pq| {
          assert q[..k] == pq[..k];
        } else {
          assert q[..k] == pq;
        }
      }
    }
    if Reached(start, visit, q) {
      forall k | 0 <= k < |pq|
        ensures ValidPath(start, pq[..k]) && Enters(start, visit, pq[..k])
      {
        assert pq[..k] == q[..k];
      }
      assert q[..|pq|] == pq;
    }
  }
}

=== FILE: project.dfy ===
/**
 * Projects and the project registry of models/project.py: the registry is
 * a name-to-project dictionary, a project remembers its root, its
 * per-language file counts and when it last scanned.
 *
 * The directory listing that `os.walk` produces, the filesystem and the
 * clock are parameters.
 */
module Projects {
  import opened Common
  import opened Strings
  import opened Paths
  import opened Registry
  import Security

  /** `Project.to_dict()`. */
  datatype ProjectInfo = ProjectInfo(name: string, rootPath: string, description: Option<string>,
                                     languages: map<string, nat>, lastScanTime: int)

  /** One triple of `os.walk`: a directory and the names of the files directly in it. */
  datatype WalkEntry = WalkEntry(dir: FsPath, files: seq<string>)

  /** A directory the scan skips: some part of its full path starts with ".". */
  predicate HiddenDir(dir: FsPath)
  {
    exists i :: 0 <= i < |Parts(dir)| && StartsWith(Parts(dir)[i], ".")
  }

  /** The number of leading names two name sequences share. */
  function CommonLength(a: seq<string>, b: seq<string>): (n: nat)
    ensures n <= |a| && n <= |b| && a[..n] == b[..n]
    ensures n < |a| && n < |b| ==> a[n] != b[n]
  {
    if a == [] || b == [] || a[0] != b[0] then 0
    else
      var n := 1 + CommonLength(a[1..], b[1..]);
      assert a[..n] == [a[0]] + a[1..][..n - 1];
      assert b[..n] == [b[0]] + b[1..][..n - 1];
      n
  }

  function Ups(n: nat): (r: seq<string>)
    ensures |r| == n && forall i :: 0 <= i < n ==> r[i] == ".."
  {
    if n == 0 then [] else Ups(n - 1) + [".."]
  }

  /** `os.path.relpath(dir/file, base)` on resolved paths, as a name sequence ending in `file`. */
  function RelPath(base: FsPath, dir: FsPath, file: string): (r: seq<string>)
    ensures r != [] && r[|r| - 1] == file
    ensures IsPrefix(base.names, dir.names) ==> r == dir.names[|base.names|..] + [file]
  {
    var n := CommonLength(base.names, dir.names);
    Ups(|base.names| - n) + dir.names[n..] + [file]
  }

  /** The relative paths the scan considers in one directory: its files not starting with ".". */
  function DirItems(base: FsPath, dir: FsPath, files: seq<string>): seq<seq<string>>
  {
    if files == [] then []
    else
      var f := files[|files| - 1];
      DirItems(base, dir, files[..|files| - 1]) + (if StartsWith(f, ".") then [] else [RelPath(base, dir, f)])
  }

  /** The relative paths the scan considers over a whole listing, in listing order. */
  function Items(base: FsPath, walk: seq<WalkEntry>): seq<seq<string>>
  {
    if walk == [] then []
    else
      var e := walk[|walk| - 1];
      Items(base, walk[..|walk| - 1]) + (if HiddenDir(e.dir) then [] else DirItems(base, e.dir, e.files))
  }

  /** One more file of the directory: its path is considered unless the file is hidden. */
  lemma DirItemsStep(base: FsPath, dir: FsPath, files: seq<string>, j: nat)
    requires j < |files|
    ensures var f := files[j];
      Elements(DirItems(base, dir, files[..j + 1]))
      == Elements(DirItems(base, dir, files[..j])) + (if StartsWith(f, ".") then {} else {RelPath(base, dir, f)})
  {
    var f := files[j];
    assert files[..j + 1][..j] == files[..j] && files[..j + 1][j] == f;
    ElementsAppend(DirItems(base, dir, files[..j]), if StartsWith(f, ".") then [] else [RelPath(base, dir, f)]);
  }

  /** The set of a list's elements. */
  function Elements(s: seq<seq<string>>): (r: set<seq<string>>)
    ensures forall x :: x in r <==> x in s
  {
    if s == [] then {} else Elements(s[..|s| - 1]) + {s[|s| - 1]}
  }

  lemma {:induction false} ElementsAppend(a: seq<seq<string>>, b: seq<seq<string>>)
    ensures Elements(a + b) == Elements(a) + Elements(b)
    decreases |b|
  {
    if b != [] {
      assert (a + b)[..|a + b| - 1] == a + b[..|b| - 1];
      ElementsAppend(a, b[..|b| - 1]);
    } else {
      assert a + b == a;
    }
  }

  /** The language of a relative path: that of its file name, as the registry classifies it. */
  function LangOf(classify: string -> Option<string>, rel: seq<string>): Option<string>
  {
    if rel == [] then None else classify(rel[|rel| - 1])
  }

  /** The paths in `scanned` whose language is `lang`. */
  function OfLanguage(classify: string -> Option<string>, scanned: set<seq<string>>, lang: string): set<seq<string>>
  {
    set r | r in scanned && LangOf(classify, r) == Some(lang)
  }

  /** The languages of the paths in `scanned`. */
  function LanguagesOf(classify: string -> Option<string>, scanned: set<seq<string>>): set<string>
  {
    set r | r in scanned && LangOf(classify, r).Some? :: LangOf(classify, r).value
  }

  /** Per language, the number of distinct relative paths of that language. */
  function CountMap(classify: string -> Option<string>, scanned: set<seq<string>>): map<string, nat>
  {
    map lang | lang in LanguagesOf(classify, scanned) :: |OfLanguage(classify, scanned, lang)|
  }

  /** The counts after one more file is counted. */
  function Bump(counts: map<string, nat>, lang: Option<string>): map<string, nat>
  {
    match lang
    case None => counts
    case Some(l) => counts[l := (if l in counts then counts[l] else 0) + 1]
  }

  lemma OfLanguageAdd(classify: string -> Option<string>, scanned: set<seq<string>>, rel: seq<string>, lang: string)
    requires rel !in scanned
    ensures LangOf(classify, rel) == Some(lang) ==>
              |OfLanguage(classify, scanned + {rel}, lang)| == |OfLanguage(classify, scanned, lang)| + 1
    ensures LangOf(classify, rel) != Some(lang) ==>
              OfLanguage(classify, scanned + {rel}, lang) == OfLanguage(classify, scanned, lang)
  {
    if LangOf(classify, rel) == Some(lang) {
      assert OfLanguage(classify, scanned + {rel}, lang) == OfLanguage(classify, scanned, lang) + {rel};
    }
  }

  lemma LanguagesOfMember(classify: string -> Option<string>, scanned: set<seq<string>>, lang: string)
    ensures lang in LanguagesOf(classify, scanned) <==> OfLanguage(classify, scanned, lang) != {}
  {
    if lang in LanguagesOf(classify, scanned) {
      var r :| r in scanned && LangOf(classify, r).Some? && LangOf(classify, r).value == lang;
      assert r in OfLanguage(classify, scanned, lang);
    }
    if OfLanguage(classify, scanned, lang) != {} {
      var r :| r in OfLanguage(classify, scanned, lang);
      assert LangOf(classify, r).value == lang;
    }
  }

  /** Adding a path the scan has not seen bumps exactly its language's count. */
  lemma CountMapAdd(classify: string -> Option<string>, scanned: set<seq<string>>, rel: seq<string>)
    requires rel !in scanned
    ensures CountMap(classify, scanned + {rel}) == Bump(CountMap(classify, scanned), LangOf(classify, rel))
  {
    var after := scanned + {rel};
    var m0, m1 := CountMap(classify, scanned), CountMap(classify, after);
    var b := Bump(m0, LangOf(classify, rel));
    forall lang | lang in m1
      ensures lang in b && m1[lang] == b[lang]
    {
      OfLanguageAdd(classify, scanned, rel, lang);
      LanguagesOfMember(classify, after, lang);
      LanguagesOfMember(classify, scanned, lang);
    }
    forall lang | lang in b
      ensures lang in m1
    {
      OfLanguageAdd(classify, scanned, rel, lang);
      LanguagesOfMember(classify, after, lang);
      LanguagesOfMember(classify, scanned, lang);
    }
  }

  /**
   * A language is counted iff some scanned path has it, and then its count
   * is the number of distinct scanned paths of that language, at least one.
   */
  lemma CountMapMeaning(classify: string -> Option<string>, scanned: set<seq<string>>, lang: string)
    ensures lang in CountMap(classify, scanned) <==> exists r :: r in scanned && LangOf(classify, r) == Some(lang)
    ensures lang in CountMap(classify, scanned) ==>
              CountMap(classify, scanned)[lang] == |OfLanguage(classify, scanned, lang)| > 0
  {
    LanguagesOfMember(classify, scanned, lang);
    if exists r :: r in scanned && LangOf(classify, r) == Some(lang) {
      var r :| r in scanned && LangOf(classify, r) == Some(lang);
      assert r in OfLanguage(classify, scanned, lang);
    }
  }

  class Project {
    var name: string
    var rootPath: FsPath
    var description: Option<string>
    var languages: map<string, nat>
    var lastScanTime: int

    constructor(name: string, path: FsPath, description: Option<string>)
      ensures this.name == name && rootPath == path && this.description == description
      ensures languages == map[] && lastScanTime == 0
    {
      this.name := name;
      rootPath := path;
      this.description := description;
      languages := map[];
      lastScanTime := 0;
    }

    function ToDict(): ProjectInfo
      reads this
    {
      ProjectInfo(name, PathStr(rootPath), description, languages, lastScanTime)
    }

    /**
     * `scan_files`: within a minute of the last scan and without `force`,
     * the stored counts; otherwise the counts over the listing, which are
     * stored with the scan time. `classify` is the registry's
     * `language_for_file`.
     */
    method ScanFiles(classify: string -> Option<string>, walk: seq<WalkEntry>, force: bool, now: int)
      returns (counts: map<string, nat>)
      modifies this
      ensures name == old(name) && rootPath == old(rootPath) && description == old(description)
      ensures !force && now - old(lastScanTime) < 60 ==>
                counts == old(languages) && languages == old(languages) && lastScanTime == old(lastScanTime)
      ensures force || now - old(lastScanTime) >= 60 ==>
                counts == CountMap(classify, Elements(Items(rootPath, walk)))
                && languages == counts && lastScanTime == now
    {
      if !force && now - lastScanTime < 60 {
        return languages;
      }
      counts := CountFiles(classify, rootPath, walk);
      languages := counts;
      lastScanTime := now;
    }
  }

  /** The counting loop of `scan_files` over the whole listing. */
  method CountFiles(classify: string -> Option<string>, base: FsPath, walk: seq<WalkEntry>)
    returns (counts: map<string, nat>)
    ensures counts == CountMap(classify, Elements(Items(base, walk)))
  {
    var scanned: set<seq<string>> := {};
    counts := map[];
    var i := 0;
    while i < |walk|
      invariant 0 <= i <= |walk|
      invariant scanned == Elements(Items(base, walk[..i]))
      invariant counts == CountMap(classify, scanned)
    {
      assert walk[..i + 1][..i] == walk[..i];
      var e := walk[i];
      ElementsAppend(Items(base, walk[..i]), if HiddenDir(e.dir) then [] else DirItems(base, e.dir, e.files));
      scanned, counts := ScanDirectory(classify, base, e, scanned, counts);
      i := i + 1;
      assert scanned == Elements(Items(base, walk[..i]));
    }
    assert walk[..i] == walk;
  }

  /** The scan of one directory of the listing, skipping it when hidden. */
  method ScanDirectory(classify: string -> Option<string>, base: FsPath, e: WalkEntry,
                       scanned0: set<seq<string>>, counts0: map<string, nat>)
    returns (scanned: set<seq<string>>, counts: map<string, nat>)
    requires counts0 == CountMap(classify, scanned0)
    ensures scanned == scanned0 + Elements(if HiddenDir(e.dir) then [] else DirItems(base, e.dir, e.files))
    ensures counts == CountMap(classify, scanned)
  {
    scanned, counts := scanned0, counts0;
    if HiddenDir(e.dir) {
      return;
    }
    var j := 0;
    while j < |e.files|
      invariant 0 <= j <= |e.files|
      invariant scanned == scanned0 + Elements(DirItems(base, e.dir, e.files[..j]))
      invariant counts == CountMap(classify, scanned)
    {
      var file := e.files[j];
      ghost var seen := scanned0 + Elements(DirItems(base, e.dir, e.files[..j + 1]));
      DirItemsStep(base, e.dir, e.files, j);
      if !StartsWith(file, ".") {
        var rel := RelPath(base, e.dir, file);
        assert seen == scanned + {rel};
        if rel !in scanned {
          var language := classify(file);
          CountMapAdd(classify, scanned, rel);
          counts := Bump(counts, language);
          scanned := scanned + {rel};
        } else {
          assert seen == scanned;
        }
      } else {
        assert seen == scanned;
      }
      assert scanned == seen;
      j := j + 1;
      assert scanned == scanned0 + Elements(DirItems(base, e.dir, e.files[..j]));
    }
    assert e.files[..j] == e.files;
  }

  /**
   * `get_file_path` as written: the normalised path must start, as a
   * string, with the root's string.
   */
  function FilePathAsWritten(root: FsPath, relativePath: FsPath, cwd: seq<string>): (r: Result<FsPath>)
    ensures r.Ok? <==> StartsWith(PathStr(Resolve(JoinPath(root, relativePath), cwd)), PathStr(root))
    ensures r.Ok? ==> r.value == Resolve(JoinPath(root, relativePath), cwd)
    ensures r.Err? ==> r.error.ProjectError?
  {
    var normPath := Resolve(JoinPath(root, relativePath), cwd);
    if !StartsWith(PathStr(normPath), PathStr(root)) then Err(ProjectError("Path is outside project root"))
    else Ok(normPath)
  }

  /** Root `p` and relative path `../p2/x`: the string test admits `p2/x`. */
  lemma RelativeEscapeAdmitted()
    ensures var root, rel := FsPath(true, ["p"]), FsPath(false, ["..", "p2", "x"]);
      FilePathAsWritten(root, rel, []) == Ok(FsPath(true, ["p2", "x"]))
      && !IsPrefix(root.names, FsPath(true, ["p2", "x"]).names)
  {
    var names := ["p", "..", "p2", "x"];
    CollapseSnoc([], "p");
    assert [] + ["p"] == ["p"];
    CollapseSnoc(["p"], "..");
    assert ["p"] + [".."] == ["p", ".."];
    CollapseSnoc(["p", ".."], "p2");
    assert ["p", ".."] + ["p2"] == ["p", "..", "p2"];
    CollapseSnoc(["p", "..", "p2"], "x");
    assert ["p", "..", "p2"] + ["x"] == names;
    assert Collapse(names) == ["p2", "x"];
    assert [] + names == names;
    var root, rel := FsPath(true, ["p"]), FsPath(false, ["..", "p2", "x"]);
    assert JoinPath(root, rel) == FsPath(true, names);
    assert Resolve(JoinPath(root, rel), []) == FsPath(true, ["p2", "x"]);
    assert PathStr(root) == "/p";
    assert PathStr(FsPath(true, ["p2", "x"])) == "/p2/x";
  }

  /**
   * `get_file_path` with containment tested on path components: the
   * normalised path must lie at or under the resolved root.
   */
  function FilePathUnder(root: FsPath, relativePath: FsPath, cwd: seq<string>): (r: Result<FsPath>)
    ensures r.Ok? <==> IsPrefix(Resolve(root, cwd).names, Resolve(JoinPath(root, relativePath), cwd).names)
    ensures r.Ok? ==> r.value == Resolve(JoinPath(root, relativePath), cwd)
    ensures r.Err? ==> r.error.ProjectError?
  {
    var normPath := Resolve(JoinPath(root, relativePath), cwd);
    if !IsPrefix(Resolve(root, cwd).names, normPath.names) then Err(ProjectError("Path is outside project root"))
    else Ok(normPath)
  }

  /** A path `FilePathUnder` returns has a relative path from the root, and it is the root joined with that. */
  lemma FilePathUnderRelative(root: FsPath, relativePath: FsPath, home: seq<string>, cwd: seq<string>)
    requires FilePathUnder(root, relativePath, cwd).Ok? && !HomeRelative(root)
    ensures var p := FilePathUnder(root, relativePath, cwd).value;
      SafeRelativePath(p, root, home, cwd).Ok?
      && JoinPath(Resolve(root, cwd), SafeRelativePath(p, root, home, cwd).value) == p
  {
    var p := FilePathUnder(root, relativePath, cwd).value;
    ResolveIdempotent(JoinPath(root, relativePath), cwd);
  }

  /** For a root already resolved, the component test admits only what the string test admits. */
  lemma FilePathUnderStricter(root: FsPath, relativePath: FsPath, cwd: seq<string>)
    requires root == Resolve(root, cwd)
    ensures FilePathUnder(root, relativePath, cwd).Ok? ==> FilePathAsWritten(root, relativePath, cwd).Ok?
  {
    if FilePathUnder(root, relativePath, cwd).Ok? {
      Security.ComponentPrefixStringPrefix(root, Resolve(JoinPath(root, relativePath), cwd));
    }
  }

  class ProjectRegistry {
    /** The projects by name, and the names in insertion order (the dictionary's order). */
    var projects: map<string, Project>
    var order: seq<string>

    ghost predicate Valid()
      reads this
    {
      NoDuplicates(order) && forall k :: k in order <==> k in projects
    }

    constructor()
      ensures Valid() && projects == map[] && order == []
    {
      projects := map[];
      order := [];
    }

    /**
     * `register_project`: refused for a taken name; otherwise the path
     * must resolve to an existing directory, and the project is rooted at
     * the project root found from it.
     */
    method RegisterProject(name: string, path: FsPath, description: Option<string>, fs: FileSystem,
                           home: seq<string>, cwd: seq<string>)
      returns (r: Result<Project>)
      requires Valid()
      modifies this
      ensures Valid()
      ensures r.Err? ==> r.error.ProjectError? && projects == old(projects) && order == old(order)
      ensures name in old(projects) ==> r.Err?
      ensures name !in old(projects) ==>
                (r.Ok? <==> Exists(fs, Normalized(path, home, cwd)) && IsDir(fs, Normalized(path, home, cwd)))
      ensures r.Ok? ==> fresh(r.value) && projects == old(projects)[name := r.value] && order == old(order) + [name]
                        && r.value.name == name && r.value.description == description
                        && r.value.rootPath == ProjectRootOf(fs, StartDir(fs, Normalized(path, home, cwd), home, cwd))
                        && r.value.languages == map[] && r.value.lastScanTime == 0
    {
      if name in projects {
        return Err(ProjectError("Project already exists"));
      }
      var normalized := NormalizePath(path, true, home, cwd);
      if normalized.Err? {
        return Err(ProjectError("Failed to register project"));
      }
      var normPath := normalized.value;
      if !Exists(fs, normPath) {
        return Err(ProjectError("Failed to register project: Path does not exist"));
      }
      if !IsDir(fs, normPath) {
        return Err(ProjectError("Failed to register project: Path is not a directory"));
      }
      var projectRoot := GetProjectRoot(fs, normPath, home, cwd);
      var project := new Project(name, projectRoot, description);
      projects := projects[name := project];
      order := order + [name];
      return Ok(project);
    }

    /** `get_project`. */
    method GetProject(name: string) returns (r: Result<Project>)
      ensures r.Ok? <==> name in projects
      ensures r.Ok? ==> r.value == projects[name]
      ensures r.Err? ==> r.error.ProjectError?
    {
      if name !in projects {
        return Err(ProjectError("Project not found"));
      }
      return Ok(projects[name]);
    }

    function InfosOf(names: seq<string>): (r: seq<ProjectInfo>)
      requires forall k :: k in names ==> k in projects
      reads this, projects.Values
      ensures |r| == |names|
      ensures forall i :: 0 <= i < |names| ==> r[i] == projects[names[i]].ToDict()
    {
      if names == [] then [] else [projects[names[0]].ToDict()] + InfosOf(names[1..])
    }

    /** `list_projects`: one record per project, in registration order. */
    function ListProjects(): (r: seq<ProjectInfo>)
      requires Valid()
      reads this, projects.Values
      ensures |r| == |order|
      ensures forall i :: 0 <= i < |order| ==> r[i] == projects[order[i]].ToDict()
    {
      InfosOf(order)
    }

    /** `remove_project`: refused for an unknown name; otherwise that name alone goes. */
    method RemoveProject(name: string) returns (r: Result<()>)
      requires Valid()
      modifies this
      ensures Valid()
      ensures r.Ok? <==> name in old(projects)
      ensures r.Err? ==> r.error.ProjectError? && projects == old(projects) && order == old(order)
      ensures r.Ok? ==> projects == old(projects) - {name} && order == Without(old(order), name)
    {
      if name !in projects {
        return Err(ProjectError("Project not found"));
      }
      projects := projects - {name};
      WithoutNoDuplicates(order, name);
      order := Without(order, name);
      return Ok(());
    }
  }

  /** The list with every occurrence of `x` removed, the rest in order. */
  function Without(s: seq<string>, x: string): (r: seq<string>)
    ensures forall y :: y in r <==> y in s && y != x
  {
    if s == [] then []
    else if s[0] == x then Without(s[1..], x)
    else [s[0]] + Without(s[1..], x)
  }

  lemma {:induction false} WithoutNoDuplicates(s: seq<string>, x: string)
    requires NoDuplicates(s)
    ensures NoDuplicates(Without(s, x))
  {
    if s != [] {
      WithoutNoDuplicates(s[1..], x);
      assert s[0] !in s[1..];
    }
  }

  /** The number of projects `list_projects` reports after registrations and removals. */
  lemma ListProjectsCount(reg: ProjectRegistry)
    requires reg.Valid()
    ensures |reg.ListProjects()| == |reg.projects|
  {
    var keys := set k | k in reg.order;
    assert keys == reg.projects.Keys;
    DistinctCard(reg.order);
  }

  lemma {:induction false} DistinctCard(s: seq<string>)
    requires NoDuplicates(s)
    ensures |set k | k in s| == |s|
  {
    if s != [] {
      DistinctCard(s[1..]);
      assert (set k | k in s) == (set k | k in s[1..]) + {s[0]};
      assert s[0] !in s[1..];
    }
  }

  /** The class-level `_instance` slot of the registry singleton. */
  class ProjectRegistrySlot {
    var instance: ProjectRegistry?

    constructor()
      ensures instance == null
    {
      instance := null;
    }

    /** `ProjectRegistry()`: created empty on the first call, returned as is afterwards. */
    method Get() returns (r: ProjectRegistry)
      modifies this
      ensures instance == r
      ensures old(instance) != null ==> r == old(instance) && r.projects == old(instance.projects)
      ensures old(instance) == null ==> fresh(r) && r.Valid() && r.projects == map[]
    {
      if instance == null {
        instance := new ProjectRegistry();
      }
      r := instance;
    }
  }
}

=== FILE: pytest_diagnostic.dfy ===
/**
 * The diagnostic record of testing/pytest_diagnostic.py: a per-test record
 * whose status starts "pending", turns "error" with the first error and is
 * set on finalization only when no error was recorded.
 *
 * The clock is a parameter (`now`); detail and artifact values, which the
 * source keeps as arbitrary objects, are kept as their rendered text.
 */
module PytestDiagnostic {
  import opened Common

  /** One recorded error: its type, message and, when a non-empty one was given, a traceback. */
  datatype ErrorInfo = ErrorInfo(errorType: string, message: string, traceback: Option<string>)

  /** The state of a record, as a value. */
  datatype Diag = Diag(testId: string, startTime: int, endTime: Option<int>, status: string,
                       details: map<string, string>, errors: seq<ErrorInfo>, artifacts: map<string, string>)

  /** The operations a test can perform on its record. */
  datatype Event =
    | AddError(errorType: string, message: string, tb: Option<string>)
    | AddDetail(key: string, value: string)
    | AddArtifact(name: string, content: string)
    | Finalize(status: string, now: int)

  /** The error entry `add_error` builds: the traceback is kept only when it is non-empty. */
  function ErrorEntry(errorType: string, message: string, tb: Option<string>): (e: ErrorInfo)
    ensures e.errorType == errorType && e.message == message
    ensures e.traceback.Some? <==> tb.Some? && tb.value != ""
    ensures e.traceback.Some? ==> e.traceback == tb
  {
    ErrorInfo(errorType, message, if tb.Some? && tb.value != "" then tb else None)
  }

  /** A new record. */
  function Fresh(testId: string, now: int): Diag
  {
    Diag(testId, now, None, "pending", map[], [], map[])
  }

  /** The effect of one operation on a record. */
  function Step(d: Diag, e: Event): (r: Diag)
    ensures r.testId == d.testId && r.startTime == d.startTime
    ensures e.AddError? ==> r.status == "error" && r.errors == d.errors + [ErrorEntry(e.errorType, e.message, e.tb)]
    ensures !e.AddError? ==> r.errors == d.errors
    ensures d.errors != [] ==> r.status == d.status || r.status == "error"
  {
    match e
    case AddError(t, m, tb) => d.(errors := d.errors + [ErrorEntry(t, m, tb)], status := "error")
    case AddDetail(k, v) => d.(details := d.details[k := v])
    case AddArtifact(n, c) => d.(artifacts := d.artifacts[n := c])
    case Finalize(s, now) => d.(endTime := Some(now), status := if d.errors == [] then s else d.status)
  }

  /** The record after a sequence of operations. */
  function Replay(d: Diag, events: seq<Event>): Diag
    decreases |events|
  {
    if events == [] then d else Replay(Step(d, events[0]), events[1..])
  }

  function ErrorEvents(events: seq<Event>): nat
  {
    if events == [] then 0 else (if events[0].AddError? then 1 else 0) + ErrorEvents(events[1..])
  }

  /** Once an error has been recorded the status stays "error", whatever follows. */
  lemma {:induction false} ErrorIsSticky(d: Diag, events: seq<Event>)
    requires d.errors != [] && d.status == "error"
    ensures Replay(d, events).status == "error"
    ensures |Replay(d, events).errors| >= |d.errors| && Replay(d, events).errors[..|d.errors|] == d.errors
    decreases |events|
  {
    if events != [] {
      var d' := Step(d, events[0]);
      ErrorIsSticky(d', events[1..]);
      assert d'.errors[..|d.errors|] == d.errors;
    }
  }

  /** Every `add_error` adds exactly one entry, and nothing else removes one. */
  lemma {:induction false} ErrorCount(d: Diag, events: seq<Event>)
    ensures |Replay(d, events).errors| == |d.errors| + ErrorEvents(events)
    decreases |events|
  {
    if events != [] {
      ErrorCount(Step(d, events[0]), events[1..]);
    }
  }

  /**
   * From a record without errors: any `add_error` leaves the status "error";
   * without one the status is the one of the last finalization, or the
   * starting status when there is none.
   */
  lemma {:induction false} StatusOfRun(d: Diag, events: seq<Event>)
    requires d.errors == []
    ensures ErrorEvents(events) > 0 ==> Replay(d, events).status == "error"
    ensures ErrorEvents(events) == 0 ==> Replay(d, events).status == LastFinalize(events, d.status)
    decreases |events|
  {
    if events != [] {
      var d' := Step(d, events[0]);
      if events[0].AddError? {
        ErrorIsSticky(d', events[1..]);
      } else {
        StatusOfRun(d', events[1..]);
      }
    }
  }

  /** The status of the last finalization in `events`, or `status` when there is none. */
  function LastFinalize(events: seq<Event>, status: string): string
    decreases |events|
  {
    if events == [] then status
    else LastFinalize(events[1..], if events[0].Finalize? then events[0].status else status)
  }

  /** The serialized record `to_dict` produces. */
  datatype Report = Report(testId: string, status: string, startTime: int, endTime: Option<int>,
                           duration: Option<int>, details: map<string, string>, errors: seq<ErrorInfo>,
                           artifacts: map<string, string>)

  /**
   * `to_dict`: the record's fields, and a duration of end minus start; the
   * test on the end time is a truth test, so an end time of 0 also gives
   * no duration.
   */
  function ToReport(d: Diag): (r: Report)
    ensures r.testId == d.testId && r.status == d.status && r.startTime == d.startTime && r.endTime == d.endTime
    ensures r.details == d.details && r.errors == d.errors && r.artifacts == d.artifacts
    ensures r.duration.None? <==> d.endTime.None? || d.endTime.value == 0
    ensures r.duration.Some? ==> r.duration.value == d.endTime.value - d.startTime
  {
    Report(d.testId, d.status, d.startTime, d.endTime,
           if d.endTime.Some? && d.endTime.value != 0 then Some(d.endTime.value - d.startTime) else None,
           d.details, d.errors, d.artifacts)
  }

  /** A finalized record read on a clock after the epoch has a duration. */
  lemma FinalizedHasDuration(d: Diag, status: string, now: int)
    requires now > 0
    ensures ToReport(Step(d, Finalize(status, now))).duration == Some(now - d.startTime)
  {
  }

  /** `DiagnosticData`: the record as an object whose methods update its fields. */
  class DiagnosticData {
    const testId: string
    const startTime: int
    var endTime: Option<int>
    var status: string
    var details: map<string, string>
    var errors: seq<ErrorInfo>
    var artifacts: map<string, string>

    function State(): Diag
      reads this
    {
      Diag(testId, startTime, endTime, status, details, errors, artifacts)
    }

    constructor (testId: string, now: int)
      ensures State() == Fresh(testId, now)
    {
      this.testId := testId;
      startTime := now;
      endTime := None;
      status := "pending";
      details := map[];
      errors := [];
      artifacts := map[];
    }

    method AddError(errorType: string, message: string, tb: Option<string>)
      modifies this
      ensures State() == Step(old(State()), Event.AddError(errorType, message, tb))
    {
      var info := ErrorInfo(errorType, message, None);
      if tb.Some? && tb.value != "" {
        info := info.(traceback := tb);
      }
      errors := errors + [info];
      status := "error";
    }

    method AddDetail(key: string, value: string)
      modifies this
      ensures State() == Step(old(State()), Event.AddDetail(key, value))
    {
      details := details[key := value];
    }

    method AddArtifact(name: string, content: string)
      modifies this
      ensures State() == Step(old(State()), Event.AddArtifact(name, content))
    {
      artifacts := artifacts[name := content];
    }

    method Finalize(status: string, now: int)
      modifies this
      ensures State() == Step(old(State()), Event.Finalize(status, now))
    {
      endTime := Some(now);
      if errors == [] {
        this.status := status;
      }
    }

    function ToDict(): (r: Report)
      reads this
      ensures r == ToReport(State())
    {
      ToReport(State())
    }
  }

  /** The `diagnostic` fixture: a new record, the test's operations, then `finalize()` with the default "completed". */
  method RunFixture(testId: string, start: int, events: seq<Event>, end: int) returns (d: DiagnosticData)
    ensures fresh(d)
    ensures d.State() == Step(Replay(Fresh(testId, start), events), Finalize("completed", end))
  {
    d := new DiagnosticData(testId, start);
    for k := 0 to |events|
      invariant Replay(Fresh(testId, start), events) == Replay(d.State(), events[k..])
    {
      assert events[k..][1..] == events[k + 1..];
      match events[k]
      case AddError(t, m, tb) => d.AddError(t, m, tb);
      case AddDetail(key, v) => d.AddDetail(key, v);
      case AddArtifact(n, c) => d.AddArtifact(n, c);
      case Finalize(s, now) => d.Finalize(s, now);
    }
    d.Finalize("completed", end);
  }
}

=== FILE: query_builder.dfy ===
/**
 * The query helpers of tools/query_builder.py: template-or-pattern lookup,
 * compound queries, and node-type renaming between languages.
 */
module QueryBuilder {
  import opened Common
  import opened Strings
  import opened QueryTemplates

  /** `get_template`: the named template when one exists (and is non-empty), else the pattern itself. */
  function GetTemplate(language: string, pattern: string): (r: string)
    ensures GetQueryTemplate(language, pattern).Some? ==> r == GetQueryTemplate(language, pattern).value
    ensures GetQueryTemplate(language, pattern).None? ==> r == pattern
  {
    var template := GetQueryTemplate(language, pattern);
    if template.Some? && template.value != "" then template.value else pattern
  }

  /** The resolved patterns, in input order, with the empty ones dropped. */
  function Resolved(language: string, patterns: seq<string>): (r: seq<string>)
    ensures |r| <= |patterns|
    ensures forall i :: 0 <= i < |r| ==> r[i] != ""
    decreases |patterns|
  {
    if patterns == [] then []
    else
      var init := Resolved(language, patterns[..|patterns| - 1]);
      var t := GetTemplate(language, patterns[|patterns| - 1]);
      if t != "" then init + [t] else init
  }

  /** Every resolved query comes from a pattern, and every pattern with a non-empty resolution is kept. */
  lemma {:induction false} ResolvedMembers(language: string, patterns: seq<string>)
    ensures forall q :: q in Resolved(language, patterns) ==>
              exists i :: 0 <= i < |patterns| && GetTemplate(language, patterns[i]) == q
    ensures forall i :: 0 <= i < |patterns| && GetTemplate(language, patterns[i]) != "" ==>
              GetTemplate(language, patterns[i]) in Resolved(language, patterns)
    decreases |patterns|
  {
    if patterns != [] {
      var init := patterns[..|patterns| - 1];
      ResolvedMembers(language, init);
      forall q | q in Resolved(language, patterns)
        ensures exists i :: 0 <= i < |patterns| && GetTemplate(language, patterns[i]) == q
      {
        if q in Resolved(language, init) {
          var i :| 0 <= i < |init| && GetTemplate(language, init[i]) == q;
          assert patterns[i] == init[i];
        }
      }
      forall i | 0 <= i < |patterns| && GetTemplate(language, patterns[i]) != ""
        ensures GetTemplate(language, patterns[i]) in Resolved(language, patterns)
      {
        if i < |init| {
          assert patterns[i] == init[i];
        }
      }
    }
  }

  /** The text appended when the combination is not "or". */
  const AndSuffix := "\n\n;; Add your #match predicates here to require combinations"

  /**
   * `build_compound_query`: the resolved patterns joined by newlines; any
   * combination other than "or" (in any case) gets the predicate hint appended.
   */
  method BuildCompoundQuery(language: string, patterns: seq<string>, combine: string) returns (r: string)
    ensures Lower(combine) == "or" ==> r == Join("\n", Resolved(language, patterns))
    ensures Lower(combine) != "or" ==> r == Join("\n", Resolved(language, patterns)) + AndSuffix
  {
    var queries: seq<string> := [];
    var i := 0;
    while i < |patterns|
      invariant 0 <= i <= |patterns|
      invariant queries == Resolved(language, patterns[..i])
    {
      var template := GetTemplate(language, patterns[i]);
      if template != "" {
        queries := queries + [template];
      }
      assert patterns[..i + 1][..i] == patterns[..i];
      i := i + 1;
    }
    assert patterns[..i] == patterns;
    if Lower(combine) == "or" {
      return Join("\n", queries);
    }
    r := Join("\n", queries);
    r := r + AndSuffix;
  }

  /** The node-type renamings for a language pair, in table order; empty for any other pair. */
  function Translations(fromLanguage: string, toLanguage: string): seq<(string, string)>
  {
    if fromLanguage == "python" && toLanguage == "javascript" then
      [("function_definition", "function_declaration"), ("class_definition", "class_declaration"),
       ("block", "statement_block"), ("parameters", "formal_parameters"), ("argument_list", "arguments"),
       ("import_statement", "import_statement"), ("call", "call_expression")]
    else if fromLanguage == "javascript" && toLanguage == "python" then
      [("function_declaration", "function_definition"), ("class_declaration", "class_definition"),
       ("statement_block", "block"), ("formal_parameters", "parameters"), ("arguments", "argument_list"),
       ("call_expression", "call")]
    else []
  }

  /** The renamings applied one after another: each `(src` becomes `(dst`. */
  function Translate(query: string, renames: seq<(string, string)>): string
    decreases |renames|
  {
    if renames == [] then query
    else
      var (src, dst) := renames[|renames| - 1];
      Replace(Translate(query, renames[..|renames| - 1]), "(" + src, "(" + dst)
  }

  /** `adapt_query_for_language`: the query with each renaming of the pair applied in turn. */
  method AdaptQueryForLanguage(query: string, fromLanguage: string, toLanguage: string) returns (r: string)
    ensures r == Translate(query, Translations(fromLanguage, toLanguage))
  {
    var renames := Translations(fromLanguage, toLanguage);
    r := query;
    var i := 0;
    while i < |renames|
      invariant 0 <= i <= |renames|
      invariant r == Translate(query, renames[..i])
    {
      var (src, dst) := renames[i];
      assert renames[..i + 1][..i] == renames[..i];
      r := Replace(r, "(" + src, "(" + dst);
      i := i + 1;
    }
    assert renames[..i] == renames;
  }

  /** A pair outside the table, a language with itself included, leaves the query as it is. */
  lemma AdaptUnknownPairIdentity(query: string, fromLanguage: string, toLanguage: string)
    requires !(fromLanguage == "python" && toLanguage == "javascript")
    requires !(fromLanguage == "javascript" && toLanguage == "python")
    ensures Translate(query, Translations(fromLanguage, toLanguage)) == query
    ensures Translate(query, Translations(fromLanguage, fromLanguage)) == query
  {
  }

  lemma {:induction false} NoParenNoOccurrence(s: string, name: string)
    requires !HasChar(s, '(')
    ensures !Contains(s, "(" + name)
    decreases |s|
  {
    if 0 < |s| {
      assert s[0] != '(' && ("(" + name)[0] == '(';
      NoParenNoOccurrence(s[1..], name);
    }
  }

  /** Renaming only rewrites text right after "(": a query without "(" is never changed. */
  lemma {:induction false} TranslateWithoutParen(query: string, renames: seq<(string, string)>)
    requires !HasChar(query, '(')
    ensures Translate(query, renames) == query
    decreases |renames|
  {
    if renames != [] {
      TranslateWithoutParen(query, renames[..|renames| - 1]);
      var (src, dst) := renames[|renames| - 1];
      NoParenNoOccurrence(query, src);
      ReplaceAbsent(query, "(" + src, "(" + dst);
    }
  }

  /** A text whose only "(" is its first character holds `(name` only as a prefix. */
  lemma LeadingParenOnly(s: string, name: string)
    requires 0 < |s| && !HasChar(s[1..], '(') && !StartsWith(s, "(" + name)
    ensures !Contains(s, "(" + name)
  {
    NoParenNoOccurrence(s[1..], name);
  }

  /** Once the first renaming has produced `a`, renamings that do not occur in `a` keep it. */
  lemma {:induction false} TranslateSettles(q: string, renames: seq<(string, string)>, a: string)
    requires 0 < |renames| && Translate(q, renames[..1]) == a
    requires forall j :: 1 <= j < |renames| ==> !Contains(a, "(" + renames[j].0)
    ensures Translate(q, renames) == a
    decreases |renames|
  {
    if |renames| > 1 {
      var init := renames[..|renames| - 1];
      assert init[..1] == renames[..1];
      forall j | 1 <= j < |init|
        ensures !Contains(a, "(" + init[j].0)
      {
        assert init[j] == renames[j];
      }
      TranslateSettles(q, init, a);
      var (src, dst) := renames[|renames| - 1];
      ReplaceAbsent(a, "(" + src, "(" + dst);
    } else {
      assert renames[..1] == renames;
    }
  }

  lemma FunctionDefinitionRenamed()
    ensures Replace("(function_definition) @function", "(" + "function_definition", "(" + "function_declaration")
            == "(function_declaration) @function"
  {
    var q := "(function_definition) @function";
    var pat := "(" + "function_definition";
    var rep := "(" + "function_declaration";
    FunctionDefinitionSplit();
    assert q[..|pat|] == pat && q[|pat|..] == ") @function";
    ReplaceOnce(q, pat, rep);
    FunctionDeclarationSplit();
  }

  /** The default function query is its pattern followed by the capture. */
  lemma FunctionDefinitionSplit()
    ensures "(function_definition) @function" == ("(" + "function_definition") + ") @function"
  {
  }

  /** The renamed pattern followed by the capture is the Go/JavaScript function query. */
  lemma FunctionDeclarationSplit()
    ensures ("(" + "function_declaration") + ") @function" == "(function_declaration) @function"
  {
  }

  /** A pattern at the start of a text too short to hold a second one is replaced once. */
  lemma ReplaceOnce(s: string, pat: string, rep: string)
    requires 0 < |pat| <= |s| && s[..|pat|] == pat && |s| - |pat| < |pat|
    ensures Replace(s, pat, rep) == rep + s[|pat|..]
  {
    assert Replace(s[|pat|..], pat, rep) == s[|pat|..];
  }

  lemma DeclarationParenFirst()
    ensures !HasChar("(function_declaration) @function"[1..], '(')
  {
    var t := "(function_declaration) @function"[1..];
    assert forall i :: 0 <= i < |t| ==> t[i] != '(';
  }

  lemma TranslateFirst(q: string, renames: seq<(string, string)>)
    requires 0 < |renames|
    ensures Translate(q, renames[..1]) == Replace(q, "(" + renames[0].0, "(" + renames[0].1)
  {
    assert renames[..1][..0] == [];
  }

  /** The later Python-to-JavaScript renamings do not occur in `(function_declaration) @function`. */
  lemma LaterRenamesAbsent(j: nat)
    requires 1 <= j < |Translations("python", "javascript")|
    ensures !Contains("(function_declaration) @function", "(" + Translations("python", "javascript")[j].0)
  {
    var a := "(function_declaration) @function";
    DeclarationParenFirst();
    var name := Translations("python", "javascript")[j].0;
    assert a[1] == 'f';
    if |"(" + name| <= |a| {
      assert ("(" + name)[1] != 'f';
      assert a[..|"(" + name|][1] != ("(" + name)[1];
    }
    LeadingParenOnly(a, name);
  }

  /** Adapting `(function_definition) @function` from Python to JavaScript renames the node type. */
  lemma AdaptFunctionDefinition()
    ensures Translate("(function_definition) @function", Translations("python", "javascript"))
            == "(function_declaration) @function"
  {
    var q, a := "(function_definition) @function", "(function_declaration) @function";
    var renames := Translations("python", "javascript");
    FunctionDefinitionRenamed();
    TranslateFirst(q, renames);
    assert renames[0] == ("function_definition", "function_declaration");
    forall j | 1 <= j < |renames|
      ensures !Contains(a, "(" + renames[j].0)
    {
      LaterRenamesAbsent(j);
    }
    TranslateSettles(q, renames, a);
  }

  /** `adapt_query`: the adapted text next to the unchanged inputs. */
  datatype Adaptation = Adaptation(originalLanguage: string, targetLanguage: string,
                                   originalQuery: string, adaptedQuery: string)

  method AdaptQuery(query: string, fromLanguage: string, toLanguage: string) returns (r: Adaptation)
    ensures r.originalLanguage == fromLanguage && r.targetLanguage == toLanguage && r.originalQuery == query
    ensures r.adaptedQuery == Translate(query, Translations(fromLanguage, toLanguage))
  {
    var adapted := AdaptQueryForLanguage(query, fromLanguage, toLanguage);
    return Adaptation(fromLanguage, toLanguage, query, adapted);
  }

  /** The node-type descriptions of `describe_node_types`. */
  const Descriptions: map<string, map<string, string>> := map[
    "python" := map[
      "module" := "The root node of a Python file",
      "function_definition" := "A function definition with name and params",
      "class_definition" := "A class definition with name and body",
      "import_statement" := "An import statement",
      "import_from_statement" := "A from ... import ... statement",
      "assignment" := "An assignment statement",
      "call" := "A function call with function name and arguments",
      "identifier" := "An identifier (name)",
      "string" := "A string literal",
      "integer" := "An integer literal",
      "float" := "A floating-point literal",
      "block" := "A block of code (indented statements)",
      "if_statement" := "An if statement with condition and body",
      "for_statement" := "A for loop with target, iterable, and body",
      "while_statement" := "A while loop with condition and body"
    ],
    "javascript" := map[
      "program" := "The root node of a JavaScript file",
      "function_declaration" := "A function declaration with name and params",
      "arrow_function" := "An arrow function with parameters and body",
      "class_declaration" := "A class declaration with name and body",
      "import_statement" := "An import statement",
      "export_statement" := "An export statement",
      "variable_declaration" := "A variable declaration",
      "call_expression" := "A function call with function and arguments",
      "identifier" := "An identifier (name)",
      "string" := "A string literal",
      "number" := "A numeric literal",
      "statement_block" := "A block of statements",
      "if_statement" := "An if statement with condition and consequence",
      "for_statement" := "A for loop",
      "while_statement" := "A while loop with condition and body"
    ]
  ]

  /** `describe_node_types`: the language's descriptions, or an empty map for any other language. */
  function DescribeNodeTypes(language: string): (r: map<string, string>)
    ensures r == map[] <==> language != "python" && language != "javascript"
    ensures r != map[] ==> r == Descriptions[language]
  {
    assert "module" in Descriptions["python"] && "program" in Descriptions["javascript"];
    if language in Descriptions then Descriptions[language] else map[]
  }
}

=== FILE: query_templates.dfy ===
/**
 * The query template table of language/query_templates.py and its two
 * lookups: tree-sitter query texts by language and template name.
 */
module QueryTemplates {
  import opened Common

  /** `QUERY_TEMPLATES`: language, then template name, then query text. */
  const Templates: map<string, map<string, string>> := map[
    "python" := map[
      "functions" := @"
            (function_definition
                name: (identifier) @function.name
                parameters: (parameters) @function.params
                body: (block) @function.body) @function.def
        ",
      "classes" := @"
            (class_definition
                name: (identifier) @class.name
                body: (block) @class.body) @class.def
        ",
      "imports" := @"
            (import_statement
                name: (dotted_name) @import.module) @import

            (import_from_statement
                module_name: (dotted_name) @import.from
                name: (dotted_name) @import.item) @import
        ",
      "function_calls" := @"
            (call
                function: (identifier) @call.function
                arguments: (argument_list) @call.args) @call
        ",
      "assignments" := @"
            (assignment
                left: (_) @assign.target
                right: (_) @assign.value) @assign
        "
    ],
    "javascript" := map[
      "functions" := @"
            (function_declaration
                name: (identifier) @function.name
                parameters: (formal_parameters) @function.params
                body: (statement_block) @function.body) @function.def

            (arrow_function
                parameters: (formal_parameters) @function.params
                body: (_) @function.body) @function.def
        ",
      "classes" := @"
            (class_declaration
                name: (identifier) @class.name
                body: (class_body) @class.body) @class.def
        ",
      "imports" := @"
            (import_statement
                source: (string) @import.source
                specifier: (_) @import.specifier) @import
        ",
      "function_calls" := @"
            (call_expression
                function: (identifier) @call.function
                arguments: (arguments) @call.args) @call
        ",
      "assignments" := @"
            (variable_declarator
                name: (_) @assign.target
                value: (_) @assign.value) @assign
        "
    ],
    "typescript" := map[
      "functions" := @"
            (function_declaration
                name: (identifier) @function.name
                parameters: (formal_parameters) @function.params
                body: (statement_block) @function.body) @function.def

            (arrow_function
                parameters: (formal_parameters) @function.params
                body: (_) @function.body) @function.def
        ",
      "classes" := @"
            (class_declaration
                name: (identifier) @class.name
                body: (class_body) @class.body) @class.def
        ",
      "interfaces" := @"
            (interface_declaration
                name: (type_identifier) @interface.name
                body: (object_type) @interface.body) @interface.def
        ",
      "imports" := @"
            (import_statement
                source: (string) @import.source
                specifier: (_) @import.specifier) @import
        "
    ],
    "go" := map[
      "functions" := @"
            (function_declaration
                name: (identifier) @function.name
                parameters: (parameter_list) @function.params
                body: (block) @function.body) @function.def
        ",
      "structs" := @"
            (type_declaration
                (type_spec
                    name: (type_identifier) @struct.name
                    type: (struct_type) @struct.body)) @struct.def
        ",
      "imports" := @"
            (import_declaration
                (import_spec_list
                    (import_spec
                        path: (interpreted_string_literal) @import.path))) @import
        "
    ],
    "rust" := map[
      "functions" := @"
            (function_item
                name: (identifier) @function.name
                parameters: (parameters) @function.params
                body: (block) @function.body) @function.def
        ",
      "structs" := @"
            (struct_item
                name: (type_identifier) @struct.name
                body: (field_declaration_list) @struct.body) @struct.def
        ",
      "enums" := @"
            (enum_item
                name: (type_identifier) @enum.name
                body: (enum_variant_list) @enum.body) @enum.def
        ",
      "imports" := @"
            (use_declaration
                path: (path) @import.path) @import
        "
    ]
  ]

  /** `get_query_template`: the named template of a known language, else `None`. */
  function GetQueryTemplate(language: string, templateName: string): (r: Option<string>)
    ensures r.Some? <==> language in Templates && templateName in Templates[language]
    ensures r.Some? ==> r.value == Templates[language][templateName]
  {
    if language in Templates && Templates[language] != map[] then
      if templateName in Templates[language] then Some(Templates[language][templateName]) else None
    else None
  }

  /**
   * `list_query_templates`: with a non-empty language, a one-key map from
   * that language to its templates (an empty map for an unknown language);
   * otherwise the whole table.
   */
  function ListQueryTemplates(language: Option<string>): (r: map<string, map<string, string>>)
    ensures language.None? || language.value == "" ==> r == Templates
    ensures language.Some? && language.value != "" ==>
              r.Keys == {language.value}
              && (language.value in Templates ==> r[language.value] == Templates[language.value])
              && (language.value !in Templates ==> r[language.value] == map[])
  {
    if language.Some? && language.value != "" then
      map[language.value := if language.value in Templates then Templates[language.value] else map[]]
    else Templates
  }

  /** Every template is a non-empty text, so a found template is never mistaken for a miss. */
  lemma TemplatesNonEmpty(language: string, templateName: string)
    requires GetQueryTemplate(language, templateName).Some?
    ensures GetQueryTemplate(language, templateName).value != ""
  {
  }

  /** The single-language listing offers exactly the names the lookup finds. */
  lemma ListingMatchesLookup(language: string, templateName: string)
    requires language != ""
    ensures templateName in ListQueryTemplates(Some(language))[language]
            <==> GetQueryTemplate(language, templateName).Some?
    ensures GetQueryTemplate(language, templateName).Some? ==>
              ListQueryTemplates(Some(language))[language][templateName] == GetQueryTemplate(language, templateName).value
  {
  }
}

=== FILE: search.dfy ===
/**
 * The search tools of tools/search.py: per-line text search with a context
 * window, and running a tree-sitter query over one file or over every file
 * of a language.
 *
 * The regular-expression engine, the query engine, globbing and file
 * reading are parameters. Files are processed one after another in glob
 * order.
 */
module Search {
  import opened Common
  import opened Strings
  import opened SyntaxTree
  import opened Paths
  import Security
  import Registry
  import opened Projects
  import opened ParserCache
  import opened TreeSitterHelpers
  import opened FileOperations
  import opened AstOperations

  // ---------------------------------------------------------------------
  // search_text
  // ---------------------------------------------------------------------

  /** A compiled regular expression, known by its `search` outcome on a line. */
  type Matcher = string -> bool

  /** How lines are tested: a compiled expression, or a plain substring (already lowercased when case-insensitive). */
  datatype LinePlan = LinePlan(compiled: Option<Matcher>, plain: string, caseSensitive: bool)

  /**
   * Pattern preparation: a regular expression that fails to compile is a
   * ValueError; whole-word mode uses the escaped pattern between word
   * boundaries, which always compiles; otherwise the pattern is a plain
   * substring, lowercased unless the search is case-sensitive. `compiled`
   * is what compiling the expression yields and `wordMatcher` the
   * whole-word expression, both with the case flag applied.
   */
  function PreparePlan(pattern: string, caseSensitive: bool, useRegex: bool, wholeWord: bool,
                       compiled: Option<Matcher>, wordMatcher: Matcher): (r: Result<LinePlan>)
    ensures r.Err? <==> useRegex && compiled.None?
    ensures r.Err? ==> r.error.ValueError?
    ensures r.Ok? && useRegex ==> r.value.compiled == compiled
    ensures r.Ok? && !useRegex && wholeWord ==> r.value.compiled == Some(wordMatcher)
    ensures r.Ok? && !useRegex && !wholeWord ==>
              r.value.compiled.None? && r.value.caseSensitive == caseSensitive
              && r.value.plain == if caseSensitive then pattern else Lower(pattern)
  {
    if useRegex then
      if compiled.None? then Err(ValueError("Invalid regular expression")) else Ok(LinePlan(compiled, pattern, caseSensitive))
    else if wholeWord then Ok(LinePlan(Some(wordMatcher), pattern, caseSensitive))
    else if !caseSensitive then Ok(LinePlan(None, Lower(pattern), caseSensitive))
    else Ok(LinePlan(None, pattern, caseSensitive))
  }

  predicate LineMatches(plan: LinePlan, line: string)
  {
    if plan.compiled.Some? then plan.compiled.value(line)
    else if plan.caseSensitive then Contains(line, plan.plain)
    else Contains(Lower(line), plan.plain)
  }

  /** In plain mode a line matches iff it contains the pattern, both lowercased unless case-sensitive. */
  lemma PlainMatch(pattern: string, caseSensitive: bool, compiled: Option<Matcher>, wordMatcher: Matcher, line: string)
    ensures var plan := PreparePlan(pattern, caseSensitive, false, false, compiled, wordMatcher).value;
            LineMatches(plan, line) <==>
              if caseSensitive then Contains(line, pattern) else Contains(Lower(line), Lower(pattern))
  {
  }

  /** `s.rstrip("\n")`. */
  function StripNewlines(s: string): (r: string)
    ensures |r| <= |s| && r == s[..|r|]
    ensures r == [] || r[|r| - 1] != '\n'
    ensures forall i :: |r| <= i < |s| ==> s[i] == '\n'
  {
    if s != [] && s[|s| - 1] == '\n' then StripNewlines(s[..|s| - 1]) else s
  }

  datatype ContextLine = ContextLine(line: nat, text: string, isMatch: bool)

  datatype TextHit = TextHit(file: string, line: nat, text: string, context: seq<ContextLine>)

  /** The first context index: `max(0, i - 1 - context_lines)`. */
  function ContextStart(i: nat, contextLines: int): nat
  {
    Max(0, i - 1 - contextLines)
  }

  /** The end of the context, exclusive: `min(len(lines), i + context_lines)`. */
  function ContextEnd(n: nat, i: nat, contextLines: int): int
  {
    Min(n, i + contextLines)
  }

  /** The context lines around the match on 1-based line `i`, numbered from 1. */
  function ContextOf(lines: seq<string>, i: nat, contextLines: int): (r: seq<ContextLine>)
    requires 1 <= i <= |lines|
  {
    var s, e := ContextStart(i, contextLines), ContextEnd(|lines|, i, contextLines);
    seq(Max(e - s, 0), k requires 0 <= k < Max(e - s, 0) =>
      ContextLine(s + k + 1, StripNewlines(lines[s + k]), s + k == i - 1))
  }

  /** The context loop of `process_file`. */
  method BuildContext(lines: seq<string>, i: nat, contextLines: int) returns (context: seq<ContextLine>)
    requires 1 <= i <= |lines|
    ensures context == ContextOf(lines, i, contextLines)
  {
    var start, end := ContextStart(i, contextLines), ContextEnd(|lines|, i, contextLines);
    context := [];
    var ctx := start;
    while ctx < end
      invariant start <= ctx <= Max(start, end) && end <= |lines|
      invariant |context| == ctx - start
      invariant forall k :: 0 <= k < |context| ==>
                  context[k] == ContextLine(start + k + 1, StripNewlines(lines[start + k]), start + k == i - 1)
    {
      context := context + [ContextLine(ctx + 1, StripNewlines(lines[ctx]), ctx == i - 1)];
      ctx := ctx + 1;
    }
  }

  /**
   * With a non-negative context size the lines are consecutive, exactly one
   * of them is marked as the match, and that one is the matched line; with a
   * negative size the context is empty.
   */
  lemma ContextMarksMatch(lines: seq<string>, i: nat, contextLines: int)
    requires 1 <= i <= |lines|
    ensures var c := ContextOf(lines, i, contextLines);
            && (forall k :: 0 <= k < |c| ==> c[k].line == ContextStart(i, contextLines) + k + 1)
            && (0 <= contextLines ==>
                  exists k :: 0 <= k < |c| && c[k].isMatch && c[k].line == i && c[k].text == StripNewlines(lines[i - 1]))
            && (forall k, k' :: 0 <= k < |c| && 0 <= k' < |c| && c[k].isMatch && c[k'].isMatch ==> k == k')
            && (contextLines < 0 ==> c == [])
  {
    var c := ContextOf(lines, i, contextLines);
    if 0 <= contextLines {
      var k := i - 1 - ContextStart(i, contextLines);
      assert 0 <= k < |c| && c[k].isMatch;
    }
  }

  function HitAt(file: string, lines: seq<string>, i: nat, contextLines: int): TextHit
    requires 1 <= i <= |lines|
  {
    TextHit(file, i, StripNewlines(lines[i - 1]), ContextOf(lines, i, contextLines))
  }

  /** The hits among the first `n` lines, in line order. */
  function Hits(file: string, lines: seq<string>, plan: LinePlan, contextLines: int, n: nat): (r: seq<TextHit>)
    requires n <= |lines|
    ensures |r| <= n
    ensures forall k :: 0 <= k < |r| ==> 1 <= r[k].line <= n && LineMatches(plan, lines[r[k].line - 1])
                                           && r[k] == HitAt(file, lines, r[k].line, contextLines)
    ensures forall k, k' :: 0 <= k < k' < |r| ==> r[k].line < r[k'].line
  {
    if n == 0 then []
    else
      var h := Hits(file, lines, plan, contextLines, n - 1);
      if LineMatches(plan, lines[n - 1]) then h + [HitAt(file, lines, n, contextLines)] else h
  }

  /** Every matching line among the first `n` has its hit. */
  lemma {:induction false} HitsComplete(file: string, lines: seq<string>, plan: LinePlan, contextLines: int, n: nat, i: nat)
    requires n <= |lines| && 1 <= i <= n && LineMatches(plan, lines[i - 1])
    ensures HitAt(file, lines, i, contextLines) in Hits(file, lines, plan, contextLines, n)
  {
    if i < n {
      HitsComplete(file, lines, plan, contextLines, n - 1, i);
    }
  }

  /** Scanning further only appends hits. */
  lemma {:induction false} HitsPrefix(file: string, lines: seq<string>, plan: LinePlan, contextLines: int, n: nat, m: nat)
    requires n <= m <= |lines|
    ensures var a, b := Hits(file, lines, plan, contextLines, n), Hits(file, lines, plan, contextLines, m);
            |a| <= |b| && b[..|a|] == a
    decreases m
  {
    if n < m {
      HitsPrefix(file, lines, plan, contextLines, n, m - 1);
    }
  }

  /**
   * The line loop of `process_file`: the hits in line order, stopping once
   * there are `max_results` of them (at least one is kept, since the test
   * follows the append).
   */
  method ProcessLines(file: string, lines: seq<string>, plan: LinePlan, contextLines: int, maxResults: int)
    returns (hits: seq<TextHit>)
    ensures hits == Take(Hits(file, lines, plan, contextLines, |lines|), Max(maxResults, 1))
  {
    var cap := Max(maxResults, 1);
    hits := [];
    var i := 0;
    while i < |lines|
      invariant 0 <= i <= |lines|
      invariant hits == Hits(file, lines, plan, contextLines, i)
      invariant |hits| < cap
    {
      if LineMatches(plan, lines[i]) {
        var context := BuildContext(lines, i + 1, contextLines);
        hits := hits + [TextHit(file, i + 1, StripNewlines(lines[i]), context)];
        if |hits| >= maxResults {
          CapReached(file, lines, plan, contextLines, i + 1, cap);
          return;
        }
      }
      i := i + 1;
    }
    assert |Hits(file, lines, plan, contextLines, |lines|)| < cap;
  }

  /** Once the hits of the first `n` lines fill the cap, the later lines add none of the first `cap`. */
  lemma CapReached(file: string, lines: seq<string>, plan: LinePlan, contextLines: int, n: nat, cap: int)
    requires n <= |lines| && |Hits(file, lines, plan, contextLines, n)| == cap
    ensures Hits(file, lines, plan, contextLines, n) == Take(Hits(file, lines, plan, contextLines, |lines|), cap)
  {
    HitsPrefix(file, lines, plan, contextLines, n, |lines|);
  }

  /** Each hit in `r` is the hit of a matching line of `lines`. */
  predicate LineHits(r: seq<TextHit>, file: string, lines: seq<string>, plan: LinePlan, contextLines: int)
  {
    forall k :: 0 <= k < |r| ==> 1 <= r[k].line <= |lines| && LineMatches(plan, lines[r[k].line - 1])
                                 && r[k] == HitAt(file, lines, r[k].line, contextLines)
  }

  /** Any prefix of hits of matching lines holds only hits of matching lines. */
  lemma LineHitsPrefix(r: seq<TextHit>, file: string, lines: seq<string>, plan: LinePlan, contextLines: int, n: nat)
    requires n <= |r| && LineHits(r, file, lines, plan, contextLines)
    ensures LineHits(r[..n], file, lines, plan, contextLines)
  {
    forall k | 0 <= k < n
      ensures r[..n][k] == r[k]
    {
    }
  }

  /** The first `cap` hits of a file are still hits of matching lines. */
  lemma TakeHits(file: string, lines: seq<string>, plan: LinePlan, contextLines: int, cap: nat)
    ensures LineHits(Take(Hits(file, lines, plan, contextLines, |lines|), cap), file, lines, plan, contextLines)
  {
    var h := Hits(file, lines, plan, contextLines, |lines|);
    assert LineHits(h, file, lines, plan, contextLines);
    LineHitsPrefix(h, file, lines, plan, contextLines, if cap < |h| then cap else |h|);
  }

  /** What `process_file` yields for one globbed path: nothing when access is denied or the file cannot be read. */
  function FileHits(root: FsPath, cfg: Security.SecurityConfig, fs: FileSystem, cwd: seq<string>,
                    rel: FsPath, text: Option<string>, plan: LinePlan, contextLines: int, maxResults: int)
    : (r: seq<TextHit>)
    ensures Security.ValidateFileAccess(cfg, fs, cwd, JoinPath(root, rel), root).Err? || text.None? ==> r == []
    ensures |r| <= Max(maxResults, 1)
    ensures text.Some? ==> LineHits(r, PathStr(rel), LinesOf(text.value, '\n'), plan, contextLines)
  {
    if Security.ValidateFileAccess(cfg, fs, cwd, JoinPath(root, rel), root).Err? || text.None? then []
    else
      var lines := LinesOf(text.value, '\n');
      TakeHits(PathStr(rel), lines, plan, contextLines, Max(maxResults, 1));
      Take(Hits(PathStr(rel), lines, plan, contextLines, |lines|), Max(maxResults, 1))
  }

  method ProcessFile(root: FsPath, cfg: Security.SecurityConfig, fs: FileSystem, cwd: seq<string>,
                     rel: FsPath, text: Option<string>, plan: LinePlan, contextLines: int, maxResults: int)
    returns (hits: seq<TextHit>)
    ensures hits == FileHits(root, cfg, fs, cwd, rel, text, plan, contextLines, maxResults)
  {
    if Security.ValidateFileAccess(cfg, fs, cwd, JoinPath(root, rel), root).Err? || text.None? {
      return [];
    }
    hits := ProcessLines(PathStr(rel), LinesOf(text.value, '\n'), plan, contextLines, maxResults);
  }

  /** The regular files a glob yields, in glob order. */
  function FilesOf(entries: seq<DirEntry>): (r: seq<FsPath>)
    ensures forall p :: p in r ==> exists e :: e in entries && e.isFile && e.rel == p
  {
    if entries == [] then []
    else (if entries[0].isFile then [entries[0].rel] else []) + FilesOf(entries[1..])
  }

  /**
   * The merge loop: per-file results are appended in turn until there are
   * at least `max` of them.
   */
  function Gather<T>(acc: seq<T>, perFile: seq<seq<T>>, max: int): seq<T>
    decreases |perFile|
  {
    if perFile == [] then acc
    else
      var a := acc + perFile[0];
      if |a| >= max then a else Gather(a, perFile[1..], max)
  }

  /** Stopping early does not change the first `max` results. */
  lemma {:induction false} GatherTake<T>(acc: seq<T>, perFile: seq<seq<T>>, max: nat)
    ensures Take(Gather(acc, perFile, max), max) == Take(acc + Concat(perFile), max)
    decreases |perFile|
  {
    if perFile != [] {
      var a := acc + perFile[0];
      assert acc + Concat(perFile) == a + Concat(perFile[1..]);
      if |a| < max {
        GatherTake(a, perFile[1..], max);
      }
    }
  }

  /** The per-file results, one entry per globbed file. */
  function AllFileHits(root: FsPath, cfg: Security.SecurityConfig, fs: FileSystem, cwd: seq<string>,
                       files: seq<FsPath>, read: FsPath -> Option<string>, plan: LinePlan,
                       contextLines: int, maxResults: int): (r: seq<seq<TextHit>>)
    ensures |r| == |files|
    ensures forall k :: 0 <= k < |files| ==>
              r[k] == FileHits(root, cfg, fs, cwd, files[k], read(files[k]), plan, contextLines, maxResults)
  {
    seq(|files|, k requires 0 <= k < |files| =>
      FileHits(root, cfg, fs, cwd, files[k], read(files[k]), plan, contextLines, maxResults))
  }

  /**
   * `search_text`: an invalid regular expression is a ValueError; otherwise
   * the files the glob pattern (every file by default) yields are searched
   * in turn and the merged hits are cut to `max_results`, which defaults to
   * the configured value.
   */
  method SearchText(project: Project, glob: string -> seq<DirEntry>, read: FsPath -> Option<string>,
                    cfg: Security.SecurityConfig, fs: FileSystem, cwd: seq<string>,
                    pattern: string, filePattern: Option<string>, maxResults: Option<int>, defaultMax: int,
                    caseSensitive: bool, wholeWord: bool, useRegex: bool, compiled: Option<Matcher>, wordMatcher: Matcher,
                    contextLines: int)
    returns (r: Result<seq<TextHit>>)
    ensures r.Err? <==> useRegex && compiled.None?
    ensures r.Err? ==> r.error.ValueError?
    ensures r.Ok? ==>
              var max := if maxResults.Some? then maxResults.value else defaultMax;
              var files := FilesOf(glob(if filePattern.Some? && filePattern.value != "" then filePattern.value else "**/*"));
              var perFile := AllFileHits(project.rootPath, cfg, fs, cwd, files, read,
                                         PreparePlan(pattern, caseSensitive, useRegex, wholeWord, compiled, wordMatcher).value,
                                         contextLines, max);
              r.value == Take(Gather([], perFile, max), max)
  {
    var max := if maxResults.Some? then maxResults.value else defaultMax;
    var plan :- PreparePlan(pattern, caseSensitive, useRegex, wholeWord, compiled, wordMatcher);
    var fp := if filePattern.Some? && filePattern.value != "" then filePattern.value else "**/*";
    var files := FilesOf(glob(fp));
    ghost var perFile := AllFileHits(project.rootPath, cfg, fs, cwd, files, read, plan, contextLines, max);
    var results: seq<TextHit> := [];
    var k := 0;
    while k < |files|
      invariant 0 <= k <= |files|
      invariant Gather(results, perFile[k..], max) == Gather([], perFile, max)
    {
      var fileResults := ProcessFile(project.rootPath, cfg, fs, cwd, files[k], read(files[k]), plan, contextLines, max);
      assert perFile[k..][0] == fileResults && perFile[k..][1..] == perFile[k + 1..];
      results := results + fileResults;
      if |results| >= max {
        break;
      }
      k := k + 1;
    }
    return Ok(Take(results, max));
  }

  /** With a non-negative cap the answer is the first `max` hits of all files in order, and no more. */
  lemma SearchTextCapped(perFile: seq<seq<TextHit>>, max: nat)
    ensures Take(Gather([], perFile, max), max) == Take(Concat(perFile), max)
    ensures |Take(Gather([], perFile, max), max)| <= max
  {
    GatherTake([], perFile, max);
  }

  // ---------------------------------------------------------------------
  // query_code
  // ---------------------------------------------------------------------

  datatype QueryHit = QueryHit(file: string, capture: string, start: Point, end: Point, text: Option<string>)

  /** One capture as a result: the node's span, and its text when snippets are wanted. */
  function CaptureHit(file: string, c: Capture, source: seq<byte>, includeSnippets: bool): (h: QueryHit)
    ensures h.text.Some? <==> includeSnippets
    ensures h.file == file && h.capture == c.name && h.start == c.node.startPoint && h.end == c.node.endPoint
    ensures includeSnippets ==> h.text.value == GetNodeText(c.node, source)
  {
    QueryHit(file, c.name, c.node.startPoint, c.node.endPoint,
             if includeSnippets then Some(GetNodeText(c.node, source)) else None)
  }

  /** The capture loop: one result per capture, in order, stopping once there are `max_results`. */
  method CollectCaptures(file: string, captures: seq<Capture>, source: seq<byte>, includeSnippets: bool,
                         maxResults: int)
    returns (results: seq<QueryHit>)
    ensures |results| == Min(|captures|, Max(maxResults, 0))
    ensures forall k :: 0 <= k < |results| ==> results[k] == CaptureHit(file, captures[k], source, includeSnippets)
  {
    results := [];
    var k := 0;
    while k < |captures|
      invariant 0 <= k <= |captures| && |results| == k
      invariant forall j :: 0 <= j < k ==> results[j] == CaptureHit(file, captures[j], source, includeSnippets)
      invariant k <= Max(maxResults, 0)
    {
      if |results| >= maxResults {
        break;
      }
      results := results + [CaptureHit(file, captures[k], source, includeSnippets)];
      k := k + 1;
    }
  }

  /** The language `query_code` uses for a file: the given one unless empty, else the detected one. */
  function QueryLanguage(filePath: FsPath, language: Option<string>): (r: Option<string>)
    ensures language.Some? && language.value != "" ==> r == language
    ensures r.None? <==> (language.None? || language.value == "") && Registry.LanguageForFile(PathStr(filePath)).None?
  {
    if language.Some? && language.value != "" then language else Registry.LanguageForFile(PathStr(filePath))
  }

  /** What reading one file yields: its modification time for the cache key, and its bytes (`None` when unreadable). */
  datatype FileInput = FileInput(mtime: Option<string>, bytes: Option<seq<byte>>)

  /**
   * The tree step shared by the query and analysis tools: the cached pair on
   * a hit; otherwise the file's bytes are parsed and the pair is offered to
   * the cache. `None` stands for a read or parser failure.
   */
  method CachedOrParsed(cache: TreeCache, file: FileRef, language: string, input: FileInput,
                        parser: Option<seq<byte> -> Tree>, settings: Option<CacheSettings>, now: int)
    returns (r: Option<(Tree, seq<byte>)>)
    requires cache.Valid()
    modifies cache
    ensures cache.Valid()
    ensures r == ParseOutcome(old(cache.Lookup(file, language, settings, now)), parser, input.bytes)
    ensures old(cache.Lookup(file, language, settings, now)).Some? ==> cache.cache == old(cache.cache)
    ensures old(cache.Lookup(file, language, settings, now)).None? && r.Some?
            && old(cache.Stores(file, language, r.value.1, settings)) ==>
              var key := KeyFor(file, language).value;
              key in cache.cache && cache.cache[key] == Entry(r.value.0, r.value.1, now)
    ensures r.Some? ==> ParseOutcome(cache.Lookup(file, language, settings, now), parser, input.bytes) == r
    ensures cache.Config() == old(cache.Config())
    ensures cache.State() == ThroughIn(old(cache.State()), old(cache.Config()), file, language, parser, input.bytes, settings, now)
  {
    var cached := cache.Get(file, language, settings, now);
    if cached.Some? {
      return cached;
    }
    if input.bytes.None? || parser.None? {
      return None;
    }
    var tree := parser.value(input.bytes.value);
    cache.Put(file, language, tree, input.bytes.value, settings, now);
    return Some((tree, input.bytes.value));
  }

  /**
   * What `query_code` answers for one file once the tree step has seen
   * `cached` in the cache: `None` for any error (project path, access guard,
   * no language, read or parse failure, a query that cannot be built),
   * otherwise the first `max_results` captures as results, in order.
   */
  function QueryFileHits(root: FsPath, cfg: Security.SecurityConfig, fs: FileSystem, cwd: seq<string>,
                         filePath: FsPath, language: Option<string>, cached: Option<(Tree, seq<byte>)>,
                         input: FileInput, parser: Option<seq<byte> -> Tree>,
                         runQuery: Tree -> Option<seq<Capture>>, maxResults: int, includeSnippets: bool)
    : (r: Option<seq<QueryHit>>)
    ensures r.Some? ==> FilePathUnder(root, filePath, cwd).Ok? && QueryLanguage(filePath, language).Some?
                        && Security.ValidateFileAccess(cfg, fs, cwd, FilePathUnder(root, filePath, cwd).value, root).Ok?
    ensures r.Some? ==> |r.value| <= Max(maxResults, 0)
    ensures r.Some? ==> forall h :: h in r.value ==> (h.text.Some? <==> includeSnippets) && h.file == PathStr(filePath)
  {
    var abs := FilePathUnder(root, filePath, cwd);
    if abs.Err? || Security.ValidateFileAccess(cfg, fs, cwd, abs.value, root).Err?
       || QueryLanguage(filePath, language).None? then None
    else
      var outcome := ParseOutcome(cached, parser, input.bytes);
      if outcome.None? || runQuery(outcome.value.0).None? then None
      else
        var captures := runQuery(outcome.value.0).value;
        Some(seq(Min(|captures|, Max(maxResults, 0)), k requires 0 <= k < Min(|captures|, Max(maxResults, 0)) =>
               CaptureHit(PathStr(filePath), captures[k], outcome.value.1, includeSnippets)))
  }

  /** The cache key `query_code` uses for a file, when the path and the language get it that far. */
  function QueryKey(root: FsPath, cwd: seq<string>, filePath: FsPath, language: Option<string>, input: FileInput)
    : Option<string>
  {
    var abs := FilePathUnder(root, filePath, cwd);
    var lang := QueryLanguage(filePath, language);
    if abs.Err? || lang.None? then None else KeyFor(FileRef(PathStr(abs.value), input.mtime), lang.value)
  }

  /** The cache entry `query_code` sees for a file in the bookkeeping `b`, when the path and the language get it that far. */
  function QueryCachedIn(b: Book, lim: Limits, root: FsPath, cwd: seq<string>, filePath: FsPath, language: Option<string>,
                         input: FileInput, settings: Option<CacheSettings>, now: int): Option<(Tree, seq<byte>)>
  {
    var abs := FilePathUnder(root, filePath, cwd);
    var lang := QueryLanguage(filePath, language);
    if abs.Err? || lang.None? then None
    else LookupIn(b, lim, FileRef(PathStr(abs.value), input.mtime), lang.value, settings, now)
  }

  /** The cache entry `query_code` sees for a file in the cache as it stands. */
  function QueryCached(cache: TreeCache, root: FsPath, cwd: seq<string>, filePath: FsPath, language: Option<string>,
                       input: FileInput, settings: Option<CacheSettings>, now: int): Option<(Tree, seq<byte>)>
    reads cache
  {
    QueryCachedIn(cache.State(), cache.Config(), root, cwd, filePath, language, input, settings, now)
  }

  /**
   * The cache after `query_code`'s tree step for one file: unchanged when
   * the project path, the access guard or the language fails; otherwise the
   * cache-through parse of the resolved file.
   */
  ghost function QueryThrough(b: Book, lim: Limits, root: FsPath, cfg: Security.SecurityConfig, fs: FileSystem,
                              cwd: seq<string>, filePath: FsPath, language: Option<string>, input: FileInput,
                              parser: Option<seq<byte> -> Tree>, settings: Option<CacheSettings>, now: int): (r: Book)
    requires AllIn(b.order, b.cache)
    ensures AllIn(r.order, r.cache)
  {
    var abs := FilePathUnder(root, filePath, cwd);
    var lang := QueryLanguage(filePath, language);
    if abs.Err? || Security.ValidateFileAccess(cfg, fs, cwd, abs.value, root).Err? || lang.None? then b
    else ThroughIn(b, lim, FileRef(PathStr(abs.value), input.mtime), lang.value, parser, input.bytes, settings, now)
  }

  /** The cache after the file loop of `query_code` has queried `files` in turn, starting from `b`. */
  ghost function QueriedThrough(b: Book, lim: Limits, root: FsPath, cfg: Security.SecurityConfig, fs: FileSystem,
                                cwd: seq<string>, files: seq<FsPath>, language: Option<string>,
                                inputs: FsPath -> FileInput, parser: Option<seq<byte> -> Tree>,
                                settings: Option<CacheSettings>, now: int): (r: Book)
    requires AllIn(b.order, b.cache)
    ensures AllIn(r.order, r.cache)
    decreases |files|
  {
    if files == [] then b
    else
      var f := files[|files| - 1];
      QueryThrough(QueriedThrough(b, lim, root, cfg, fs, cwd, files[..|files| - 1], language, inputs, parser, settings, now),
                   lim, root, cfg, fs, cwd, f, language, inputs(f), parser, settings, now)
  }

  lemma QueriedThroughSnoc(b: Book, lim: Limits, root: FsPath, cfg: Security.SecurityConfig, fs: FileSystem,
                           cwd: seq<string>, files: seq<FsPath>, k: nat, language: Option<string>,
                           inputs: FsPath -> FileInput, parser: Option<seq<byte> -> Tree>,
                           settings: Option<CacheSettings>, now: int)
    requires AllIn(b.order, b.cache) && k < |files|
    ensures QueriedThrough(b, lim, root, cfg, fs, cwd, files[..k + 1], language, inputs, parser, settings, now)
            == QueryThrough(QueriedThrough(b, lim, root, cfg, fs, cwd, files[..k], language, inputs, parser, settings, now),
                            lim, root, cfg, fs, cwd, files[k], language, inputs(files[k]), parser, settings, now)
  {
    assert files[..k + 1][..k] == files[..k];
  }

  /** What file `k` meets in the cache once the file loop has queried the files before it, starting from `b`. */
  ghost function MetAt(b: Book, lim: Limits, root: FsPath, cfg: Security.SecurityConfig, fs: FileSystem,
                       cwd: seq<string>, files: seq<FsPath>, k: nat, language: Option<string>,
                       inputs: FsPath -> FileInput, parser: Option<seq<byte> -> Tree>,
                       settings: Option<CacheSettings>, now: int): Option<(Tree, seq<byte>)>
    requires AllIn(b.order, b.cache) && k < |files|
  {
    QueryCachedIn(QueriedThrough(b, lim, root, cfg, fs, cwd, files[..k], language, inputs, parser, settings, now),
                  lim, root, cwd, files[k], language, inputs(files[k]), settings, now)
  }

  /**
   * The file loop, started from `b`, has queried the first `|seen|` files:
   * `state` is the cache after them, and each `seen[k]` is what file `k` met.
   */
  ghost predicate Traced(b: Book, lim: Limits, root: FsPath, cfg: Security.SecurityConfig, fs: FileSystem,
                         cwd: seq<string>, files: seq<FsPath>, language: Option<string>,
                         inputs: FsPath -> FileInput, parser: Option<seq<byte> -> Tree>,
                         settings: Option<CacheSettings>, now: int, seen: seq<Option<(Tree, seq<byte>)>>, state: Book)
    requires AllIn(b.order, b.cache)
  {
    && |seen| <= |files|
    && state == QueriedThrough(b, lim, root, cfg, fs, cwd, files[..|seen|], language, inputs, parser, settings, now)
    && SeenAll(b, lim, root, cfg, fs, cwd, files, language, inputs, parser, settings, now, seen)
  }

  /** Each `seen[k]` is what file `k` met in the file loop started from `b`. */
  ghost predicate SeenAll(b: Book, lim: Limits, root: FsPath, cfg: Security.SecurityConfig, fs: FileSystem,
                          cwd: seq<string>, files: seq<FsPath>, language: Option<string>,
                          inputs: FsPath -> FileInput, parser: Option<seq<byte> -> Tree>,
                          settings: Option<CacheSettings>, now: int, seen: seq<Option<(Tree, seq<byte>)>>)
    requires AllIn(b.order, b.cache) && |seen| <= |files|
  {
    forall k :: 0 <= k < |seen| ==> seen[k] == MetAt(b, lim, root, cfg, fs, cwd, files, k, language, inputs, parser,
                                                     settings, now)
  }

  lemma SeenAllSnoc(b: Book, lim: Limits, root: FsPath, cfg: Security.SecurityConfig, fs: FileSystem,
                    cwd: seq<string>, files: seq<FsPath>, language: Option<string>,
                    inputs: FsPath -> FileInput, parser: Option<seq<byte> -> Tree>,
                    settings: Option<CacheSettings>, now: int, seen: seq<Option<(Tree, seq<byte>)>>,
                    met: Option<(Tree, seq<byte>)>)
    requires AllIn(b.order, b.cache) && |seen| < |files|
    requires SeenAll(b, lim, root, cfg, fs, cwd, files, language, inputs, parser, settings, now, seen)
    requires met == MetAt(b, lim, root, cfg, fs, cwd, files, |seen|, language, inputs, parser, settings, now)
    ensures SeenAll(b, lim, root, cfg, fs, cwd, files, language, inputs, parser, settings, now, seen + [met])
  {
    var s := seen + [met];
    forall k | 0 <= k < |s|
      ensures s[k] == MetAt(b, lim, root, cfg, fs, cwd, files, k, language, inputs, parser, settings, now)
    {
      if k < |seen| {
        assert s[k] == seen[k];
      }
    }
  }

  /** Querying the next file from the traced state, and recording what it met, keeps the trace. */
  lemma TracedSnoc(b: Book, lim: Limits, root: FsPath, cfg: Security.SecurityConfig, fs: FileSystem,
                   cwd: seq<string>, files: seq<FsPath>, language: Option<string>,
                   inputs: FsPath -> FileInput, parser: Option<seq<byte> -> Tree>,
                   settings: Option<CacheSettings>, now: int, seen: seq<Option<(Tree, seq<byte>)>>, state: Book,
                   met: Option<(Tree, seq<byte>)>)
    requires AllIn(b.order, b.cache) && |seen| < |files|
    requires Traced(b, lim, root, cfg, fs, cwd, files, language, inputs, parser, settings, now, seen, state)
    requires met == QueryCachedIn(state, lim, root, cwd, files[|seen|], language, inputs(files[|seen|]), settings, now)
    ensures Traced(b, lim, root, cfg, fs, cwd, files, language, inputs, parser, settings, now, seen + [met],
                   QueryThrough(state, lim, root, cfg, fs, cwd, files[|seen|], language, inputs(files[|seen|]), parser,
                                settings, now))
  {
    var n := |seen|;
    QueriedThroughSnoc(b, lim, root, cfg, fs, cwd, files, n, language, inputs, parser, settings, now);
    assert met == MetAt(b, lim, root, cfg, fs, cwd, files, n, language, inputs, parser, settings, now);
    SeenAllSnoc(b, lim, root, cfg, fs, cwd, files, language, inputs, parser, settings, now, seen, met);
    assert |seen + [met]| == n + 1;
  }

  /** After one file's tree step, every entry is one that was there or the file's fresh parse under its key. */
  lemma QueryThroughEntries(b: Book, lim: Limits, root: FsPath, cfg: Security.SecurityConfig, fs: FileSystem,
                            cwd: seq<string>, filePath: FsPath, language: Option<string>, input: FileInput,
                            parser: Option<seq<byte> -> Tree>, settings: Option<CacheSettings>, now: int)
    requires AllIn(b.order, b.cache)
    ensures var r := QueryThrough(b, lim, root, cfg, fs, cwd, filePath, language, input, parser, settings, now);
            forall key :: key in r.cache ==>
              (key in b.cache && r.cache[key] == b.cache[key]) || FreshAt(r, root, cwd, filePath, language, input, parser, now, key)
  {
    var abs := FilePathUnder(root, filePath, cwd);
    var lang := QueryLanguage(filePath, language);
    if !(abs.Err? || Security.ValidateFileAccess(cfg, fs, cwd, abs.value, root).Err? || lang.None?) {
      ThroughInMeaning(b, lim, FileRef(PathStr(abs.value), input.mtime), lang.value, parser, input.bytes, settings, now);
    }
  }

  /** The entry under `key` in `r` is one `b` held, or the fresh parse of one of `files`. */
  ghost predicate Sourced(r: Book, b: Book, root: FsPath, cwd: seq<string>, files: seq<FsPath>, language: Option<string>,
                          inputs: FsPath -> FileInput, parser: Option<seq<byte> -> Tree>, now: int, key: string)
  {
    || (key in b.cache && key in r.cache && r.cache[key] == b.cache[key])
    || exists j :: 0 <= j < |files| && FreshAt(r, root, cwd, files[j], language, inputs(files[j]), parser, now, key)
  }

  /**
   * After the file loop has queried `files` from `b`, every entry is one
   * `b` held or the fresh parse of one of the files, under that file's key.
   */
  lemma {:induction false} QueriedEntries(b: Book, lim: Limits, root: FsPath, cfg: Security.SecurityConfig, fs: FileSystem,
                                          cwd: seq<string>, files: seq<FsPath>, language: Option<string>,
                                          inputs: FsPath -> FileInput, parser: Option<seq<byte> -> Tree>,
                                          settings: Option<CacheSettings>, now: int)
    requires AllIn(b.order, b.cache)
    ensures var r := QueriedThrough(b, lim, root, cfg, fs, cwd, files, language, inputs, parser, settings, now);
            forall key :: key in r.cache ==> Sourced(r, b, root, cwd, files, language, inputs, parser, now, key)
    decreases |files|
  {
    if files != [] {
      var n := |files| - 1;
      var init := files[..n];
      var prev := QueriedThrough(b, lim, root, cfg, fs, cwd, init, language, inputs, parser, settings, now);
      var r := QueriedThrough(b, lim, root, cfg, fs, cwd, files, language, inputs, parser, settings, now);
      QueriedEntries(b, lim, root, cfg, fs, cwd, init, language, inputs, parser, settings, now);
      assert var r0 := QueriedThrough(b, lim, root, cfg, fs, cwd, init, language, inputs, parser, settings, now);
            forall key :: key in r0.cache ==> Sourced(r0, b, root, cwd, init, language, inputs, parser, now, key);
      QueryThroughEntries(prev, lim, root, cfg, fs, cwd, files[n], language, inputs(files[n]), parser, settings, now);
      forall key | key in r.cache
        ensures Sourced(r, b, root, cwd, files, language, inputs, parser, now, key)
      {
        SourcedStep(r, prev, b, root, cwd, files, language, inputs, parser, now, key);
      }
    }
  }

  lemma SourcedStep(r: Book, prev: Book, b: Book, root: FsPath, cwd: seq<string>, files: seq<FsPath>,
                    language: Option<string>, inputs: FsPath -> FileInput, parser: Option<seq<byte> -> Tree>,
                    now: int, key: string)
    requires files != [] && key in r.cache
    requires key in prev.cache ==> Sourced(prev, b, root, cwd, files[..|files| - 1], language, inputs, parser, now, key)
    requires || (key in prev.cache && r.cache[key] == prev.cache[key])
             || FreshAt(r, root, cwd, files[|files| - 1], language, inputs(files[|files| - 1]), parser, now, key)
    ensures Sourced(r, b, root, cwd, files, language, inputs, parser, now, key)
  {
    var n := |files| - 1;
    if !FreshAt(r, root, cwd, files[n], language, inputs(files[n]), parser, now, key)
       && !(key in b.cache && prev.cache[key] == b.cache[key]) {
      var j :| 0 <= j < n && FreshAt(prev, root, cwd, files[..n][j], language, inputs(files[..n][j]), parser, now, key);
      assert files[..n][j] == files[j];
      assert FreshAt(r, root, cwd, files[j], language, inputs(files[j]), parser, now, key);
    }
  }

  /** The entry under `key` in `r` is the fresh parse of `filePath`, whose query key it is. */
  ghost predicate FreshAt(r: Book, root: FsPath, cwd: seq<string>, filePath: FsPath, language: Option<string>,
                          input: FileInput, parser: Option<seq<byte> -> Tree>, now: int, key: string)
  {
    && key in r.cache
    && QueryKey(root, cwd, filePath, language, input) == Some(key)
    && parser.Some? && input.bytes.Some?
    && r.cache[key] == Entry(parser.value(input.bytes.value), input.bytes.value, now)
  }

  /**
   * What file `k` meets in the cache during the file loop, once parsed, is
   * what it would have met in the cache the loop started from, or the fresh
   * parse of a file up to and including `k` with the same cache key.
   */
  lemma SeenFromCacheOrParse(b: Book, lim: Limits, root: FsPath, cfg: Security.SecurityConfig, fs: FileSystem,
                             cwd: seq<string>, files: seq<FsPath>, k: nat, language: Option<string>,
                             inputs: FsPath -> FileInput, parser: Option<seq<byte> -> Tree>,
                             settings: Option<CacheSettings>, now: int)
    requires AllIn(b.order, b.cache) && k < |files|
    ensures OutcomeFrom(b, lim, root, cwd, files, k, language, inputs, parser, settings, now,
                        MetAt(b, lim, root, cfg, fs, cwd, files, k, language, inputs, parser, settings, now))
  {
    QueriedEntries(b, lim, root, cfg, fs, cwd, files[..k], language, inputs, parser, settings, now);
    assert var r := QueriedThrough(b, lim, root, cfg, fs, cwd, files[..k], language, inputs, parser, settings, now);
           forall key :: key in r.cache ==> Sourced(r, b, root, cwd, files[..k], language, inputs, parser, now, key);
    SeenFromSourced(QueriedThrough(b, lim, root, cfg, fs, cwd, files[..k], language, inputs, parser, settings, now),
                    b, lim, root, cwd, files, k, language, inputs, parser, settings, now);
  }

  /** The step of `SeenFromCacheOrParse` for any bookkeeping whose entries come from `b` or the files before `k`. */
  lemma SeenFromSourced(r: Book, b: Book, lim: Limits, root: FsPath, cwd: seq<string>, files: seq<FsPath>, k: nat,
                        language: Option<string>, inputs: FsPath -> FileInput, parser: Option<seq<byte> -> Tree>,
                        settings: Option<CacheSettings>, now: int)
    requires k < |files|
    requires forall key :: key in r.cache ==> Sourced(r, b, root, cwd, files[..k], language, inputs, parser, now, key)
    ensures OutcomeFrom(b, lim, root, cwd, files, k, language, inputs, parser, settings, now,
                        QueryCachedIn(r, lim, root, cwd, files[k], language, inputs(files[k]), settings, now))
  {
    var f := files[k];
    var abs := FilePathUnder(root, f, cwd);
    var lang := QueryLanguage(f, language);
    var met := QueryCachedIn(r, lim, root, cwd, f, language, inputs(f), settings, now);
    if met.Some? {
      var file := FileRef(PathStr(abs.value), inputs(f).mtime);
      var key := KeyFor(file, lang.value).value;
      assert met == LookupIn(r, lim, file, lang.value, settings, now);
      assert QueryKey(root, cwd, f, language, inputs(f)) == Some(key) && key in r.cache;
      if key in b.cache && r.cache[key] == b.cache[key] {
        SameEntrySameLookup(r, b, lim, file, lang.value, settings, now);
      } else {
        var j :| 0 <= j < k && FreshAt(r, root, cwd, files[..k][j], language, inputs(files[..k][j]), parser, now, key);
        assert files[..k][j] == files[j];
        assert ParseOutcome(met, parser, inputs(f).bytes) == ParseOutcome(None, parser, inputs(files[j]).bytes);
      }
    }
  }

  /**
   * When no two files share a cache key, what file `k` meets in the loop,
   * once parsed, is what it would have met in the cache the loop started
   * from, or its own fresh parse.
   */
  lemma SeenWhenKeysDistinct(b: Book, lim: Limits, root: FsPath, cfg: Security.SecurityConfig, fs: FileSystem,
                             cwd: seq<string>, files: seq<FsPath>, k: nat, language: Option<string>,
                             inputs: FsPath -> FileInput, parser: Option<seq<byte> -> Tree>,
                             settings: Option<CacheSettings>, now: int)
    requires AllIn(b.order, b.cache) && k < |files|
    requires forall i, j :: 0 <= i < j < |files| && QueryKey(root, cwd, files[i], language, inputs(files[i])).Some? ==>
               QueryKey(root, cwd, files[i], language, inputs(files[i]))
               != QueryKey(root, cwd, files[j], language, inputs(files[j]))
    ensures var met := MetAt(b, lim, root, cfg, fs, cwd, files, k, language, inputs, parser, settings, now);
            var bytes := inputs(files[k]).bytes;
            || ParseOutcome(met, parser, bytes)
               == ParseOutcome(QueryCachedIn(b, lim, root, cwd, files[k], language, inputs(files[k]), settings, now),
                               parser, bytes)
            || ParseOutcome(met, parser, bytes) == ParseOutcome(None, parser, bytes)
  {
    SeenFromCacheOrParse(b, lim, root, cfg, fs, cwd, files, k, language, inputs, parser, settings, now);
  }

  /** `query_code` on one file as a function of the file, the cache entry it meets and its budget. */
  function QueryAnswer(root: FsPath, cfg: Security.SecurityConfig, fs: FileSystem, cwd: seq<string>,
                       language: Option<string>, inputs: FsPath -> FileInput, parser: Option<seq<byte> -> Tree>,
                       runQuery: Tree -> Option<seq<Capture>>, includeSnippets: bool)
    : (FsPath, Option<(Tree, seq<byte>)>, int) -> Option<seq<QueryHit>>
  {
    (f, c, budget) => QueryFileHits(root, cfg, fs, cwd, f, language, c, inputs(f), parser, runQuery, budget, includeSnippets)
  }

  /** A failed query contributes nothing. */
  function OrEmpty<T>(r: Option<seq<T>>): seq<T>
  {
    if r.Some? then r.value else []
  }

  /**
   * `query_code` for one file: the project path (ProjectError) and the
   * access guard (SecurityError) are checked, the language is detected when
   * not given (QueryError when none), the tree comes from the cache or a
   * fresh parse that is then offered to the cache, and the captures are
   * turned into at most `max_results` results. A failure to read, parse or
   * query is a QueryError. `runQuery` is the language's query on a tree,
   * `None` when it cannot be built.
   */
  method QueryFile(project: Project, cache: TreeCache, cfg: Security.SecurityConfig, fs: FileSystem,
                   cwd: seq<string>, filePath: FsPath, language: Option<string>, input: FileInput,
                   parser: Option<seq<byte> -> Tree>, runQuery: Tree -> Option<seq<Capture>>,
                   settings: Option<CacheSettings>, now: int, maxResults: int, includeSnippets: bool)
    returns (r: Result<seq<QueryHit>>)
    requires cache.Valid()
    modifies cache
    ensures cache.Valid()
    ensures r.Ok? ==> |r.value| <= Max(maxResults, 0)
                      && forall h :: h in r.value ==> (h.text.Some? <==> includeSnippets) && h.file == PathStr(filePath)
    ensures FilePathUnder(project.rootPath, filePath, cwd).Err? ==> r.Err? && r.error.ProjectError?
    ensures FilePathUnder(project.rootPath, filePath, cwd).Ok? ==>
              var abs := FilePathUnder(project.rootPath, filePath, cwd).value;
              if Security.ValidateFileAccess(cfg, fs, cwd, abs, project.rootPath).Err? then
                r.Err? && r.error.SecurityError?
              else if QueryLanguage(filePath, language).None? then
                r.Err? && r.error.QueryError?
              else
                var outcome := ParseOutcome(old(cache.Lookup(FileRef(PathStr(abs), input.mtime),
                                                             QueryLanguage(filePath, language).value, settings, now)),
                                            parser, input.bytes);
                if outcome.None? || runQuery(outcome.value.0).None? then
                  r.Err? && r.error.QueryError?
                else
                  var captures := runQuery(outcome.value.0).value;
                  r.Ok? && |r.value| == Min(|captures|, Max(maxResults, 0))
                  && forall k :: 0 <= k < |r.value| ==>
                       r.value[k] == CaptureHit(PathStr(filePath), captures[k], outcome.value.1, includeSnippets)
    ensures var hits := QueryFileHits(project.rootPath, cfg, fs, cwd, filePath, language,
                                      old(QueryCached(cache, project.rootPath, cwd, filePath, language, input, settings, now)),
                                      input, parser, runQuery, maxResults, includeSnippets);
            (r.Ok? <==> hits.Some?) && (r.Ok? ==> r.value == hits.value)
    ensures cache.Config() == old(cache.Config())
    ensures FilePathUnder(project.rootPath, filePath, cwd).Err? || QueryLanguage(filePath, language).None?
            || Security.ValidateFileAccess(cfg, fs, cwd, FilePathUnder(project.rootPath, filePath, cwd).value,
                                           project.rootPath).Err? ==>
              cache.State() == old(cache.State())
    ensures FilePathUnder(project.rootPath, filePath, cwd).Ok? && QueryLanguage(filePath, language).Some?
            && Security.ValidateFileAccess(cfg, fs, cwd, FilePathUnder(project.rootPath, filePath, cwd).value,
                                           project.rootPath).Ok? ==>
              cache.State() == ThroughIn(old(cache.State()), old(cache.Config()),
                                         FileRef(PathStr(FilePathUnder(project.rootPath, filePath, cwd).value), input.mtime),
                                         QueryLanguage(filePath, language).value, parser, input.bytes, settings, now)
  {
    ghost var cached := QueryCached(cache, project.rootPath, cwd, filePath, language, input, settings, now);
    ghost var hits := QueryFileHits(project.rootPath, cfg, fs, cwd, filePath, language, cached,
                                    input, parser, runQuery, maxResults, includeSnippets);
    var abs :- FilePathUnder(project.rootPath, filePath, cwd);
    if Security.ValidateFileAccess(cfg, fs, cwd, abs, project.rootPath).Err? {
      return Err(SecurityError("Access denied"));
    }
    var lang := QueryLanguage(filePath, language);
    if lang.None? {
      return Err(QueryError("Could not detect language for " + PathStr(filePath)));
    }
    assert cached == cache.Lookup(FileRef(PathStr(abs), input.mtime), lang.value, settings, now);
    var parsed := CachedOrParsed(cache, FileRef(PathStr(abs), input.mtime), lang.value, input, parser, settings, now);
    assert parsed == ParseOutcome(cached, parser, input.bytes);
    if parsed.None? {
      return Err(QueryError("Error querying " + PathStr(filePath)));
    }
    var (tree, source) := parsed.value;
    var captures := runQuery(tree);
    if captures.None? {
      return Err(QueryError("Error querying " + PathStr(filePath)));
    }
    var results := CollectCaptures(PathStr(filePath), captures.value, source, includeSnippets, maxResults);
    assert Take(results, maxResults) == results == hits.value;
    return Ok(Take(results, maxResults));
  }

  /** The files of a language: for each of its extensions in table order, the regular files its glob yields. */
  function LanguageFiles(glob: string -> seq<DirEntry>, exts: seq<string>): seq<FsPath>
  {
    if exts == [] then [] else FilesOf(glob("**/*." + exts[0])) + LanguageFiles(glob, exts[1..])
  }

  /** Hits that each carry a snippet exactly when asked for, and each name one of `files`. */
  ghost predicate HitsFrom(hits: seq<QueryHit>, files: seq<FsPath>, includeSnippets: bool)
  {
    forall h :: h in hits ==> (h.text.Some? <==> includeSnippets) && exists f :: f in files && h.file == PathStr(f)
  }

  lemma HitsFromAppend(a: seq<QueryHit>, b: seq<QueryHit>, files: seq<FsPath>, includeSnippets: bool)
    requires HitsFrom(a, files, includeSnippets) && HitsFrom(b, files, includeSnippets)
    ensures HitsFrom(a + b, files, includeSnippets)
  {
  }

  lemma HitsFromPrefix(a: seq<QueryHit>, n: int, files: seq<FsPath>, includeSnippets: bool)
    requires HitsFrom(a, files, includeSnippets)
    ensures HitsFrom(Take(a, n), files, includeSnippets)
  {
    var t := Take(a, n);
    assert forall h :: h in t ==> h in a;
  }

  /**
   * `process_file` of `query_code`: the single-file query with the remaining budget; a file
   * whose query fails contributes nothing.
   */
  method ProcessQueryFile(project: Project, cache: TreeCache, cfg: Security.SecurityConfig, fs: FileSystem,
                     cwd: seq<string>, files: seq<FsPath>, k: nat, language: Option<string>, input: FileInput,
                     parser: Option<seq<byte> -> Tree>, runQuery: Tree -> Option<seq<Capture>>,
                     settings: Option<CacheSettings>, now: int, budget: int, includeSnippets: bool)
    returns (hits: seq<QueryHit>)
    requires cache.Valid() && k < |files|
    modifies cache
    ensures cache.Valid()
    ensures |hits| <= Max(budget, 0)
    ensures HitsFrom(hits, files, includeSnippets)
    ensures hits == OrEmpty(QueryFileHits(project.rootPath, cfg, fs, cwd, files[k], language,
                                          old(QueryCached(cache, project.rootPath, cwd, files[k], language, input, settings, now)),
                                          input, parser, runQuery, budget, includeSnippets))
    ensures cache.Config() == old(cache.Config())
    ensures cache.State() == QueryThrough(old(cache.State()), old(cache.Config()), project.rootPath, cfg, fs, cwd, files[k],
                                          language, input, parser, settings, now)
  {
    var r := QueryFile(project, cache, cfg, fs, cwd, files[k], language, input, parser, runQuery,
                       settings, now, budget, includeSnippets);
    hits := if r.Ok? then r.value else [];
  }

  /**
   * `perFile` holds, for the first `|perFile|` files in order, what each
   * answered when asked with the budget left by the files before it; `seen`
   * is what each one met in the cache.
   */
  ghost predicate InTurn(files: seq<FsPath>, answer: (FsPath, Option<(Tree, seq<byte>)>, int) -> Option<seq<QueryHit>>,
                         max: int, perFile: seq<seq<QueryHit>>, seen: seq<Option<(Tree, seq<byte>)>>)
  {
    |perFile| == |seen| <= |files|
    && forall k :: 0 <= k < |perFile| ==> AnsweredAt(files, answer, max, perFile, seen, k)
  }

  /** File `k` answered with the budget the files before it left, given what it met in the cache. */
  ghost predicate AnsweredAt(files: seq<FsPath>, answer: (FsPath, Option<(Tree, seq<byte>)>, int) -> Option<seq<QueryHit>>,
                             max: int, perFile: seq<seq<QueryHit>>, seen: seq<Option<(Tree, seq<byte>)>>, k: nat)
  {
    k < |perFile| && k < |seen| && k < |files|
    && perFile[k] == OrEmpty(answer(files[k], seen[k], max - |Concat(perFile[..k])|))
  }

  /** No proper prefix of the answers already reached the cap: the loop stops only after the file that reaches it. */
  ghost predicate BelowCapBefore<H>(perFile: seq<seq<H>>, max: int)
  {
    forall j :: 0 < j < |perFile| ==> |Concat(perFile[..j])| < max
  }

  lemma BelowCapSnoc<H>(perFile: seq<seq<H>>, hits: seq<H>, max: int)
    requires BelowCapBefore(perFile, max)
    requires perFile == [] || |Concat(perFile)| < max
    ensures BelowCapBefore(perFile + [hits], max)
  {
    var p := perFile + [hits];
    assert p[..|perFile|] == perFile;
    assert forall j :: 0 < j < |perFile| ==> p[..j] == perFile[..j];
  }

  lemma InTurnSnoc(files: seq<FsPath>, answer: (FsPath, Option<(Tree, seq<byte>)>, int) -> Option<seq<QueryHit>>,
                    max: int, perFile: seq<seq<QueryHit>>, seen: seq<Option<(Tree, seq<byte>)>>,
                    hits: seq<QueryHit>, met: Option<(Tree, seq<byte>)>)
    requires InTurn(files, answer, max, perFile, seen) && |perFile| < |files|
    requires hits == OrEmpty(answer(files[|perFile|], met, max - |Concat(perFile)|))
    ensures InTurn(files, answer, max, perFile + [hits], seen + [met])
  {
    var p, s := perFile + [hits], seen + [met];
    forall k | 0 <= k < |p|
      ensures AnsweredAt(files, answer, max, p, s, k)
    {
      if k < |perFile| {
        assert AnsweredAt(files, answer, max, perFile, seen, k);
        assert p[..k] == perFile[..k] && p[k] == perFile[k] && s[k] == seen[k];
      } else {
        assert p[..k] == perFile && p[k] == hits && s[k] == met;
      }
    }
  }

  /** Some part holds each element of a concatenation. */
  lemma {:induction false} ConcatMember<T>(parts: seq<seq<T>>, x: T) returns (k: nat)
    requires x in Concat(parts)
    ensures k < |parts| && x in parts[k]
    decreases |parts|
  {
    if x in parts[0] {
      k := 0;
    } else {
      var j := ConcatMember(parts[1..], x);
      k := j + 1;
    }
  }

  /** Answers given in turn carry a snippet exactly when asked for, and each names the file that gave it. */
  lemma InTurnHitsFrom(root: FsPath, cfg: Security.SecurityConfig, fs: FileSystem, cwd: seq<string>,
                       language: Option<string>, inputs: FsPath -> FileInput, parser: Option<seq<byte> -> Tree>,
                       runQuery: Tree -> Option<seq<Capture>>, includeSnippets: bool,
                       files: seq<FsPath>, max: int, perFile: seq<seq<QueryHit>>, seen: seq<Option<(Tree, seq<byte>)>>)
    requires InTurn(files, QueryAnswer(root, cfg, fs, cwd, language, inputs, parser, runQuery, includeSnippets),
                    max, perFile, seen)
    ensures HitsFrom(Concat(perFile), files, includeSnippets)
  {
    forall h | h in Concat(perFile)
      ensures (h.text.Some? <==> includeSnippets) && exists f :: f in files && h.file == PathStr(f)
    {
      var k := ConcatMember(perFile, h);
      var answer := QueryFileHits(root, cfg, fs, cwd, files[k], language, seen[k], inputs(files[k]),
                                  parser, runQuery, max - |Concat(perFile[..k])|, includeSnippets);
      assert AnsweredAt(files, QueryAnswer(root, cfg, fs, cwd, language, inputs, parser, runQuery, includeSnippets),
                        max, perFile, seen, k);
      assert perFile[k] == OrEmpty(answer);
      assert files[k] in files;
    }
  }

  /**
   * In a traced run of the file loop, what each file met, once parsed, is
   * what it would have met in the cache the loop started from, or the fresh
   * parse of a file up to and including it with the same cache key.
   */
  lemma TracedOutcomes(b: Book, lim: Limits, root: FsPath, cfg: Security.SecurityConfig, fs: FileSystem,
                       cwd: seq<string>, files: seq<FsPath>, language: Option<string>,
                       inputs: FsPath -> FileInput, parser: Option<seq<byte> -> Tree>,
                       settings: Option<CacheSettings>, now: int, seen: seq<Option<(Tree, seq<byte>)>>, state: Book)
    requires AllIn(b.order, b.cache)
    requires Traced(b, lim, root, cfg, fs, cwd, files, language, inputs, parser, settings, now, seen, state)
    ensures OutcomesFrom(b, lim, root, cwd, files, language, inputs, parser, settings, now, seen)
  {
    forall k | 0 <= k < |seen|
      ensures OutcomeFrom(b, lim, root, cwd, files, k, language, inputs, parser, settings, now, seen[k])
    {
      SeenFromCacheOrParse(b, lim, root, cfg, fs, cwd, files, k, language, inputs, parser, settings, now);
    }
  }

  /** `OutcomeFrom` for every file the loop visited. */
  ghost predicate OutcomesFrom(b: Book, lim: Limits, root: FsPath, cwd: seq<string>, files: seq<FsPath>,
                               language: Option<string>, inputs: FsPath -> FileInput, parser: Option<seq<byte> -> Tree>,
                               settings: Option<CacheSettings>, now: int, seen: seq<Option<(Tree, seq<byte>)>>)
  {
    && |seen| <= |files|
    && forall k :: 0 <= k < |seen| ==> OutcomeFrom(b, lim, root, cwd, files, k, language, inputs, parser, settings,
                                                   now, seen[k])
  }

  /**
   * `met`, once parsed, is what file `k` would have met in `b`, or the fresh
   * parse of a file up to and including `k` with the same cache key.
   */
  ghost predicate OutcomeFrom(b: Book, lim: Limits, root: FsPath, cwd: seq<string>, files: seq<FsPath>, k: nat,
                              language: Option<string>, inputs: FsPath -> FileInput, parser: Option<seq<byte> -> Tree>,
                              settings: Option<CacheSettings>, now: int, met: Option<(Tree, seq<byte>)>)
    requires k < |files|
  {
    var bytes := inputs(files[k]).bytes;
    || ParseOutcome(met, parser, bytes)
       == ParseOutcome(QueryCachedIn(b, lim, root, cwd, files[k], language, inputs(files[k]), settings, now), parser, bytes)
    || exists j :: 0 <= j <= k
         && QueryKey(root, cwd, files[j], language, inputs(files[j])) == QueryKey(root, cwd, files[k], language, inputs(files[k]))
         && ParseOutcome(met, parser, bytes) == ParseOutcome(None, parser, inputs(files[j]).bytes)
  }

  /**
   * The file loop of `query_code` without a file: each file in turn is
   * queried with what is left of `max`, a failing file adds nothing, and
   * the loop stops after the first file that brings the total to `max`.
   */
  method QueryEachFile(project: Project, cache: TreeCache, cfg: Security.SecurityConfig, fs: FileSystem,
                       cwd: seq<string>, files: seq<FsPath>, language: Option<string>, inputs: FsPath -> FileInput,
                       parser: Option<seq<byte> -> Tree>, runQuery: Tree -> Option<seq<Capture>>,
                       settings: Option<CacheSettings>, now: int, max: int, includeSnippets: bool)
    returns (results: seq<QueryHit>, ghost perFile: seq<seq<QueryHit>>, ghost seen: seq<Option<(Tree, seq<byte>)>>)
    requires cache.Valid()
    modifies cache
    ensures cache.Valid()
    ensures 0 <= max ==> |results| <= max
    ensures results == Concat(perFile)
    ensures InTurn(files, QueryAnswer(project.rootPath, cfg, fs, cwd, language, inputs, parser, runQuery, includeSnippets),
                   max, perFile, seen)
    ensures BelowCapBefore(perFile, max)
    ensures |perFile| < |files| ==> |Concat(perFile)| >= max
    // Which cache: the files queried so far, in turn, took the cache from its old state to the new one,
    // and each met the entry the files before it left.
    ensures cache.Config() == old(cache.Config())
    ensures Traced(old(cache.State()), old(cache.Config()), project.rootPath, cfg, fs, cwd, files, language, inputs, parser,
                   settings, now, seen, cache.State())
    ensures OutcomesFrom(old(cache.State()), old(cache.Config()), project.rootPath, cwd, files, language, inputs, parser,
                         settings, now, seen)
  {
    var root := project.rootPath;
    ghost var answer := QueryAnswer(root, cfg, fs, cwd, language, inputs, parser, runQuery, includeSnippets);
    ghost var b0, lim0 := cache.State(), cache.Config();
    results, perFile, seen := [], [], [];
    var k := 0;
    while k < |files|
      invariant 0 <= k <= |files|
      invariant cache.Valid()
      invariant 0 <= max ==> |results| <= max
      invariant |perFile| == k && results == Concat(perFile)
      invariant InTurn(files, answer, max, perFile, seen)
      invariant BelowCapBefore(perFile, max) && (k > 0 ==> |results| < max)
      invariant cache.Config() == lim0
      invariant Traced(b0, lim0, root, cfg, fs, cwd, files, language, inputs, parser, settings, now, seen, cache.State())
    {
      var fileResults;
      ghost var met;
      fileResults, met := QueryNextFile(project, cache, cfg, fs, cwd, files, language, inputs, parser, runQuery,
                                        settings, now, max, includeSnippets, k, results, perFile, seen, b0, lim0);
      BelowCapSnoc(perFile, fileResults, max);
      perFile, seen := perFile + [fileResults], seen + [met];
      results := results + fileResults;
      if |results| >= max {
        break;
      }
      k := k + 1;
    }
    TracedOutcomes(b0, lim0, root, cfg, fs, cwd, files, language, inputs, parser, settings, now, seen, cache.State());
  }

  /** One turn of the file loop: the next file is queried with what is left of the cap. */
  method QueryNextFile(project: Project, cache: TreeCache, cfg: Security.SecurityConfig, fs: FileSystem,
                       cwd: seq<string>, files: seq<FsPath>, language: Option<string>, inputs: FsPath -> FileInput,
                       parser: Option<seq<byte> -> Tree>, runQuery: Tree -> Option<seq<Capture>>,
                       settings: Option<CacheSettings>, now: int, max: int, includeSnippets: bool,
                       k: nat, results: seq<QueryHit>, ghost perFile: seq<seq<QueryHit>>,
                       ghost seen: seq<Option<(Tree, seq<byte>)>>, ghost b0: Book, ghost lim0: Limits)
    returns (fileResults: seq<QueryHit>, ghost met: Option<(Tree, seq<byte>)>)
    requires cache.Valid() && k == |perFile| < |files| && results == Concat(perFile)
    requires InTurn(files, QueryAnswer(project.rootPath, cfg, fs, cwd, language, inputs, parser, runQuery, includeSnippets),
                    max, perFile, seen)
    requires AllIn(b0.order, b0.cache) && cache.Config() == lim0
    requires Traced(b0, lim0, project.rootPath, cfg, fs, cwd, files, language, inputs, parser, settings, now, seen,
                    cache.State())
    modifies cache
    ensures cache.Valid()
    ensures 0 <= max && |results| <= max ==> |results| + |fileResults| <= max
    ensures results + fileResults == Concat(perFile + [fileResults])
    ensures InTurn(files, QueryAnswer(project.rootPath, cfg, fs, cwd, language, inputs, parser, runQuery, includeSnippets),
                   max, perFile + [fileResults], seen + [met])
    ensures met == old(QueryCached(cache, project.rootPath, cwd, files[k], language, inputs(files[k]), settings, now))
    ensures cache.Config() == lim0
    ensures cache.State() == QueryThrough(old(cache.State()), lim0, project.rootPath, cfg, fs, cwd, files[k],
                                          language, inputs(files[k]), parser, settings, now)
    ensures Traced(b0, lim0, project.rootPath, cfg, fs, cwd, files, language, inputs, parser, settings, now, seen + [met],
                   cache.State())
  {
    var root := project.rootPath;
    ghost var answer := QueryAnswer(root, cfg, fs, cwd, language, inputs, parser, runQuery, includeSnippets);
    ghost var state := cache.State();
    met := QueryCached(cache, root, cwd, files[k], language, inputs(files[k]), settings, now);
    fileResults := ProcessQueryFile(project, cache, cfg, fs, cwd, files, k, language, inputs(files[k]),
                                    parser, runQuery, settings, now, max - |results|, includeSnippets);
    assert |fileResults| <= Max(max - |results|, 0);
    assert fileResults == OrEmpty(answer(files[k], met, max - |Concat(perFile)|));
    ConcatSnoc(perFile, fileResults);
    InTurnSnoc(files, answer, max, perFile, seen, fileResults, met);
    TracedSnoc(b0, lim0, root, cfg, fs, cwd, files, language, inputs, parser, settings, now, seen, state, met);
  }

  /**
   * `query_code` without a file: the language is required and must have at
   * least one extension (QueryError otherwise); each of its files is queried
   * in turn with the remaining budget, a file that fails contributes
   * nothing, and the merged results are cut to `max_results` (the
   * configured default when not given).
   */
  method QueryLanguageFiles(project: Project, cache: TreeCache, cfg: Security.SecurityConfig, fs: FileSystem,
                            cwd: seq<string>, language: Option<string>, glob: string -> seq<DirEntry>,
                            inputs: FsPath -> FileInput, parser: Option<seq<byte> -> Tree>,
                            runQuery: Tree -> Option<seq<Capture>>, settings: Option<CacheSettings>, now: int,
                            maxResults: Option<int>, defaultMax: int, includeSnippets: bool)
    returns (r: Result<seq<QueryHit>>, ghost perFile: seq<seq<QueryHit>>, ghost seen: seq<Option<(Tree, seq<byte>)>>)
    requires cache.Valid()
    modifies cache
    ensures cache.Valid() && cache.Config() == old(cache.Config())
    ensures language.None? || language.value == "" ==>
              r.Err? && r.error.QueryError? && cache.State() == old(cache.State())
    ensures language.Some? && language.value != "" && Registry.ExtensionsOf(language.value, Registry.LanguageEntries) == [] ==>
              r.Err? && r.error.QueryError? && cache.State() == old(cache.State())
    ensures language.Some? && language.value != "" && Registry.ExtensionsOf(language.value, Registry.LanguageEntries) != [] ==>
              r.Ok?
    ensures r.Ok? ==>
              var max := if maxResults.Some? then maxResults.value else defaultMax;
              var files := LanguageFiles(glob, Registry.ExtensionsOf(language.value, Registry.LanguageEntries));
              (0 <= max ==> |r.value| <= max) && HitsFrom(r.value, files, includeSnippets)
    // Which hits: each file in order answers with the remaining budget, given the cache entry it met;
    // the loop stops after the first file that reaches the cap, and the merged list is cut to the cap.
    ensures r.Ok? ==>
              var max := if maxResults.Some? then maxResults.value else defaultMax;
              var files := LanguageFiles(glob, Registry.ExtensionsOf(language.value, Registry.LanguageEntries));
              InTurn(files, QueryAnswer(project.rootPath, cfg, fs, cwd, language, inputs, parser, runQuery,
                                        includeSnippets),
                     max, perFile, seen)
              && BelowCapBefore(perFile, max)
              && (|perFile| < |files| ==> |Concat(perFile)| >= max)
              && r.value == Take(Concat(perFile), max)
    // Which cache entries: the cache went through each file visited in turn, and each file, once parsed,
    // met what the cache held at the start or the fresh parse of a file with the same cache key.
    ensures r.Ok? ==>
              var files := LanguageFiles(glob, Registry.ExtensionsOf(language.value, Registry.LanguageEntries));
              && Traced(old(cache.State()), old(cache.Config()), project.rootPath, cfg, fs, cwd, files, language,
                        inputs, parser, settings, now, seen, cache.State())
              && OutcomesFrom(old(cache.State()), old(cache.Config()), project.rootPath, cwd, files, language,
                              inputs, parser, settings, now, seen)
  {
    perFile, seen := [], [];
    var max := if maxResults.Some? then maxResults.value else defaultMax;
    if language.None? || language.value == "" {
      return Err(QueryError("Language is required when file_path is not provided")), perFile, seen;
    }
    var exts := Registry.ExtensionsOf(language.value, Registry.LanguageEntries);
    if exts == [] {
      return Err(QueryError("No file extensions found for language " + language.value)), perFile, seen;
    }
    var files := LanguageFiles(glob, exts);
    var results;
    results, perFile, seen := QueryEachFile(project, cache, cfg, fs, cwd, files, language, inputs, parser, runQuery,
                                            settings, now, max, includeSnippets);
    InTurnHitsFrom(project.rootPath, cfg, fs, cwd, language, inputs, parser, runQuery, includeSnippets,
                   files, max, perFile, seen);
    HitsFromPrefix(results, max, files, includeSnippets);
    return Ok(Take(results, max)), perFile, seen;
  }
}

=== FILE: security.dfy ===
/**
 * The access guard of utils/security.py: a path may be read when it lies
 * under the project root, avoids the excluded directories, has an allowed
 * extension and is not too large.
 */
module Security {
  import opened Common
  import opened Strings
  import opened Paths

  /** The `security` section of the server configuration; an empty extension list allows every extension. */
  datatype SecurityConfig = SecurityConfig(maxFileSizeMb: int, excludedDirs: seq<string>, allowedExtensions: seq<string>)

  const DefaultSecurity := SecurityConfig(5, [".git", "node_modules", "__pycache__"], [])

  const BytesPerMb := 1024 * 1024

  /** `PurePath.suffix` of a name: from the last "." on, unless that dot is first or last. */
  function Suffix(name: string): (r: string)
    ensures r == [] || (r[0] == '.' && EndsWith(name, r) && |r| < |name|)
  {
    var k := AfterLast(name, '.');
    if 1 < k && k < |name| then name[k - 1..] else ""
  }

  /** Python's `s[1:]`. */
  function DropFirst(s: string): string
  {
    if s == [] then [] else s[1..]
  }

  /** The first excluded directory name, in configuration order, that is a part of the path. */
  function FirstExcluded(excluded: seq<string>, parts: seq<string>): (r: Option<string>)
    ensures r.None? <==> forall i :: 0 <= i < |excluded| ==> excluded[i] !in parts
    ensures r.Some? ==> r.value in excluded && r.value in parts
  {
    if excluded == [] then None
    else if excluded[0] in parts then Some(excluded[0])
    else FirstExcluded(excluded[1..], parts)
  }

  /** Whether the extension of `name`, lowercased and without its dot, passes the allow list. */
  predicate ExtensionAllowed(cfg: SecurityConfig, name: string)
  {
    cfg.allowedExtensions == [] || DropFirst(Lower(Suffix(name))) in cfg.allowedExtensions
  }

  /** An existing regular file larger than the limit; `size / 2**20 > limit` compared exactly. */
  predicate TooLarge(cfg: SecurityConfig, fs: FileSystem, p: FsPath)
  {
    IsFile(fs, p) && fs.files[p.names] > cfg.maxFileSizeMb * BytesPerMb
  }

  /** The checks after the containment test, in the order the guard runs them. */
  function CheckRest(cfg: SecurityConfig, fs: FileSystem, file: FsPath, resolved: FsPath): (r: Result<()>)
    ensures r.Ok? <==> FirstExcluded(cfg.excludedDirs, Parts(resolved)).None?
                       && ExtensionAllowed(cfg, Name(file)) && !TooLarge(cfg, fs, resolved)
    ensures r.Err? ==> r.error.SecurityError?
  {
    match FirstExcluded(cfg.excludedDirs, Parts(resolved))
    case Some(dir) => Err(SecurityError("Access denied to excluded directory: " + dir))
    case None =>
      if !ExtensionAllowed(cfg, Name(file)) then Err(SecurityError("File type not allowed: " + Suffix(Name(file))))
      else if TooLarge(cfg, fs, resolved) then Err(SecurityError("File too large"))
      else Ok(())
  }

  /**
   * `validate_file_access` as written: containment is a test on the path
   * strings, so a sibling directory whose name extends the root's passes.
   */
  function ValidateFileAccessAsWritten(cfg: SecurityConfig, fs: FileSystem, cwd: seq<string>,
                                       file: FsPath, root: FsPath): (r: Result<()>)
    ensures r.Ok? <==> StartsWith(PathStr(Resolve(file, cwd)), PathStr(Resolve(root, cwd)))
                       && CheckRest(cfg, fs, file, Resolve(file, cwd)).Ok?
    ensures r.Err? ==> r.error.SecurityError?
  {
    var path := Resolve(file, cwd);
    var rootPath := Resolve(root, cwd);
    if !StartsWith(PathStr(path), PathStr(rootPath)) then Err(SecurityError("Access denied: outside project root"))
    else CheckRest(cfg, fs, file, path)
  }

  /** The root is `p` and the file is `p2/x` under the filesystem root. */
  lemma StringPrefixAdmitsSibling()
    ensures var cwd, fs := [], FileSystem(map[], {});
      var file, root := FsPath(true, ["p2", "x"]), FsPath(true, ["p"]);
      ValidateFileAccessAsWritten(DefaultSecurity, fs, cwd, file, root).Ok?
      && !IsPrefix(Resolve(root, cwd).names, Resolve(file, cwd).names)
  {
    var file, root := FsPath(true, ["p2", "x"]), FsPath(true, ["p"]);
    assert [] + file.names == file.names && [] + root.names == root.names;
    CollapseClean(file.names);
    CollapseClean(root.names);
    assert PathStr(Resolve(file, [])) == "/p2/x";
    assert PathStr(Resolve(root, [])) == "/p";
    assert Parts(Resolve(file, [])) == ["/", "p2", "x"];
  }

  /**
   * `validate_file_access` with containment tested on path components: the
   * resolved root's names must be a prefix of the resolved file's names.
   */
  function ValidateFileAccess(cfg: SecurityConfig, fs: FileSystem, cwd: seq<string>,
                              file: FsPath, root: FsPath): (r: Result<()>)
    ensures r.Ok? <==> IsPrefix(Resolve(root, cwd).names, Resolve(file, cwd).names)
                       && FirstExcluded(cfg.excludedDirs, Parts(Resolve(file, cwd))).None?
                       && ExtensionAllowed(cfg, Name(file))
                       && !TooLarge(cfg, fs, Resolve(file, cwd))
    ensures r.Err? ==> r.error.SecurityError?
  {
    var path := Resolve(file, cwd);
    var rootPath := Resolve(root, cwd);
    if !IsPrefix(rootPath.names, path.names) then Err(SecurityError("Access denied: outside project root"))
    else CheckRest(cfg, fs, file, path)
  }

  lemma {:induction false} JoinExtends(r: seq<string>, n: seq<string>)
    requires r != [] && IsPrefix(r, n)
    ensures StartsWith(Join("/", n), Join("/", r))
    decreases |r|
  {
    if |r| == 1 {
      if |n| > 1 {
        assert Join("/", n) == n[0] + "/" + Join("/", n[1..]);
      }
    } else {
      JoinExtends(r[1..], n[1..]);
      assert Join("/", n) == n[0] + ("/" + Join("/", n[1..]));
      assert Join("/", r) == r[0] + ("/" + Join("/", r[1..]));
    }
  }

  /** Component containment implies string containment for absolute paths. */
  lemma ComponentPrefixStringPrefix(root: FsPath, path: FsPath)
    requires root.absolute && path.absolute && IsPrefix(root.names, path.names)
    ensures StartsWith(PathStr(path), PathStr(root))
  {
    if root.names != [] {
      JoinExtends(root.names, path.names);
    }
  }

  /** The corrected guard admits only what the guard as written admits. */
  lemma ValidateFileAccessStricter(cfg: SecurityConfig, fs: FileSystem, cwd: seq<string>, file: FsPath, root: FsPath)
    ensures ValidateFileAccess(cfg, fs, cwd, file, root).Ok? ==>
            ValidateFileAccessAsWritten(cfg, fs, cwd, file, root).Ok?
  {
    if ValidateFileAccess(cfg, fs, cwd, file, root).Ok? {
      ComponentPrefixStringPrefix(Resolve(root, cwd), Resolve(file, cwd));
    }
  }
}

=== FILE: server_capabilities.dfy ===
/**
 * The capability handlers of capabilities/server_capabilities.py that
 * compute something: the logging level mapping and argument completion.
 *
 * The project names, the available languages and the rendered
 * configuration values the completion handler reads are parameters.
 */
module ServerCapabilities {
  import opened Common
  import opened Strings

  // ---------------------------------------------------------------------
  // logging
  // ---------------------------------------------------------------------

  /** The numeric levels of Python's `logging` module. */
  const Debug := 10
  const InfoLevel := 20
  const Warning := 30
  const ErrorLevel := 40

  const LogLevels: map<string, int> := map["debug" := Debug, "info" := InfoLevel, "warning" := Warning, "error" := ErrorLevel]

  /** The level a request asks for: its lowercased name looked up, INFO when unknown. */
  function LevelFor(level: string): (r: int)
    ensures r in {Debug, InfoLevel, Warning, ErrorLevel}
    ensures Lower(level) !in LogLevels ==> r == InfoLevel
    ensures Lower(level) in LogLevels ==> r == LogLevels[Lower(level)]
  {
    if Lower(level) in LogLevels then LogLevels[Lower(level)] else InfoLevel
  }

  lemma {:induction false} LowerIdempotent(s: string)
    ensures Lower(Lower(s)) == Lower(s)
  {
    assert forall i :: 0 <= i < |s| ==> LowerChar(LowerChar(s[i])) == LowerChar(s[i]);
  }

  /** The mapping ignores case: a name and its lowercase form get the same level. */
  lemma LevelIgnoresCase(level: string)
    ensures LevelFor(Lower(level)) == LevelFor(level)
  {
    LowerIdempotent(level);
  }

  /** `handle_logging`: the message is logged at the mapped level with an "MCP: " prefix, and the answer is always success. */
  function HandleLogging(level: string, message: string): (r: (string, int, string))
    ensures r.0 == "success"
    ensures r.1 == LevelFor(level) && r.2 == "MCP: " + message
  {
    ("success", LevelFor(level), "MCP: " + message)
  }

  // ---------------------------------------------------------------------
  // completion: the word before the cursor
  // ---------------------------------------------------------------------

  predicate IsWordChar(c: char)
  {
    IsAlnum(c) || c == '_'
  }

  /**
   * The word scan as written: `i >= 0 and text[i].isalnum() or text[i] == "_"`
   * groups as `(i >= 0 and ...) or text[i] == "_"`, so below index 0 the
   * underscore test still runs, on Python's negative indices counted from
   * the end; an index outside the text is an IndexError.
   */
  function ScanAsWritten(text: string, i: int, word: string): (r: Result<string>)
    requires -|text| - 1 <= i
    ensures i >= |text| ==> r.Err?
    ensures r.Ok? ==> |word| <= |r.value| <= |word| + i + |text| + 1 && r.value[|r.value| - |word|..] == word
    ensures r.Ok? ==> forall k :: 0 <= k < |r.value| - |word| ==> IsWordChar(r.value[k])
    decreases i + |text| + 1
  {
    if i >= |text| then Err(IndexError)
    else if 0 <= i && IsAlnum(text[i]) then ScanAsWritten(text, i - 1, [text[i]] + word)
    else if i < -|text| then Err(IndexError)
    else
      var c := if 0 <= i then text[i] else text[|text| + i];
      if c == '_' then ScanAsWritten(text, i - 1, [c] + word) else Ok(word)
  }

  function CurrentWordAsWritten(text: string, position: int): (r: Result<string>)
    ensures position > |text| ==> r.Err?
    ensures r.Ok? ==> |r.value| <= position + |text| && forall k :: 0 <= k < |r.value| ==> IsWordChar(r.value[k])
  {
    if position - 1 < -|text| - 1 then Err(IndexError) else ScanAsWritten(text, position - 1, "")
  }

  /** The intended scan: word characters leftwards from `i`, stopping at index 0. */
  function Scan(text: string, i: int, word: string): Result<string>
    decreases i + 1
  {
    if i < 0 then Ok(word)
    else if i >= |text| then Err(IndexError)
    else if IsWordChar(text[i]) then Scan(text, i - 1, [text[i]] + word)
    else Ok(word)
  }

  /** The current word: the run of word characters that ends at the cursor. */
  function CurrentWord(text: string, position: int): (r: Result<string>)
    ensures r.Err? <==> position > |text|
    ensures position <= 0 ==> r == Ok("")
    ensures 0 <= position <= |text| ==>
              var w := r.value;
              && |w| <= position && w == text[position - |w|..position]
              && (forall k :: 0 <= k < |w| ==> IsWordChar(w[k]))
              && (|w| == position || !IsWordChar(text[position - |w| - 1]))
  {
    if 0 < position <= |text| then
      ScanMeaning(text, position - 1, position, "");
      Scan(text, position - 1, "")
    else Scan(text, position - 1, "")
  }

  lemma {:induction false} ScanMeaning(text: string, i: int, p: int, word: string)
    requires -1 <= i && i + 1 <= p <= |text|
    requires word == text[i + 1..p]
    requires forall k :: 0 <= k < |word| ==> IsWordChar(word[k])
    ensures Scan(text, i, word).Ok?
    ensures var w := Scan(text, i, word).value;
            && |w| <= p && w == text[p - |w|..p]
            && (forall k :: 0 <= k < |w| ==> IsWordChar(w[k]))
            && (|w| == p || !IsWordChar(text[p - |w| - 1]))
    decreases i + 1
  {
    if 0 <= i && IsWordChar(text[i]) {
      assert [text[i]] + word == text[i..p];
      ScanMeaning(text, i - 1, p, [text[i]] + word);
    }
  }

  /** With the grouping as written, an underscore at the end of the text is taken as part of a word at the start. */
  lemma WordWrapsAround()
    ensures CurrentWordAsWritten("x_", 1) == Ok("_x")
    ensures CurrentWord("x_", 1) == Ok("x")
  {
    var t := "x_";
    assert t[0] == 'x' && t[1] == '_' && IsAlnum('x') && !IsAlnum('_');
    assert ['_'] + "x" == "_x" && ['x'] + "" == "x";
    assert ScanAsWritten("x_", -2, "_x") == Ok("_x");
    assert ScanAsWritten("x_", -1, "x") == Ok("_x");
    assert ScanAsWritten("x_", 0, "") == Ok("_x");
    assert Scan("x_", 0, "") == Scan("x_", -1, "x");
  }

  /** With the grouping as written, an empty text with the cursor at 0 raises IndexError. */
  lemma EmptyTextRaises()
    ensures CurrentWordAsWritten("", 0) == Err(IndexError)
    ensures CurrentWord("", 0) == Ok("")
  {
  }

  // ---------------------------------------------------------------------
  // completion: the suggestions
  // ---------------------------------------------------------------------

  datatype Suggestion = Suggestion(text: string, description: string)

  /** The rendered configuration values the config suggestions quote. */
  datatype ConfigView = ConfigView(cacheEnabled: string, maxFileSizeMb: string, logLevel: string)

  function ProjectCandidates(names: seq<string>): seq<Suggestion>
  {
    seq(|names|, k requires 0 <= k < |names| => Suggestion(names[k], "Project: " + names[k]))
  }

  function LanguageCandidates(languages: seq<string>): seq<Suggestion>
  {
    seq(|languages|, k requires 0 <= k < |languages| => Suggestion(languages[k], "Language: " + languages[k]))
  }

  function ConfigCandidates(cfg: ConfigView): seq<Suggestion>
  {
    [Suggestion("cache_enabled", "Cache enabled: " + cfg.cacheEnabled),
     Suggestion("max_file_size_mb", "Max file size: " + cfg.maxFileSizeMb + " MB"),
     Suggestion("log_level", "Log level: " + cfg.logLevel)]
  }

  /** The candidates whose text starts with the word, in order. */
  function Offer(candidates: seq<Suggestion>, word: string): seq<Suggestion>
  {
    if candidates == [] then []
    else
      var init := Offer(candidates[..|candidates| - 1], word);
      var last := candidates[|candidates| - 1];
      if StartsWith(last.text, word) then init + [last] else init
  }

  lemma {:induction false} OfferMembers(candidates: seq<Suggestion>, word: string, s: Suggestion)
    ensures s in Offer(candidates, word) <==> s in candidates && StartsWith(s.text, word)
  {
    if candidates != [] {
      var init := candidates[..|candidates| - 1];
      OfferMembers(init, word, s);
      assert candidates == init + [candidates[|candidates| - 1]];
    }
  }

  /** The three groups, each offered only for a non-empty word and a keyword before the cursor. */
  function Suggestions(before: string, word: string, projects: seq<string>, languages: seq<string>,
                       cfg: ConfigView): seq<Suggestion>
  {
    var lowered := Lower(before);
    (if word != "" && Contains(lowered, "project") then Offer(ProjectCandidates(projects), word) else [])
    + (if word != "" && Contains(lowered, "language") then Offer(LanguageCandidates(languages), word) else [])
    + (if word != "" && Contains(lowered, "config") then Offer(ConfigCandidates(cfg), word) else [])
  }

  /**
   * A suggestion is offered iff the word is non-empty, its text starts with
   * the word, and it is a candidate of a group whose keyword occurs,
   * ignoring case, before the cursor.
   */
  lemma SuggestionsMeaning(before: string, word: string, projects: seq<string>, languages: seq<string>,
                           cfg: ConfigView, s: Suggestion)
    ensures s in Suggestions(before, word, projects, languages, cfg) <==>
              && word != ""
              && StartsWith(s.text, word)
              && ((Contains(Lower(before), "project") && s in ProjectCandidates(projects))
                  || (Contains(Lower(before), "language") && s in LanguageCandidates(languages))
                  || (Contains(Lower(before), "config") && s in ConfigCandidates(cfg)))
  {
    OfferMembers(ProjectCandidates(projects), word, s);
    OfferMembers(LanguageCandidates(languages), word, s);
    OfferMembers(ConfigCandidates(cfg), word, s);
  }

  /** Appends the candidates that start with the word: one suggestion loop of the handler. */
  method OfferLoop(suggestions: seq<Suggestion>, candidates: seq<Suggestion>, word: string)
    returns (r: seq<Suggestion>)
    ensures r == suggestions + Offer(candidates, word)
  {
    r := suggestions;
    for k := 0 to |candidates|
      invariant r == suggestions + Offer(candidates[..k], word)
    {
      assert candidates[..k + 1][..k] == candidates[..k];
      if StartsWith(candidates[k].text, word) {
        r := r + [candidates[k]];
      }
    }
    assert candidates[..|candidates|] == candidates;
  }

  /** The loop that builds `current_word`, grouped as intended. */
  method ExtractWord(text: string, position: int) returns (r: Result<string>)
    ensures r == CurrentWord(text, position)
  {
    var word := "";
    var i := position - 1;
    if i >= |text| {
      return Err(IndexError);
    }
    while i >= 0 && IsWordChar(text[i])
      invariant i < |text|
      invariant Scan(text, i, word) == Scan(text, position - 1, "")
      decreases i + 1
    {
      word := [text[i]] + word;
      i := i - 1;
    }
    return Ok(word);
  }

  /**
   * `handle_completion` with the word scan grouped as intended (see
   * Findings): a cursor past the end of the text is an IndexError;
   * otherwise the suggestions for the word before the cursor.
   */
  method HandleCompletion(text: string, position: int, projects: seq<string>, languages: seq<string>, cfg: ConfigView)
    returns (r: Result<seq<Suggestion>>)
    ensures r.Err? <==> position > |text|
    ensures r.Ok? ==> r.value == Suggestions(Take(text, position), CurrentWord(text, position).value, projects, languages, cfg)
  {
    var w := ExtractWord(text, position);
    if w.Err? {
      return Err(w.error);
    }
    var word := w.value;
    var lowered := Lower(Take(text, position));
    var projectPart, languagePart, configPart := [], [], [];
    if word != "" && Contains(lowered, "project") {
      projectPart := OfferLoop([], ProjectCandidates(projects), word);
      assert projectPart == Offer(ProjectCandidates(projects), word);
    }
    if word != "" && Contains(lowered, "language") {
      languagePart := OfferLoop([], LanguageCandidates(languages), word);
      assert languagePart == Offer(LanguageCandidates(languages), word);
    }
    if word != "" && Contains(lowered, "config") {
      configPart := OfferLoop([], ConfigCandidates(cfg), word);
      assert configPart == Offer(ConfigCandidates(cfg), word);
    }
    var suggestions := projectPart + languagePart + configPart;
    assert suggestions == Suggestions(Take(text, position), word, projects, languages, cfg);
    return Ok(suggestions);
  }
}

=== FILE: strings.dfy ===
/**
 * Python string operations the server relies on, with the semantics of
 * CPython's `str` methods restricted to what the model needs.
 */
module Strings {
  import opened Common

  predicate StartsWith(s: string, prefix: string)
  {
    |prefix| <= |s| && s[..|prefix|] == prefix
  }

  predicate EndsWith(s: string, suffix: string)
  {
    |suffix| <= |s| && s[|s| - |suffix|..] == suffix
  }

  /** Python's `sub in s`. */
  predicate Contains(s: string, sub: string)
    decreases |s|
  {
    StartsWith(s, sub) || (0 < |s| && Contains(s[1..], sub))
  }

  lemma {:induction false} ContainsInfix(a: string, sub: string, b: string)
    ensures Contains(a + sub + b, sub)
    decreases |a|
  {
    if a == [] {
      assert (a + sub + b)[..|sub|] == sub;
    } else {
      assert (a + sub + b)[1..] == a[1..] + sub + b;
      ContainsInfix(a[1..], sub, b);
    }
  }

  /** ASCII case folding; other characters are left unchanged. */
  function LowerChar(c: char): char
  {
    if 'A' <= c <= 'Z' then (c as int + 32) as char else c
  }

  function Lower(s: string): (r: string)
    ensures |r| == |s|
    ensures forall i :: 0 <= i < |s| ==> r[i] == LowerChar(s[i])
  {
    if s == [] then [] else [LowerChar(s[0])] + Lower(s[1..])
  }

  lemma {:induction false} LowerAppend(a: string, b: string)
    ensures Lower(a + b) == Lower(a) + Lower(b)
  {
    assert forall i :: 0 <= i < |a + b| ==> Lower(a + b)[i] == (Lower(a) + Lower(b))[i];
  }

  predicate IsAsciiDigit(c: char) { '0' <= c <= '9' }

  predicate IsAlnum(c: char)
  {
    'a' <= c <= 'z' || 'A' <= c <= 'Z' || IsAsciiDigit(c)
  }

  /** The characters Python's `str.isspace` accepts. */
  predicate IsSpace(c: char)
  {
    c == ' ' || c == '\t' || c == '\n' || c == '\r' || c == '\U{000B}' || c == '\U{000C}'
    || ('\U{001C}' <= c <= '\U{001F}') || c == '\U{0085}' || c == '\U{00A0}'
    || c == '\U{1680}' || ('\U{2000}' <= c <= '\U{200A}') || c == '\U{2028}'
    || c == '\U{2029}' || c == '\U{202F}' || c == '\U{205F}' || c == '\U{3000}'
  }

  function LStrip(s: string): (r: string)
    ensures |r| <= |s| && r == s[|s| - |r|..]
    ensures r == [] || !IsSpace(r[0])
    ensures forall i :: 0 <= i < |s| - |r| ==> IsSpace(s[i])
  {
    if s != [] && IsSpace(s[0]) then LStrip(s[1..]) else s
  }

  function RStrip(s: string): (r: string)
    ensures |r| <= |s| && r == s[..|r|]
    ensures r == [] || !IsSpace(r[|r| - 1])
    ensures forall i :: |r| <= i < |s| ==> IsSpace(s[i])
  {
    if s != [] && IsSpace(s[|s| - 1]) then RStrip(s[..|s| - 1]) else s
  }

  /** Python's `str.strip()` with no argument. */
  function Strip(s: string): (r: string)
    ensures r == [] <==> forall i :: 0 <= i < |s| ==> IsSpace(s[i])
  {
    RStrip(LStrip(s))
  }

  /** Python's `sep.join(parts)`. */
  function Join(sep: string, parts: seq<string>): string
  {
    if |parts| == 0 then ""
    else if |parts| == 1 then parts[0]
    else parts[0] + sep + Join(sep, parts[1..])
  }

  /**
   * Python's `s.replace(pat, rep)` for a non-empty `pat`: occurrences are
   * found left to right and do not overlap.
   */
  function Replace(s: string, pat: string, rep: string): string
    requires 0 < |pat|
    decreases |s|
  {
    if |s| < |pat| then s
    else if s[..|pat|] == pat then rep + Replace(s[|pat|..], pat, rep)
    else [s[0]] + Replace(s[1..], pat, rep)
  }

  lemma {:induction false} ReplaceAbsent(s: string, pat: string, rep: string)
    requires 0 < |pat| && !Contains(s, pat)
    ensures Replace(s, pat, rep) == s
    decreases |s|
  {
    if |s| >= |pat| {
      assert s[..|pat|] != pat;
      ReplaceAbsent(s[1..], pat, rep);
    }
  }

  lemma {:induction false} ReplaceSame(s: string, pat: string)
    requires 0 < |pat|
    ensures Replace(s, pat, pat) == s
    decreases |s|
  {
    if |s| >= |pat| {
      if s[..|pat|] == pat {
        ReplaceSame(s[|pat|..], pat);
        assert s == pat + s[|pat|..];
      } else {
        ReplaceSame(s[1..], pat);
        assert s == [s[0]] + s[1..];
      }
    }
  }

  /**
   * Python's `s.split(sep)` for a non-empty `sep`: the pieces between the
   * occurrences `Replace` would rewrite, so there is always at least one.
   */
  function Split(s: string, sep: string): (r: seq<string>)
    requires 0 < |sep|
    ensures 1 <= |r|
    decreases |s|
  {
    if |s| < |sep| then [s]
    else if s[..|sep|] == sep then [""] + Split(s[|sep|..], sep)
    else
      var rest := Split(s[1..], sep);
      [[s[0]] + rest[0]] + rest[1..]
  }

  /** Replacing every occurrence is joining the pieces around them with the replacement. */
  lemma {:induction false} ReplaceJoinSplit(s: string, sep: string, rep: string)
    requires 0 < |sep|
    ensures Replace(s, sep, rep) == Join(rep, Split(s, sep))
    decreases |s|
  {
    if |s| >= |sep| {
      if s[..|sep|] == sep {
        ReplaceJoinSplit(s[|sep|..], sep, rep);
      } else {
        ReplaceJoinSplit(s[1..], sep, rep);
        var rest := Split(s[1..], sep);
        if |rest| > 1 {
          assert Join(rep, rest) == rest[0] + rep + Join(rep, rest[1..]);
          assert ([[s[0]] + rest[0]] + rest[1..])[1..] == rest[1..];
        }
      }
    }
  }

  /** Joining the pieces of a split with the separator gives back the text. */
  lemma JoinSplit(s: string, sep: string)
    requires 0 < |sep|
    ensures Join(sep, Split(s, sep)) == s
  {
    ReplaceJoinSplit(s, sep, sep);
    ReplaceSame(s, sep);
  }

  /** Python's `s * n`. */
  function Repeat(s: string, n: int): (r: string)
    ensures n <= 0 ==> r == ""
    ensures 0 < n ==> r == s + Repeat(s, n - 1)
    decreases n
  {
    if n <= 0 then "" else s + Repeat(s, n - 1)
  }

  /** Index just past the last occurrence of `c`, or 0 when `c` is absent. */
  function AfterLast(s: string, c: char): (k: nat)
    ensures k <= |s|
    ensures 0 < k ==> s[k - 1] == c
    ensures forall i :: k <= i < |s| ==> s[i] != c
  {
    if s == [] then 0
    else if s[|s| - 1] == c then |s|
    else AfterLast(s[..|s| - 1], c)
  }

  predicate HasChar(s: string, c: char) { exists i :: 0 <= i < |s| && s[i] == c }

  /** Python's `s.split(c)[-1]`: the text after the last `c`. */
  function LastField(s: string, c: char): (r: string)
    ensures forall i :: 0 <= i < |r| ==> r[i] != c
    ensures EndsWith(s, r)
    ensures HasChar(s, c) ==> s[|s| - |r| - 1] == c
    ensures !HasChar(s, c) ==> r == s
  {
    s[AfterLast(s, c)..]
  }

  /** Python's `s.replace(a, b)` for single characters. */
  function ReplaceChar(s: string, a: char, b: char): (r: string)
    ensures |r| == |s|
    ensures forall i :: 0 <= i < |s| ==> r[i] == (if s[i] == a then b else s[i])
  {
    if s == [] then [] else [if s[0] == a then b else s[0]] + ReplaceChar(s[1..], a, b)
  }

  /** The characters at which Python's `str.splitlines` ends a line. */
  predicate IsLineBreak(c: char)
  {
    c == '\n' || c == '\r' || c == '\U{B}' || c == '\U{C}' || c == '\U{1C}' || c == '\U{1D}'
    || c == '\U{1E}' || c == '\U{85}' || c == '\U{2028}' || c == '\U{2029}'
  }

  /** The length of the first line: the index of the first line break, or the whole length. */
  function LineEnd(s: string): (k: nat)
    ensures k <= |s|
    ensures k < |s| ==> IsLineBreak(s[k])
    ensures forall i :: 0 <= i < k ==> !IsLineBreak(s[i])
  {
    if s == [] || IsLineBreak(s[0]) then 0 else 1 + LineEnd(s[1..])
  }

  /** What follows the first line and its terminator; `\r\n` is one terminator. */
  function AfterLine(s: string): (r: string)
    requires s != []
    ensures |r| < |s|
    ensures r == s[|s| - |r|..]
    ensures LineEnd(s) == |s| ==> r == []
  {
    var k := LineEnd(s);
    if k == |s| then []
    else if s[k] == '\r' && k + 1 < |s| && s[k + 1] == '\n' then s[k + 2..]
    else s[k + 1..]
  }

  /** Python's `s.splitlines()`: no trailing empty line, and `""` has no lines. */
  function SplitLines(s: string): seq<string>
    decreases |s|
  {
    if s == [] then [] else [s[..LineEnd(s)]] + SplitLines(AfterLine(s))
  }

  /**
   * A text has lines iff it is not empty; the first line is the text up to
   * the first line break, there is a second line iff anything follows that
   * break, and no line holds a line break.
   */
  lemma {:induction false} SplitLinesShape(s: string)
    ensures SplitLines(s) == [] <==> s == []
    ensures s != [] ==> SplitLines(s)[0] == s[..LineEnd(s)]
                        && (|SplitLines(s)| > 1 <==> AfterLine(s) != [])
    ensures forall l, i :: l in SplitLines(s) && 0 <= i < |l| ==> !IsLineBreak(l[i])
    decreases |s|
  {
    if s != [] {
      SplitLinesShape(AfterLine(s));
    }
  }

  /** Python's `s.splitlines(True)`: like `splitlines`, each line keeping its terminator. */
  function SplitLinesKeepEnds(s: string): (r: seq<string>)
    ensures forall l :: l in r ==> l != []
    decreases |s|
  {
    if s == [] then [] else [s[..|s| - |AfterLine(s)|]] + SplitLinesKeepEnds(AfterLine(s))
  }

  /** Keeping the terminators loses nothing: the lines join back into the text. */
  lemma {:induction false} SplitLinesKeepEndsJoin(s: string)
    ensures Concat(SplitLinesKeepEnds(s)) == s
    decreases |s|
  {
    if s != [] {
      var rest := AfterLine(s);
      SplitLinesKeepEndsJoin(rest);
      assert s == s[..|s| - |rest|] + rest;
    }
  }

  /** Python's `<` on strings: code point order, a proper prefix first. */
  predicate Less(a: string, b: string)
    decreases |a|
  {
    if a == [] then b != []
    else if b == [] then false
    else if a[0] != b[0] then a[0] < b[0]
    else Less(a[1..], b[1..])
  }

  lemma {:induction false} LessIrreflexive(a: string)
    ensures !Less(a, a)
    decreases |a|
  {
    if a != [] {
      LessIrreflexive(a[1..]);
    }
  }

  lemma {:induction false} LessTotal(a: string, b: string)
    ensures a == b || Less(a, b) || Less(b, a)
    decreases |a|
  {
    if a != [] && b != [] && a[0] == b[0] {
      LessTotal(a[1..], b[1..]);
      if a[1..] == b[1..] {
        assert a == [a[0]] + a[1..] && b == [b[0]] + b[1..];
      }
    }
  }

  lemma {:induction false} LessAsymmetric(a: string, b: string)
    ensures Less(a, b) ==> !Less(b, a)
    decreases |a|
  {
    if a != [] && b != [] && a[0] == b[0] {
      LessAsymmetric(a[1..], b[1..]);
    }
  }

  lemma {:induction false} LessTransitive(a: string, b: string, c: string)
    requires Less(a, b) && Less(b, c)
    ensures Less(a, c)
    decreases |a|
  {
    if a != [] && a[0] == b[0] && b[0] == c[0] {
      LessTransitive(a[1..], b[1..], c[1..]);
    }
  }

  /** Ascending order as `sorted` leaves it: no element is greater than a later one. */
  predicate Ascending(s: seq<string>)
  {
    forall i, j :: 0 <= i < j < |s| ==> !Less(s[j], s[i])
  }

  /** Insertion of `x` before the first element not less than it. */
  function Insert(x: string, s: seq<string>): (r: seq<string>)
    ensures multiset(r) == multiset(s) + multiset{x}
  {
    if s == [] || !Less(s[0], x) then [x] + s
    else
      assert s == [s[0]] + s[1..];
      [s[0]] + Insert(x, s[1..])
  }

  lemma {:induction false} InsertAscending(x: string, s: seq<string>)
    requires Ascending(s)
    ensures Ascending(Insert(x, s))
  {
    if s != [] && Less(s[0], x) {
      InsertAscending(x, s[1..]);
      var r := Insert(x, s);
      forall j | 0 < j < |r|
        ensures !Less(r[j], r[0])
      {
        assert r[j] in multiset(Insert(x, s[1..]));
        assert r[j] == x || r[j] in multiset(s[1..]);
        if r[j] == x {
          LessAsymmetric(s[0], x);
        } else {
          var k :| 1 <= k < |s| && s[k] == r[j];
        }
      }
    } else if s != [] {
      var r := Insert(x, s);
      forall j | 1 < j < |r|
        ensures !Less(r[j], x)
      {
        if Less(r[j], x) {
          LessTotal(s[0], x);
          if s[0] != x {
            LessTransitive(r[j], x, s[0]);
          }
        }
      }
    }
  }

  /** Python's `sorted` on a list of strings (insertion sort; `sorted` is stable and equal strings are identical). */
  function Sort(s: seq<string>): (r: seq<string>)
    ensures multiset(r) == multiset(s)
    ensures Ascending(r)
  {
    if s == [] then []
    else
      assert s == [s[0]] + s[1..];
      InsertAscending(s[0], Sort(s[1..]));
      Insert(s[0], Sort(s[1..]))
  }

  predicate NoDuplicates<T(==)>(s: seq<T>)
  {
    forall i, j :: 0 <= i < j < |s| ==> s[i] != s[j]
  }
}

=== FILE: syntax_tree.dfy ===
/**
 * The native tree-sitter tree as an immutable value, and the tree cursor as
 * a path of child indices from the node the cursor was created on.
 */
module SyntaxTree {
  import opened Common

  /** A (row, column) position; tuples compare lexicographically. */
  datatype Point = Point(row: nat, column: nat)

  /** One entry of a node's field table: a field name and the children it designates. */
  datatype FieldEntry = FieldEntry(name: string, childIndices: seq<nat>)

  datatype Node = Node(
    kind: string,
    startByte: nat,
    endByte: nat,
    startPoint: Point,
    endPoint: Point,
    named: bool,
    children: seq<Node>,
    fields: seq<FieldEntry>)

  datatype Tree = Tree(root: Node)

  /** One result of running a query: a matched node and the capture name it was bound to. */
  datatype Capture = Capture(node: Node, name: string)

  /** A cursor position: child indices from the cursor's start node. */
  type Path = seq<nat>

  predicate ValidPath(n: Node, p: Path)
    decreases |p|
  {
    p == [] || (p[0] < |n.children| && ValidPath(n.children[p[0]], p[1..]))
  }

  function NodeAt(n: Node, p: Path): Node
    requires ValidPath(n, p)
    decreases |p|
  {
    if p == [] then n else NodeAt(n.children[p[0]], p[1..])
  }

  function Parent(p: Path): Path
    requires p != []
  {
    p[..|p| - 1]
  }

  function Last(p: Path): nat
    requires p != []
  {
    p[|p| - 1]
  }

  lemma ParentSnoc(p: Path, i: nat)
    ensures Parent(p + [i]) == p && Last(p + [i]) == i
  {
    assert (p + [i])[..|p|] == p;
  }

  lemma ParentLast(p: Path)
    requires p != []
    ensures p == Parent(p) + [Last(p)]
  {
  }

  /** Extending a valid path by one child index. */
  lemma {:induction false} ValidSnoc(n: Node, p: Path, i: nat)
    requires ValidPath(n, p)
    ensures ValidPath(n, p + [i]) <==> i < |NodeAt(n, p).children|
    ensures ValidPath(n, p + [i]) ==> NodeAt(n, p + [i]) == NodeAt(n, p).children[i]
    decreases |p|
  {
    if p != [] {
      assert (p + [i])[1..] == p[1..] + [i];
      ValidSnoc(n.children[p[0]], p[1..], i);
    }
  }

  /** Every prefix of a valid path is valid. */
  lemma {:induction false} ValidPrefix(n: Node, p: Path, k: nat)
    requires ValidPath(n, p) && k <= |p|
    ensures ValidPath(n, p[..k])
    decreases |p|
  {
    if k > 0 {
      assert p[..k][1..] == p[1..][..k - 1];
      ValidPrefix(n.children[p[0]], p[1..], k - 1);
    }
  }

  lemma ValidParent(n: Node, p: Path)
    requires ValidPath(n, p) && p != []
    ensures ValidPath(n, Parent(p))
    ensures Last(p) < |NodeAt(n, Parent(p)).children|
    ensures NodeAt(n, p) == NodeAt(n, Parent(p)).children[Last(p)]
  {
    ValidPrefix(n, p, |p| - 1);
    assert p == Parent(p) + [Last(p)];
    ValidSnoc(n, Parent(p), Last(p));
  }

  /** The first field whose child list designates child `i`, as tree-sitter reports it. */
  function FieldOfChild(fields: seq<FieldEntry>, i: nat): (r: Option<string>)
    ensures r.Some? <==> exists k :: 0 <= k < |fields| && i in fields[k].childIndices
    ensures r.Some? ==> exists k :: 0 <= k < |fields| && i in fields[k].childIndices
                                    && fields[k].name == r.value
                                    && forall j :: 0 <= j < k ==> i !in fields[j].childIndices
  {
    if fields == [] then None
    else if i in fields[0].childIndices then Some(fields[0].name)
    else
      var r := FieldOfChild(fields[1..], i);
      assert forall k :: 1 <= k < |fields| ==> fields[k] == fields[1..][k - 1];
      r
  }

  /** Field name of the node at `p` within its parent; the start node has none. */
  function FieldAt(root: Node, p: Path): Option<string>
    requires ValidPath(root, p)
  {
    if p == [] then None
    else
      ValidParent(root, p);
      FieldOfChild(NodeAt(root, Parent(p)).fields, Last(p))
  }

  // ---------------------------------------------------------------------
  // Cursor moves. Each returns the new position, or None when the move
  // fails and the cursor stays where it is.
  // ---------------------------------------------------------------------

  function GotoFirstChild(root: Node, p: Path): (r: Option<Path>)
    requires ValidPath(root, p)
    ensures r.Some? <==> |NodeAt(root, p).children| > 0
    ensures r.Some? ==> r.value == p + [0] && ValidPath(root, r.value)
                        && NodeAt(root, r.value) == NodeAt(root, p).children[0]
  {
    ValidSnoc(root, p, 0);
    if |NodeAt(root, p).children| > 0 then Some(p + [0]) else None
  }

  function GotoNextSibling(root: Node, p: Path): (r: Option<Path>)
    requires ValidPath(root, p)
    ensures p == [] ==> r.None?
    ensures p != [] ==> ValidPath(root, Parent(p))
                        && (r.Some? <==> Last(p) + 1 < |NodeAt(root, Parent(p)).children|)
    ensures r.Some? ==> p != [] && ValidPath(root, Parent(p)) && r.value == Parent(p) + [Last(p) + 1]
                        && ValidPath(root, r.value)
                        && NodeAt(root, r.value) == NodeAt(root, Parent(p)).children[Last(p) + 1]
  {
    if p == [] then None
    else
      ValidParent(root, p);
      ValidSnoc(root, Parent(p), Last(p) + 1);
      if Last(p) + 1 < |NodeAt(root, Parent(p)).children| then Some(Parent(p) + [Last(p) + 1]) else None
  }

  function GotoParent(root: Node, p: Path): (r: Option<Path>)
    requires ValidPath(root, p)
    ensures r.Some? <==> p != []
    ensures r.Some? ==> r.value == Parent(p) && ValidPath(root, r.value)
  {
    if p == [] then None
    else
      ValidParent(root, p);
      Some(Parent(p))
  }

  function Height(n: Node): nat
    decreases n
  {
    if n.children == [] then 0 else 1 + MaxHeight(n.children)
  }

  function MaxHeight(cs: seq<Node>): nat
    decreases cs
  {
    if cs == [] then 0
    else
      var h := Height(cs[0]);
      var t := MaxHeight(cs[1..]);
      if h < t then t else h
  }

  lemma {:induction false} MaxHeightBound(cs: seq<Node>, i: nat)
    requires i < |cs|
    ensures Height(cs[i]) <= MaxHeight(cs)
    decreases cs
  {
    if i > 0 {
      MaxHeightBound(cs[1..], i - 1);
    }
  }

  /** A valid path is never longer than the tree is high. */
  lemma {:induction false} PathWithinHeight(n: Node, p: Path)
    requires ValidPath(n, p)
    ensures |p| <= Height(n)
    decreases |p|
  {
    if p != [] {
      PathWithinHeight(n.children[p[0]], p[1..]);
      MaxHeightBound(n.children, p[0]);
    }
  }

  /** `(r1, c1) <= (r2, c2)` on Python tuples of integers. */
  predicate PositionLe(r1: int, c1: int, r2: int, c2: int)
  {
    r1 < r2 || (r1 == r2 && c1 <= c2)
  }

  /** `start_point <= (row, column) <= end_point`. */
  predicate ContainsPosition(n: Node, row: int, column: int)
  {
    PositionLe(n.startPoint.row, n.startPoint.column, row, column)
    && PositionLe(row, column, n.endPoint.row, n.endPoint.column)
  }
}

=== FILE: tree_sitter_helpers.dfy ===
/**
 * Helpers over native trees: node text, the root-level change check, the
 * generic cursor walker with its collectors, and cache-through parsing.
 *
 * A visitor callback's side effects are replayed from the sequence of
 * calls the walk makes, in the order it makes them.
 */
module TreeSitterHelpers {
  import opened Common
  import opened SyntaxTree
  import opened Preorder
  import opened ParserCache

  /** Bytes read as text, one character per byte. */
  function Decode(b: seq<byte>): (s: string)
    ensures |s| == |b|
  {
    seq(|b|, i requires 0 <= i < |b| => (b[i] as int) as char)
  }

  /** `get_node_text`: the node's byte range of the source, clamped to the source, as text. */
  function GetNodeText(n: Node, source: seq<byte>): (r: string)
    ensures |source| <= n.startByte || n.endByte <= n.startByte ==> r == ""
    ensures |r| == (if n.startByte < |source| && n.startByte < n.endByte
                    then Min(n.endByte, |source|) - n.startByte else 0)
    ensures forall i :: 0 <= i < |r| ==> r[i] == (source[n.startByte + i] as int) as char
  {
    Decode(Slice(source, n.startByte, n.endByte))
  }

  datatype ChangedRange = ChangedRange(startPoint: Point, endPoint: Point, startByte: nat, endByte: nat)

  /** `get_changed_ranges`: a root-level comparison of byte spans only. */
  function GetChangedRanges(before: Tree, after: Tree): (r: seq<ChangedRange>)
    ensures r == [] <==> before.root.startByte == after.root.startByte && before.root.endByte == after.root.endByte
    ensures r != [] ==> r == [ChangedRange(after.root.startPoint, after.root.endPoint, after.root.startByte, after.root.endByte)]
  {
    if before.root.startByte != after.root.startByte || before.root.endByte != after.root.endByte then
      [ChangedRange(after.root.startPoint, after.root.endPoint, after.root.startByte, after.root.endByte)]
    else []
  }

  /** A tree compared with itself, or with a reparse of the same span, reports no change. */
  lemma ChangedRangesSameSpan(before: Tree, after: Tree)
    requires before.root.startByte == after.root.startByte && before.root.endByte == after.root.endByte
    ensures GetChangedRanges(before, after) == []
    ensures GetChangedRanges(before, before) == []
  {
  }

  // ---------------------------------------------------------------------
  // cursor_walk_tree
  // ---------------------------------------------------------------------

  /**
   * `cursor_walk_tree`: returns the calls made to `visit`, which are exactly
   * `Walk(start, visit)` (see `Preorder.WalkVisits` for what that covers).
   */
  method CursorWalkTree(start: Node, visit: Visitor) returns (trace: seq<VisitCall>)
    ensures trace == Walk(start, visit)
    ensures trace[0] == VisitCall([], start, None, 0)
    ensures !visit(start, None, 0) ==> trace == [VisitCall([], start, None, 0)]
  {
    WalkBegin(start, visit);
    var p: Path := [];
    var depth := 0;
    trace := [VisitCall(p, start, None, depth)];
    if !visit(start, None, depth) {
      return;
    }
    var first := GotoFirstChild(start, p);
    if first.None? {
      return;
    }
    p := first.value;
    depth := depth + 1;
    // The calls still to come.
    ghost var rest := WSub(start, visit, p) + WResume(start, visit, p);
    while true
      invariant ValidPath(start, p) && p != [] && depth == |p|
      invariant rest == WSub(start, visit, p) + WResume(start, visit, p)
      invariant trace + rest == Walk(start, visit)
      decreases |rest|
    {
      var node := NodeAt(start, p);
      var field := FieldAt(start, p);
      VisitStep(start, visit, p);
      ghost var tail := rest[1..];
      assert rest == [VisitCall(p, node, field, depth)] + tail;
      assert trace + rest == (trace + [VisitCall(p, node, field, depth)]) + tail;
      trace := trace + [VisitCall(p, node, field, depth)];
      rest := tail;
      if visit(node, field, depth) {
        var child := GotoFirstChild(start, p);
        if child.Some? {
          p := child.value;
          depth := depth + 1;
          continue;
        }
      }
      assert rest == WResume(start, visit, p);
      var sibling := GotoNextSibling(start, p);
      if sibling.Some? {
        SiblingStep(start, visit, p, sibling.value);
        p := sibling.value;
        continue;
      }
      p, depth := Climb(start, visit, p);
      if depth == 0 {
        assert rest == [];
        break;
      }
    }
  }

  /**
   * The upward scan of `cursor_walk_tree`: climbs until an ancestor has a
   * next sibling and moves there, or stops at the start node (depth 0).
   */
  method Climb(start: Node, visit: Visitor, p0: Path) returns (p: Path, depth: nat)
    requires ValidPath(start, p0) && p0 != [] && GotoNextSibling(start, p0).None?
    ensures ValidPath(start, p) && depth == |p|
    ensures WResume(start, visit, p0) == if p == [] then [] else WSub(start, visit, p) + WResume(start, visit, p)
  {
    p := p0;
    depth := |p0|;
    while depth > 0
      invariant ValidPath(start, p) && depth == |p|
      invariant WResume(start, visit, p0) == WResume(start, visit, p)
      invariant p != [] ==> GotoNextSibling(start, p).None?
      decreases depth
    {
      ClimbStep(start, visit, p);
      p := GotoParent(start, p).value;
      depth := depth - 1;
      var up := GotoNextSibling(start, p);
      if up.Some? {
        SiblingStep(start, visit, p, up.value);
        p := up.value;
        return;
      }
    }
  }

  // ---------------------------------------------------------------------
  // Collectors
  // ---------------------------------------------------------------------

  type Collector<T> = (Node, Option<string>, nat) -> Option<T>

  /** The non-None collector results over `t`, in order. */
  function Collected<T>(t: seq<VisitCall>, collect: Collector<T>): seq<T>
  {
    if t == [] then []
    else
      var c := t[|t| - 1];
      Collected(t[..|t| - 1], collect)
      + (match collect(c.node, c.field, c.depth) case Some(x) => [x] case None => [])
  }

  lemma {:induction false} CollectedMembers<T>(t: seq<VisitCall>, collect: Collector<T>)
    ensures forall x :: x in Collected(t, collect) <==>
              exists c :: c in t && collect(c.node, c.field, c.depth) == Some(x)
    ensures |Collected(t, collect)| <= |t|
  {
    if t != [] {
      var init := t[..|t| - 1];
      CollectedMembers(init, collect);
      assert t == init + [t[|t| - 1]];
      forall x | exists c :: c in t && collect(c.node, c.field, c.depth) == Some(x)
        ensures x in Collected(t, collect)
      {
        var c :| c in t && collect(c.node, c.field, c.depth) == Some(x);
        if c !in init {
          assert c == t[|t| - 1];
        }
      }
    }
  }

  function EnterAll(): Visitor
  {
    (n: Node, f: Option<string>, d: nat) => true
  }

  /** With a visitor that always returns true, every node below the start is reached. */
  lemma ReachedAll(start: Node, q: Path)
    ensures Reached(start, EnterAll(), q) <==> ValidPath(start, q)
  {
    if ValidPath(start, q) {
      forall k | 0 <= k < |q|
        ensures ValidPath(start, q[..k])
      {
        ValidPrefix(start, q, k);
      }
    }
  }

  /** Replays `collect` over a finished walk, as the visitor in `collect_with_cursor` does. */
  method CollectOver<T>(trace: seq<VisitCall>, collect: Collector<T>) returns (items: seq<T>)
    ensures items == Collected(trace, collect)
  {
    items := [];
    var i := 0;
    while i < |trace|
      invariant 0 <= i <= |trace|
      invariant items == Collected(trace[..i], collect)
    {
      var c := trace[i];
      assert trace[..i + 1][..i] == trace[..i];
      var item := collect(c.node, c.field, c.depth);
      if item.Some? {
        items := items + [item.value];
      }
      i := i + 1;
    }
    assert trace[..|trace|] == trace;
  }

  /** `collect_with_cursor`: the non-None collector results over a full walk, in visit order. */
  method CollectWithCursor<T>(start: Node, collect: Collector<T>) returns (items: seq<T>)
    ensures items == Collected(Walk(start, EnterAll()), collect)
  {
    var trace := CursorWalkTree(start, EnterAll());
    items := CollectOver(trace, collect);
  }

  function ByKind(kind: string): Collector<Node>
  {
    (n: Node, f: Option<string>, d: nat) => if n.kind == kind then Some(n) else None
  }

  /** `find_nodes_by_type`: every node of the subtree, start node included, whose type is `kind`. */
  method FindNodesByType(start: Node, kind: string) returns (nodes: seq<Node>)
    ensures nodes == Collected(Walk(start, EnterAll()), ByKind(kind))
  {
    nodes := CollectWithCursor(start, ByKind(kind));
  }

  /** `x` occurs somewhere in the subtree of `start`, `start` included. */
  ghost predicate InSubtree(start: Node, x: Node)
  {
    exists q :: ValidPath(start, q) && NodeAt(start, q) == x
  }

  /** The nodes found by type are exactly the subtree's nodes of that type. */
  lemma NodesByTypeExact(start: Node, kind: string)
    ensures forall x :: x in Collected(Walk(start, EnterAll()), ByKind(kind)) <==>
              x.kind == kind && InSubtree(start, x)
  {
    var w := Walk(start, EnterAll());
    CollectedMembers(w, ByKind(kind));
    WalkVisits(start, EnterAll());
    forall x | x in Collected(w, ByKind(kind))
      ensures x.kind == kind && InSubtree(start, x)
    {
      var c :| c in w && ByKind(kind)(c.node, c.field, c.depth) == Some(x);
      assert ValidPath(start, c.path) && NodeAt(start, c.path) == x;
    }
    forall x: Node | x.kind == kind && InSubtree(start, x)
      ensures x in Collected(w, ByKind(kind))
    {
      var q :| ValidPath(start, q) && NodeAt(start, q) == x;
      ReachedAll(start, q);
      var c :| c in w && c.path == q;
      assert ByKind(kind)(c.node, c.field, c.depth) == Some(x);
    }
  }

  /** The visitor of `get_node_descendants`: refuses nodes deeper than `maxDepth`. */
  function NotDeeperThan(maxDepth: Option<int>): Visitor
  {
    (n: Node, f: Option<string>, d: nat) => maxDepth.None? || d <= maxDepth.value
  }

  /** What `get_node_descendants` appends from one call: an accepted node other than the start. */
  function DescendantOf(maxDepth: Option<int>): Collector<Node>
  {
    (n: Node, f: Option<string>, d: nat) =>
      if NotDeeperThan(maxDepth)(n, f, d) && d > 0 then Some(n) else None
  }

  /** `get_node_descendants`. */
  method GetNodeDescendants(start: Node, maxDepth: Option<int>) returns (nodes: seq<Node>)
    ensures nodes == Collected(Walk(start, NotDeeperThan(maxDepth)), DescendantOf(maxDepth))
  {
    var trace := CursorWalkTree(start, NotDeeperThan(maxDepth));
    nodes := CollectOver(trace, DescendantOf(maxDepth));
  }

  /**
   * The descendants are exactly the nodes strictly below the start node and
   * at most `maxDepth` levels down; with no limit, all proper descendants.
   */
  lemma DescendantsExact(start: Node, maxDepth: Option<int>)
    ensures forall x :: x in Collected(Walk(start, NotDeeperThan(maxDepth)), DescendantOf(maxDepth)) <==>
              exists q :: ValidPath(start, q) && 1 <= |q| && (maxDepth.None? || |q| <= maxDepth.value)
                          && NodeAt(start, q) == x
  {
    var v := NotDeeperThan(maxDepth);
    var w := Walk(start, v);
    CollectedMembers(w, DescendantOf(maxDepth));
    WalkVisits(start, v);
    forall x | exists q :: ValidPath(start, q) && 1 <= |q| && (maxDepth.None? || |q| <= maxDepth.value)
                           && NodeAt(start, q) == x
      ensures x in Collected(w, DescendantOf(maxDepth))
    {
      var q :| ValidPath(start, q) && 1 <= |q| && (maxDepth.None? || |q| <= maxDepth.value)
               && NodeAt(start, q) == x;
      forall k | 0 <= k < |q|
        ensures ValidPath(start, q[..k]) && Enters(start, v, q[..k])
      {
        ValidPrefix(start, q, k);
      }
      assert Reached(start, v, q);
      var c :| c in w && c.path == q;
      assert DescendantOf(maxDepth)(c.node, c.field, c.depth) == Some(x);
    }
  }

  // ---------------------------------------------------------------------
  // Cache-through parsing
  // ---------------------------------------------------------------------

  /**
   * `parse_with_cached_tree`: the cached pair on a hit; otherwise the file
   * (`fileBytes`) is parsed and the result offered to the cache.
   */
  method ParseWithCachedTree(cache: TreeCache, file: FileRef, language: string, parse: seq<byte> -> Tree,
                             fileBytes: seq<byte>, settings: Option<CacheSettings>, now: int)
    returns (tree: Tree, source: seq<byte>)
    requires cache.Valid()
    modifies cache
    ensures cache.Valid()
    ensures old(cache.Lookup(file, language, settings, now)).Some? ==>
              (tree, source) == old(cache.Lookup(file, language, settings, now)).value
              && cache.cache == old(cache.cache) && cache.modifiedTrees == old(cache.modifiedTrees)
              && cache.currentSizeBytes == old(cache.currentSizeBytes)
    ensures old(cache.Lookup(file, language, settings, now)).None? ==>
              tree == parse(fileBytes) && source == fileBytes
              && (cache.Stores(file, language, source, settings) ==>
                    var key := KeyFor(file, language).value;
                    key in cache.cache && cache.cache[key] == Entry(tree, source, now))
    ensures cache.Config() == old(cache.Config())
    ensures cache.State() == ThroughIn(old(cache.State()), old(cache.Config()), file, language, Some(parse), Some(fileBytes),
                                       settings, now)
  {
    var cached := cache.Get(file, language, settings, now);
    if cached.Some? {
      return cached.value.0, cached.value.1;
    }
    tree := parse(fileBytes);
    source := fileBytes;
    cache.Put(file, language, tree, source, settings, now);
  }

  /**
   * `update_cached_tree`. `reparse` stands for editing the cached tree, reading
   * the file (`newSource`) and reparsing incrementally; None there is any
   * exception on that path, which falls back to `ParseWithCachedTree`.
   */
  method UpdateCachedTree(cache: TreeCache, file: FileRef, language: string,
                          reparse: (Tree, seq<byte>) -> Option<Tree>, newSource: Option<seq<byte>>,
                          parse: seq<byte> -> Tree, fileBytes: seq<byte>,
                          settings: Option<CacheSettings>, now: int)
    returns (r: Option<(Tree, seq<byte>)>)
    requires cache.Valid()
    modifies cache
    ensures cache.Valid()
    ensures r.None? <==> old(cache.Lookup(file, language, settings, now)).None?
    ensures old(cache.Lookup(file, language, settings, now)).Some? ==>
              var prior := old(cache.Lookup(file, language, settings, now)).value;
              if newSource.Some? && reparse(prior.0, newSource.value).Some? then
                r == Some((reparse(prior.0, newSource.value).value, newSource.value))
                && (cache.Stores(file, language, newSource.value, settings) ==>
                      var key := KeyFor(file, language).value;
                      key in cache.cache && cache.cache[key] == Entry(r.value.0, newSource.value, now))
              else
                r == Some(prior) && cache.cache == old(cache.cache)
    ensures cache.Config() == old(cache.Config())
    ensures var b, lim := old(cache.State()), old(cache.Config());
            var prior := LookupIn(b, lim, file, language, settings, now);
            cache.State() == if prior.Some? && newSource.Some? && reparse(prior.value.0, newSource.value).Some?
                             then PutIn(b, lim, file, language, reparse(prior.value.0, newSource.value).value,
                                        newSource.value, settings, now)
                             else GetIn(b, lim, file, language, settings, now)
  {
    var cached := cache.Get(file, language, settings, now);
    if cached.None? {
      return None;
    }
    var oldTree := cached.value.0;
    var newTree := if newSource.Some? then reparse(oldTree, newSource.value) else None;
    if newTree.Some? {
      cache.Put(file, language, newTree.value, newSource.value, settings, now);
      return Some((newTree.value, newSource.value));
    }
    var tree, source := ParseWithCachedTree(cache, file, language, parse, fileBytes, settings, now);
    return Some((tree, source));
  }
}
